=== FILE: README.md ===
# Skyline GPU buffer coherency, Maxwell 3D interconnect and Fermi 2D — a Dafny model

This project models three parts of the Skyline Nintendo Switch emulator's GPU
emulation and proves properties about them.

**Buffer coherency engine.** A guest-backed buffer keeps three copies of its
bytes in step:
- the guest memory, whose host view is the *mirror*;
- the host *backing* the GPU reads;
- whatever the GPU has written.

The parts modelled here:
- the dirty state (Clean, CpuDirty, GpuDirty);
- the backing-immutability levels;
- the sequence number bumped on every backing change;
- the fence cycle;
- the lock and its tag;
- the trap handlers;
- the megabuffer table: shard-cached copies of the mirror handed out in place of the buffer;
- buffer delegates and views.

The coherency rules are pure state transitions (`BufferModel`) over a
`BufferState` value. The class `Buffers.Buffer` holds the same fields and
updates them in place. Each of its methods is proved to move its state
exactly as the matching transition does. Delegates live in a forest with a
ghost rank. That rank shows the links never form a cycle, and that linking
one buffer's delegate redirects exactly the views that led to it.

**Maxwell 3D interconnect.** It covers:
- the state-update builder: a linked list of commands, with consecutive
  vertex bindings batched into one command;
- the active-state flushers for vertex, index and transform-feedback
  buffers, viewport, scissor and stencil values;
- vertex-input and input-assembly state;
- the packed pipeline key and its conversions;
- the pipeline manager: the descriptor layout, the descriptor writes of
  SyncDescriptors, and the transition cache;
- constant buffer binding and inline loads;
- the clear path (clear scissor and subpass choice);
- the descriptor-sync decision of a draw.

**Fermi 2D engine.** It covers the register file and the pixels-from-memory
blit trigger with its 32.32 fixed-point source rectangle.

Concurrency is modelled by inputs, not threads:
- a contended lock or a signalled fence is a boolean argument;
- a merge by another thread is a `Merge` argument to the view locking loop.

Calls into Vulkan are recorded as values (`VkCall`, `ExecutorCall`,
`BlitCall`, `CopyCommand`).

## Model

| member | source | states |
|---|---|---|
| MegaBufferTable.TableShift | app/src/main/cpp/skyline/gpu/buffer.cpp:86 | the shard shift is at least the minimum, and size / maxEntries shards of that size fit under one shard width |
| MegaBufferTable.EntryViewOffset | app/src/main/cpp/skyline/gpu/buffer.cpp:288-292 | the shard base of the entry plus the view offset inside it is the offset, and the view offset is below the shard size |
| MegaBufferTable.EntryCountBounded | app/src/main/cpp/skyline/gpu/buffer.cpp:86-87 | the table the constructor sizes has fewer than 2·maxEntries entries |
| MegaBufferTable.TrailingShardIndexIsOffTable | app/src/main/cpp/skyline/gpu/buffer.cpp:87 | when the guest size is not a whole number of shards, its last byte indexes one past the rounded-down table |
| MegaBufferTable.CoveringEntryCountIndexesEveryOffset | app/src/main/cpp/skyline/gpu/buffer.cpp:87 | with the rounded-up entry count every guest offset indexes an entry, and that count is never below the rounded-down one |
| MegaBufferTable.LookupAsWritten | app/src/main/cpp/skyline/gpu/buffer.cpp:288-302 | as written: only the entry at the index changes, a replaced entry keeps its old execution and sequence tags, and a push happens iff the as-written reuse test fails |
| MegaBufferTable.Lookup | app/src/main/cpp/skyline/gpu/buffer.cpp:288-302 | corrected: only the indexed entry changes; a push happens iff the entry does not cover the view; afterwards the entry covers the view; the binding points at the view inside the cached region; a pushed region holds the view's mirror bytes |
| MegaBufferTable.RefilledEntry | app/src/main/cpp/skyline/gpu/buffer.cpp:297-299 | the refilled entry covers the view for this execution and sequence, holds the fresh allocation slot, lies inside the mirror, and its region holds the view's mirror bytes at the view's entry offset |
| MegaBufferTable.AsWrittenRepeatedRequestAllocatesAgain | app/src/main/cpp/skyline/gpu/buffer.cpp:294-299 | as written, after a stale entry is replaced, the identical request still fails the reuse test and allocates again |
| MegaBufferTable.AsWrittenReuseAdmitsUncoveredView | app/src/main/cpp/skyline/gpu/buffer.cpp:295-296 | as written, a 16-byte region is reused for an 8-byte view at shard offset 12, which it does not cover |
| MegaBufferTable.RepeatedLookupReuses | app/src/main/cpp/skyline/gpu/buffer.cpp:294-302 | corrected: an identical lookup right after a lookup pushes nothing and returns the same binding and table |
| MegaBufferTable.CoversImpliesReusableAsWritten | app/src/main/cpp/skyline/gpu/buffer.cpp:295-296 | every entry the corrected test reuses passes the as-written test as well |
| BufferModel.ConstructGuestBacked | app/src/main/cpp/skyline/gpu/buffer.cpp:80-88 | a new guest-backed buffer is CpuDirty, mutable, untrapped, unlocked and at the initial sequence number |
| BufferModel.SetupGuestMappings | app/src/main/cpp/skyline/gpu/buffer.cpp:11-78 | the mirror takes the guest contents, one trap is created, nothing else changes |
| BufferModel.ConstructHostOnly | app/src/main/cpp/skyline/gpu/buffer.cpp:90-96 | a host-only buffer is Clean, has no guest and no mirror, and its backing is the given bytes |
| BufferModel.ImmutabilityLevelsNest | app/src/main/cpp/skyline/gpu/buffer.h:144-184 | blocking all CPU backing writes implies blocking sequenced ones; sequenced ones are blocked iff immutability is set; cycle attachment is required iff they are |
| BufferModel.AdvanceSequence | app/src/main/cpp/skyline/gpu/buffer.cpp:305-307 | the sequence number grows and nothing else changes |
| BufferModel.BlockSequencedCpuBackingWrites | app/src/main/cpp/skyline/gpu/buffer.h:144-148 | afterwards sequenced writes are blocked; whether all writes are blocked is unchanged; an already blocked buffer is unchanged |
| BufferModel.BlockAllCpuBackingWrites | app/src/main/cpp/skyline/gpu/buffer.h:154-157 | afterwards all and sequenced CPU backing writes are blocked, and only immutability changes |
| BufferModel.UpdateCycle | app/src/main/cpp/skyline/gpu/buffer.h:73-77 | the buffer is attached to the new cycle, the old cycle is chained to it, and only the cycle changes |
| BufferModel.WaitOnFence | app/src/main/cpp/skyline/gpu/buffer.cpp:128-137 | after waiting, the buffer holds no cycle and nothing else changes |
| BufferModel.PollFence | app/src/main/cpp/skyline/gpu/buffer.cpp:139-151 | the poll succeeds iff there is no cycle or it has signalled; on success the cycle is dropped, otherwise nothing changes |
| BufferModel.Invalidate | app/src/main/cpp/skyline/gpu/buffer.cpp:153-161 | the guest mapping and the trap go away, with a trap deletion recorded iff the buffer was trapped |
| BufferModel.SynchronizeHost | app/src/main/cpp/skyline/gpu/buffer.cpp:163-184 | a guest-backed CpuDirty buffer gets its mirror copied to the backing, becomes Clean and has its sequence advanced; any other buffer is unchanged |
| BufferModel.SynchronizeGuest | app/src/main/cpp/skyline/gpu/buffer.cpp:186-211 | it succeeds iff the buffer is guest-backed and either is not GpuDirty or may wait or has its fence signalled; a GpuDirty success copies backing to mirror and makes the buffer Clean; failure changes no contents |
| BufferModel.SynchronizeGuestImmediate | app/src/main/cpp/skyline/gpu/buffer.cpp:213-219 | a GpuDirty guest-backed buffer gets its mirror replaced by the backing and becomes Clean, and the host is flushed unless this is the first usage |
| BufferModel.MarkGpuDirty | app/src/main/cpp/skyline/gpu/buffer.cpp:107-126 | a guest-backed buffer that is not GpuDirty becomes GpuDirty with read/write traps and an advanced sequence; otherwise nothing changes |
| BufferModel.Read | app/src/main/cpp/skyline/gpu/buffer.cpp:221-227 | the read returns `size` bytes of the mirror taken after a GpuDirty buffer is synchronised; the backing and the sequence are untouched |
| BufferModel.PrepareWrite | app/src/main/cpp/skyline/gpu/buffer.cpp:229-241 | the sequence advances (twice when pending CPU writes are pushed) and the inline-update flag is set; a GpuDirty guest-backed buffer first takes the backing into its mirror and becomes Clean; a CpuDirty one whose sequenced writes are blocked copies its mirror into the backing and becomes Clean; otherwise mirror, backing, dirty state and cycle are kept; trap events and host flushes follow these synchronisations; every other field is kept |
| BufferModel.FinishWrite | app/src/main/cpp/skyline/gpu/buffer.cpp:243-263 | the mirror is the old mirror with the data copied in at the offset; the outcome is WriteOutcomeOf of the state before the write; only wrote-backing changes the backing, which is then the old backing with the data copied in, and drops the fence cycle; every other field is unchanged |
| BufferModel.WriteOutcomeOf | app/src/main/cpp/skyline/gpu/buffer.cpp:246-262 | deferred to the host sync iff CPU dirty and sequenced CPU backing writes are not blocked; wrote-backing iff not CPU dirty, not blocked and the fence poll succeeds (no cycle, or a signalled one); otherwise a GPU copy iff a callback is given, else a repeat request |
| BufferModel.Write | app/src/main/cpp/skyline/gpu/buffer.cpp:229-263 | the whole write: the mirror is the data copied over the old mirror, or over the backing when GPU writes are pulled in first; the backing is the data copied over it when written directly, the old mirror when pending CPU writes were pushed, and otherwise unchanged; sequence advances, immutability, lock and tag are kept, every other field is PrepareWrite's, and the outcome is classified exactly as in FinishWrite |
| BufferModel.GetReadOnlyBackingSpan | app/src/main/cpp/skyline/gpu/buffer.cpp:309-315 | the span is the mirror after a GpuDirty guest-backed buffer has been synchronised from the backing |
| BufferModel.GetBackingSpan | app/src/main/cpp/skyline/gpu/buffer.h:87-91 | a guest-backed buffer has no host-only backing span (error); a host-only buffer returns its backing |
| BufferModel.Destroy | app/src/main/cpp/skyline/gpu/buffer.cpp:98-105 | the cycle is waited on, GPU writes are copied back to the mirror, and the trap is deleted if there was one |
| BufferModel.Lock | app/src/main/cpp/skyline/gpu/buffer.cpp:317-319 | the buffer becomes locked and nothing else changes |
| BufferModel.TryLock | app/src/main/cpp/skyline/gpu/buffer.cpp:336-338 | the lock is taken iff it is free and uncontended, otherwise nothing changes |
| BufferModel.LockWithTag | app/src/main/cpp/skyline/gpu/buffer.cpp:321-328 | a non-zero tag equal to the current one returns false without change; otherwise the lock is taken and the tag recorded |
| BufferModel.Unlock | app/src/main/cpp/skyline/gpu/buffer.cpp:330-334 | the lock and tag are released and immutability is reset |
| BufferModel.CoherentTrap | app/src/main/cpp/skyline/gpu/buffer.cpp:20-31 | a buffer with all CPU backing writes blocked has them unblocked and its tag cleared; any other is unchanged |
| BufferModel.ReadTrap | app/src/main/cpp/skyline/gpu/buffer.cpp:32-51 | the trap is handled iff the state lock is free and the buffer is not GpuDirty or its lock is free; a handled GpuDirty buffer is synchronised from the GPU and made Clean |
| BufferModel.WriteTrap | app/src/main/cpp/skyline/gpu/buffer.cpp:52-77 | the trap is handled iff the state lock is free and either the fast path applies or the lock is free; a handled trap leaves the buffer CpuDirty |
| BufferModel.TryMegaBufferView | app/src/main/cpp/skyline/gpu/buffer.cpp:276-303 | the state is the non-blocking guest sync; a binding is produced iff that sync succeeds, the buffer is worth megabuffering and the view is small enough; a push goes to the allocator slot; corrected (Findings rows 1-2): a binding covers the view |
| BufferModel.Apply | app/src/main/cpp/skyline/gpu/buffer.h:55-58 | every coherency operation keeps the state valid |
| BufferModel.Run | app/src/main/cpp/skyline/gpu/buffer.h:55-58 | from a valid state, any sequence of operations each applicable where it runs leaves the state valid; validity of the intermediate states is proved, not assumed |
| BufferModel.SequenceTracksBackingChanges | app/src/main/cpp/skyline/gpu/buffer.h:55-58 | no operation lowers the sequence number, and any operation that changes the backing raises it |
| BufferModel.RunKeepsSequenceOrder | app/src/main/cpp/skyline/gpu/buffer.h:55-58 | over any sequence of operations the number never drops, and an unchanged number means an unchanged backing |
| BufferModel.WriteThenReadReturnsData | app/src/main/cpp/skyline/gpu/buffer.cpp:221-263 | reading back the range just written returns the written data |
| BufferModel.MarkGpuDirtyThenSynchronizeGuest | app/src/main/cpp/skyline/gpu/buffer.cpp:107-211 | after a buffer is marked GPU dirty and the GPU writes the backing, a guest sync brings those bytes to the mirror and makes it Clean |
| BufferModel.RepeatedWriteWithCallbackCopiesOnGpu | app/src/main/cpp/skyline/gpu/buffer.cpp:229-263 | when a write without callback asks to be repeated, the repeat with a callback asks for a GPU copy |
| Buffers.MegaBufferAllocator.constructor | app/src/main/cpp/skyline/gpu/buffer.cpp:297-299 | a new allocator has pushed nothing |
| Buffers.MegaBufferAllocator.Push | app/src/main/cpp/skyline/gpu/buffer.cpp:297-299 | the region is appended to what was pushed, placed at the allocator's next slot, and the slot advances by its size |
| Buffers.Buffer.GuestBacked | app/src/main/cpp/skyline/gpu/buffer.cpp:80-88 | the state is ConstructGuestBacked; the shift is TableShift; corrected (Findings row 3): the table has one empty entry per shard including a trailing partial one |
| Buffers.Buffer.HostOnly | app/src/main/cpp/skyline/gpu/buffer.cpp:90-96 | the state is ConstructHostOnly and the table is empty |
| Buffers.Buffer.SetupGuestMappings | app/src/main/cpp/skyline/gpu/buffer.cpp:11-78 | the new state is BufferModel.SetupGuestMappings of the old one, and the trap handle is recorded |
| Buffers.Buffer.AdvanceSequence | app/src/main/cpp/skyline/gpu/buffer.cpp:305-307 | the new state is BufferModel.AdvanceSequence of the old |
| Buffers.Buffer.BlockSequencedCpuBackingWrites | app/src/main/cpp/skyline/gpu/buffer.h:144-148 | the new state is BufferModel.BlockSequencedCpuBackingWrites of the old |
| Buffers.Buffer.BlockAllCpuBackingWrites | app/src/main/cpp/skyline/gpu/buffer.h:154-157 | the new state is BufferModel.BlockAllCpuBackingWrites of the old |
| Buffers.Buffer.UpdateCycle | app/src/main/cpp/skyline/gpu/buffer.h:73-77 | the new state is BufferModel.UpdateCycle of the old |
| Buffers.Buffer.WaitOnFence | app/src/main/cpp/skyline/gpu/buffer.cpp:128-137 | the new state is BufferModel.WaitOnFence of the old |
| Buffers.Buffer.PollFence | app/src/main/cpp/skyline/gpu/buffer.cpp:139-151 | state and result are BufferModel.PollFence of the old state |
| Buffers.Buffer.Invalidate | app/src/main/cpp/skyline/gpu/buffer.cpp:153-161 | the new state is BufferModel.Invalidate of the old and the trap handle is dropped |
| Buffers.Buffer.SynchronizeHost | app/src/main/cpp/skyline/gpu/buffer.cpp:163-184 | the new state is BufferModel.SynchronizeHost of the old |
| Buffers.Buffer.SynchronizeGuest | app/src/main/cpp/skyline/gpu/buffer.cpp:186-211 | state and result are BufferModel.SynchronizeGuest of the old state |
| Buffers.Buffer.SynchronizeGuestImmediate | app/src/main/cpp/skyline/gpu/buffer.cpp:213-219 | the new state is BufferModel.SynchronizeGuestImmediate of the old |
| Buffers.Buffer.MarkGpuDirty | app/src/main/cpp/skyline/gpu/buffer.cpp:107-126 | the new state is BufferModel.MarkGpuDirty of the old |
| Buffers.Buffer.Read | app/src/main/cpp/skyline/gpu/buffer.cpp:221-227 | state and bytes are BufferModel.Read of the old state |
| Buffers.Buffer.PrepareWrite | app/src/main/cpp/skyline/gpu/buffer.cpp:229-244 | the new state is BufferModel.PrepareWrite of the old |
| Buffers.Buffer.FinishWrite | app/src/main/cpp/skyline/gpu/buffer.cpp:245-263 | state and outcome are BufferModel.FinishWrite of the old state |
| Buffers.Buffer.Write | app/src/main/cpp/skyline/gpu/buffer.cpp:229-263 | state and outcome are BufferModel.Write of the old state |
| Buffers.Buffer.GetReadOnlyBackingSpan | app/src/main/cpp/skyline/gpu/buffer.cpp:309-315 | state and span are BufferModel.GetReadOnlyBackingSpan of the old state |
| Buffers.Buffer.GetBackingSpan | app/src/main/cpp/skyline/gpu/buffer.h:87-91 | the result is BufferModel.GetBackingSpan of the state, which is unchanged |
| Buffers.Buffer.Destroy | app/src/main/cpp/skyline/gpu/buffer.cpp:98-105 | the new state is BufferModel.Destroy of the old |
| Buffers.Buffer.Lock | app/src/main/cpp/skyline/gpu/buffer.cpp:317-319 | the new state is BufferModel.Lock of the old |
| Buffers.Buffer.TryLock | app/src/main/cpp/skyline/gpu/buffer.cpp:336-338 | state and result are BufferModel.TryLock of the old state |
| Buffers.Buffer.LockWithTag | app/src/main/cpp/skyline/gpu/buffer.cpp:321-328 | state and result are BufferModel.LockWithTag of the old state |
| Buffers.Buffer.Unlock | app/src/main/cpp/skyline/gpu/buffer.cpp:330-334 | the new state is BufferModel.Unlock of the old |
| Buffers.Buffer.CoherentTrap | app/src/main/cpp/skyline/gpu/buffer.cpp:20-31 | the new state is BufferModel.CoherentTrap of the old |
| Buffers.Buffer.ReadTrap | app/src/main/cpp/skyline/gpu/buffer.cpp:32-51 | state and result are BufferModel.ReadTrap of the old state |
| Buffers.Buffer.WriteTrap | app/src/main/cpp/skyline/gpu/buffer.cpp:52-77 | state and result are BufferModel.WriteTrap of the old state |
| Buffers.Buffer.TryMegaBufferView | app/src/main/cpp/skyline/gpu/buffer.cpp:276-303 | corrected (Findings rows 1-2): state, table and binding are BufferModel.TryMegaBufferView of the old state, and the allocator received exactly the pushed region |
| BufferViews.ResolveBuffer | app/src/main/cpp/skyline/gpu/buffer.cpp:342-347 | following links from any delegate ends at an owning delegate of the buffer returned |
| BufferViews.LinkCells | app/src/main/cpp/skyline/gpu/buffer.cpp:349-356 | linking fails iff the delegate is already linked; otherwise only that delegate changes, to a link |
| BufferViews.LinkKeepsWellRanked | app/src/main/cpp/skyline/gpu/buffer.cpp:349-356 | after a link to a different buffer, the re-ranked forest still has strictly decreasing ranks along every link, so it has no cycle |
| BufferViews.LinkKeepsOtherResolutions | app/src/main/cpp/skyline/gpu/buffer.cpp:349-363 | delegates that did not lead to the relinked buffer resolve to the same buffer and offset as before |
| BufferViews.LinkRedirects | app/src/main/cpp/skyline/gpu/buffer.cpp:349-363 | every delegate that led to the relinked buffer now leads to the target's buffer at its old offset plus the link offset plus the target's offset; every other delegate is unaffected |
| BufferViews.LinkRedirectsAll | app/src/main/cpp/skyline/gpu/buffer.cpp:349-363 | the link keeps the forest well ranked, and LinkRedirects holds for every delegate at once |
| BufferViews.AddKeepsResolutions | app/src/main/cpp/skyline/gpu/buffer.cpp:84 | adding a new buffer's delegate changes the resolution of no existing delegate |
| BufferViews.DelegateForest.constructor | app/src/main/cpp/skyline/gpu/buffer.cpp:84 | the forest starts empty and valid |
| BufferViews.DelegateForest.Register | app/src/main/cpp/skyline/gpu/buffer.cpp:84 | the new delegate owns its buffer at offset 0 and every existing delegate resolves as before |
| BufferViews.DelegateForest.Link | app/src/main/cpp/skyline/gpu/buffer.cpp:349-356 | failure iff already linked (no change); success stores the link and redirects exactly the delegates that led to the source buffer |
| BufferViews.LockBuffer | app/src/main/cpp/skyline/gpu/buffer.h:390-402 | a blocking lock always succeeds; a failed try-lock changes nothing; a tagged lock records the tag and fails only for a repeated non-zero tag |
| BufferViews.ApplyMerge | app/src/main/cpp/skyline/gpu/buffer.cpp:349-356 | a merge from another thread keeps the forest valid and only removes owning buffers |
| BufferViews.BufferView.Empty | app/src/main/cpp/skyline/gpu/buffer.h:437-439 | the empty view has no delegate, so it converts to false |
| BufferViews.BufferView.constructor | app/src/main/cpp/skyline/gpu/buffer.cpp:265-267 | the view holds the delegate, offset and size given |
| BufferViews.BufferView.ResolveDelegate | app/src/main/cpp/skyline/gpu/buffer.cpp:365-368 | the view then points straight at its buffer's owning delegate and denotes the same buffer and offset |
| BufferViews.BufferView.AcquireStable | app/src/main/cpp/skyline/gpu/buffer.h:366-381 | the loop ends holding the lock of the buffer the view then resolves to (unless a try-lock failed), whatever merges happened in between |
| BufferViews.BufferView.LockAttempt | app/src/main/cpp/skyline/gpu/buffer.h:367-379 | one pass of the loop: the buffer is locked with the mode's function; a failed try-lock ends the loop, otherwise it ends iff the view still resolves to the locked buffer, and when it goes on the lock is dropped and every buffer is ready again; without a merge the pass always ends |
| BufferViews.BufferView.LockWithFunction | app/src/main/cpp/skyline/gpu/buffer.h:366-388 | the result is the lock function's result; on success the buffer is locked and the delegate is resolved; a failed try-lock leaves the view as it was |
| BufferViews.BufferView.Unlock | app/src/main/cpp/skyline/gpu/buffer.h:404-406 | the new buffer state is BufferModel.Unlock of the old |
| BufferViews.BufferView.Read | app/src/main/cpp/skyline/gpu/buffer.cpp:382-384 | state and bytes are BufferModel.Read at the view's offset plus the read offset |
| BufferViews.BufferView.Write | app/src/main/cpp/skyline/gpu/buffer.cpp:386-389 | state and repeat request are BufferModel.Write at the view's offset plus the write offset |
| BufferViews.BufferView.TryMegaBuffer | app/src/main/cpp/skyline/gpu/buffer.cpp:391-393 | corrected (Findings rows 1-2): the buffer's TryMegaBufferView at the view's offset, with the override size when it is non-zero |
| BufferViews.BufferView.GetReadOnlyBackingSpan | app/src/main/cpp/skyline/gpu/buffer.cpp:395-398 | the span is the view's range of BufferModel.GetReadOnlyBackingSpan |
| BufferViews.GetView | app/src/main/cpp/skyline/gpu/buffer.cpp:265-267 | the view is of the buffer's delegate at the given offset and size |
| BufferViews.TryGetView | app/src/main/cpp/skyline/gpu/buffer.cpp:269-274 | a view is returned iff the buffer's guest range contains the mapping, at the mapping's offset inside it |
| StateUpdates.CopyOf | app/src/main/cpp/skyline/gpu/interconnect/maxwell_3d/state_updater.h:273 | the stored view copy has the view's delegate, offset and size |
| StateUpdates.ResolvedSlots | app/src/main/cpp/skyline/gpu/interconnect/maxwell_3d/state_updater.h:52-60 | the refreshed handle and offset arrays keep one slot per vertex stream |
| StateUpdates.SlotsOver | app/src/main/cpp/skyline/gpu/interconnect/maxwell_3d/state_updater.h:52-60 | the refreshed handle and offset arrays keep one slot per vertex stream |
| StateUpdates.RefreshDynamicSlots | app/src/main/cpp/skyline/gpu/interconnect/maxwell_3d/state_updater.h:52-60 | every slot in the bound range gets its view's backing handle and offset, every other slot keeps its value |
| StateUpdates.Record | app/src/main/cpp/skyline/gpu/interconnect/maxwell_3d/state_updater.h:33-111 | recording one command emits exactly Recorded(command) |
| StateUpdates.RecordedAllAppend | app/src/main/cpp/skyline/gpu/interconnect/maxwell_3d/state_updater.h:200-203 | recording two command lists in turn emits what recording their concatenation emits |
| StateUpdates.CmdNode.constructor | app/src/main/cpp/skyline/gpu/interconnect/maxwell_3d/state_updater.h:26 | a new command header has no successor |
| StateUpdates.StateUpdater.constructor | app/src/main/cpp/skyline/gpu/interconnect/maxwell_3d/state_updater.h:195 | the updater holds the list that starts at `first` |
| StateUpdates.StateUpdater.RecordAll | app/src/main/cpp/skyline/gpu/interconnect/maxwell_3d/state_updater.h:200-203 | walking the list from `first` records every command, in list order |
| StateUpdates.StateUpdateBuilder.constructor | app/src/main/cpp/skyline/gpu/interconnect/maxwell_3d/state_updater.h:240-243 | the builder starts with an empty list and a fresh, empty dynamic batch |
| StateUpdates.StateUpdateBuilder.AppendCmd | app/src/main/cpp/skyline/gpu/interconnect/maxwell_3d/state_updater.h:217-225 | the node is linked after the tail, or becomes the head of an empty list; the command list grows by its command |
| StateUpdates.StateUpdateBuilder.Append | app/src/main/cpp/skyline/gpu/interconnect/maxwell_3d/state_updater.h:227-231 | the command list grows by exactly the given command |
| StateUpdates.StateUpdateBuilder.FlushVertexBatchBind | app/src/main/cpp/skyline/gpu/interconnect/maxwell_3d/state_updater.h:233-238 | a batch binding anything is appended and replaced by a fresh one; an empty batch is left as is |
| StateUpdates.StateUpdateBuilder.Build | app/src/main/cpp/skyline/gpu/interconnect/maxwell_3d/state_updater.h:245-248 | the updater's commands are those appended so far, followed by the pending batch if it binds anything |
| StateUpdates.StateUpdateBuilder.BeginBinding | app/src/main/cpp/skyline/gpu/interconnect/maxwell_3d/state_updater.h:250-256 | a binding that continues the pending batch of the same kind changes nothing; otherwise the batch is flushed and restarted at the index with that kind |
| StateUpdates.StateUpdateBuilder.SetVertexBuffer | app/src/main/cpp/skyline/gpu/interconnect/maxwell_3d/state_updater.h:250-262 | the binding's handle and offset land in the slot of a static batch that now ends at the index |
| StateUpdates.StateUpdateBuilder.SetVertexBufferView | app/src/main/cpp/skyline/gpu/interconnect/maxwell_3d/state_updater.h:264-277 | the view lands in the slot of a dynamic batch that now ends at the index, and the buffer's sequenced CPU writes are blocked |
| StateUpdates.StateUpdateBuilder.AddDynamicBinding | app/src/main/cpp/skyline/gpu/interconnect/maxwell_3d/state_updater.h:267-276 | a view continuing the current dynamic batch at the next binding joins it with no command recorded; otherwise the pending batch is recorded when it holds any binding and a dynamic batch starting at the index holds the view |
| StateUpdates.StateUpdateBuilder.SetIndexBuffer | app/src/main/cpp/skyline/gpu/interconnect/maxwell_3d/state_updater.h:279-285 | one index command with the binding's handle, offset and the index type is appended |
| StateUpdates.StateUpdateBuilder.SetIndexBufferView | app/src/main/cpp/skyline/gpu/interconnect/maxwell_3d/state_updater.h:287-294 | one dynamic index command with the view is appended, and the buffer's sequenced CPU writes are blocked |
| StateUpdates.StateUpdateBuilder.SetTransformFeedbackBuffer | app/src/main/cpp/skyline/gpu/interconnect/maxwell_3d/state_updater.h:296-302 | corrected (Findings row 6): one transform-feedback command carrying the binding's size is appended |
| StateUpdates.StateUpdateBuilder.SetTransformFeedbackBufferView | app/src/main/cpp/skyline/gpu/interconnect/maxwell_3d/state_updater.h:304-311 | corrected (Findings row 6): one dynamic transform-feedback command carrying the view's size is appended, and sequenced CPU writes are blocked |
| StateUpdates.StateUpdateBuilder.SetFixedFunctionState | app/src/main/cpp/skyline/gpu/interconnect/maxwell_3d/state_updater.h:313-361 | one viewport, scissor, line-width, depth-bias, blend-constant, depth-bounds or stencil command is appended as given |
| StateUpdates.TransformFeedbackCommandAsWritten | app/src/main/cpp/skyline/gpu/interconnect/maxwell_3d/state_updater.h:296-302 | as written: the command has the binding's handle and offset but size 0 |
| StateUpdates.TransformFeedbackViewCommandAsWritten | app/src/main/cpp/skyline/gpu/interconnect/maxwell_3d/state_updater.h:304-311 | as written: the dynamic command has the view but size 0 |
| StateUpdates.TransformFeedbackCommand | app/src/main/cpp/skyline/gpu/interconnect/maxwell_3d/state_updater.h:296-302 | corrected: the command carries the binding's handle, offset and size |
| StateUpdates.TransformFeedbackViewCommand | app/src/main/cpp/skyline/gpu/interconnect/maxwell_3d/state_updater.h:304-311 | corrected: the dynamic command carries the view and its size |
| StateUpdates.AsWrittenTransformFeedbackCapturesNothing | app/src/main/cpp/skyline/gpu/interconnect/maxwell_3d/state_updater.h:90-111 | as written, a non-empty view records a transform-feedback range of 0 bytes |
| StateUpdates.TransformFeedbackRecordsViewRange | app/src/main/cpp/skyline/gpu/interconnect/maxwell_3d/state_updater.h:90-111 | corrected, recording binds the view's resolved buffer at its offset with the view's size |
| ActiveStates.GetIndexBufferSize | app/src/main/cpp/skyline/gpu/interconnect/maxwell_3d/active_state.cpp:66-77 | the size is an error iff the index size is unknown, and fits 32 bits otherwise |
| ActiveStates.ConvertIndexType | app/src/main/cpp/skyline/gpu/interconnect/maxwell_3d/active_state.cpp:79-90 | one, two and four-byte indices map to uint8, uint16 and uint32; any other size is an error |
| ActiveStates.IndexBufferSizeMatchesIndexType | app/src/main/cpp/skyline/gpu/interconnect/maxwell_3d/active_state.cpp:66-90 | the size and the type succeed for the same index sizes, and the size is the element count times the type's width |
| ActiveStates.MegaBindingOf | app/src/main/cpp/skyline/gpu/interconnect/maxwell_3d/active_state.cpp:17-23 | a binding exists iff the megabuffer allocation does, at its buffer and offset with the view's size |
| ActiveStates.IndexCommand | app/src/main/cpp/skyline/gpu/interconnect/maxwell_3d/active_state.cpp:127-131 | a megabuffer binding gives a plain index command, no binding gives a dynamic one with the view |
| ActiveStates.BindIndexThrough | app/src/main/cpp/skyline/gpu/interconnect/maxwell_3d/active_state.cpp:127-131 | exactly the IndexCommand is appended to the builder |
| ActiveStates.IndexBufferState.constructor | app/src/main/cpp/skyline/gpu/interconnect/maxwell_3d/active_state.cpp:111 | a new index buffer state has used nothing and holds no megabuffer binding |
| ActiveStates.IndexBufferState.Flush | app/src/main/cpp/skyline/gpu/interconnect/maxwell_3d/active_state.cpp:113-132 | the used count and quad flag are recorded; an unknown index size fails with nothing appended; otherwise one index command for the megabuffer binding or the view is appended |
| ActiveStates.IndexBufferState.Refresh | app/src/main/cpp/skyline/gpu/interconnect/maxwell_3d/active_state.cpp:134-153 | a flush is needed iff more elements are drawn or the quad mode changed; otherwise the megabuffer binding is renewed or the view is rebound as the source does |
| ActiveStates.IndexBufferState.Rebind | app/src/main/cpp/skyline/gpu/interconnect/maxwell_3d/active_state.cpp:128-131 | the view, index type and binding become the bound index buffer, the used count and quad flag are kept, and exactly one index command through the binding or the view is appended |
| ActiveStates.VertexBufferSize | app/src/main/cpp/skyline/gpu/interconnect/maxwell_3d/active_state.cpp:33 | the stream size is limit − location + 1, wrapping at 64 bits |
| ActiveStates.VertexBufferState.constructor | app/src/main/cpp/skyline/gpu/interconnect/maxwell_3d/active_state.cpp:30 | a new vertex buffer state holds its index and no binding |
| ActiveStates.VertexBufferState.Flush | app/src/main/cpp/skyline/gpu/interconnect/maxwell_3d/active_state.cpp:32-48 | an enabled stream with a non-zero location binds its megabuffer copy or its view at its index; otherwise it binds a null binding and drops the megabuffer binding |
| ActiveStates.VertexBufferState.Refresh | app/src/main/cpp/skyline/gpu/interconnect/maxwell_3d/active_state.cpp:50-58 | never needs a flush; a stream with a megabuffer binding is rebound to the new copy or to its view; others append nothing |
| ActiveStates.TransformFeedbackBufferState.constructor | app/src/main/cpp/skyline/gpu/interconnect/maxwell_3d/active_state.cpp:165 | a new state holds its index and no view |
| ActiveStates.TransformFeedbackBufferState.Flush | app/src/main/cpp/skyline/gpu/interconnect/maxwell_3d/active_state.cpp:167-182 | corrected (Findings row 6): disabled: nothing appended; a non-zero size binds the view, and the appended command's size is the register's size; a zero size binds an empty megabuffer buffer |
| ActiveStates.ViewportSwizzleCheckAsWritten | app/src/main/cpp/skyline/gpu/interconnect/maxwell_3d/active_state.cpp:211-218 | as written, the check admits every supported swizzle |
| ActiveStates.AsWrittenSwizzleCheckAdmitsUnsupported | app/src/main/cpp/skyline/gpu/interconnect/maxwell_3d/active_state.cpp:211-218 | as written, the swizzle NegX, PosY, PosZ, PosW passes although it is unsupported |
| ActiveStates.ViewportSwizzleCheck | app/src/main/cpp/skyline/gpu/interconnect/maxwell_3d/active_state.cpp:211-218 | corrected: the check passes iff the swizzle is supported |
| ActiveStates.SwizzleCheckRefinesAsWritten | app/src/main/cpp/skyline/gpu/interconnect/maxwell_3d/active_state.cpp:211-218 | every swizzle the corrected check passes also passes the as-written check |
| ActiveStates.FlushViewport | app/src/main/cpp/skyline/gpu/interconnect/maxwell_3d/active_state.cpp:198-231 | corrected (Findings row 11): a supported swizzle appends one viewport command, an unsupported one fails with nothing appended |
| ActiveStates.ScissorRect | app/src/main/cpp/skyline/gpu/interconnect/maxwell_3d/active_state.cpp:240-263 | an enabled scissor spans from the minimum to the maximum, with the extent wrapping at 32 bits; a disabled one is the maximal i32 rectangle |
| ActiveStates.ScissorRectCoversBounds | app/src/main/cpp/skyline/gpu/interconnect/maxwell_3d/active_state.cpp:240-263 | for ordered bounds, a point is inside the scissor iff it lies between the minimum and maximum registers |
| ActiveStates.FlushScissor | app/src/main/cpp/skyline/gpu/interconnect/maxwell_3d/active_state.cpp:240-263 | one scissor command with ScissorRect is appended |
| ActiveStates.StencilCommand | app/src/main/cpp/skyline/gpu/interconnect/maxwell_3d/active_state.cpp:316-322 | the command sets the given faces to the reference, compare mask and write mask |
| ActiveStates.StencilCommands | app/src/main/cpp/skyline/gpu/interconnect/maxwell_3d/active_state.cpp:316-322 | every command produced is a base stencil state command |
| ActiveStates.StencilCommandsSetEachFaceOnce | app/src/main/cpp/skyline/gpu/interconnect/maxwell_3d/active_state.cpp:316-322 | front and back are each set exactly once: by one front-and-back command, or by a front and a back command when two-sided |
| ActiveStates.FlushStencilValues | app/src/main/cpp/skyline/gpu/interconnect/maxwell_3d/active_state.cpp:316-322 | exactly StencilCommands is appended |
| ActiveStates.UpdatePositionInjective | app/src/main/cpp/skyline/gpu/interconnect/maxwell_3d/active_state.cpp:354-374 | the update order gives each element its own position below the element count |
| ActiveStates.ActiveState.constructor | app/src/main/cpp/skyline/gpu/interconnect/maxwell_3d/active_state.cpp:324-336 | the active state starts with the given input assembly and a clean pipeline |
| ActiveStates.ActiveState.Update | app/src/main/cpp/skyline/gpu/interconnect/maxwell_3d/active_state.cpp:354-374 | the topology is set and the pipeline dirtied only on change; the index buffer is updated iff indexed; every element is updated once in source order |
| ActiveStates.ActiveState.UpdateOrder | app/src/main/cpp/skyline/gpu/interconnect/maxwell_3d/active_state.cpp:360-373 | the update sequence lists each element that is updated exactly once, at the position the source's order gives it; the index buffer is in it iff indexed |
| PipelineStates.Filter | app/src/main/cpp/skyline/gpu/interconnect/maxwell_3d/pipeline_state.cpp:220-257 | the filtered list is no longer than the input |
| PipelineStates.FilterMembers | app/src/main/cpp/skyline/gpu/interconnect/maxwell_3d/pipeline_state.cpp:220-257 | an element is kept iff some kept position holds it |
| PipelineStates.FilterEmpty | app/src/main/cpp/skyline/gpu/interconnect/maxwell_3d/pipeline_state.cpp:220-257 | the filtered list is empty iff nothing is kept |
| PipelineStates.FilterStep | app/src/main/cpp/skyline/gpu/interconnect/maxwell_3d/pipeline_state.cpp:220-257 | filtering one more element appends it iff it is kept |
| PipelineStates.DivisorFlags | app/src/main/cpp/skyline/gpu/interconnect/maxwell_3d/pipeline_state.cpp:224-233 | a binding's divisor is kept iff it is instanced and the host supports its divisor |
| PipelineStates.AttributeFlags | app/src/main/cpp/skyline/gpu/interconnect/maxwell_3d/pipeline_state.cpp:236-238 | an attribute is kept iff it is active |
| PipelineStates.ActiveDivisorsAreKept | app/src/main/cpp/skyline/gpu/interconnect/maxwell_3d/pipeline_state.cpp:224-254 | an instanced binding's divisor is in the active divisors when the host supports it |
| PipelineStates.DivisorChainUnlinkedIffNoneKept | app/src/main/cpp/skyline/gpu/interconnect/maxwell_3d/pipeline_state.cpp:224-254 | the divisor struct is unlinked iff no binding keeps its divisor |
| PipelineStates.ActiveAttributesAreActive | app/src/main/cpp/skyline/gpu/interconnect/maxwell_3d/pipeline_state.cpp:236-238 | an attribute description is active iff an active attribute slot holds it |
| PipelineStates.VertexInputState.constructor | app/src/main/cpp/skyline/gpu/interconnect/maxwell_3d/pipeline_state.h:57-68 | bindings, divisors and attributes start indexed by their slot, with no active lists |
| PipelineStates.VertexInputState.Build | app/src/main/cpp/skyline/gpu/interconnect/maxwell_3d/pipeline_state.cpp:220-257 | the active lists are the filtered divisors and attributes; the counts match them; the divisor struct is linked iff any is kept |
| PipelineStates.VertexInputState.SetStride | app/src/main/cpp/skyline/gpu/interconnect/maxwell_3d/pipeline_state.cpp:259-261 | only the stride of that binding changes |
| PipelineStates.VertexInputState.SetInputRate | app/src/main/cpp/skyline/gpu/interconnect/maxwell_3d/pipeline_state.cpp:263-265 | only the input rate of that binding changes, to instance iff instanced |
| PipelineStates.VertexInputState.SetDivisor | app/src/main/cpp/skyline/gpu/interconnect/maxwell_3d/pipeline_state.cpp:267-269 | only the divisor of that binding changes |
| PipelineStates.VertexInputState.SetAttribute | app/src/main/cpp/skyline/gpu/interconnect/maxwell_3d/pipeline_state.cpp:354-366 | an active attribute sets that slot's binding, format and offset; an inactive one changes nothing |
| PipelineStates.ConvertPrimitiveTopology | app/src/main/cpp/skyline/gpu/interconnect/maxwell_3d/pipeline_state.cpp:377-407 | the shader topology follows the Vulkan one; quads and unknown topologies become triangle lists; adjacency is kept exactly |
| PipelineStates.ConvertPrimitiveTopologyInjective | app/src/main/cpp/skyline/gpu/interconnect/maxwell_3d/pipeline_state.cpp:377-407 | distinct topologies other than quads and unknown ones map to distinct Vulkan topologies |
| PipelineStates.InputAssemblyState.constructor | app/src/main/cpp/skyline/gpu/interconnect/maxwell_3d/pipeline_state.h:92-93 | the state starts at point lists with restart off |
| PipelineStates.InputAssemblyState.SetPrimitiveTopology | app/src/main/cpp/skyline/gpu/interconnect/maxwell_3d/pipeline_state.cpp:409-423 | the engine topology reads back as set, quad conversion is needed iff it is quads, and the Vulkan topology is the converted one |
| PipelineStates.InputAssemblyState.SetPrimitiveRestart | app/src/main/cpp/skyline/gpu/interconnect/maxwell_3d/pipeline_state.cpp:433-435 | only the restart flag changes |
| PipelineStates.ColorTargetLayers | app/src/main/cpp/skyline/gpu/interconnect/maxwell_3d/pipeline_state.cpp:110-147 | a disabled format gives no target; otherwise the base layer is the layer offset, the third dimension is the layer count with depth 1 when it defines the array size and the depth with one layer otherwise, the view is an array iff the third dimension exceeds 1, and the layer stride is the array pitch iff more than one layer or a layer offset above 1 |
| PipelineStates.DepthTargetLayers | app/src/main/cpp/skyline/gpu/interconnect/maxwell_3d/pipeline_state.cpp:176-209 | no target iff the target count is zero; otherwise layer count and view type follow the control, with the defaults for any other control |
| PackedPipelineStates.ConvertCompareFunc | app/src/main/cpp/skyline/gpu/interconnect/maxwell_3d/packed_pipeline_state.cpp:65-73 | both the D3D and the OpenGL encodings are accepted and map into the eight Vulkan compare ops; anything else is an error |
| PackedPipelineStates.CompareFuncEncodingsAgree | app/src/main/cpp/skyline/gpu/interconnect/maxwell_3d/packed_pipeline_state.cpp:65-73 | the D3D and the OpenGL form of the same op convert to that op, and distinct ops to distinct results |
| PackedPipelineStates.ConvertLogicOp | app/src/main/cpp/skyline/gpu/interconnect/maxwell_3d/packed_pipeline_state.cpp:79-85 | valid logic ops map into the sixteen Vulkan ops, others are an error |
| PackedPipelineStates.ConvertLogicOpBijective | app/src/main/cpp/skyline/gpu/interconnect/maxwell_3d/packed_pipeline_state.cpp:79-85 | the conversion is the offset from Clear, one-to-one and onto the Vulkan ops |
| PackedPipelineStates.PackDepthFormat | app/src/main/cpp/skyline/gpu/interconnect/maxwell_3d/packed_pipeline_state.cpp:16-18 | the packed format fits 5 bits and is the offset from ZF32 |
| PackedPipelineStates.DepthFormatRoundTrip | app/src/main/cpp/skyline/gpu/interconnect/maxwell_3d/packed_pipeline_state.cpp:16-18 | unpacking a packed depth format in range gives it back, and distinct formats pack distinctly |
| PackedPipelineStates.ConvertStencilOp | app/src/main/cpp/skyline/gpu/interconnect/maxwell_3d/packed_pipeline_state.cpp:87-116 | unknown stencil ops are an error, the rest convert |
| PackedPipelineStates.ConvertStencilOpIdentifiesPairs | app/src/main/cpp/skyline/gpu/interconnect/maxwell_3d/packed_pipeline_state.cpp:87-116 | two ops convert alike iff they are the D3D and OpenGL forms of the same op |
| PackedPipelineStates.ConvertColorWriteMask | app/src/main/cpp/skyline/gpu/interconnect/maxwell_3d/packed_pipeline_state.cpp:132-137 | each colour channel's bit is set iff that channel is enabled |
| PackedPipelineStates.ColorWriteMaskInjective | app/src/main/cpp/skyline/gpu/interconnect/maxwell_3d/packed_pipeline_state.cpp:132-137 | distinct channel selections give distinct masks |
| PackedPipelineStates.SetPolygonModeAsWritten | app/src/main/cpp/skyline/gpu/interconnect/maxwell_3d/packed_pipeline_state.cpp:33-44 | as written, every polygon mode ends in the throw |
| PackedPipelineStates.AsWrittenPolygonModeFillThrows | app/src/main/cpp/skyline/gpu/interconnect/maxwell_3d/packed_pipeline_state.cpp:33-44 | as written, Fill sets Point then throws; corrected, Fill converts to fill |
| PackedPipelineStates.ConvertPolygonMode | app/src/main/cpp/skyline/gpu/interconnect/maxwell_3d/packed_pipeline_state.cpp:33-44 | corrected: unknown modes are an error, the rest convert |
| PackedPipelineStates.ConvertPolygonModeBijective | app/src/main/cpp/skyline/gpu/interconnect/maxwell_3d/packed_pipeline_state.cpp:33-44 | the corrected polygon-mode conversion is one-to-one and onto |
| PackedPipelineStates.SetCullModeAsWritten | app/src/main/cpp/skyline/gpu/interconnect/maxwell_3d/packed_pipeline_state.cpp:46-62 | as written, disabling clears the mode and any enabled face throws |
| PackedPipelineStates.AsWrittenCullBackThrows | app/src/main/cpp/skyline/gpu/interconnect/maxwell_3d/packed_pipeline_state.cpp:46-62 | as written, culling the back face sets both bits then throws; corrected, it is the back bit |
| PackedPipelineStates.ConvertCullMode | app/src/main/cpp/skyline/gpu/interconnect/maxwell_3d/packed_pipeline_state.cpp:46-62 | corrected: disabled culling is 0; an unknown face when enabled is an error |
| PackedPipelineStates.ConvertCullModeBits | app/src/main/cpp/skyline/gpu/interconnect/maxwell_3d/packed_pipeline_state.cpp:46-62 | front, back and front-and-back set the front bit, the back bit and both bits |
| PackedPipelineStates.PackStencilOps | app/src/main/cpp/skyline/gpu/interconnect/maxwell_3d/packed_pipeline_state.cpp:118-125 | packing succeeds iff every op of the face converts |
| PackedPipelineStates.StencilFaceRouting | app/src/main/cpp/skyline/gpu/interconnect/maxwell_3d/packed_pipeline_state.cpp:244-258 | the unpacked face state carries each packed op in its own field |
| PackedPipelineStates.PackedPipelineState.constructor | app/src/main/cpp/skyline/gpu/interconnect/maxwell_3d/packed_pipeline_state.h:18-72 | the packed state starts zeroed |
| PackedPipelineStates.PackedPipelineState.SetDepthRenderTargetFormat | app/src/main/cpp/skyline/gpu/interconnect/maxwell_3d/packed_pipeline_state.cpp:16-18 | the packed depth format is set and no other field changes |
| PackedPipelineStates.PackedPipelineState.SetVertexBinding | app/src/main/cpp/skyline/gpu/interconnect/maxwell_3d/packed_pipeline_state.cpp:20-25 | only that vertex binding changes, to the stream's stride, rate, enable and divisor |
| PackedPipelineStates.PackedPipelineState.SetPolygonMode | app/src/main/cpp/skyline/gpu/interconnect/maxwell_3d/packed_pipeline_state.cpp:33-44 | corrected: fails iff the mode is unknown; otherwise stores the converted mode; nothing else changes |
| PackedPipelineStates.PackedPipelineState.SetCullMode | app/src/main/cpp/skyline/gpu/interconnect/maxwell_3d/packed_pipeline_state.cpp:46-62 | corrected: fails iff enabled with an unknown face; otherwise stores the converted mode; nothing else changes |
| PackedPipelineStates.PackedPipelineState.SetDepthFunc | app/src/main/cpp/skyline/gpu/interconnect/maxwell_3d/packed_pipeline_state.cpp:75-77 | fails iff the compare function is invalid; otherwise stores the converted op; nothing else changes |
| PackedPipelineStates.PackedPipelineState.SetLogicOp | app/src/main/cpp/skyline/gpu/interconnect/maxwell_3d/packed_pipeline_state.cpp:79-85 | fails iff the logic op is invalid; otherwise stores the converted op; nothing else changes |
| PackedPipelineStates.PackedPipelineState.SetStencilOps | app/src/main/cpp/skyline/gpu/interconnect/maxwell_3d/packed_pipeline_state.cpp:127-130 | the front face is stored if it packs; the back only if both pack; the read-back face states are the packed ones |
| PackedPipelineStates.PackedPipelineState.GetStencilOpsState | app/src/main/cpp/skyline/gpu/interconnect/maxwell_3d/packed_pipeline_state.cpp:244-258 | two face states are returned, front then back |
| PipelineManagers.ConvertCompilerShaderStage | app/src/main/cpp/skyline/gpu/interconnect/maxwell_3d/pipeline_manager.cpp:14-31 | unknown shader types are an error, the rest map to a compiler stage |
| PipelineManagers.ConvertVkShaderStage | app/src/main/cpp/skyline/gpu/interconnect/maxwell_3d/pipeline_manager.cpp:33-49 | unknown shader types are an error, the rest map to a Vulkan stage flag |
| PipelineManagers.StageConversionsAgree | app/src/main/cpp/skyline/gpu/interconnect/maxwell_3d/pipeline_manager.cpp:14-49 | the Vulkan stage is the flag of the compiler stage; exactly both vertex types give the vertex flag; the compiler conversion is one-to-one |
| PipelineManagers.TessConversionsBijective | app/src/main/cpp/skyline/gpu/interconnect/maxwell_3d/pipeline_manager.cpp:51-71 | the domain and spacing conversions are one-to-one and onto |
| PipelineManagers.ConvertShaderAttributeType | app/src/main/cpp/skyline/gpu/interconnect/maxwell_3d/pipeline_manager.cpp:73-91 | inactive attributes are disabled; signed and unsigned integers map to their types; float kinds map to float; anything else is an error |
| PipelineManagers.GroupLayout | app/src/main/cpp/skyline/gpu/interconnect/maxwell_3d/pipeline_manager.cpp:225-238 | one layout binding per descriptor group |
| PipelineManagers.TypeIndex | app/src/main/cpp/skyline/gpu/interconnect/maxwell_3d/pipeline_manager.cpp:220-254 | each descriptor type has its place among the six push groups |
| PipelineManagers.GroupLayoutNumbers | app/src/main/cpp/skyline/gpu/interconnect/maxwell_3d/pipeline_manager.cpp:220-254 | a group's bindings are numbered consecutively from its first index |
| PipelineManagers.StageGroupsNumbers | app/src/main/cpp/skyline/gpu/interconnect/maxwell_3d/pipeline_manager.cpp:220-254 | a program's bindings are numbered consecutively |
| PipelineManagers.LayoutNumbersBindings | app/src/main/cpp/skyline/gpu/interconnect/maxwell_3d/pipeline_manager.cpp:220-254 | binding k of the whole layout has number k |
| PipelineManagers.SumOfTypeAppend | app/src/main/cpp/skyline/gpu/interconnect/maxwell_3d/pipeline_manager.cpp:220-254 | descriptor counts of a type add over concatenation |
| PipelineManagers.GroupLayoutSum | app/src/main/cpp/skyline/gpu/interconnect/maxwell_3d/pipeline_manager.cpp:220-254 | a group adds its counts to its own type and nothing to the others |
| PipelineManagers.StageGroupsSum | app/src/main/cpp/skyline/gpu/interconnect/maxwell_3d/pipeline_manager.cpp:220-254 | a program's layout holds, per type, the sum of that type's counts |
| PipelineManagers.LayoutTypeTotals | app/src/main/cpp/skyline/gpu/interconnect/maxwell_3d/pipeline_manager.cpp:220-254 | the layout holds, per type, that type's total over all programs |
| PipelineManagers.WriteDescCountBounds | app/src/main/cpp/skyline/gpu/interconnect/maxwell_3d/pipeline_manager.cpp:226 | at most one write per group without individual texture writes, never more than with them |
| PipelineManagers.PushBindings | app/src/main/cpp/skyline/gpu/interconnect/maxwell_3d/pipeline_manager.cpp:225-238 | appends the group's layout bindings, returns the count added and the writes it needs |
| PipelineManagers.StageCounts | app/src/main/cpp/skyline/gpu/interconnect/maxwell_3d/pipeline_manager.cpp:240-250 | six per-type counts |
| PipelineManagers.PushedGroup | app/src/main/cpp/skyline/gpu/interconnect/maxwell_3d/pipeline_manager.cpp:240-250 | pushing group g extends the program's layout by that group |
| PipelineManagers.PushStageBindings | app/src/main/cpp/skyline/gpu/interconnect/maxwell_3d/pipeline_manager.cpp:240-250 | appends the program's layout and returns its per-type counts and writes |
| PipelineManagers.MakePipelineDescriptorInfo | app/src/main/cpp/skyline/gpu/interconnect/maxwell_3d/pipeline_manager.cpp:220-254 | corrected (Findings rows 7-9): the layout is Layout(stages); every per-type count is that type's total; each class total is the sum of its two types; the write count is WriteDescCount |
| PipelineManagers.AsWrittenClassTotalAtLeastLayout | app/src/main/cpp/skyline/gpu/interconnect/maxwell_3d/pipeline_manager.cpp:242-250 | as written, every class total is at least the class's descriptor count in the layout, for all programs |
| PipelineManagers.AsWrittenTotalBufferDescCountOvercounts | app/src/main/cpp/skyline/gpu/interconnect/maxwell_3d/pipeline_manager.cpp:242 | as written, two programs with one uniform buffer each give a buffer total of 3 for a layout of 2 buffers |
| PipelineManagers.AsWrittenTotalTexelBufferDescCountOvercounts | app/src/main/cpp/skyline/gpu/interconnect/maxwell_3d/pipeline_manager.cpp:246 | as written, two programs with one texel buffer each give a texel-buffer total of 3 for a layout of 2 |
| PipelineManagers.AsWrittenTotalImageDescCountOvercounts | app/src/main/cpp/skyline/gpu/interconnect/maxwell_3d/pipeline_manager.cpp:250 | as written, two programs with one storage image each give an image total of 3 for a layout of 2 |
| PipelineManagers.AsWrittenStorageWriteTargetsUniformBinding | app/src/main/cpp/skyline/gpu/interconnect/maxwell_3d/pipeline_manager.cpp:553-566 | as written, one program with a uniform and a storage buffer writes the storage buffer to binding 0, which holds the uniform buffer |
| PipelineManagers.LayoutPrefix | app/src/main/cpp/skyline/gpu/interconnect/maxwell_3d/pipeline_manager.cpp:543-606 | the layout of the first programs is a prefix of the whole layout |
| PipelineManagers.StageLayoutBufferGroups | app/src/main/cpp/skyline/gpu/interconnect/maxwell_3d/pipeline_manager.cpp:543-606 | a program's layout opens with its uniform groups followed by its storage groups |
| PipelineManagers.LayoutStageSlice | app/src/main/cpp/skyline/gpu/interconnect/maxwell_3d/pipeline_manager.cpp:543-606 | program i's layout sits in the whole layout right after the layout of the programs before it |
| PipelineManagers.ChainedAppend | app/src/main/cpp/skyline/gpu/interconnect/maxwell_3d/pipeline_manager.cpp:543-606 | chained buffer-info ranges concatenate |
| PipelineManagers.StageBufferWrites | app/src/main/cpp/skyline/gpu/interconnect/maxwell_3d/pipeline_manager.cpp:553-604 | corrected: each write targets a binding of its own type in the program's layout; the buffer-info ranges chain; both indices advance by the program's counts |
| PipelineManagers.TypedWritesAppend | app/src/main/cpp/skyline/gpu/interconnect/maxwell_3d/pipeline_manager.cpp:543-606 | typed writes of earlier programs and of the next program stay typed in the whole layout |
| PipelineManagers.BufferDescriptorWrites | app/src/main/cpp/skyline/gpu/interconnect/maxwell_3d/pipeline_manager.cpp:543-606 | corrected: every write targets a uniform or storage binding of its own type; the buffer-info ranges chain from 0 to the buffer total; no more writes than WriteDescCount |
| PipelineManagers.AppendStageBufferWrites | app/src/main/cpp/skyline/gpu/interconnect/maxwell_3d/pipeline_manager.cpp:570-606 | one program's step of the corrected loop: the typed-write, chaining and count invariants over the programs before it hold for the programs up to it, with the binding index past its layout and the buffer index past its buffer descriptors |
| PipelineManagers.UniformSizeOverride | app/src/main/cpp/skyline/gpu/interconnect/maxwell_3d/pipeline_manager.cpp:579 | the size is the smaller of the used size and the view size |
| PipelineManagers.BindUniformBuffer | app/src/main/cpp/skyline/gpu/interconnect/maxwell_3d/pipeline_manager.cpp:570-586 | the view is megabuffered at the override size when possible; otherwise the view is bound and its buffer's sequenced CPU writes are blocked |
| PipelineManagers.BindStorageBuffer | app/src/main/cpp/skyline/gpu/interconnect/maxwell_3d/pipeline_manager.cpp:588-604 | the view is bound, and a written buffer is marked GPU dirty |
| PipelineManagers.LatestInSlotIsRecent | app/src/main/cpp/skyline/gpu/interconnect/maxwell_3d/pipeline_manager.cpp:537-540 | each cache slot holds one of the last four transitions, the latest whose index falls in that slot |
| PipelineManagers.Pipeline.constructor | app/src/main/cpp/skyline/gpu/interconnect/maxwell_3d/pipeline_manager.cpp:515-521 | the pipeline keeps its key and stages, its layout is Layout(stages), and its transition cache is empty |
| PipelineManagers.Pipeline.LookupNext | app/src/main/cpp/skyline/gpu/interconnect/maxwell_3d/pipeline_manager.cpp:523-535 | null iff no cached pipeline has the key; otherwise a pipeline with that key from the last four transitions |
| PipelineManagers.Pipeline.AddTransition | app/src/main/cpp/skyline/gpu/interconnect/maxwell_3d/pipeline_manager.cpp:537-540 | the pipeline is stored at the next slot, which advances modulo 4 |
| PipelineManagers.PipelineManager.constructor | app/src/main/cpp/skyline/gpu/interconnect/maxwell_3d/pipeline_manager.h:48-50 | the map starts empty |
| PipelineManagers.PipelineManager.FindOrCreate | app/src/main/cpp/skyline/gpu/interconnect/maxwell_3d/pipeline_manager.h:53-59 | a known key returns its pipeline unchanged; an unknown key creates one pipeline with that key and adds only it |
| ConstantBuffers.LoadEffect | app/src/main/cpp/skyline/gpu/interconnect/maxwell_3d/constant_buffers.cpp:38-71 | the mirror is the data copied over the mirror the first write prepares; the backing is the data copied over the prepared backing when the buffer ends neither CPU dirty nor GPU-copied, and the prepared backing otherwise; the sequence advances; without a GPU copy immutability is kept; with one all CPU backing writes are blocked and the first write asked to be repeated |
| ConstantBuffers.RepeatedWrite | app/src/main/cpp/skyline/gpu/interconnect/maxwell_3d/constant_buffers.cpp:55-69 | the mirror and backing of the second write, stated as for LoadEffect against the state that write prepares; a GPU copy blocks all CPU backing writes |
| ConstantBuffers.SecondWriteNeverRepeats | app/src/main/cpp/skyline/gpu/interconnect/maxwell_3d/constant_buffers.cpp:55-69 | the write with a callback never asks to be repeated, so a load does at most two writes |
| ConstantBuffers.ConstantBuffers.constructor | app/src/main/cpp/skyline/gpu/interconnect/maxwell_3d/constant_buffers.cpp:27 | every slot starts unbound and the selector is dirty |
| ConstantBuffers.ConstantBuffers.MarkAllDirty | app/src/main/cpp/skyline/gpu/interconnect/maxwell_3d/constant_buffers.cpp:29-31 | the selector must be looked up again |
| ConstantBuffers.ConstantBuffers.Bind | app/src/main/cpp/skyline/gpu/interconnect/maxwell_3d/constant_buffers.cpp:73-76 | only slot [stage, index] changes, to the selector's view |
| ConstantBuffers.ConstantBuffers.Unbind | app/src/main/cpp/skyline/gpu/interconnect/maxwell_3d/constant_buffers.cpp:78-80 | only slot [stage, index] changes, to the empty view |
| ConstantBuffers.ConstantBuffers.Load | app/src/main/cpp/skyline/gpu/interconnect/maxwell_3d/constant_buffers.cpp:38-71 | the buffer's state is LoadEffect; a copy command is returned iff the GPU copy path is taken, from the fresh megabuffer allocation of the data to the view's offset plus `offset` |
| ConstantBuffers.LoadInto | app/src/main/cpp/skyline/gpu/interconnect/maxwell_3d/constant_buffers.cpp:38-71 | the same load on the buffer directly: its state is LoadEffect at `dst`, and the copy command is returned iff the GPU copy path is taken, reading the fresh megabuffer allocation of the data |
| Maxwell3D.I32Of | app/src/main/cpp/skyline/gpu/interconnect/maxwell_3d/maxwell_3d.cpp:40-50 | the signed 32-bit reading of a 32-bit value |
| Maxwell3D.RectIntersection | app/src/main/cpp/skyline/gpu/interconnect/maxwell_3d/maxwell_3d.cpp:40-50 | the offset is the larger of the two; the extent is zero iff either far edge is at or before it |
| Maxwell3D.IntersectionContains | app/src/main/cpp/skyline/gpu/interconnect/maxwell_3d/maxwell_3d.cpp:40-50 | a point is in the intersection iff it is in both rectangles |
| Maxwell3D.IntersectionSymmetric | app/src/main/cpp/skyline/gpu/interconnect/maxwell_3d/maxwell_3d.cpp:40-50 | the intersection does not depend on argument order |
| Maxwell3D.ClipRect | app/src/main/cpp/skyline/gpu/interconnect/maxwell_3d/maxwell_3d.cpp:52-74 | the rectangle has the clip's offset and extent |
| Maxwell3D.BoundsRect | app/src/main/cpp/skyline/gpu/interconnect/maxwell_3d/maxwell_3d.cpp:60-66 | the rectangle starts at the minimum and reaches the maximum for ordered bounds |
| Maxwell3D.ClearScissor | app/src/main/cpp/skyline/gpu/interconnect/maxwell_3d/maxwell_3d.cpp:31-77 | the clear scissor is a valid rectangle |
| Maxwell3D.ClearScissorContains | app/src/main/cpp/skyline/gpu/interconnect/maxwell_3d/maxwell_3d.cpp:31-77 | a point is in the clear scissor iff it is in the surface clip and in each rectangle the clear control enables |
| Maxwell3D.GetClearScissor | app/src/main/cpp/skyline/gpu/interconnect/maxwell_3d/maxwell_3d.cpp:31-77 | the method computes ClearScissor step by step |
| Maxwell3D.SubpassClearCoversScissor | app/src/main/cpp/skyline/gpu/interconnect/maxwell_3d/maxwell_3d.cpp:99-103 | when no attachment clear command is needed, the scissor covers exactly the target and the clear touches a single layer |
| Maxwell3D.ColorClearAttachment | app/src/main/cpp/skyline/gpu/interconnect/maxwell_3d/maxwell_3d.cpp:123-124 | the colour clear entry clears the colour target with the colour clear value over all of the view's aspects |
| Maxwell3D.DepthStencilClearAttachment | app/src/main/cpp/skyline/gpu/interconnect/maxwell_3d/maxwell_3d.cpp:135-148 | the depth-stencil clear entry clears the depth-stencil target with the depth and stencil clear values over all of the view's aspects |
| Maxwell3D.Clear | app/src/main/cpp/skyline/gpu/interconnect/maxwell_3d/maxwell_3d.cpp:94-163 | an empty scissor issues nothing; otherwise the calls satisfy ClearsWithin for the scissor: each call at most once, in source order, with the register values, the final subpass last (see ClearTargets) |
| Maxwell3D.ClearTargets | app/src/main/cpp/skyline/gpu/interconnect/maxwell_3d/maxwell_3d.cpp:99-163 | the calls are exactly ClearTrace; they satisfy ClearsWithin: each call at most once, subpass clears with the register values, colour before depth-stencil, each attach before its subpass clear, the final subpass only last; the clear stops early iff a target lacks its aspects; the colour target is attached iff colour is enabled, the depth-stencil target iff depth or stencil is and the colour target did not end the clear; an enabled target with its aspects is cleared by a subpass iff it needs no clear command (for depth-stencil also: every aspect the view has is enabled), otherwise, and only then, by an entry of the final subpass; that subpass renders the surface clip, gives each entry the scissor on layer `rtArrayIndex`, holds the colour entry first and the depth-stencil entry last with the values and aspects of ColorClearAttachment and DepthStencilClearAttachment |
| Maxwell3D.ClearTraceIsWithin | app/src/main/cpp/skyline/gpu/interconnect/maxwell_3d/maxwell_3d.cpp:99-163 | the target-by-target trace of a clear satisfies ClearsWithin: order, uniqueness and values of the calls, the subpass-or-entry choice and the final subpass |
| Maxwell3D.ClearTraceInOrder | app/src/main/cpp/skyline/gpu/interconnect/maxwell_3d/maxwell_3d.cpp:99-163 | the trace's calls carry the register values and their ranks strictly increase |
| Maxwell3D.ClearTraceChoices | app/src/main/cpp/skyline/gpu/interconnect/maxwell_3d/maxwell_3d.cpp:99-152 | the trace attaches and subpass-clears exactly the targets the source does |
| Maxwell3D.ClearTraceFinal | app/src/main/cpp/skyline/gpu/interconnect/maxwell_3d/maxwell_3d.cpp:154-163 | a completed trace ends with the subpass holding exactly the entries of the targets not cleared by a subpass |
| Maxwell3D.CompletedClearCoversScissor | app/src/main/cpp/skyline/gpu/interconnect/maxwell_3d/maxwell_3d.cpp:99-162 | after a completed clear, every scissor point of each enabled target is cleared: by a subpass over the whole single-layer view containing the point, or by the target's entry whose rectangle is the scissor |
| Maxwell3D.DrawDescriptorSync | app/src/main/cpp/skyline/gpu/interconnect/maxwell_3d/maxwell_3d.cpp:172-180 | full sync when quick bind is off or the pipeline and bindings both changed; quick-bind sync only when one is pending; no sync otherwise |
| Maxwell3D.DescriptorSetsReused | app/src/main/cpp/skyline/gpu/interconnect/maxwell_3d/maxwell_3d.cpp:172-180 | with quick bind on and the same pipeline or matching bindings, no full sync happens |
| Fermi2D.IntegerPart | app/src/main/cpp/skyline/soc/gm20b/engines/fermi_2d.cpp:34-35 | the arithmetic shift by 32 is the floor of the 32.32 value |
| Fermi2D.I32 | app/src/main/cpp/skyline/soc/gm20b/engines/fermi_2d.cpp:34-38 | the conversion wraps into the signed 32-bit range and keeps values already there |
| Fermi2D.BlitFor | app/src/main/cpp/skyline/soc/gm20b/engines/fermi_2d.cpp:34-67 | the destination is the register rectangle; centre origin means a resolve over a source of destination size; otherwise the source is scaled by the step and starts half a step back (its meaning for sub-pixel starts and whole-number steps is FractionDiscarded and WholeNumberScale) |
| Fermi2D.FractionDiscarded | app/src/main/cpp/skyline/soc/gm20b/engines/fermi_2d.cpp:34-35 | sub-pixel source starts blit the same source as their integer part |
| Fermi2D.IntegerPartOffset | app/src/main/cpp/skyline/soc/gm20b/engines/fermi_2d.cpp:34-35 | adding a fraction to a whole 32.32 value leaves its integer part |
| Fermi2D.WholeNumberScale | app/src/main/cpp/skyline/soc/gm20b/engines/fermi_2d.cpp:54-59 | with a whole-number step, the source is step × destination size and starts half a step before the source start |
| Fermi2D.WholeIntegerPart | app/src/main/cpp/skyline/soc/gm20b/engines/fermi_2d.cpp:34-35 | a whole number in 32.32 has itself as integer part |
| Fermi2D.Fermi2D.constructor | app/src/main/cpp/skyline/soc/gm20b/engines/fermi_2d.cpp:9-13 | the register file starts zeroed |
| Fermi2D.Fermi2D.ReadMethodFromMacro | app/src/main/cpp/skyline/soc/gm20b/engines/fermi_2d.cpp:75-77 | the value is the register's |
| Fermi2D.Fermi2D.DeriveBlit | app/src/main/cpp/skyline/soc/gm20b/engines/fermi_2d.cpp:34-67 | the blit arguments computed step by step are BlitFor |
| Fermi2D.Fermi2D.HandleMethod | app/src/main/cpp/skyline/soc/gm20b/engines/fermi_2d.cpp:15-69 | only the written register changes; a blit starts iff the trigger register was written, from the register block after the write |
| Fermi2D.Fermi2D.CallMethodFromMacro | app/src/main/cpp/skyline/soc/gm20b/engines/fermi_2d.cpp:71-73 | a macro call behaves as HandleMethod |

## Left out

- Threads and locks are not modelled as concurrency. A contended lock, a signalled fence or a merge by another thread is a parameter of the operation that observes it. `Lock` requires a free lock because a single-threaded blocking acquire cannot wait.
- Memory management is not modelled. This covers the host allocator, the delegate allocator, the linear command allocator and the megabuffer allocator's chunks. An allocation is a slot (buffer, offset) and the allocator records what was pushed.
- `AcquireMegaBuffer` is declared in buffer.h but defined elsewhere, so it is not part of this model. Vertex and index megabuffer allocations are a parameter (`mega`).
- The command executor is not modelled: AttachBuffer, AttachTexture, AttachLockedBufferView, the flush callbacks and cycle management. The clear path records executor calls as values.
- Guest address translation and view lookups become parameters. This covers selector `UpdateGet`, `GetColorRenderTargetForClear`/`GetDepthRenderTargetForClear`, the SSBO descriptor read from a constant buffer, and `storageBufferViews[..].Update`.
- `ContextLock` is left out: `IsFirstUsage` is the `isFirstUsage` parameter.
- The quad-conversion index generator is left out. `IndexBufferState.Refresh` with quad conversion only records that a new generated binding is bound.
- Floating point is left out: the viewport transform, line width, depth bias, blend constants, depth bounds, and clear colour and depth values, which are opaque numbers.
- `FlushViewport` models only the swizzle check and the appended command, not the viewport values.
- The format tables are left out: colour and depth render-target formats, vertex attribute formats, and `ConvertShaderGenericInputType`.
- The blend op and blend factor conversions are left out, as are `SetAttachmentBlendState`, `GetAttachmentBlendState`, `SetColorRenderTargetFormat` and `SetTessellationParameters`.
- The texture descriptor writes and the texture and sampler lookups of SyncDescriptors are left out.
- The SyncDescriptors orchestration is not modelled as a whole. Modelled are the layout, the buffer writes and the per-descriptor uniform/storage binding. Left out are the buffer-info array, the quick-bind path (`SyncDescriptorsQuickBind`, `CheckBindingMatch`, `ResetQuickBind`) and the resizing of `storageBufferViews`. Only the Draw decision among full sync, quick-bind sync and none is modelled, as `DrawDescriptorSync`.
- `ActiveState::MarkAllDirty`, the dirty-tracking manager and the `DirtyBind` registrations are left out. Dirty tracking decides when flushes happen, not what they do.
- Engine constants whose headers are not part of this model are parameters or named constants: ZF32, the enum encodings, the shader-stage and constant-buffer counts, `MegaBufferTableMaxEntries`, `MegaBufferTableShiftMin` and `FrequentlySyncedThreshold`.
- `Buffers.Buffer.GuestBacked`: requires `0 < maxEntries <= guest size`. With a smaller guest, the source's unsigned `size / maxEntries - 1` wraps and the following shift is out of range.
- `MegaBufferTable.TableShift`: requires the same bound, for the same reason.
- `BufferViews.DelegateForest.Link`: requires that the source delegate's buffer is not the target's buffer, so no delegate is linked into its own chain. Callers of the source never do this, and there `GetBuffer` would follow the links forever; the model assumes it and does not cover that case.
- `ConstantBuffers.ConstantBuffers.Load`: takes the data as bytes; the source's `u32` span cast is not modelled. Load writes twice on the repeat path, advancing the sequence twice, as the source does.
- `Maxwell3D.RectIntersection`: computes the far edges with unbounded integers. The source's `i32` sums could overflow for extents near 2^31.
- `Fermi2D.BlitFor`: the 64-bit product of step and destination size is computed without wrap-around.
- `Fermi2D.BlitFor`: source start and step are taken as signed 64-bit values.
- `Fermi2D.Fermi2D.HandleMethod`: the register layout of the pixels-from-memory block comes from fermi_2d.h, which is not part of this model, so it is the `decode` parameter and `triggerMethod`.
- `Fermi2D.Fermi2D.HandleMethod`: an out-of-range method index is a precondition.
- The surface descriptors, `BlitContext::Blit` itself and the logging are left out.
- `BufferModel.SynchronizeHost` and the other transitions treat a trap event as a recorded value. The trap manager and page protection are not modelled.
- Recording produces `VkCall` values; no command buffer is modelled.

## Findings

| source | as written | input that shows it | evidently intended | confidence | as-written member | corrected member |
|---|---|---|---|---|---|---|
| app/src/main/cpp/skyline/gpu/buffer.cpp:295-299 | a replaced megabuffer entry keeps its old execution and sequence tags | any request whose tags differ from the entry's: the identical request right after it misses again | store the request's tags in the entry on replacement | not executed | MegaBufferTable.AsWrittenRepeatedRequestAllocatesAgain | MegaBufferTable.RepeatedLookupReuses |
| app/src/main/cpp/skyline/gpu/buffer.cpp:296 | an entry is reused when `region size + view offset >= size` | region of 16 bytes, view offset 12, size 8: reused, but only 4 bytes of the view are in the region | reuse only when `view offset + size <= region size` | not executed | MegaBufferTable.AsWrittenReuseAdmitsUncoveredView | MegaBufferTable.Lookup |
| app/src/main/cpp/skyline/gpu/buffer.cpp:87 | the table has `size >> shift` entries, rounded down | a guest size that is not a multiple of the shard size: its last byte indexes one past the table | one entry for the trailing partial shard too | not executed | MegaBufferTable.TrailingShardIndexIsOffTable | MegaBufferTable.CoveringEntryCountIndexesEveryOffset |
| app/src/main/cpp/skyline/gpu/interconnect/maxwell_3d/packed_pipeline_state.cpp:33-44 | the polygon-mode switch has no `break`, so every case falls into the throw | mode Fill | each case sets its mode and stops | not executed | PackedPipelineStates.AsWrittenPolygonModeFillThrows | PackedPipelineStates.ConvertPolygonModeBijective |
| app/src/main/cpp/skyline/gpu/interconnect/maxwell_3d/packed_pipeline_state.cpp:46-62 | the cull-mode switch has no `break`, so every enabled face falls into the throw | enable with face Back | each case sets its bits and stops | not executed | PackedPipelineStates.AsWrittenCullBackThrows | PackedPipelineStates.ConvertCullModeBits |
| app/src/main/cpp/skyline/gpu/interconnect/maxwell_3d/state_updater.h:296-311 | the transform-feedback commands never set `size`, so it stays 0 | any non-empty binding or view | bind the binding's or view's size | not executed | StateUpdates.AsWrittenTransformFeedbackCapturesNothing | StateUpdates.TransformFeedbackRecordsViewRange |
| app/src/main/cpp/skyline/gpu/interconnect/maxwell_3d/pipeline_manager.cpp:242 | the buffer total adds the running uniform and storage totals once per program | two programs with one uniform buffer each: total 3, layout holds 2 | add each program's own counts, giving the sum of the two totals | not executed | PipelineManagers.AsWrittenTotalBufferDescCountOvercounts | PipelineManagers.MakePipelineDescriptorInfo |
| app/src/main/cpp/skyline/gpu/interconnect/maxwell_3d/pipeline_manager.cpp:246 | the texel-buffer total adds the running uniform and storage texel-buffer totals once per program | two programs with one texel buffer each: total 3, layout holds 2 | add each program's own counts, giving the sum of the two totals | not executed | PipelineManagers.AsWrittenTotalTexelBufferDescCountOvercounts | PipelineManagers.MakePipelineDescriptorInfo |
| app/src/main/cpp/skyline/gpu/interconnect/maxwell_3d/pipeline_manager.cpp:250 | the image total adds the running sampler and storage image totals once per program | two programs with one storage image each: total 3, layout holds 2 | add each program's own counts, giving the sum of the two totals | not executed | PipelineManagers.AsWrittenTotalImageDescCountOvercounts | PipelineManagers.MakePipelineDescriptorInfo |
| app/src/main/cpp/skyline/gpu/interconnect/maxwell_3d/pipeline_manager.cpp:553-560 | the buffer writes use `bindingIdx`, which is never advanced, and the type's total over all programs as count | one program with a uniform and a storage buffer: the storage write targets binding 0, the uniform binding | advance the binding index past each group and use the program's own count | not executed | PipelineManagers.AsWrittenStorageWriteTargetsUniformBinding | PipelineManagers.BufferDescriptorWrites |
| app/src/main/cpp/skyline/gpu/interconnect/maxwell_3d/active_state.cpp:211-215 | the unsupported-swizzle check joins its tests with `&&`, so it throws only when every component is off | swizzle NegX, PosY, PosZ, PosW passes | throw when any component is unsupported | not executed | ActiveStates.AsWrittenSwizzleCheckAdmitsUnsupported | ActiveStates.SwizzleCheckRefinesAsWritten |

=== FILE: active_state.dfy ===
/**
 * The state that is flushed before every draw: vertex, index and
 * transform-feedback buffers, scissors, viewports and stencil values, and
 * the order in which ActiveState::Update visits them.
 *
 * The buffer manager's lookup of a guest address range is not part of this
 * model: each flush takes the view that lookup produced, and returns the
 * range it asks for. The megabuffer allocation that may stand in for a view
 * is likewise an input.
 */
module ActiveStates {
  import opened Wrappers
  import opened MegaBufferTable
  import opened BufferViews
  import opened VkTypes
  import opened MaxwellRegisters
  import opened StateUpdates
  import opened PipelineStates

  /* ---------------- Index buffer helpers ---------------- */

  datatype IndexSize = OneByte | TwoBytes | FourBytes | OtherIndexSize(raw: nat)

  /** The width in bytes of one index of a Vulkan index type. */
  function IndexWidth(t: IndexType): nat
  {
    match t
    case IndexUint8 => 1
    case IndexUint16 => 2
    case IndexUint32 => 4
  }

  /** The byte size of `elementCount` indices; the product is taken in 32 bits. */
  function GetIndexBufferSize(indexSize: IndexSize, elementCount: nat): (r: Result<nat>)
    ensures r.Failure? <==> indexSize.OtherIndexSize?
    ensures r.Success? ==> r.value < 0x1_0000_0000
  {
    match indexSize
    case OneByte => Success(U32(elementCount * 1))
    case TwoBytes => Success(U32(elementCount * 2))
    case FourBytes => Success(U32(elementCount * 4))
    case OtherIndexSize(_) => Failure("Unsupported index size enum value")
  }

  function ConvertIndexType(indexSize: IndexSize): (r: Result<IndexType>)
    ensures r.Failure? <==> indexSize.OtherIndexSize?
    ensures indexSize.OneByte? ==> r == Success(IndexUint8)
    ensures indexSize.TwoBytes? ==> r == Success(IndexUint16)
    ensures indexSize.FourBytes? ==> r == Success(IndexUint32)
  {
    match indexSize
    case OneByte => Success(IndexUint8)
    case TwoBytes => Success(IndexUint16)
    case FourBytes => Success(IndexUint32)
    case OtherIndexSize(_) => Failure("Unsupported index size enum value")
  }

  /**
   * The byte size and the index type agree: both fail on the same sizes,
   * and the size is the count times the width of the converted type,
   * exactly so while that product fits in 32 bits.
   */
  lemma IndexBufferSizeMatchesIndexType(indexSize: IndexSize, elementCount: nat)
    ensures GetIndexBufferSize(indexSize, elementCount).Success? <==> ConvertIndexType(indexSize).Success?
    ensures ConvertIndexType(indexSize).Success? ==>
              var width := IndexWidth(ConvertIndexType(indexSize).value);
              GetIndexBufferSize(indexSize, elementCount).value == U32(elementCount * width)
              && (elementCount * width < 0x1_0000_0000 ==> GetIndexBufferSize(indexSize, elementCount).value == elementCount * width)
  {
  }

  /** The binding an index or vertex buffer uses when its view is mirrored into a megabuffer, if it is. */
  function MegaBindingOf(mega: Option<AllocationSlot>, viewSize: nat): (b: BufferBinding)
    ensures b.Binding? <==> mega.Some?
    ensures mega.Some? ==> b == Binding(mega.value.buffer, mega.value.offset, viewSize)
  {
    match mega
    case Some(slot) => Binding(slot.buffer, slot.offset, viewSize)
    case None => NoBinding
  }

  /** The command SetIndexBuffer appends: the megabuffer binding when there is one, otherwise the view. */
  function IndexCommand(binding: BufferBinding, view: ViewCopy, indexType: IndexType): (c: Command)
    ensures binding.Binding? ==> c == Command.SetIndexBuffer(binding.buffer, binding.offset, indexType)
    ensures binding.NoBinding? ==> c == SetIndexBufferDynamic(view, indexType)
  {
    if binding.Binding? then Command.SetIndexBuffer(binding.buffer, binding.offset, indexType)
    else SetIndexBufferDynamic(view, indexType)
  }

  /** Binds the index buffer through `binding` when it is one, otherwise through the view. */
  method BindIndexThrough(builder: StateUpdateBuilder, forest: DelegateForest, binding: BufferBinding, view: BufferView,
                         indexType: IndexType)
    requires builder.Valid() && view.Resolvable(forest)
    modifies builder, builder.nodes, view.GetBuffer(forest)
    ensures builder.Valid() && builder.batch == old(builder.batch) && builder.nextBinding == old(builder.nextBinding)
    ensures builder.Commands() == old(builder.Commands()) + [IndexCommand(binding, CopyOf(view), indexType)]
  {
    if binding.Binding? {
      builder.SetIndexBuffer(binding, indexType);
    } else {
      builder.SetIndexBufferView(view, forest, indexType);
    }
  }

  class IndexBufferState {
    var usedElementCount: nat
    var usedQuadConversion: bool
    var megaBufferBinding: BufferBinding
    var indexType: IndexType
    var view: BufferView?

    constructor ()
      ensures usedElementCount == 0 && !usedQuadConversion && megaBufferBinding == NoBinding
      ensures indexType == IndexUint16 && view == null
    {
      usedElementCount := 0;
      usedQuadConversion := false;
      megaBufferBinding := NoBinding;
      indexType := IndexUint16;
      view := null;
    }

    /**
     * Records the draw's element count and quad-conversion mode, then binds
     * the index buffer at `address`: through the quad-conversion buffer
     * when converting, through a megabuffer copy when there is one, and
     * through the view otherwise. An unknown index size fails after the
     * element count and mode are recorded, before anything is bound.
     */
    method Flush(builder: StateUpdateBuilder, forest: DelegateForest, quadConversion: bool, elementCount: nat,
                 indexSize: IndexSize, address: nat, view: BufferView, mega: Option<AllocationSlot>,
                 quadAllocation: AllocationSlot, quadSize: nat)
      returns (outcome: Outcome, request: Option<(nat, nat)>)
      requires builder.Valid() && view.Resolvable(forest)
      modifies this, builder, builder.nodes, view.GetBuffer(forest)
      ensures builder.Valid() && builder.batch == old(builder.batch) && builder.nextBinding == old(builder.nextBinding)
      ensures usedElementCount == elementCount && usedQuadConversion == quadConversion
      ensures outcome.Fail? <==> indexSize.OtherIndexSize?
      ensures outcome.Fail? ==> request.None? && builder.Commands() == old(builder.Commands())
      ensures outcome.Pass? ==>
                request == Some((address, GetIndexBufferSize(indexSize, elementCount).value))
                && this.view == view && indexType == ConvertIndexType(indexSize).value
                && megaBufferBinding == (if quadConversion then Binding(quadAllocation.buffer, quadAllocation.offset, quadSize)
                                         else MegaBindingOf(mega, view.size))
                && builder.Commands() == old(builder.Commands()) + [IndexCommand(megaBufferBinding, CopyOf(view), indexType)]
    {
      var size := GetIndexBufferSize(indexSize, elementCount);
      usedElementCount, usedQuadConversion := elementCount, quadConversion;
      if size.Failure? {
        return Fail(size.error), None;
      }
      request := Some((address, size.value));
      var binding := if quadConversion then Binding(quadAllocation.buffer, quadAllocation.offset, quadSize)
                     else MegaBindingOf(mega, view.size);
      Rebind(builder, forest, view, ConvertIndexType(indexSize).value, binding);
      outcome := Pass;
    }

    /** Makes `view`, `indexType` and `binding` the bound index buffer and records its bind. */
    method Rebind(builder: StateUpdateBuilder, forest: DelegateForest, view: BufferView, indexType: IndexType, binding: BufferBinding)
      requires builder.Valid() && view.Resolvable(forest)
      modifies this, builder, builder.nodes, view.GetBuffer(forest)
      ensures builder.Valid() && builder.batch == old(builder.batch) && builder.nextBinding == old(builder.nextBinding)
      ensures this.view == view && this.indexType == indexType && megaBufferBinding == binding
      ensures usedElementCount == old(usedElementCount) && usedQuadConversion == old(usedQuadConversion)
      ensures builder.Commands() == old(builder.Commands()) + [IndexCommand(binding, CopyOf(view), indexType)]
    {
      this.view, this.indexType, megaBufferBinding := view, indexType, binding;
      BindIndexThrough(builder, forest, binding, view, indexType);
    }

    /**
     * Asks for a full flush when the draw uses more indices than were bound
     * or switches quad conversion; otherwise regenerates the quad-conversion
     * buffer, or renews a megabuffer binding, and rebinds.
     */
    method Refresh(builder: StateUpdateBuilder, forest: DelegateForest, quadConversion: bool, elementCount: nat,
                   mega: Option<AllocationSlot>, quadAllocation: AllocationSlot, quadSize: nat)
      returns (needsFlush: bool)
      requires builder.Valid() && view != null && view.Resolvable(forest)
      modifies this, builder, builder.nodes, view.GetBuffer(forest)
      ensures builder.Valid() && builder.batch == old(builder.batch) && builder.nextBinding == old(builder.nextBinding)
      ensures needsFlush <==> elementCount > old(usedElementCount) || quadConversion != old(usedQuadConversion)
      ensures usedElementCount == old(usedElementCount) && usedQuadConversion == old(usedQuadConversion)
      ensures view == old(view) && indexType == old(indexType)
      ensures needsFlush || (!usedQuadConversion && old(megaBufferBinding).NoBinding?) ==>
                megaBufferBinding == old(megaBufferBinding) && builder.Commands() == old(builder.Commands())
      ensures !needsFlush && usedQuadConversion ==>
                megaBufferBinding == Binding(quadAllocation.buffer, quadAllocation.offset, quadSize)
                && builder.Commands() == old(builder.Commands()) + [IndexCommand(megaBufferBinding, CopyOf(view), indexType)]
      ensures !needsFlush && !usedQuadConversion && old(megaBufferBinding).Binding? ==>
                megaBufferBinding == MegaBindingOf(mega, view.size)
                && builder.Commands() == old(builder.Commands()) + [IndexCommand(megaBufferBinding, CopyOf(view), indexType)]
    {
      if elementCount > usedElementCount {
        return true;
      }
      if quadConversion != usedQuadConversion {
        return true;
      }

      if usedQuadConversion {
        Rebind(builder, forest, view, indexType, Binding(quadAllocation.buffer, quadAllocation.offset, quadSize));
      } else if megaBufferBinding.Binding? {
        Rebind(builder, forest, view, indexType, MegaBindingOf(mega, view.size));
      }
      return false;
    }
  }

  /* ---------------- Vertex buffers ---------------- */

  datatype VertexStreamRegisters = VertexStreamRegisters(enable: bool, location: nat, limit: nat)

  /** A stream is bound to memory when it is enabled and its location is not null. */
  predicate StreamBound(regs: VertexStreamRegisters)
  {
    regs.enable && regs.location != 0
  }

  /**
   * The byte size of a vertex stream, whose limit register holds the
   * address of its last byte; the arithmetic is 64-bit.
   */
  function VertexBufferSize(location: nat, limit: nat): (size: nat)
    ensures size < 0x1_0000_0000_0000_0000
    ensures 0 < location <= limit < 0x1_0000_0000_0000_0000 ==> location + size == limit + 1
  {
    (limit - location + 1) % 0x1_0000_0000_0000_0000
  }

  class VertexBufferState {
    const index: nat
    var megaBufferBinding: BufferBinding
    var view: BufferView?

    constructor (index: nat)
      ensures this.index == index && megaBufferBinding == NoBinding && view == null
    {
      this.index := index;
      megaBufferBinding := NoBinding;
      view := null;
    }

    /**
     * Binds the stream's memory to vertex binding `index`, through a
     * megabuffer copy when there is one; an unbound stream gets the null
     * binding and forgets its megabuffer binding.
     */
    method Flush(builder: StateUpdateBuilder, forest: DelegateForest, regs: VertexStreamRegisters, view: BufferView,
                 mega: Option<AllocationSlot>)
      returns (request: Option<(nat, nat)>)
      requires builder.Valid() && index < VertexStreamCount
      requires StreamBound(regs) ==> view.Resolvable(forest)
      modifies this, builder, builder.nodes, if StreamBound(regs) then {view.GetBuffer(forest)} else {}
      ensures builder.Valid() && builder.nextBinding == index + 1
      ensures StreamBound(regs) ==>
                request == Some((regs.location, VertexBufferSize(regs.location, regs.limit)))
                && this.view == view && megaBufferBinding == MegaBindingOf(mega, view.size)
      ensures StreamBound(regs) && mega.Some? ==>
                builder.batch.kind == StaticBatch
                && builder.batch.buffers[index] == mega.value.buffer && builder.batch.offsets[index] == mega.value.offset
      ensures StreamBound(regs) && mega.None? ==> builder.batch.kind == DynamicBatch && builder.batch.views[index] == CopyOf(view)
      ensures !StreamBound(regs) ==>
                request.None? && this.view == old(this.view) && megaBufferBinding == NoBinding
                && builder.batch.kind == StaticBatch && builder.batch.buffers[index] == 0 && builder.batch.offsets[index] == 0
    {
      if StreamBound(regs) {
        request := Some((regs.location, VertexBufferSize(regs.location, regs.limit)));
        this.view := view;
        megaBufferBinding := MegaBindingOf(mega, view.size);
        if megaBufferBinding.Binding? {
          builder.SetVertexBuffer(index, megaBufferBinding);
        } else {
          builder.SetVertexBufferView(index, view, forest);
        }
      } else {
        request := None;
        megaBufferBinding := NoBinding;
        builder.SetVertexBuffer(index, NoBinding);
      }
    }

    /** Renews a megabuffer binding, falling back to the view; never asks for a full flush. */
    method Refresh(builder: StateUpdateBuilder, forest: DelegateForest, mega: Option<AllocationSlot>)
      returns (needsFlush: bool)
      requires builder.Valid() && index < VertexStreamCount
      requires megaBufferBinding.Binding? ==> view != null && view.Resolvable(forest)
      modifies this, builder, builder.nodes, if megaBufferBinding.Binding? then {view.GetBuffer(forest)} else {}
      ensures !needsFlush && builder.Valid() && view == old(view)
      ensures old(megaBufferBinding).NoBinding? ==>
                megaBufferBinding == NoBinding && builder.Commands() == old(builder.Commands())
                && builder.batch == old(builder.batch) && builder.nextBinding == old(builder.nextBinding)
      ensures old(megaBufferBinding).Binding? ==>
                megaBufferBinding == MegaBindingOf(mega, view.size) && builder.nextBinding == index + 1
      ensures old(megaBufferBinding).Binding? && mega.Some? ==>
                builder.batch.kind == StaticBatch
                && builder.batch.buffers[index] == mega.value.buffer && builder.batch.offsets[index] == mega.value.offset
      ensures old(megaBufferBinding).Binding? && mega.None? ==>
                builder.batch.kind == DynamicBatch && builder.batch.views[index] == CopyOf(view)
    {
      if megaBufferBinding.Binding? {
        megaBufferBinding := MegaBindingOf(mega, view.size);
        if megaBufferBinding.Binding? {
          builder.SetVertexBuffer(index, megaBufferBinding);
        } else {
          builder.SetVertexBufferView(index, view, forest);
        }
      }
      return false;
    }
  }

  /* ---------------- Transform feedback buffers ---------------- */

  datatype StreamOutRegisters = StreamOutRegisters(address: nat, loadWritePointerStartOffset: nat, size: nat)

  class TransformFeedbackBufferState {
    const index: nat
    var view: BufferView?

    constructor (index: nat)
      ensures this.index == index && view == null
    {
      this.index := index;
      view := null;
    }

    /**
     * With stream output enabled, binds the buffer's range from the write
     * pointer on (`view` is the lookup of that range, so it spans the
     * register's size, and so does the bound command), or, for a zero-sized buffer, an empty binding of a
     * megabuffer (a null buffer handle cannot be bound); with it disabled,
     * binds nothing.
     */
    method Flush(builder: StateUpdateBuilder, forest: DelegateForest, streamOutEnable: bool, regs: StreamOutRegisters,
                 view: BufferView, megaBuffer: nat)
      returns (request: Option<(nat, nat)>)
      requires builder.Valid()
      requires streamOutEnable && regs.size != 0 ==> view.Resolvable(forest) && view.size == regs.size
      modifies this, builder, builder.nodes, if streamOutEnable && regs.size != 0 then {view.GetBuffer(forest)} else {}
      ensures builder.Valid() && builder.batch == old(builder.batch) && builder.nextBinding == old(builder.nextBinding)
      ensures !streamOutEnable ==> request.None? && this.view == old(this.view) && builder.Commands() == old(builder.Commands())
      ensures streamOutEnable && regs.size != 0 ==>
                request == Some((regs.address + regs.loadWritePointerStartOffset, regs.size)) && this.view == view
                && builder.Commands() == old(builder.Commands()) + [TransformFeedbackViewCommand(index, CopyOf(view))]
                && builder.Commands()[|builder.Commands()| - 1].size == regs.size
      ensures streamOutEnable && regs.size == 0 ==>
                request.None? && this.view == old(this.view)
                && builder.Commands() == old(builder.Commands()) + [TransformFeedbackCommand(index, Binding(megaBuffer, 0, 0))]
    {
      request := None;
      if streamOutEnable {
        if regs.size != 0 {
          request := Some((regs.address + regs.loadWritePointerStartOffset, regs.size));
          this.view := view;
          builder.SetTransformFeedbackBufferView(index, view, forest);
        } else {
          builder.SetTransformFeedbackBuffer(index, Binding(megaBuffer, 0, 0));
        }
      }
    }
  }

  /* ---------------- Viewport swizzle ---------------- */

  datatype CoordinateSwizzle = PosX | NegX | PosY | NegY | PosZ | NegZ | PosW | NegW

  datatype ViewportSwizzle = ViewportSwizzle(x: CoordinateSwizzle, y: CoordinateSwizzle, z: CoordinateSwizzle, w: CoordinateSwizzle)

  /** The swizzles a host viewport can express: the identity, optionally with Y negated (a flip). */
  predicate SupportedSwizzle(s: ViewportSwizzle)
  {
    s == ViewportSwizzle(PosX, PosY, PosZ, PosW) || s == ViewportSwizzle(PosX, NegY, PosZ, PosW)
  }

  /** The swizzle guard of the viewport flush as written: it rejects only when every component is off. */
  function ViewportSwizzleCheckAsWritten(s: ViewportSwizzle): (r: Outcome)
    ensures SupportedSwizzle(s) ==> r.Pass?
  {
    if s.x != PosX && s.y != PosY && s.y != NegY && s.z != PosZ && s.w != PosW then Fail("Unsupported viewport swizzle")
    else Pass
  }

  /** A swizzle with only X negated is not expressible, yet the guard as written lets it through. */
  lemma AsWrittenSwizzleCheckAdmitsUnsupported()
    ensures var s := ViewportSwizzle(NegX, PosY, PosZ, PosW);
            ViewportSwizzleCheckAsWritten(s).Pass? && !SupportedSwizzle(s)
  {
  }

  /** The swizzle guard with its tests joined by "or": it passes exactly the expressible swizzles. */
  function ViewportSwizzleCheck(s: ViewportSwizzle): (r: Outcome)
    ensures r.Pass? <==> SupportedSwizzle(s)
  {
    if s.x != PosX || (s.y != PosY && s.y != NegY) || s.z != PosZ || s.w != PosW then Fail("Unsupported viewport swizzle")
    else Pass
  }

  /** The corrected guard rejects everything the written one rejects. */
  lemma SwizzleCheckRefinesAsWritten(s: ViewportSwizzle)
    ensures ViewportSwizzleCheck(s).Pass? ==> ViewportSwizzleCheckAsWritten(s).Pass?
  {
  }

  /** Flushes viewport `index` after checking its swizzle; the transform itself is floating point. */
  method FlushViewport(builder: StateUpdateBuilder, index: nat, swizzle: ViewportSwizzle) returns (outcome: Outcome)
    requires builder.Valid()
    modifies builder, builder.nodes
    ensures builder.Valid() && builder.batch == old(builder.batch) && builder.nextBinding == old(builder.nextBinding)
    ensures outcome.Pass? <==> SupportedSwizzle(swizzle)
    ensures outcome.Pass? ==> builder.Commands() == old(builder.Commands()) + [SetViewport(index)]
    ensures outcome.Fail? ==> builder.Commands() == old(builder.Commands())
  {
    outcome := ViewportSwizzleCheck(swizzle);
    if outcome.Pass? {
      builder.SetFixedFunctionState(SetViewport(index));
    }
  }

  /* ---------------- Scissors ---------------- */

  /** The scissor registers: 16-bit bounds, the maxima exclusive. */
  datatype ScissorRegisters = ScissorRegisters(enable: bool, xMin: nat, xMax: nat, yMin: nat, yMax: nat)

  predicate RectContains(r: Rect2D, px: int, py: int)
  {
    r.x <= px < r.x + r.width && r.y <= py < r.y + r.height
  }

  /**
   * The host scissor of a scissor register set. The extents are the
   * differences of the bounds converted to unsigned 32 bits, so inverted
   * bounds wrap around; a disabled scissor covers the largest signed
   * 32-bit extent from the origin.
   */
  function ScissorRect(s: ScissorRegisters): (r: Rect2D)
    ensures s.enable ==> r.x == s.xMin && r.y == s.yMin
    ensures s.enable && s.xMin <= s.xMax < 0x1_0000_0000 ==> r.x + r.width == s.xMax
    ensures s.enable && s.yMin <= s.yMax < 0x1_0000_0000 ==> r.y + r.height == s.yMax
    ensures s.enable && s.xMax < s.xMin < 0x1_0000_0000 ==> r.width == 0x1_0000_0000 - (s.xMin - s.xMax)
    ensures s.enable && s.yMax < s.yMin < 0x1_0000_0000 ==> r.height == 0x1_0000_0000 - (s.yMin - s.yMax)
    ensures !s.enable ==> r == Rect2D(0, 0, I32Max, I32Max)
  {
    if s.enable then Rect2D(s.xMin, s.yMin, U32(s.xMax - s.xMin), U32(s.yMax - s.yMin))
    else Rect2D(0, 0, I32Max, I32Max)
  }

  /** An enabled scissor with ordered bounds admits exactly the pixels inside its half-open bounds. */
  lemma ScissorRectCoversBounds(s: ScissorRegisters, px: int, py: int)
    requires s.enable && s.xMin <= s.xMax < 0x1_0000_0000 && s.yMin <= s.yMax < 0x1_0000_0000
    ensures RectContains(ScissorRect(s), px, py) <==> s.xMin <= px < s.xMax && s.yMin <= py < s.yMax
  {
  }

  method FlushScissor(builder: StateUpdateBuilder, index: nat, regs: ScissorRegisters)
    requires builder.Valid()
    modifies builder, builder.nodes
    ensures builder.Valid() && builder.batch == old(builder.batch) && builder.nextBinding == old(builder.nextBinding)
    ensures builder.Commands() == old(builder.Commands()) + [SetScissor(index, ScissorRect(regs))]
  {
    builder.SetFixedFunctionState(SetScissor(index, ScissorRect(regs)));
  }

  /* ---------------- Stencil values ---------------- */

  datatype StencilValues = StencilValues(funcRef: nat, funcMask: nat, mask: nat)

  function StencilCommand(faces: StencilFaces, v: StencilValues): (c: Command)
    ensures c.SetBaseStencilState? && c.faces == faces
    ensures c.funcRef == v.funcRef && c.funcMask == v.funcMask && c.mask == v.mask
  {
    SetBaseStencilState(faces, v.funcRef, v.funcMask, v.mask)
  }

  predicate FaceCovered(faces: StencilFaces, face: StencilFaces)
  {
    faces == face || faces == FaceFrontAndBack
  }

  /** The stencil commands of one flush: both faces at once, or front then back when two-sided. */
  function StencilCommands(twoSided: bool, front: StencilValues, back: StencilValues): (r: seq<Command>)
    ensures forall k | 0 <= k < |r| :: r[k].SetBaseStencilState?
  {
    if twoSided then [StencilCommand(FaceFront, front), StencilCommand(FaceBack, back)]
    else [StencilCommand(FaceFrontAndBack, front)]
  }

  /**
   * Each face is set by exactly one command, the front face from the front
   * values and the back face from the back values only when two-sided.
   */
  lemma StencilCommandsSetEachFaceOnce(twoSided: bool, front: StencilValues, back: StencilValues, face: StencilFaces)
    requires face != FaceFrontAndBack
    ensures var r := StencilCommands(twoSided, front, back);
            var v := if face == FaceBack && twoSided then back else front;
            exists k | 0 <= k < |r| :: FaceCovered(r[k].faces, face)
                                       && r[k].funcRef == v.funcRef && r[k].funcMask == v.funcMask && r[k].mask == v.mask
                                       && forall j | 0 <= j < |r| && FaceCovered(r[j].faces, face) :: j == k
  {
    var r := StencilCommands(twoSided, front, back);
    var k := if twoSided && face == FaceBack then 1 else 0;
    assert FaceCovered(r[k].faces, face);
  }

  method FlushStencilValues(builder: StateUpdateBuilder, twoSided: bool, front: StencilValues, back: StencilValues)
    requires builder.Valid()
    modifies builder, builder.nodes
    ensures builder.Valid() && builder.batch == old(builder.batch) && builder.nextBinding == old(builder.nextBinding)
    ensures builder.Commands() == old(builder.Commands()) + StencilCommands(twoSided, front, back)
  {
    var face := if twoSided then FaceFront else FaceFrontAndBack;
    builder.SetFixedFunctionState(StencilCommand(face, front));
    if twoSided {
      builder.SetFixedFunctionState(StencilCommand(FaceBack, back));
    }
  }

  /* ---------------- Update order ---------------- */

  datatype StateElement =
    | PipelineElement
    | VertexBufferElement(i: nat)
    | IndexBufferElement
    | TransformFeedbackElement(i: nat)
    | ViewportElement(i: nat)
    | ScissorElement(i: nat)
    | LineWidthElement | DepthBiasElement | BlendConstantsElement | DepthBoundsElement | StencilValuesElement

  /** The elements one update visits: all of them, the index buffer only for an indexed draw. */
  predicate Updated(e: StateElement, indexed: bool)
  {
    match e
    case VertexBufferElement(i) => i < VertexStreamCount
    case IndexBufferElement => indexed
    case TransformFeedbackElement(i) => i < StreamOutBufferCount
    case ViewportElement(i) => i < ViewportCount
    case ScissorElement(i) => i < ViewportCount
    case _ => true
  }

  /**
   * Where an element comes in the update: the pipeline first, then the
   * vertex buffers, the index buffer, transform feedback, viewports,
   * scissors and the remaining dynamic state.
   */
  function UpdatePosition(e: StateElement, indexed: bool): nat
  {
    var base := 1 + VertexStreamCount + (if indexed then 1 else 0);
    var rest := base + StreamOutBufferCount + 2 * ViewportCount;
    match e
    case PipelineElement => 0
    case VertexBufferElement(i) => 1 + i
    case IndexBufferElement => 1 + VertexStreamCount
    case TransformFeedbackElement(i) => base + i
    case ViewportElement(i) => base + StreamOutBufferCount + i
    case ScissorElement(i) => base + StreamOutBufferCount + ViewportCount + i
    case LineWidthElement => rest
    case DepthBiasElement => rest + 1
    case BlendConstantsElement => rest + 2
    case DepthBoundsElement => rest + 3
    case StencilValuesElement => rest + 4
  }

  function UpdateCount(indexed: bool): nat
  {
    1 + VertexStreamCount + (if indexed then 1 else 0) + StreamOutBufferCount + 2 * ViewportCount + 5
  }

  /** Distinct visited elements have distinct positions, all below the number of elements visited. */
  lemma UpdatePositionInjective(a: StateElement, b: StateElement, indexed: bool)
    requires Updated(a, indexed) && Updated(b, indexed)
    ensures UpdatePosition(a, indexed) < UpdateCount(indexed)
    ensures UpdatePosition(a, indexed) == UpdatePosition(b, indexed) ==> a == b
  {
  }

  class ActiveState {
    const inputAssembly: InputAssemblyState
    var pipelineDirty: bool

    constructor (inputAssembly: InputAssemblyState)
      ensures this.inputAssembly == inputAssembly && !pipelineDirty
    {
      this.inputAssembly := inputAssembly;
      pipelineDirty := false;
    }

    /**
     * Applies a changed topology to the input assembly (marking the pipeline
     * dirty), then visits the state elements in order. The index buffer is
     * visited only for an indexed draw, and is told to use quad conversion
     * exactly when the draw's topology is quads.
     */
    method Update(indexed: bool, topology: DrawTopology, drawElementCount: nat)
      returns (order: seq<StateElement>, indexArguments: Option<(bool, nat)>)
      modifies this, inputAssembly
      ensures inputAssembly.GetPrimitiveTopology() == topology
      ensures topology != old(inputAssembly.GetPrimitiveTopology()) ==>
                pipelineDirty && inputAssembly.topology == ConvertPrimitiveTopology(topology).0
                && inputAssembly.primitiveRestartEnable == old(inputAssembly.primitiveRestartEnable)
      ensures topology == old(inputAssembly.GetPrimitiveTopology()) ==>
                pipelineDirty == old(pipelineDirty) && inputAssembly.topology == old(inputAssembly.topology)
                && inputAssembly.primitiveRestartEnable == old(inputAssembly.primitiveRestartEnable)
      ensures indexArguments == (if indexed then Some((topology == Quads, drawElementCount)) else None)
      ensures |order| == UpdateCount(indexed)
      ensures forall k | 0 <= k < |order| :: Updated(order[k], indexed) && UpdatePosition(order[k], indexed) == k
      ensures forall e | Updated(e, indexed) :: UpdatePosition(e, indexed) < |order| && order[UpdatePosition(e, indexed)] == e
    {
      if topology != inputAssembly.GetPrimitiveTopology() {
        inputAssembly.SetPrimitiveTopology(topology);
        pipelineDirty := true;
      }

      if indexed {
        indexArguments := Some((inputAssembly.NeedsQuadConversion(), drawElementCount));
      } else {
        indexArguments := None;
      }
      order := UpdateOrder(indexed);
    }

    /**
     * The order in which Update visits the state elements: the pipeline,
     * every vertex buffer, the index buffer of an indexed draw, every
     * transform-feedback buffer, viewport and scissor, then the fixed
     * function values.
     */
    static method UpdateOrder(indexed: bool) returns (order: seq<StateElement>)
      ensures |order| == UpdateCount(indexed)
      ensures forall k | 0 <= k < |order| :: Updated(order[k], indexed) && UpdatePosition(order[k], indexed) == k
      ensures forall e | Updated(e, indexed) :: UpdatePosition(e, indexed) < |order| && order[UpdatePosition(e, indexed)] == e
    {
      order := [PipelineElement];
      for i := 0 to VertexStreamCount
        invariant |order| == 1 + i
        invariant forall k | 0 <= k < |order| :: Updated(order[k], indexed) && UpdatePosition(order[k], indexed) == k
      {
        order := order + [VertexBufferElement(i)];
      }
      if indexed {
        order := order + [IndexBufferElement];
      }
      ghost var base := |order|;
      for i := 0 to StreamOutBufferCount
        invariant |order| == base + i
        invariant forall k | 0 <= k < |order| :: Updated(order[k], indexed) && UpdatePosition(order[k], indexed) == k
      {
        order := order + [TransformFeedbackElement(i)];
      }
      base := |order|;
      for i := 0 to ViewportCount
        invariant |order| == base + i
        invariant forall k | 0 <= k < |order| :: Updated(order[k], indexed) && UpdatePosition(order[k], indexed) == k
      {
        order := order + [ViewportElement(i)];
      }
      base := |order|;
      for i := 0 to ViewportCount
        invariant |order| == base + i
        invariant forall k | 0 <= k < |order| :: Updated(order[k], indexed) && UpdatePosition(order[k], indexed) == k
      {
        order := order + [ScissorElement(i)];
      }
      order := order + [LineWidthElement, DepthBiasElement, BlendConstantsElement, DepthBoundsElement, StencilValuesElement];

      forall e | Updated(e, indexed)
        ensures UpdatePosition(e, indexed) < |order| && order[UpdatePosition(e, indexed)] == e
      {
        UpdatePositionInjective(e, e, indexed);
        UpdatePositionInjective(e, order[UpdatePosition(e, indexed)], indexed);
      }
    }
  }
}

=== FILE: buffer.dfy ===
/**
 * `Buffer`: a host buffer kept coherent with a guest memory range, updated in
 * place. Every method is proved to move the buffer's state exactly as the
 * matching transition of BufferModel does; the properties of those
 * transitions are proved there.
 */
module Buffers {
  import Wrappers
  import opened Memory
  import opened MegaBufferTable
  import opened BufferModel

  /** The ring-style megabuffer that views are copied into; only its next free offset is modelled. */
  class MegaBufferAllocator {
    const buffer: nat
    var used: nat
    ghost var pushed: seq<seq<byte>>

    constructor (buffer: nat)
      ensures this.buffer == buffer && used == 0 && pushed == []
    {
      this.buffer := buffer;
      used := 0;
      pushed := [];
    }

    function NextSlot(): AllocationSlot
      reads this
    {
      AllocationSlot(buffer, used)
    }

    /** A fresh allocation holding exactly `region`, placed after everything pushed before. */
    method Push(region: seq<byte>) returns (allocation: MegaBufferAllocation)
      modifies this
      ensures allocation == Allocation(buffer, old(used), region)
      ensures used == old(used) + |region| && pushed == old(pushed) + [region]
    {
      allocation := Allocation(buffer, used, region);
      used := used + |region|;
      pushed := pushed + [region];
    }
  }

  class Buffer {
    const id: nat
    const delegate: nat
    const megaBufferTableShift: nat
    const frequentlySyncedThreshold: nat

    var guest: Wrappers.Option<GuestSpan>
    var trapHandle: Wrappers.Option<nat>
    var mirror: seq<byte>
    var backing: seq<byte>
    var dirtyState: DirtyState
    var backingImmutability: BackingImmutability
    var sequenceNumber: nat
    var cycle: Wrappers.Option<FenceCycle>
    var everHadInlineUpdate: bool
    var locked: bool
    var tag: nat
    var megaBufferTable: seq<MegaBufferTableEntry>
    ghost var trapEvents: seq<TrapEvent>
    ghost var hostFlushes: nat

    ghost function State(): BufferState
      reads this
    {
      BufferState(guest, trapHandle.Some?, mirror, backing, dirtyState, backingImmutability, sequenceNumber,
                  cycle, everHadInlineUpdate, locked, tag, trapEvents, hostFlushes)
    }

    ghost predicate Valid()
      reads this
    {
      ValidState(State()) && RegionsInsideMirror(megaBufferTable, megaBufferTableShift, |mirror|)
    }

    /**
     * The guest-backed constructor. The table gets one entry per shard,
     * including a trailing partial shard.
     */
    constructor GuestBacked(id: nat, delegate: nat, guest: GuestSpan, backing: seq<byte>,
                            maxEntries: nat, shiftMin: nat, frequentlySyncedThreshold: nat)
      requires 0 < maxEntries <= guest.size && |backing| == guest.size
      ensures State() == ConstructGuestBacked(guest, backing)
      ensures this.id == id && this.delegate == delegate && this.frequentlySyncedThreshold == frequentlySyncedThreshold
      ensures megaBufferTableShift == TableShift(guest.size, maxEntries, shiftMin)
      ensures megaBufferTable == seq(CoveringEntryCount(guest.size, megaBufferTableShift), _ => EmptyEntry)
      ensures trapHandle.None?
    {
      this.id := id;
      this.delegate := delegate;
      this.frequentlySyncedThreshold := frequentlySyncedThreshold;
      var shift := TableShift(guest.size, maxEntries, shiftMin);
      megaBufferTableShift := shift;
      this.guest := Wrappers.Some(guest);
      trapHandle := Wrappers.None;
      mirror := [];
      this.backing := backing;
      dirtyState := CpuDirty;
      backingImmutability := None;
      sequenceNumber := InitialSequenceNumber;
      cycle := Wrappers.None;
      everHadInlineUpdate := false;
      locked := false;
      tag := 0;
      megaBufferTable := seq(CoveringEntryCount(guest.size, shift), _ => EmptyEntry);
      trapEvents := [];
      hostFlushes := 0;
    }

    /** The host-only constructor: no guest, no mirror, no megabuffer table. */
    constructor HostOnly(id: nat, delegate: nat, backing: seq<byte>)
      ensures State() == ConstructHostOnly(backing) && Valid()
      ensures this.id == id && this.delegate == delegate && megaBufferTable == [] && trapHandle.None?
    {
      this.id := id;
      this.delegate := delegate;
      megaBufferTableShift := 0;
      frequentlySyncedThreshold := 0;
      guest := Wrappers.None;
      trapHandle := Wrappers.None;
      mirror := [];
      this.backing := backing;
      dirtyState := Clean;
      backingImmutability := None;
      sequenceNumber := InitialSequenceNumber;
      cycle := Wrappers.None;
      everHadInlineUpdate := false;
      locked := false;
      tag := 0;
      megaBufferTable := [];
      trapEvents := [];
      hostFlushes := 0;
    }

    /** Maps the mirror over the guest range (whose current bytes are `guestContents`) and installs the traps. */
    method SetupGuestMappings(guestContents: seq<byte>, handle: nat)
      requires guest.Some? && trapHandle.None? && mirror == [] && |backing| == guest.value.size
      requires |guestContents| == guest.value.size && (!locked ==> tag == 0)
      requires forall i | 0 <= i < |megaBufferTable| :: megaBufferTable[i].allocation.NoAllocation?
      modifies this
      ensures Valid() && State() == BufferModel.SetupGuestMappings(old(State()), guestContents)
      ensures trapHandle == Wrappers.Some(handle) && megaBufferTable == old(megaBufferTable)
    {
      mirror := guestContents;
      trapHandle := Wrappers.Some(handle);
      trapEvents := trapEvents + [CreateTrap];
    }

    predicate SequencedCpuBackingWritesBlocked()
      reads this
    {
      backingImmutability == SequencedWrites || backingImmutability == AllWrites
    }

    predicate AllCpuBackingWritesBlocked()
      reads this
    {
      backingImmutability == AllWrites
    }

    method AdvanceSequence()
      modifies this
      ensures State() == BufferModel.AdvanceSequence(old(State())) && Valid() == old(Valid())
      ensures megaBufferTable == old(megaBufferTable) && trapHandle == old(trapHandle)
    {
      sequenceNumber := sequenceNumber + 1;
    }

    method BlockSequencedCpuBackingWrites()
      modifies this
      ensures State() == BufferModel.BlockSequencedCpuBackingWrites(old(State())) && Valid() == old(Valid())
      ensures megaBufferTable == old(megaBufferTable) && trapHandle == old(trapHandle)
    {
      if backingImmutability == None {
        backingImmutability := SequencedWrites;
      }
    }

    method BlockAllCpuBackingWrites()
      modifies this
      ensures State() == BufferModel.BlockAllCpuBackingWrites(old(State())) && Valid() == old(Valid())
      ensures megaBufferTable == old(megaBufferTable) && trapHandle == old(trapHandle)
    {
      backingImmutability := AllWrites;
    }

    method UpdateCycle(newCycle: FenceCycle)
      modifies this
      ensures State() == BufferModel.UpdateCycle(old(State()), newCycle) && Valid() == old(Valid())
      ensures megaBufferTable == old(megaBufferTable) && trapHandle == old(trapHandle)
    {
      var chained := newCycle.chained;
      if cycle.Some? {
        chained := chained + [cycle.value.id];
      }
      cycle := Wrappers.Some(newCycle.(chained := chained));
    }

    method WaitOnFence()
      modifies this
      ensures State() == BufferModel.WaitOnFence(old(State())) && Valid() == old(Valid())
      ensures megaBufferTable == old(megaBufferTable) && trapHandle == old(trapHandle)
    {
      if cycle.Some? {
        cycle := Wrappers.None;
      }
    }

    method PollFence(signalled: bool) returns (ready: bool)
      modifies this
      ensures (State(), ready) == BufferModel.PollFence(old(State()), signalled) && Valid() == old(Valid())
      ensures megaBufferTable == old(megaBufferTable) && trapHandle == old(trapHandle)
    {
      if cycle.None? {
        return true;
      }
      if signalled {
        cycle := Wrappers.None;
        return true;
      }
      return false;
    }

    method Invalidate()
      requires Valid()
      modifies this
      ensures State() == BufferModel.Invalidate(old(State())) && Valid()
      ensures megaBufferTable == old(megaBufferTable) && trapHandle.None?
    {
      if trapHandle.Some? {
        trapEvents := trapEvents + [DeleteTrap];
        trapHandle := Wrappers.None;
      }
      guest := Wrappers.None;
    }

    method SynchronizeHost(skipTrap: bool)
      requires Valid()
      modifies this
      ensures State() == BufferModel.SynchronizeHost(old(State()), skipTrap) && Valid()
      ensures megaBufferTable == old(megaBufferTable) && trapHandle == old(trapHandle)
    {
      if guest.None? {
        return;
      }
      if dirtyState != CpuDirty {
        return;
      }
      dirtyState := Clean;
      WaitOnFence();
      AdvanceSequence();
      if !skipTrap {
        trapEvents := trapEvents + [TrapRegions(true)];
      }
      backing := mirror;
    }

    method SynchronizeGuest(skipTrap: bool, nonBlocking: bool, signalled: bool) returns (synced: bool)
      requires Valid()
      modifies this
      ensures (State(), synced) == BufferModel.SynchronizeGuest(old(State()), skipTrap, nonBlocking, signalled) && Valid()
      ensures megaBufferTable == old(megaBufferTable) && trapHandle == old(trapHandle)
    {
      if guest.None? {
        return false;
      }
      if dirtyState != GpuDirty {
        return true;
      }
      if nonBlocking {
        var ready := PollFence(signalled);
        if !ready {
          return false;
        }
      }
      WaitOnFence();
      mirror := backing;
      dirtyState := Clean;
      if !skipTrap {
        trapEvents := trapEvents + [TrapRegions(true)];
      }
      return true;
    }

    method SynchronizeGuestImmediate(isFirstUsage: bool)
      requires Valid()
      modifies this
      ensures State() == BufferModel.SynchronizeGuestImmediate(old(State()), isFirstUsage) && Valid()
      ensures megaBufferTable == old(megaBufferTable) && trapHandle == old(trapHandle)
    {
      if !isFirstUsage {
        hostFlushes := hostFlushes + 1;
      }
      var _ := SynchronizeGuest(false, false, false);
    }

    method MarkGpuDirty()
      requires Valid()
      modifies this
      ensures State() == BufferModel.MarkGpuDirty(old(State())) && Valid()
      ensures megaBufferTable == old(megaBufferTable) && trapHandle == old(trapHandle)
    {
      if guest.None? {
        return;
      }
      if dirtyState == GpuDirty {
        return;
      }
      trapEvents := trapEvents + [TrapRegions(false)];
      if dirtyState == CpuDirty {
        SynchronizeHost(true);
      }
      dirtyState := GpuDirty;
      trapEvents := trapEvents + [PageOutRegions];
      BlockAllCpuBackingWrites();
      AdvanceSequence();
    }

    method Read(isFirstUsage: bool, offset: nat, size: nat) returns (data: seq<byte>)
      requires Valid() && offset + size <= |mirror|
      modifies this
      ensures (State(), data) == BufferModel.Read(old(State()), isFirstUsage, offset, size) && Valid()
      ensures megaBufferTable == old(megaBufferTable) && trapHandle == old(trapHandle)
    {
      if dirtyState == GpuDirty {
        SynchronizeGuestImmediate(isFirstUsage);
      }
      data := mirror[offset..offset + size];
    }

    /** The first half of `Write`: bumps the sequence and brings mirror and backing into a writable state. */
    method PrepareWrite(isFirstUsage: bool)
      requires Valid()
      modifies this
      ensures State() == BufferModel.PrepareWrite(old(State()), isFirstUsage) && Valid()
      ensures megaBufferTable == old(megaBufferTable) && trapHandle == old(trapHandle)
    {
      AdvanceSequence();
      everHadInlineUpdate := true;
      if dirtyState == GpuDirty {
        SynchronizeGuestImmediate(isFirstUsage);
      }
      if dirtyState == CpuDirty && SequencedCpuBackingWritesBlocked() {
        SynchronizeHost(false);
      }
    }

    /** The second half of `Write`: the mirror copy and the choice of how the backing gets the data. */
    method FinishWrite(hasCallback: bool, offset: nat, data: seq<byte>, signalled: bool) returns (outcome: WriteOutcome)
      requires Valid() && offset + |data| <= |mirror|
      modifies this
      ensures (State(), outcome) == BufferModel.FinishWrite(old(State()), hasCallback, offset, data, signalled) && Valid()
      ensures megaBufferTable == old(megaBufferTable) && trapHandle == old(trapHandle)
    {
      mirror := Splice(mirror, offset, data);
      if dirtyState == CpuDirty && !SequencedCpuBackingWritesBlocked() {
        return DeferredToHostSync;
      }
      var ready := false;
      if !SequencedCpuBackingWritesBlocked() {
        ready := PollFence(signalled);
      }
      if !SequencedCpuBackingWritesBlocked() && ready {
        backing := Splice(backing, offset, data);
        outcome := WroteBacking;
      } else if hasCallback {
        outcome := GpuCopy;
      } else {
        outcome := Repeat;
      }
    }

    method Write(isFirstUsage: bool, hasCallback: bool, offset: nat, data: seq<byte>, signalled: bool) returns (outcome: WriteOutcome)
      requires Valid() && offset + |data| <= |mirror|
      modifies this
      ensures (State(), outcome) == BufferModel.Write(old(State()), isFirstUsage, hasCallback, offset, data, signalled) && Valid()
      ensures megaBufferTable == old(megaBufferTable) && trapHandle == old(trapHandle)
    {
      PrepareWrite(isFirstUsage);
      outcome := FinishWrite(hasCallback, offset, data, signalled);
    }

    method GetReadOnlyBackingSpan(isFirstUsage: bool) returns (span: seq<byte>)
      requires Valid()
      modifies this
      ensures (State(), span) == BufferModel.GetReadOnlyBackingSpan(old(State()), isFirstUsage) && Valid()
      ensures megaBufferTable == old(megaBufferTable) && trapHandle == old(trapHandle)
    {
      if dirtyState == GpuDirty {
        SynchronizeGuestImmediate(isFirstUsage);
      }
      span := mirror;
    }

    method GetBackingSpan() returns (span: Wrappers.Result<seq<byte>>)
      ensures span == BufferModel.GetBackingSpan(State())
    {
      if guest.Some? {
        return Wrappers.Failure("Attempted to get a span of a guest-backed buffer");
      }
      return Wrappers.Success(backing);
    }

    /** The destructor's effect on the buffer's state. */
    method Destroy()
      requires Valid()
      modifies this
      ensures State() == BufferModel.Destroy(old(State()))
    {
      if trapHandle.Some? {
        trapEvents := trapEvents + [DeleteTrap];
      }
      var _ := SynchronizeGuest(true, false, false);
      WaitOnFence();
    }

    method Lock()
      requires !locked
      modifies this
      ensures State() == BufferModel.Lock(old(State())) && (old(Valid()) ==> Valid())
      ensures megaBufferTable == old(megaBufferTable) && trapHandle == old(trapHandle)
    {
      locked := true;
    }

    method TryLock(contended: bool) returns (acquired: bool)
      modifies this
      ensures (State(), acquired) == BufferModel.TryLock(old(State()), contended) && (old(Valid()) ==> Valid())
      ensures megaBufferTable == old(megaBufferTable) && trapHandle == old(trapHandle)
    {
      if contended || locked {
        return false;
      }
      locked := true;
      return true;
    }

    method LockWithTag(pTag: nat) returns (acquired: bool)
      requires Valid() && (pTag == 0 || pTag != tag ==> !locked)
      modifies this
      ensures (State(), acquired) == BufferModel.LockWithTag(old(State()), pTag) && Valid()
      ensures megaBufferTable == old(megaBufferTable) && trapHandle == old(trapHandle)
    {
      if pTag != 0 && pTag == tag {
        return false;
      }
      locked := true;
      tag := pTag;
      return true;
    }

    method Unlock()
      requires locked
      modifies this
      ensures State() == BufferModel.Unlock(old(State())) && (old(Valid()) ==> Valid())
      ensures megaBufferTable == old(megaBufferTable) && trapHandle == old(trapHandle)
    {
      tag := 0;
      backingImmutability := None;
      locked := false;
    }

    /** The trap callback that runs before any guest access to the trapped range. */
    method CoherentTrap()
      requires Valid() && (AllCpuBackingWritesBlocked() ==> !locked)
      modifies this
      ensures State() == BufferModel.CoherentTrap(old(State())) && Valid()
      ensures megaBufferTable == old(megaBufferTable) && trapHandle == old(trapHandle)
    {
      if AllCpuBackingWritesBlocked() {
        Lock();
        Unlock();
      }
    }

    /** The trap callback for a guest read; false asks the trap manager to retry. */
    method ReadTrap(stateContended: bool, contended: bool) returns (handled: bool)
      requires Valid()
      modifies this
      ensures (State(), handled) == BufferModel.ReadTrap(old(State()), stateContended, contended) && Valid()
      ensures megaBufferTable == old(megaBufferTable) && trapHandle == old(trapHandle)
    {
      if stateContended {
        return false;
      }
      if dirtyState != GpuDirty {
        return true;
      }
      var acquired := TryLock(contended);
      if !acquired {
        return false;
      }
      var _ := SynchronizeGuest(true, false, false);
      Unlock();
      return true;
    }

    /** The trap callback for a guest write; false asks the trap manager to retry. */
    method WriteTrap(stateContended: bool, contended: bool) returns (handled: bool)
      requires Valid()
      modifies this
      ensures (State(), handled) == BufferModel.WriteTrap(old(State()), stateContended, contended) && Valid()
      ensures megaBufferTable == old(megaBufferTable) && trapHandle == old(trapHandle)
    {
      if stateContended {
        return false;
      }
      if !AllCpuBackingWritesBlocked() && dirtyState != GpuDirty {
        dirtyState := CpuDirty;
        return true;
      }
      var acquired := TryLock(contended);
      if !acquired {
        return false;
      }
      WaitOnFence();
      var _ := SynchronizeGuest(true, false, false);
      dirtyState := CpuDirty;
      Unlock();
      return true;
    }

    /**
     * Serves `size` bytes at `offset` from the megabuffer when that is worth
     * it, reusing the shard's cached allocation when it covers the view.
     */
    method TryMegaBufferView(allocator: MegaBufferAllocator, executionNumber: nat, offset: nat, size: nat, signalled: bool)
      returns (binding: BufferBinding)
      requires Valid()
      requires guest.Some? ==> EntryIndex(offset, megaBufferTableShift) < |megaBufferTable| && offset + size <= |mirror|
      modifies this, allocator
      ensures Valid() && trapHandle == old(trapHandle)
      ensures var r := BufferModel.TryMegaBufferView(old(State()), old(megaBufferTable), megaBufferTableShift, frequentlySyncedThreshold,
                                                      executionNumber, offset, size, signalled, old(allocator.NextSlot()));
              State() == r.state && megaBufferTable == r.table && binding == r.binding
              && allocator.pushed == old(allocator.pushed)
                                     + (if r.pushed then [r.table[EntryIndex(offset, megaBufferTableShift)].allocation.region] else [])
    {
      var synced := SynchronizeGuest(false, true, signalled);
      if !synced {
        return NoBinding;
      }
      if !everHadInlineUpdate && sequenceNumber < frequentlySyncedThreshold {
        return NoBinding;
      }
      if size > MegaBufferingDisableThreshold {
        return NoBinding;
      }
      var entryIdx := offset / Pow2(megaBufferTableShift);
      var bufferEntryOffset := entryIdx * Pow2(megaBufferTableShift);
      var entryViewOffset := offset - bufferEntryOffset;
      assert entryViewOffset == EntryViewOffset(offset, megaBufferTableShift);
      var entry := megaBufferTable[entryIdx];
      if !Covers(entry, executionNumber, sequenceNumber, entryViewOffset, size) {
        var region := mirror[bufferEntryOffset..bufferEntryOffset + Max(entryViewOffset + size, RegionSize(entry.allocation))];
        var allocation := allocator.Push(region);
        megaBufferTable := megaBufferTable[entryIdx := MegaBufferTableEntry(allocation, executionNumber, sequenceNumber)];
      }
      var cached := megaBufferTable[entryIdx].allocation;
      binding := Binding(cached.buffer, cached.offset + entryViewOffset, size);
    }
  }
}

=== FILE: buffer_model.dfy ===
/**
 * The guest/host coherency state of one GPU buffer, as a value, and every
 * operation of `Buffer` as a transition over that value. The class in
 * buffer.dfy keeps the same state in fields and is proved against these
 * functions; the lemmas at the end state what the protocol promises across
 * several operations.
 *
 * Mutexes and fences are not modelled as threads: whether a try-lock finds the
 * mutex taken by another thread (`contended`) and whether a fence has been
 * signalled (`signalled`) are inputs. Calls into the trap manager are recorded
 * as `trapEvents`, calls of the host flush callback are counted in
 * `hostFlushes`.
 */
module BufferModel {
  import Wrappers
  import opened Memory
  import opened MegaBufferTable

  /** The sequence number every buffer starts with. */
  const InitialSequenceNumber: nat := 1

  /** Views larger than this are never megabuffered. */
  const MegaBufferingDisableThreshold: nat := 1024 * 128

  /** The state of the guest mirror relative to the host backing. */
  datatype DirtyState = Clean | CpuDirty | GpuDirty

  /** How far CPU writes to the backing are currently blocked. */
  datatype BackingImmutability = None | SequencedWrites | AllWrites

  /** A guest address range. */
  datatype GuestSpan = GuestSpan(address: nat, size: nat)
  {
    predicate Contains(mapping: GuestSpan)
    {
      address <= mapping.address && mapping.address + mapping.size <= address + size
    }
  }

  /** A fence cycle; `chained` holds the ids of the cycles it was chained to. */
  datatype FenceCycle = FenceCycle(id: nat, chained: seq<nat>)

  /** A call made into the trap manager. */
  datatype TrapEvent = CreateTrap | TrapRegions(writeOnly: bool) | PageOutRegions | DeleteTrap

  /** Outcome of `Buffer::Write`; only `Repeat` makes the source return true. */
  datatype WriteOutcome = DeferredToHostSync | WroteBacking | GpuCopy | Repeat

  datatype BufferState = BufferState(
    guest: Wrappers.Option<GuestSpan>,
    trapped: bool,                 // a trap handle is held
    mirror: seq<byte>,             // guest memory, through the CPU mirror mapping
    backing: seq<byte>,            // the host (GPU visible) buffer
    dirtyState: DirtyState,
    backingImmutability: BackingImmutability,
    sequenceNumber: nat,
    cycle: Wrappers.Option<FenceCycle>,
    everHadInlineUpdate: bool,
    locked: bool,                  // the buffer mutex is held
    tag: nat,                      // context tag of the holder, 0 is the empty tag
    trapEvents: seq<TrapEvent>,
    hostFlushes: nat)

  /**
   * A buffer with guest mappings set up has a trap, and mirror and backing both
   * span the guest range; a host-only buffer has no mirror. The tag is only
   * ever set while the mutex is held.
   */
  predicate ValidState(s: BufferState)
  {
    (s.guest.Some? ==> s.trapped && |s.backing| == s.guest.value.size && |s.mirror| == |s.backing|)
    && (s.trapped ==> s.guest.Some?)
    && (|s.mirror| == 0 || |s.mirror| == |s.backing|)
    && (!s.locked ==> s.tag == 0)
  }

  /** The state right after the guest-backed constructor, before its mappings are set up. */
  function ConstructGuestBacked(guest: GuestSpan, backing: seq<byte>): (s: BufferState)
    requires |backing| == guest.size
    ensures s.dirtyState == CpuDirty && s.backingImmutability == None
    ensures s.sequenceNumber == InitialSequenceNumber && !s.everHadInlineUpdate
    ensures s.guest == Wrappers.Some(guest) && !s.trapped && s.cycle.None? && !s.locked
  {
    BufferState(Wrappers.Some(guest), false, [], backing, CpuDirty, None, InitialSequenceNumber,
                Wrappers.None, false, false, 0, [], 0)
  }

  /** Creates the mirror of the guest range and installs the three traps over it. */
  function SetupGuestMappings(s: BufferState, guestContents: seq<byte>): (r: BufferState)
    requires s.guest.Some? && !s.trapped && s.mirror == [] && |s.backing| == s.guest.value.size
    requires |guestContents| == s.guest.value.size && (!s.locked ==> s.tag == 0)
    ensures ValidState(r) && r.trapped && r.mirror == guestContents
    ensures r.trapEvents == s.trapEvents + [CreateTrap]
    ensures r == s.(trapped := true, mirror := guestContents, trapEvents := r.trapEvents)
  {
    s.(trapped := true, mirror := guestContents, trapEvents := s.trapEvents + [CreateTrap])
  }

  /** A host-only buffer: no guest, no mirror, and Clean since there is nothing to be dirty against. */
  function ConstructHostOnly(backing: seq<byte>): (s: BufferState)
    ensures ValidState(s) && s.guest.None? && s.mirror == [] && s.backing == backing
    ensures s.dirtyState == Clean && s.backingImmutability == None && s.sequenceNumber == InitialSequenceNumber
  {
    BufferState(Wrappers.None, false, [], backing, Clean, None, InitialSequenceNumber,
                Wrappers.None, false, false, 0, [], 0)
  }

  predicate SequencedCpuBackingWritesBlocked(s: BufferState)
  {
    s.backingImmutability == SequencedWrites || s.backingImmutability == AllWrites
  }

  predicate AllCpuBackingWritesBlocked(s: BufferState)
  {
    s.backingImmutability == AllWrites
  }

  /** A cycle must be attached exactly when the GPU reads the backing in sequence. */
  predicate RequiresCycleAttach(s: BufferState)
  {
    SequencedCpuBackingWritesBlocked(s)
  }

  /** Blocking all writes blocks sequenced writes; only `None` leaves sequenced writes free. */
  lemma ImmutabilityLevelsNest(s: BufferState)
    ensures AllCpuBackingWritesBlocked(s) ==> SequencedCpuBackingWritesBlocked(s)
    ensures !SequencedCpuBackingWritesBlocked(s) <==> s.backingImmutability == None
    ensures RequiresCycleAttach(s) <==> SequencedCpuBackingWritesBlocked(s)
  {
  }

  function AdvanceSequence(s: BufferState): (r: BufferState)
    ensures r.sequenceNumber > s.sequenceNumber
    ensures r == s.(sequenceNumber := r.sequenceNumber)
  {
    s.(sequenceNumber := s.sequenceNumber + 1)
  }

  /** Raises `None` to `SequencedWrites`; never lowers `AllWrites`. */
  function BlockSequencedCpuBackingWrites(s: BufferState): (r: BufferState)
    ensures SequencedCpuBackingWritesBlocked(r)
    ensures AllCpuBackingWritesBlocked(r) == AllCpuBackingWritesBlocked(s)
    ensures SequencedCpuBackingWritesBlocked(s) ==> r == s
    ensures r == s.(backingImmutability := r.backingImmutability)
  {
    if s.backingImmutability == None then s.(backingImmutability := SequencedWrites) else s
  }

  function BlockAllCpuBackingWrites(s: BufferState): (r: BufferState)
    ensures AllCpuBackingWritesBlocked(r) && SequencedCpuBackingWritesBlocked(r)
    ensures r == s.(backingImmutability := r.backingImmutability)
  {
    s.(backingImmutability := AllWrites)
  }

  /** The new cycle replaces the old one, chained to it so that waiting on it covers both. */
  function UpdateCycle(s: BufferState, newCycle: FenceCycle): (r: BufferState)
    ensures r.cycle.Some? && r.cycle.value.id == newCycle.id
    ensures s.cycle.Some? ==> s.cycle.value.id in r.cycle.value.chained
    ensures r == s.(cycle := r.cycle)
  {
    var chained := if s.cycle.Some? then newCycle.chained + [s.cycle.value.id] else newCycle.chained;
    s.(cycle := Wrappers.Some(newCycle.(chained := chained)))
  }

  function WaitOnFence(s: BufferState): (r: BufferState)
    ensures r.cycle.None?
    ensures r == s.(cycle := r.cycle)
  {
    if s.cycle.Some? then s.(cycle := Wrappers.None) else s
  }

  /** True when no fence is pending or the pending one has signalled, which also forgets it. */
  function PollFence(s: BufferState, signalled: bool): (r: (BufferState, bool))
    ensures r.1 <==> s.cycle.None? || signalled
    ensures r.1 ==> r.0 == s.(cycle := Wrappers.None)
    ensures !r.1 ==> r.0 == s
  {
    if s.cycle.None? then (s, true)
    else if signalled then (s.(cycle := Wrappers.None), true)
    else (s, false)
  }

  /** Drops the trap and the guest range, so that no later sync touches guest memory. */
  function Invalidate(s: BufferState): (r: BufferState)
    requires ValidState(s)
    ensures ValidState(r) && r.guest.None? && !r.trapped
    ensures r.trapEvents == s.trapEvents + (if s.trapped then [DeleteTrap] else [])
    ensures r == s.(guest := Wrappers.None, trapped := false, trapEvents := r.trapEvents)
  {
    var s1 := if s.trapped then s.(trapEvents := s.trapEvents + [DeleteTrap], trapped := false) else s;
    s1.(guest := Wrappers.None)
  }

  /** Copies the CPU-dirty mirror into the backing. */
  function SynchronizeHost(s: BufferState, skipTrap: bool): (r: BufferState)
    requires ValidState(s)
    ensures ValidState(r)
    ensures !(s.guest.Some? && s.dirtyState == CpuDirty) ==> r == s
    ensures s.guest.Some? && s.dirtyState == CpuDirty ==>
              && r.dirtyState == Clean && r.cycle.None?
              && r.sequenceNumber == s.sequenceNumber + 1
              && r.backing == s.mirror && r.mirror == s.mirror
              && r.trapEvents == s.trapEvents + (if skipTrap then [] else [TrapRegions(true)])
              && r == s.(dirtyState := Clean, cycle := Wrappers.None, sequenceNumber := r.sequenceNumber,
                         backing := s.mirror, trapEvents := r.trapEvents)
  {
    if s.guest.None? || s.dirtyState != CpuDirty then s
    else
      var s1 := WaitOnFence(s.(dirtyState := Clean));
      var s2 := AdvanceSequence(s1);
      var s3 := if skipTrap then s2 else s2.(trapEvents := s2.trapEvents + [TrapRegions(true)]);
      s3.(backing := s3.mirror)
  }

  /**
   * Copies the GPU-dirty backing into the mirror. A non-blocking call gives up
   * when the pending fence has not signalled.
   */
  function SynchronizeGuest(s: BufferState, skipTrap: bool, nonBlocking: bool, signalled: bool): (r: (BufferState, bool))
    requires ValidState(s)
    ensures ValidState(r.0)
    ensures s.guest.None? ==> r == (s, false)
    ensures s.guest.Some? && s.dirtyState != GpuDirty ==> r == (s, true)
    ensures r.1 <==> s.guest.Some? && (s.dirtyState != GpuDirty || !nonBlocking || s.cycle.None? || signalled)
    ensures !r.1 ==> r.0.dirtyState == s.dirtyState && r.0.mirror == s.mirror && r.0.backing == s.backing
    ensures r.1 && s.dirtyState == GpuDirty ==>
              && r.0.dirtyState == Clean && r.0.cycle.None? && r.0.mirror == s.backing
              && r.0.trapEvents == s.trapEvents + (if skipTrap then [] else [TrapRegions(true)])
              && r.0 == s.(dirtyState := Clean, cycle := Wrappers.None, mirror := s.backing, trapEvents := r.0.trapEvents)
  {
    if s.guest.None? then (s, false)
    else if s.dirtyState != GpuDirty then (s, true)
    else
      var polled := if nonBlocking then PollFence(s, signalled) else (s, true);
      if !polled.1 then (polled.0, false)
      else
        var s1 := WaitOnFence(polled.0);
        var s2 := s1.(mirror := s1.backing, dirtyState := Clean);
        (if skipTrap then s2 else s2.(trapEvents := s2.trapEvents + [TrapRegions(true)]), true)
  }

  /** Flushes pending host GPU work unless this is the first usage, then syncs the guest, blocking. */
  function SynchronizeGuestImmediate(s: BufferState, isFirstUsage: bool): (r: BufferState)
    requires ValidState(s)
    ensures ValidState(r)
    ensures r.hostFlushes == s.hostFlushes + (if isFirstUsage then 0 else 1)
    ensures s.guest.Some? ==> r.dirtyState != GpuDirty && r.backing == s.backing && r.sequenceNumber == s.sequenceNumber
    ensures s.guest.Some? && s.dirtyState == GpuDirty ==> r.mirror == s.backing && r.dirtyState == Clean
    ensures s.guest.Some? && s.dirtyState != GpuDirty ==> r == s.(hostFlushes := r.hostFlushes)
    ensures s.guest.None? ==> r == s.(hostFlushes := r.hostFlushes)
  {
    var s1 := if isFirstUsage then s else s.(hostFlushes := s.hostFlushes + 1);
    SynchronizeGuest(s1, false, false, false).0
  }

  /**
   * Hands the buffer to the GPU: pending CPU writes reach the backing first,
   * the guest pages are trapped and paged out, every CPU backing write is
   * blocked and the sequence advances.
   */
  function MarkGpuDirty(s: BufferState): (r: BufferState)
    requires ValidState(s)
    ensures ValidState(r)
    ensures s.guest.None? || s.dirtyState == GpuDirty ==> r == s
    ensures s.guest.Some? && s.dirtyState != GpuDirty ==>
              && r.dirtyState == GpuDirty && r.backingImmutability == AllWrites
              && r.sequenceNumber == s.sequenceNumber + (if s.dirtyState == CpuDirty then 2 else 1)
              && r.mirror == s.mirror
              && r.backing == (if s.dirtyState == CpuDirty then s.mirror else s.backing)
              && r.trapEvents == s.trapEvents + [TrapRegions(false), PageOutRegions]
              && (s.dirtyState == CpuDirty ==> r.cycle.None?)
              && (s.dirtyState == Clean ==> r.cycle == s.cycle)
  {
    if s.guest.None? || s.dirtyState == GpuDirty then s
    else
      var s1 := s.(trapEvents := s.trapEvents + [TrapRegions(false)]);
      var s2 := if s1.dirtyState == CpuDirty then SynchronizeHost(s1, true) else s1;
      var s3 := s2.(dirtyState := GpuDirty, trapEvents := s2.trapEvents + [PageOutRegions]);
      AdvanceSequence(BlockAllCpuBackingWrites(s3))
  }

  /** Reads `size` bytes at `offset`, bringing GPU writes back into the mirror first. */
  function Read(s: BufferState, isFirstUsage: bool, offset: nat, size: nat): (r: (BufferState, seq<byte>))
    requires ValidState(s) && offset + size <= |s.mirror|
    ensures ValidState(r.0) && |r.0.mirror| == |s.mirror| && |r.1| == size
    ensures s.dirtyState != GpuDirty ==> r == (s, s.mirror[offset..offset + size])
    ensures s.dirtyState == GpuDirty && s.guest.Some? ==>
              r.1 == s.backing[offset..offset + size] && r.0.dirtyState == Clean
              && r.0.hostFlushes == s.hostFlushes + (if isFirstUsage then 0 else 1)
    ensures s.dirtyState == GpuDirty && s.guest.None? ==> r.1 == s.mirror[offset..offset + size]
    ensures r.0.backing == s.backing && r.0.sequenceNumber == s.sequenceNumber
  {
    var s1 := if s.dirtyState == GpuDirty then SynchronizeGuestImmediate(s, isFirstUsage) else s;
    (s1, s1.mirror[offset..offset + size])
  }

  /**
   * The condition under which `Write` copies straight into the backing: the
   * mirror was not left CPU dirty, sequenced writes are not blocked and no
   * fence is pending once the guest has been synchronised.
   */
  predicate WritesBackingDirectly(s: BufferState, signalled: bool)
  {
    s.dirtyState != CpuDirty && !SequencedCpuBackingWritesBlocked(s)
    && (signalled || s.cycle.None? || (s.dirtyState == GpuDirty && s.guest.Some?))
  }

  /**
   * The steps `Write` takes before touching the mirror: advance the sequence,
   * bring GPU writes back into the mirror, and push pending CPU writes to the
   * backing first when the backing is read in sequence by the GPU.
   */
  function PrepareWrite(s: BufferState, isFirstUsage: bool): (r: BufferState)
    requires ValidState(s)
    ensures ValidState(r) && |r.mirror| == |s.mirror| && |r.backing| == |s.backing|
    ensures r == s.(sequenceNumber := r.sequenceNumber, everHadInlineUpdate := true, mirror := r.mirror, backing := r.backing,
                    dirtyState := r.dirtyState, cycle := r.cycle, trapEvents := r.trapEvents, hostFlushes := r.hostFlushes)
    ensures r.sequenceNumber == s.sequenceNumber + 1 + (if PushesBeforeWrite(s) then 1 else 0)
    ensures r.hostFlushes == s.hostFlushes + (if s.dirtyState == GpuDirty && !isFirstUsage then 1 else 0)
    ensures r.trapEvents == s.trapEvents + (if PullsBeforeWrite(s) || PushesBeforeWrite(s) then [TrapRegions(true)] else [])
    // GPU writes are pulled into the mirror first
    ensures PullsBeforeWrite(s) ==>
              r.mirror == s.backing && r.backing == s.backing && r.dirtyState == Clean && r.cycle.None?
    // pending CPU writes are pushed to a backing the GPU reads in sequence
    ensures PushesBeforeWrite(s) ==>
              r.mirror == s.mirror && r.backing == s.mirror && r.dirtyState == Clean && r.cycle.None?
    // otherwise contents, dirty state and cycle are kept
    ensures !PullsBeforeWrite(s) && !PushesBeforeWrite(s) ==>
              r.mirror == s.mirror && r.backing == s.backing && r.dirtyState == s.dirtyState && r.cycle == s.cycle
    // a prepared guest-backed buffer needs neither synchronisation again
    ensures s.guest.Some? ==> !PullsBeforeWrite(r) && !PushesBeforeWrite(r)
  {
    var s1 := AdvanceSequence(s).(everHadInlineUpdate := true);
    var s2 := if s1.dirtyState == GpuDirty then SynchronizeGuestImmediate(s1, isFirstUsage) else s1;
    if s2.dirtyState == CpuDirty && SequencedCpuBackingWritesBlocked(s2) then SynchronizeHost(s2, false) else s2
  }

  /** Whether preparing a write first copies GPU writes from the backing into the mirror. */
  predicate PullsBeforeWrite(s: BufferState)
  {
    s.guest.Some? && s.dirtyState == GpuDirty
  }

  /** Whether preparing a write first copies pending CPU writes into a backing the GPU reads in sequence. */
  predicate PushesBeforeWrite(s: BufferState)
  {
    s.guest.Some? && s.dirtyState == CpuDirty && SequencedCpuBackingWritesBlocked(s)
  }

  /**
   * How a prepared write reaches the backing: later through SynchronizeHost
   * when the mirror is CPU dirty and the backing is not read in sequence;
   * straight into the backing when the backing is not read in sequence and
   * no fence is pending; otherwise by a GPU-side copy, which needs a copy
   * callback and without one asks the caller to repeat the write.
   */
  function WriteOutcomeOf(s: BufferState, hasCallback: bool, signalled: bool): (o: WriteOutcome)
    ensures o == DeferredToHostSync <==> s.dirtyState == CpuDirty && !SequencedCpuBackingWritesBlocked(s)
    ensures o == WroteBacking <==>
              s.dirtyState != CpuDirty && !SequencedCpuBackingWritesBlocked(s) && (s.cycle.None? || signalled)
    ensures (o == Repeat || o == GpuCopy) ==> (o == GpuCopy <==> hasCallback)
  {
    if s.dirtyState == CpuDirty && !SequencedCpuBackingWritesBlocked(s) then DeferredToHostSync
    else if !SequencedCpuBackingWritesBlocked(s) && (s.cycle.None? || signalled) then WroteBacking
    else if hasCallback then GpuCopy
    else Repeat
  }

  /** What `Write` does once the buffer is prepared: the mirror copy and the backing update WriteOutcomeOf chooses. */
  function FinishWrite(s: BufferState, hasCallback: bool, offset: nat, data: seq<byte>, signalled: bool): (r: (BufferState, WriteOutcome))
    requires ValidState(s) && offset + |data| <= |s.mirror|
    ensures ValidState(r.0) && r.0.mirror == Splice(s.mirror, offset, data)
    ensures r.0 == s.(mirror := r.0.mirror, backing := r.0.backing, cycle := r.0.cycle)
    ensures r.1 == WriteOutcomeOf(s, hasCallback, signalled)
    ensures r.1 != WroteBacking ==> r.0.backing == s.backing && r.0.cycle == s.cycle
    ensures r.1 == WroteBacking ==> r.0.backing == Splice(s.backing, offset, data) && r.0.cycle.None?
  {
    var outcome := WriteOutcomeOf(s, hasCallback, signalled);
    var written := s.(mirror := Splice(s.mirror, offset, data));
    if outcome == WroteBacking then
      // the fence poll succeeded, which drops the cycle
      (PollFence(written, signalled).0.(backing := Splice(s.backing, offset, data)), outcome)
    else (written, outcome)
  }

  /**
   * Writes `data` at `offset`: always into the mirror, and into the backing
   * either directly, later through SynchronizeHost, or by a GPU-side copy that
   * the caller records when it passed a copy callback; without one the caller
   * is asked to repeat the write with a callback.
   */
  function Write(s: BufferState, isFirstUsage: bool, hasCallback: bool, offset: nat, data: seq<byte>, signalled: bool): (r: (BufferState, WriteOutcome))
    requires ValidState(s) && offset + |data| <= |s.mirror|
    ensures ValidState(r.0) && |r.0.mirror| == |s.mirror| && |r.0.backing| == |s.backing|
    ensures r.0.sequenceNumber > s.sequenceNumber && r.0.everHadInlineUpdate
    ensures r.0.backingImmutability == s.backingImmutability && r.0.locked == s.locked && r.0.tag == s.tag
    ensures r.1 == DeferredToHostSync <==> s.dirtyState == CpuDirty && !SequencedCpuBackingWritesBlocked(s)
    ensures r.1 == WroteBacking <==> WritesBackingDirectly(s, signalled)
    ensures (r.1 == Repeat || r.1 == GpuCopy) ==> (r.1 == GpuCopy <==> hasCallback)
    ensures r.1 == DeferredToHostSync ==> r.0.dirtyState == CpuDirty
    // the mirror: the data over the mirror, or over the GPU writes pulled into it first
    ensures r.0.mirror == Splice(if PullsBeforeWrite(s) then s.backing else s.mirror, offset, data)
    // the backing: the data over it when written directly; otherwise it is left as is, or as the pushed mirror
    ensures r.1 == WroteBacking ==> r.0.backing == Splice(s.backing, offset, data)
    ensures r.1 != WroteBacking ==> r.0.backing == (if PushesBeforeWrite(s) then s.mirror else s.backing)
    // every other field is the one PrepareWrite leaves
    ensures var p := PrepareWrite(s, isFirstUsage);
            r.0 == p.(mirror := r.0.mirror, backing := r.0.backing, cycle := r.0.cycle)
  {
    FinishWrite(PrepareWrite(s, isFirstUsage), hasCallback, offset, data, signalled)
  }

  /** The mirror, with GPU writes brought back into it first. */
  function GetReadOnlyBackingSpan(s: BufferState, isFirstUsage: bool): (r: (BufferState, seq<byte>))
    requires ValidState(s)
    ensures ValidState(r.0) && r.1 == r.0.mirror
    ensures s.dirtyState != GpuDirty ==> r.0 == s
    ensures s.dirtyState == GpuDirty && s.guest.Some? ==> r.1 == s.backing && r.0.dirtyState == Clean
  {
    var s1 := if s.dirtyState == GpuDirty then SynchronizeGuestImmediate(s, isFirstUsage) else s;
    (s1, s1.mirror)
  }

  /** Only a host-only buffer may hand out its backing for direct access. */
  function GetBackingSpan(s: BufferState): (r: Wrappers.Result<seq<byte>>)
    ensures s.guest.Some? <==> r.Failure?
    ensures r.Success? ==> r.value == s.backing
  {
    if s.guest.Some? then Wrappers.Failure("Attempted to get a span of a guest-backed buffer")
    else Wrappers.Success(s.backing)
  }

  /** The destructor: drops the trap, writes GPU data back to the guest and waits for the GPU. */
  function Destroy(s: BufferState): (r: BufferState)
    requires ValidState(s)
    ensures r.cycle.None?
    ensures s.guest.Some? ==> r.dirtyState != GpuDirty
    ensures s.guest.Some? && s.dirtyState == GpuDirty ==> r.mirror == s.backing
    ensures r.trapEvents == s.trapEvents + (if s.trapped then [DeleteTrap] else [])
  {
    var s1 := if s.trapped then s.(trapEvents := s.trapEvents + [DeleteTrap]) else s;
    WaitOnFence(SynchronizeGuest(s1, true, false, false).0)
  }

  /** `lock()`: in this single-threaded model a blocking acquire finds the mutex free. */
  function Lock(s: BufferState): (r: BufferState)
    requires !s.locked
    ensures r.locked && r == s.(locked := true)
  {
    s.(locked := true)
  }

  /** `try_lock()` fails when the mutex is held, by this model or by another thread. */
  function TryLock(s: BufferState, contended: bool): (r: (BufferState, bool))
    ensures r.1 <==> !contended && !s.locked
    ensures r.1 ==> r.0 == s.(locked := true)
    ensures !r.1 ==> r.0 == s
  {
    if !contended && !s.locked then (s.(locked := true), true) else (s, false)
  }

  /**
   * Locking with the tag of the context that already holds the buffer does not
   * lock again and returns false; any other call acquires and records the tag.
   */
  function LockWithTag(s: BufferState, tag: nat): (r: (BufferState, bool))
    requires ValidState(s)
    requires tag == 0 || tag != s.tag ==> !s.locked
    ensures ValidState(r.0) && r.0.locked
    ensures !r.1 <==> tag != 0 && tag == s.tag
    ensures !r.1 ==> r.0 == s
    ensures r.1 ==> r.0 == s.(locked := true, tag := tag)
  {
    if tag != 0 && tag == s.tag then (s, false) else (s.(locked := true, tag := tag), true)
  }

  /** Releasing the mutex ends the context: the tag is cleared and backing writes are unblocked. */
  function Unlock(s: BufferState): (r: BufferState)
    requires s.locked
    ensures !r.locked && r.tag == 0 && !SequencedCpuBackingWritesBlocked(r)
    ensures r == s.(locked := false, tag := 0, backingImmutability := None)
  {
    s.(tag := 0, backingImmutability := None, locked := false)
  }

  /**
   * The trap callback run before guest accesses to trapped pages: while all
   * backing writes are blocked it waits for the buffer mutex (and releases it).
   */
  function CoherentTrap(s: BufferState): (r: BufferState)
    requires ValidState(s) && (AllCpuBackingWritesBlocked(s) ==> !s.locked)
    ensures ValidState(r)
    ensures !AllCpuBackingWritesBlocked(s) ==> r == s
    ensures AllCpuBackingWritesBlocked(s) ==> r == s.(backingImmutability := None, tag := 0)
  {
    if AllCpuBackingWritesBlocked(s) then Unlock(Lock(s)) else s
  }

  /**
   * The read trap: a guest read of a GPU-dirty buffer must see the GPU's
   * writes, so it syncs the guest when both locks can be taken and otherwise
   * reports failure so that the access is retried.
   */
  function ReadTrap(s: BufferState, stateContended: bool, contended: bool): (r: (BufferState, bool))
    requires ValidState(s)
    ensures ValidState(r.0)
    ensures r.1 <==> !stateContended && (s.dirtyState != GpuDirty || (!contended && !s.locked))
    ensures !r.1 || s.dirtyState != GpuDirty ==> r.0 == s
    ensures r.1 && s.dirtyState == GpuDirty && s.guest.Some? ==>
              r.0.dirtyState == Clean && r.0.mirror == s.backing && !r.0.locked && r.0.backingImmutability == None
  {
    if stateContended then (s, false)
    else if s.dirtyState != GpuDirty then (s, true)
    else
      var locked := TryLock(s, contended);
      if !locked.1 then (locked.0, false)
      else (Unlock(SynchronizeGuest(locked.0, true, false, false).0), true)
  }

  /**
   * The write trap: a guest write makes the mirror CPU dirty. When the backing
   * may be in use by the GPU it first takes the buffer mutex, waits on the
   * fence and syncs the guest so the GPU's writes are not lost.
   */
  function WriteTrap(s: BufferState, stateContended: bool, contended: bool): (r: (BufferState, bool))
    requires ValidState(s)
    ensures ValidState(r.0)
    ensures r.1 <==> !stateContended && ((!AllCpuBackingWritesBlocked(s) && s.dirtyState != GpuDirty) || (!contended && !s.locked))
    ensures !r.1 ==> r.0 == s
    ensures r.1 ==> r.0.dirtyState == CpuDirty
    ensures r.1 && !AllCpuBackingWritesBlocked(s) && s.dirtyState != GpuDirty ==> r.0 == s.(dirtyState := CpuDirty)
    ensures r.1 && (AllCpuBackingWritesBlocked(s) || s.dirtyState == GpuDirty) ==>
              r.0.cycle.None? && !r.0.locked && r.0.backingImmutability == None
              && (s.dirtyState == GpuDirty && s.guest.Some? ==> r.0.mirror == s.backing)
  {
    if stateContended then (s, false)
    else if !AllCpuBackingWritesBlocked(s) && s.dirtyState != GpuDirty then (s.(dirtyState := CpuDirty), true)
    else
      var locked := TryLock(s, contended);
      if !locked.1 then (locked.0, false)
      else
        var s1 := SynchronizeGuest(WaitOnFence(locked.0), true, false, false).0;
        (Unlock(s1.(dirtyState := CpuDirty)), true)
  }

  datatype MegaBufferResult = MegaBufferResult(state: BufferState, table: seq<MegaBufferTableEntry>, binding: BufferBinding, pushed: bool)

  /**
   * Tries to serve a view from the megabuffer: the guest must be syncable
   * without blocking, the buffer must be worth megabuffering and the view
   * small enough; the shard's cached allocation is then reused or replaced.
   */
  function TryMegaBufferView(s: BufferState, table: seq<MegaBufferTableEntry>, shift: nat, frequentlySyncedThreshold: nat,
                             executionNumber: nat, offset: nat, size: nat, signalled: bool, slot: AllocationSlot): (r: MegaBufferResult)
    requires ValidState(s)
    requires s.guest.Some? ==> EntryIndex(offset, shift) < |table| && offset + size <= |s.mirror|
    requires RegionsInsideMirror(table, shift, |s.mirror|)
    ensures ValidState(r.state) && |r.table| == |table| && RegionsInsideMirror(r.table, shift, |s.mirror|)
    ensures r.state == SynchronizeGuest(s, false, true, signalled).0
    ensures r.binding.Binding? <==>
              SynchronizeGuest(s, false, true, signalled).1
              && (s.everHadInlineUpdate || s.sequenceNumber >= frequentlySyncedThreshold)
              && size <= MegaBufferingDisableThreshold
    ensures r.binding.NoBinding? ==> r.table == table && !r.pushed
    ensures r.pushed ==> r.binding.Binding? && r.binding.buffer == slot.buffer
    ensures r.binding.Binding? ==>
              && r.binding.size == size
              && Covers(r.table[EntryIndex(offset, shift)], executionNumber, s.sequenceNumber, EntryViewOffset(offset, shift), size)
              && r.binding.buffer == r.table[EntryIndex(offset, shift)].allocation.buffer
              && r.binding.offset == r.table[EntryIndex(offset, shift)].allocation.offset + EntryViewOffset(offset, shift)
  {
    var synced := SynchronizeGuest(s, false, true, signalled);
    var s1 := synced.0;
    if !synced.1 then MegaBufferResult(s1, table, NoBinding, false)
    else if !s1.everHadInlineUpdate && s1.sequenceNumber < frequentlySyncedThreshold then MegaBufferResult(s1, table, NoBinding, false)
    else if size > MegaBufferingDisableThreshold then MegaBufferResult(s1, table, NoBinding, false)
    else
      var lookup := Lookup(table, shift, executionNumber, s1.sequenceNumber, offset, size, s1.mirror, slot);
      MegaBufferResult(s1, lookup.table, lookup.binding, lookup.pushed)
  }

  /** Every transition a buffer goes through, with its inputs. */
  datatype Operation =
    | OpMarkGpuDirty
    | OpSynchronizeHost(skipTrap: bool)
    | OpSynchronizeGuest(skipTrap: bool, nonBlocking: bool, signalled: bool)
    | OpRead(isFirstUsage: bool, offset: nat, size: nat)
    | OpWrite(isFirstUsage: bool, hasCallback: bool, offset: nat, data: seq<byte>, signalled: bool)
    | OpBlockSequenced
    | OpBlockAll
    | OpUpdateCycle(newCycle: FenceCycle)
    | OpPollFence(signalled: bool)
    | OpWaitOnFence
    | OpInvalidate
    | OpLockWithTag(tag: nat)
    | OpUnlock
    | OpCoherentTrap
    | OpReadTrap(stateContended: bool, contended: bool)
    | OpWriteTrap(stateContended: bool, contended: bool)

  /** Whether `op` may be applied to `s`: in-range accesses and lock discipline. */
  predicate Applicable(s: BufferState, op: Operation)
  {
    match op
    case OpRead(_, offset, size) => offset + size <= |s.mirror|
    case OpWrite(_, _, offset, data, _) => offset + |data| <= |s.mirror|
    case OpLockWithTag(tag) => tag == 0 || tag != s.tag ==> !s.locked
    case OpUnlock => s.locked
    case OpCoherentTrap => AllCpuBackingWritesBlocked(s) ==> !s.locked
    case _ => true
  }

  function Apply(s: BufferState, op: Operation): (r: BufferState)
    requires ValidState(s) && Applicable(s, op)
    ensures ValidState(r)
  {
    match op
    case OpMarkGpuDirty => MarkGpuDirty(s)
    case OpSynchronizeHost(skipTrap) => SynchronizeHost(s, skipTrap)
    case OpSynchronizeGuest(skipTrap, nonBlocking, signalled) => SynchronizeGuest(s, skipTrap, nonBlocking, signalled).0
    case OpRead(isFirstUsage, offset, size) => Read(s, isFirstUsage, offset, size).0
    case OpWrite(isFirstUsage, hasCallback, offset, data, signalled) => Write(s, isFirstUsage, hasCallback, offset, data, signalled).0
    case OpBlockSequenced => BlockSequencedCpuBackingWrites(s)
    case OpBlockAll => BlockAllCpuBackingWrites(s)
    case OpUpdateCycle(newCycle) => UpdateCycle(s, newCycle)
    case OpPollFence(signalled) => PollFence(s, signalled).0
    case OpWaitOnFence => WaitOnFence(s)
    case OpInvalidate => Invalidate(s)
    case OpLockWithTag(tag) => LockWithTag(s, tag).0
    case OpUnlock => Unlock(s)
    case OpCoherentTrap => CoherentTrap(s)
    case OpReadTrap(stateContended, contended) => ReadTrap(s, stateContended, contended).0
    case OpWriteTrap(stateContended, contended) => WriteTrap(s, stateContended, contended).0
  }

  /**
   * Whether `ops` can be applied one after the other, starting from the valid
   * state `s`: each operation only needs to be applicable to the state the
   * earlier ones leave, whose validity Apply guarantees.
   */
  predicate Runnable(s: BufferState, ops: seq<Operation>)
    requires ValidState(s)
    decreases |ops|
  {
    |ops| > 0 ==> Applicable(s, ops[0]) && Runnable(Apply(s, ops[0]), ops[1..])
  }

  function Run(s: BufferState, ops: seq<Operation>): (r: BufferState)
    requires ValidState(s) && Runnable(s, ops)
    ensures ValidState(r)
    decreases |ops|
  {
    if |ops| == 0 then s else Run(Apply(s, ops[0]), ops[1..])
  }

  /**
   * The sequence number never goes backwards, and every operation that changes
   * the backing moves it forward, so a cached copy tagged with a sequence
   * number is never stale while that number is current.
   */
  lemma {:induction false} SequenceTracksBackingChanges(s: BufferState, op: Operation)
    requires ValidState(s) && Applicable(s, op)
    ensures Apply(s, op).sequenceNumber >= s.sequenceNumber
    ensures Apply(s, op).backing != s.backing ==> Apply(s, op).sequenceNumber > s.sequenceNumber
  {
    match op
    case OpReadTrap(stateContended, contended) =>
      var r := ReadTrap(s, stateContended, contended);
      if r.1 && s.dirtyState == GpuDirty {
        assert r.0.backing == s.backing;
      }
    case OpWriteTrap(stateContended, contended) =>
      var r := WriteTrap(s, stateContended, contended);
      if r.1 && (AllCpuBackingWritesBlocked(s) || s.dirtyState == GpuDirty) {
        assert r.0.backing == s.backing;
      }
    case _ =>
  }

  /** The same holds over any run of operations: equal sequence numbers mean an unchanged backing. */
  lemma {:induction false} RunKeepsSequenceOrder(s: BufferState, ops: seq<Operation>)
    requires ValidState(s) && Runnable(s, ops)
    ensures Run(s, ops).sequenceNumber >= s.sequenceNumber
    ensures Run(s, ops).sequenceNumber == s.sequenceNumber ==> Run(s, ops).backing == s.backing
    decreases |ops|
  {
    if |ops| > 0 {
      SequenceTracksBackingChanges(s, ops[0]);
      RunKeepsSequenceOrder(Apply(s, ops[0]), ops[1..]);
    }
  }

  /**
   * Whatever path a write takes, reading the same range afterwards returns the
   * bytes just written.
   */
  lemma WriteThenReadReturnsData(s: BufferState, isFirstUsage: bool, hasCallback: bool, offset: nat, data: seq<byte>,
                                 signalled: bool, readFirstUsage: bool)
    requires ValidState(s) && offset + |data| <= |s.mirror|
    ensures var w := Write(s, isFirstUsage, hasCallback, offset, data, signalled).0;
            Read(w, readFirstUsage, offset, |data|).1 == data
  {
  }

  /**
   * Handing a buffer to the GPU and reading it back: after MarkGpuDirty a
   * blocking SynchronizeGuest succeeds and leaves the buffer Clean with the
   * mirror equal to the backing, whatever the GPU wrote in between.
   */
  lemma MarkGpuDirtyThenSynchronizeGuest(s: BufferState, gpuContents: seq<byte>, skipTrap: bool)
    requires ValidState(s) && s.guest.Some? && s.dirtyState != GpuDirty
    requires |gpuContents| == |s.backing|
    ensures var d := MarkGpuDirty(s);
            var g := SynchronizeGuest(d.(backing := gpuContents), skipTrap, false, false);
            g.1 && g.0.dirtyState == Clean && g.0.mirror == gpuContents && g.0.backing == gpuContents
            && g.0.backingImmutability == AllWrites
  {
  }

  /**
   * The two-step write used for constant buffer updates: when sequenced
   * writes are blocked, a write without a callback asks to be repeated and
   * the repeat with a callback is served by a GPU copy; the mirror holds the
   * data either way.
   */
  lemma RepeatedWriteWithCallbackCopiesOnGpu(s: BufferState, isFirstUsage: bool, offset: nat, data: seq<byte>, signalled: bool)
    requires ValidState(s) && offset + |data| <= |s.mirror| && SequencedCpuBackingWritesBlocked(s)
    ensures var first := Write(s, isFirstUsage, false, offset, data, signalled);
            var second := Write(first.0, isFirstUsage, true, offset, data, signalled);
            first.1 == Repeat && second.1 == GpuCopy && second.0.mirror[offset..offset + |data|] == data
  {
  }
}

=== FILE: buffer_view.dfy ===
/**
 * Buffer delegates and views. A delegate either owns a buffer or forwards to
 * another delegate at an offset; when buffers are merged, the old buffer's
 * delegate is linked to the new one so that existing views follow. The
 * delegates are kept in one forest indexed by delegate number; a ghost rank
 * that strictly decreases along every link shows the links never form a cycle.
 */
module BufferViews {
  import Wrappers
  import opened Memory
  import opened MegaBufferTable
  import opened BufferModel
  import opened Buffers

  datatype Delegate = Owning(buffer: Buffer) | Forwarding(link: nat, offset: nat)

  /** Every link points at a delegate of lower rank, and an owning delegate is its buffer's own delegate. */
  ghost predicate WellRanked(cells: map<nat, Delegate>, rank: map<nat, nat>)
  {
    forall d | d in cells ::
      d in rank
      && (cells[d].Owning? ==> cells[d].buffer.delegate == d)
      && (cells[d].Forwarding? ==> cells[d].link in cells && cells[d].link in rank && rank[cells[d].link] < rank[d])
  }

  /** The buffer a delegate stands for, following links. */
  function ResolveBuffer(cells: map<nat, Delegate>, ghost rank: map<nat, nat>, d: nat): (b: Buffer)
    requires WellRanked(cells, rank) && d in cells
    ensures b.delegate in cells && cells[b.delegate] == Owning(b)
    decreases rank[d]
  {
    match cells[d]
    case Owning(b) => b
    case Forwarding(link, _) => ResolveBuffer(cells, rank, link)
  }

  /** The offset of a delegate inside the buffer it stands for: the sum of the offsets along its links. */
  function ResolveOffset(cells: map<nat, Delegate>, ghost rank: map<nat, nat>, d: nat): nat
    requires WellRanked(cells, rank) && d in cells
    decreases rank[d]
  {
    match cells[d]
    case Owning(_) => 0
    case Forwarding(link, offset) => ResolveOffset(cells, rank, link) + offset
  }

  /** Links an owning delegate to `target`; linking a delegate twice is an error. */
  function LinkCells(cells: map<nat, Delegate>, d: nat, target: nat, offset: nat): (r: Wrappers.Result<map<nat, Delegate>>)
    requires d in cells
    ensures r.Failure? <==> cells[d].Forwarding?
    ensures r.Success? ==> r.value.Keys == cells.Keys && r.value[d] == Forwarding(target, offset)
                           && forall e | e in cells && e != d :: r.value[e] == cells[e]
  {
    if cells[d].Forwarding? then Wrappers.Failure("Cannot link a buffer delegate that is already linked!")
    else Wrappers.Success(cells[d := Forwarding(target, offset)])
  }

  /** The rank after linking buffer `b`'s delegate to `target`: every delegate that led to `b` is raised above `target`. */
  ghost function RelinkRank(cells: map<nat, Delegate>, rank: map<nat, nat>, b: Buffer, target: nat): map<nat, nat>
    requires WellRanked(cells, rank) && target in cells
  {
    map e | e in cells :: rank[e] + (if ResolveBuffer(cells, rank, e) == b then rank[target] + 1 else 0)
  }

  lemma LinkKeepsWellRanked(cells: map<nat, Delegate>, rank: map<nat, nat>, d: nat, target: nat, offset: nat)
    requires WellRanked(cells, rank) && d in cells && target in cells && cells[d].Owning?
    requires ResolveBuffer(cells, rank, target) != cells[d].buffer
    ensures WellRanked(cells[d := Forwarding(target, offset)], RelinkRank(cells, rank, cells[d].buffer, target))
  {
    var b := cells[d].buffer;
    var cells' := cells[d := Forwarding(target, offset)];
    var rank' := RelinkRank(cells, rank, b, target);
    forall e | e in cells'
      ensures e in rank'
      ensures cells'[e].Owning? ==> cells'[e].buffer.delegate == e
      ensures cells'[e].Forwarding? ==> cells'[e].link in cells' && cells'[e].link in rank' && rank'[cells'[e].link] < rank'[e]
    {
      if e == d {
        assert ResolveBuffer(cells, rank, d) == b;
      } else if cells[e].Forwarding? {
        assert ResolveBuffer(cells, rank, e) == ResolveBuffer(cells, rank, cells[e].link);
      }
    }
  }

  /** Delegates that did not lead to the relinked buffer resolve exactly as before. */
  lemma {:induction false} LinkKeepsOtherResolutions(cells: map<nat, Delegate>, rank: map<nat, nat>, d: nat, target: nat, offset: nat, e: nat)
    requires WellRanked(cells, rank) && d in cells && target in cells && cells[d].Owning?
    requires ResolveBuffer(cells, rank, target) != cells[d].buffer
    requires WellRanked(cells[d := Forwarding(target, offset)], RelinkRank(cells, rank, cells[d].buffer, target))
    requires e in cells && ResolveBuffer(cells, rank, e) != cells[d].buffer
    ensures ResolveBuffer(cells[d := Forwarding(target, offset)], RelinkRank(cells, rank, cells[d].buffer, target), e)
            == ResolveBuffer(cells, rank, e)
    ensures ResolveOffset(cells[d := Forwarding(target, offset)], RelinkRank(cells, rank, cells[d].buffer, target), e)
            == ResolveOffset(cells, rank, e)
    decreases rank[e]
  {
    var cells' := cells[d := Forwarding(target, offset)];
    var rank' := RelinkRank(cells, rank, cells[d].buffer, target);
    assert e != d by {
      assert ResolveBuffer(cells, rank, d) == cells[d].buffer;
    }
    match cells[e]
    case Owning(_) =>
    case Forwarding(link, _) =>
      LinkKeepsOtherResolutions(cells, rank, d, target, offset, link);
      assert ResolveBuffer(cells', rank', e) == ResolveBuffer(cells', rank', link);
  }

  /**
   * After the delegate of buffer `b` is linked to `target` at `offset`, every
   * delegate that led to `b` leads to `target`'s buffer, at its old offset plus
   * `offset` plus `target`'s own offset; every other delegate is unaffected.
   */
  lemma {:induction false} LinkRedirects(cells: map<nat, Delegate>, rank: map<nat, nat>, d: nat, target: nat, offset: nat, e: nat)
    requires WellRanked(cells, rank) && d in cells && target in cells && cells[d].Owning?
    requires ResolveBuffer(cells, rank, target) != cells[d].buffer
    requires e in cells
    ensures WellRanked(cells[d := Forwarding(target, offset)], RelinkRank(cells, rank, cells[d].buffer, target))
    ensures var cells', rank' := cells[d := Forwarding(target, offset)], RelinkRank(cells, rank, cells[d].buffer, target);
            if ResolveBuffer(cells, rank, e) == cells[d].buffer then
              ResolveBuffer(cells', rank', e) == ResolveBuffer(cells, rank, target)
              && ResolveOffset(cells', rank', e) == ResolveOffset(cells, rank, e) + offset + ResolveOffset(cells, rank, target)
            else
              ResolveBuffer(cells', rank', e) == ResolveBuffer(cells, rank, e)
              && ResolveOffset(cells', rank', e) == ResolveOffset(cells, rank, e)
    decreases rank[e]
  {
    LinkKeepsWellRanked(cells, rank, d, target, offset);
    var b := cells[d].buffer;
    var cells' := cells[d := Forwarding(target, offset)];
    var rank' := RelinkRank(cells, rank, b, target);
    if ResolveBuffer(cells, rank, e) != b {
      LinkKeepsOtherResolutions(cells, rank, d, target, offset, e);
    } else if e == d {
      LinkKeepsOtherResolutions(cells, rank, d, target, offset, target);
      assert ResolveOffset(cells, rank, d) == 0;
    } else {
      match cells[e]
      case Owning(_) =>
      case Forwarding(link, _) =>
        LinkRedirects(cells, rank, d, target, offset, link);
    }
  }

  /** The buffers owning a delegate of `cells`. */
  ghost function OwnedBuffers(cells: map<nat, Delegate>): set<Buffer>
  {
    set d | d in cells && cells[d].Owning? :: cells[d].buffer
  }

  /** Turning a delegate into a link can only remove a buffer from those owning a delegate. */
  lemma LinkShrinksOwned(cells: map<nat, Delegate>, d: nat, target: nat, offset: nat)
    requires d in cells
    ensures OwnedBuffers(cells[d := Forwarding(target, offset)]) <= OwnedBuffers(cells)
  {
    var cells' := cells[d := Forwarding(target, offset)];
    forall b | b in OwnedBuffers(cells')
      ensures b in OwnedBuffers(cells)
    {
      var e :| e in cells' && cells'[e].Owning? && cells'[e].buffer == b;
      assert e != d && cells[e] == cells'[e];
    }
  }

  /** `LinkRedirects` for every delegate of the forest at once. */
  lemma LinkRedirectsAll(cells: map<nat, Delegate>, rank: map<nat, nat>, d: nat, target: nat, offset: nat)
    requires WellRanked(cells, rank) && d in cells && target in cells && cells[d].Owning?
    requires ResolveBuffer(cells, rank, target) != cells[d].buffer
    ensures WellRanked(cells[d := Forwarding(target, offset)], RelinkRank(cells, rank, cells[d].buffer, target))
    ensures var cells', rank' := cells[d := Forwarding(target, offset)], RelinkRank(cells, rank, cells[d].buffer, target);
            forall e | e in cells' ::
              if ResolveBuffer(cells, rank, e) == cells[d].buffer then
                ResolveBuffer(cells', rank', e) == ResolveBuffer(cells, rank, target)
                && ResolveOffset(cells', rank', e) == ResolveOffset(cells, rank, e) + offset + ResolveOffset(cells, rank, target)
              else
                ResolveBuffer(cells', rank', e) == ResolveBuffer(cells, rank, e)
                && ResolveOffset(cells', rank', e) == ResolveOffset(cells, rank, e)
  {
    LinkKeepsWellRanked(cells, rank, d, target, offset);
    forall e | e in cells[d := Forwarding(target, offset)]
      ensures var cells', rank' := cells[d := Forwarding(target, offset)], RelinkRank(cells, rank, cells[d].buffer, target);
              if ResolveBuffer(cells, rank, e) == cells[d].buffer then
                ResolveBuffer(cells', rank', e) == ResolveBuffer(cells, rank, target)
                && ResolveOffset(cells', rank', e) == ResolveOffset(cells, rank, e) + offset + ResolveOffset(cells, rank, target)
              else
                ResolveBuffer(cells', rank', e) == ResolveBuffer(cells, rank, e)
                && ResolveOffset(cells', rank', e) == ResolveOffset(cells, rank, e)
    {
      LinkRedirects(cells, rank, d, target, offset, e);
    }
  }

  /** A delegate added to the forest changes the resolution of no existing delegate. */
  lemma {:induction false} AddKeepsResolutions(cells: map<nat, Delegate>, rank: map<nat, nat>, b: Buffer, e: nat)
    requires WellRanked(cells, rank) && b.delegate !in cells && e in cells
    requires WellRanked(cells[b.delegate := Owning(b)], rank[b.delegate := 0])
    ensures ResolveBuffer(cells[b.delegate := Owning(b)], rank[b.delegate := 0], e) == ResolveBuffer(cells, rank, e)
    ensures ResolveOffset(cells[b.delegate := Owning(b)], rank[b.delegate := 0], e) == ResolveOffset(cells, rank, e)
    decreases rank[e]
  {
    match cells[e]
    case Owning(_) =>
    case Forwarding(link, _) =>
      AddKeepsResolutions(cells, rank, b, link);
  }

  /** Every delegate in existence, with the links between them. */
  class DelegateForest {
    var cells: map<nat, Delegate>
    ghost var rank: map<nat, nat>

    ghost predicate Valid()
      reads this
    {
      WellRanked(cells, rank)
    }

    constructor ()
      ensures Valid() && cells == map[]
    {
      cells := map[];
      rank := map[];
    }

    function GetBuffer(d: nat): Buffer
      reads this
      requires Valid() && d in cells
    {
      ResolveBuffer(cells, rank, d)
    }

    function GetOffset(d: nat): nat
      reads this
      requires Valid() && d in cells
    {
      ResolveOffset(cells, rank, d)
    }

    /** The buffers that currently own a delegate. */
    ghost function Buffers(): set<Buffer>
      reads this
    {
      OwnedBuffers(cells)
    }

    /** Creates the delegate of a newly constructed buffer. */
    method Register(b: Buffer)
      requires Valid() && b.delegate !in cells
      modifies this
      ensures Valid() && cells == old(cells)[b.delegate := Owning(b)]
      ensures GetBuffer(b.delegate) == b && GetOffset(b.delegate) == 0
      ensures forall e | e in old(cells) :: GetBuffer(e) == old(GetBuffer(e)) && GetOffset(e) == old(GetOffset(e))
    {
      ghost var cells0, rank0 := cells, rank;
      cells := cells[b.delegate := Owning(b)];
      rank := rank[b.delegate := 0];
      forall e | e in cells0
        ensures ResolveBuffer(cells, rank, e) == ResolveBuffer(cells0, rank0, e)
        ensures ResolveOffset(cells, rank, e) == ResolveOffset(cells0, rank0, e)
      {
        AddKeepsResolutions(cells0, rank0, b, e);
      }
    }

    /**
     * Links delegate `d` to `target` at `offset`. Views through `d` then reach
     * `target`'s buffer; a second link of the same delegate is an error.
     */
    method Link(d: nat, target: nat, offset: nat) returns (outcome: Wrappers.Outcome)
      requires Valid() && d in cells && target in cells
      requires cells[d].Owning? ==> GetBuffer(target) != cells[d].buffer
      modifies this
      ensures Valid() && cells.Keys == old(cells.Keys) && Buffers() <= old(Buffers())
      ensures outcome.Fail? <==> old(cells[d]).Forwarding?
      ensures outcome.Fail? ==> cells == old(cells) && rank == old(rank)
      ensures outcome.Pass? ==> cells == LinkCells(old(cells), d, target, offset).value
      ensures outcome.Pass? ==> forall e | e in cells ::
                if old(GetBuffer(e)) == old(cells[d].buffer) then
                  GetBuffer(e) == old(GetBuffer(target)) && GetOffset(e) == old(GetOffset(e)) + offset + old(GetOffset(target))
                else
                  GetBuffer(e) == old(GetBuffer(e)) && GetOffset(e) == old(GetOffset(e))
    {
      var linked := LinkCells(cells, d, target, offset);
      if linked.Failure? {
        return Wrappers.Fail(linked.error);
      }
      LinkRedirectsAll(cells, rank, d, target, offset);
      LinkShrinksOwned(cells, d, target, offset);
      rank := RelinkRank(cells, rank, cells[d].buffer, target);
      cells := linked.value;
      return Wrappers.Pass;
    }
  }

  /** A merge done by another thread: `source`'s delegate is linked to `target` at `offset`. */
  datatype Merge = Merge(source: nat, target: nat, offset: nat)

  predicate MergeApplies(forest: DelegateForest, m: Merge)
    reads forest
    requires forest.Valid()
  {
    m.source in forest.cells && m.target in forest.cells && forest.cells[m.source].Owning?
    && forest.GetBuffer(m.target) != forest.cells[m.source].buffer
  }

  /** How a view locks its buffer: lock(), try_lock() or LockWithTag(tag). */
  datatype LockMode = Blocking | Try | Tagged(tag: nat)

  /** The buffer can be handed to the lock function of `mode` without waiting on another holder. */
  predicate Acquirable(b: Buffer, mode: LockMode)
    reads b
  {
    match mode
    case Blocking => !b.locked
    case Try => true
    case Tagged(t) => t == 0 || t != b.tag ==> !b.locked
  }

  /** `b` is valid and can be handed to the lock function of `mode`. */
  ghost predicate Ready(b: Buffer, mode: LockMode)
    reads b
  {
    b.Valid() && Acquirable(b, mode)
  }

  /** One call of the lock function of `mode` on `b`; the result is what that function returns. */
  method LockBuffer(b: Buffer, mode: LockMode, contended: bool) returns (result: bool)
    requires Ready(b, mode)
    modifies b
    ensures b.Valid()
    ensures mode.Blocking? ==> result
    ensures mode.Try? && !result ==> b.State() == old(b.State())
    ensures (!mode.Try? || result) ==> b.locked
    ensures mode.Tagged? ==> b.tag == mode.tag && (!result ==> mode.tag != 0)
  {
    match mode {
      case Blocking =>
        b.Lock();
        result := true;
      case Try =>
        result := b.TryLock(contended);
      case Tagged(t) =>
        result := b.LockWithTag(t);
    }
  }

  /** A merge done by another thread between the two reads of the view's buffer. */
  method ApplyMerge(forest: DelegateForest, m: Merge)
    requires forest.Valid() && MergeApplies(forest, m)
    modifies forest
    ensures forest.Valid() && forest.cells.Keys == old(forest.cells.Keys) && forest.Buffers() <= old(forest.Buffers())
  {
    var _ := forest.Link(m.source, m.target, m.offset);
  }

  class BufferView {
    var delegate: Wrappers.Option<nat>
    var offset: nat
    var size: nat

    /** The empty view, which converts to false. */
    constructor Empty()
      ensures delegate.None? && offset == 0 && size == 0
    {
      delegate := Wrappers.None;
      offset := 0;
      size := 0;
    }

    constructor (delegate: nat, offset: nat, size: nat)
      ensures this.delegate == Wrappers.Some(delegate) && this.offset == offset && this.size == size
    {
      this.delegate := Wrappers.Some(delegate);
      this.offset := offset;
      this.size := size;
    }

    predicate HasDelegate()
      reads this
    {
      delegate.Some?
    }

    ghost predicate Resolvable(forest: DelegateForest)
      reads this, forest
    {
      forest.Valid() && delegate.Some? && delegate.value in forest.cells
    }

    function GetBuffer(forest: DelegateForest): Buffer
      reads this, forest
      requires Resolvable(forest)
    {
      forest.GetBuffer(delegate.value)
    }

    function GetOffset(forest: DelegateForest): nat
      reads this, forest
      requires Resolvable(forest)
    {
      offset + forest.GetOffset(delegate.value)
    }

    /** Points the view straight at its buffer's own delegate; what the view denotes does not change. */
    method ResolveDelegate(forest: DelegateForest)
      requires Resolvable(forest)
      modifies this
      ensures Resolvable(forest) && size == old(size)
      ensures GetBuffer(forest) == old(GetBuffer(forest)) && GetOffset(forest) == old(GetOffset(forest))
      ensures forest.cells[delegate.value] == Owning(GetBuffer(forest))
    {
      var b := forest.GetBuffer(delegate.value);
      offset := offset + forest.GetOffset(delegate.value);
      delegate := Wrappers.Some(b.delegate);
    }

    /**
     * The locking loop: the buffer is read, locked, and read again; if
     * another thread merged it away in between (`merges[i]` on the i-th
     * attempt), the lock is dropped and the loop starts over. In `Try` mode a
     * contended lock (`contended[i]`) gives up at once.
     */
    method AcquireStable(forest: DelegateForest, mode: LockMode, contended: seq<bool>, merges: seq<Wrappers.Option<Merge>>)
      returns (result: bool)
      requires Resolvable(forest)
      requires forall x | x in forest.Buffers() :: Ready(x, mode)
      modifies forest, forest.Buffers()
      ensures Resolvable(forest) && forest.Buffers() <= old(forest.Buffers())
      ensures mode.Blocking? ==> result
      ensures (!mode.Try? || result) ==> GetBuffer(forest).locked
      ensures mode.Tagged? ==> GetBuffer(forest).tag == mode.tag && (!result ==> mode.tag != 0)
      ensures forall x | x in old(forest.Buffers()) && ((mode.Try? && !result) || x != GetBuffer(forest)) :: Ready(x, mode)
      ensures forall x | x in old(forest.Buffers()) :: x.Valid()
    {
      ghost var buffers0 := forest.Buffers();
      var attempt := 0;
      while true
        invariant Resolvable(forest)
        invariant forest.Buffers() <= buffers0
        invariant forall x | x in buffers0 :: Ready(x, mode)
        decreases |merges| - attempt
      {
        var merge := if attempt < |merges| then merges[attempt] else Wrappers.None;
        var done;
        result, done := LockAttempt(forest, mode, attempt < |contended| && contended[attempt], merge, buffers0);
        if done {
          return;
        }
        attempt := attempt + 1;
      }
    }

    /**
     * One pass of the locking loop over buffers `owned`: lock, let `merge`
     * happen, read the buffer again. Unless it is done, the lock is dropped
     * and every buffer is ready again; without a merge it is always done.
     */
    method LockAttempt(forest: DelegateForest, mode: LockMode, contended: bool, merge: Wrappers.Option<Merge>, ghost owned: set<Buffer>)
      returns (result: bool, done: bool)
      requires Resolvable(forest) && forest.Buffers() <= owned
      requires forall x | x in owned :: Ready(x, mode)
      modifies forest, owned
      ensures Resolvable(forest) && forest.Buffers() <= old(forest.Buffers())
      ensures merge.None? ==> done
      ensures forall x | x in owned :: x.Valid()
      ensures !done ==> forall x | x in owned :: Ready(x, mode)
      ensures done ==> mode.Blocking? ==> result
      ensures done ==> (!mode.Try? || result) ==> GetBuffer(forest).locked
      ensures done ==> mode.Tagged? ==> GetBuffer(forest).tag == mode.tag && (!result ==> mode.tag != 0)
      ensures done ==> forall x | x in owned && ((mode.Try? && !result) || x != GetBuffer(forest)) :: Ready(x, mode)
    {
      var pre := GetBuffer(forest);
      result := LockBuffer(pre, mode, contended);
      if mode.Try? && !result {
        return result, true;
      }
      if merge.Some? && MergeApplies(forest, merge.value) {
        ApplyMerge(forest, merge.value);
      }
      done := pre == GetBuffer(forest);
      if !done {
        pre.Unlock();
      }
    }

    /**
     * Locks the buffer behind the view, then resolves the delegate. The
     * result is the lock function's result: always true when blocking,
     * whether the lock was taken for `Try` and whether the tag was new for
     * `Tagged`.
     */
    method LockWithFunction(forest: DelegateForest, mode: LockMode, contended: seq<bool>, merges: seq<Wrappers.Option<Merge>>)
      returns (result: bool)
      requires Resolvable(forest)
      requires forall x | x in forest.Buffers() :: Ready(x, mode)
      modifies this, forest, forest.Buffers()
      ensures forest.Valid() && forest.Buffers() <= old(forest.Buffers()) && size == old(size)
      ensures old(delegate).Some? && old(delegate).value in forest.cells
      ensures mode.Blocking? ==> result
      ensures mode.Try? && !result ==> delegate == old(delegate) && offset == old(offset)
      ensures (!mode.Try? || result) ==>
                Resolvable(forest) && GetBuffer(forest).locked
                && forest.cells[delegate.value] == Owning(GetBuffer(forest))
                && GetBuffer(forest) == forest.GetBuffer(old(delegate).value)
                && GetOffset(forest) == old(offset) + forest.GetOffset(old(delegate).value)
      ensures mode.Tagged? ==> GetBuffer(forest).tag == mode.tag && (!result ==> mode.tag != 0)
      ensures forall x | x in old(forest.Buffers()) :: x.Valid()
      ensures forall x | x in old(forest.Buffers()) && ((mode.Try? && !result) || x != forest.GetBuffer(old(delegate).value)) ::
                Ready(x, mode)
    {
      result := AcquireStable(forest, mode, contended, merges);
      if !mode.Try? || result {
        ResolveDelegate(forest);
      }
    }

    method Unlock(forest: DelegateForest)
      requires Resolvable(forest) && GetBuffer(forest).locked
      modifies GetBuffer(forest)
      ensures GetBuffer(forest).State() == BufferModel.Unlock(old(GetBuffer(forest).State()))
    {
      GetBuffer(forest).Unlock();
    }

    /** Reads `size` bytes at `readOffset` into the view. */
    method Read(forest: DelegateForest, isFirstUsage: bool, readOffset: nat, size: nat) returns (data: seq<byte>)
      requires Resolvable(forest) && GetBuffer(forest).Valid()
      requires readOffset + GetOffset(forest) + size <= |GetBuffer(forest).mirror|
      modifies GetBuffer(forest)
      ensures GetBuffer(forest).Valid()
      ensures (GetBuffer(forest).State(), data)
              == BufferModel.Read(old(GetBuffer(forest).State()), isFirstUsage, readOffset + GetOffset(forest), size)
    {
      data := GetBuffer(forest).Read(isFirstUsage, readOffset + GetOffset(forest), size);
    }

    /** Writes `data` at `writeOffset` into the view; true asks the caller to repeat with a GPU copy callback. */
    method Write(forest: DelegateForest, isFirstUsage: bool, hasCallback: bool, data: seq<byte>, writeOffset: nat, signalled: bool)
      returns (repeat: bool)
      requires Resolvable(forest) && GetBuffer(forest).Valid()
      requires writeOffset + GetOffset(forest) + |data| <= |GetBuffer(forest).mirror|
      modifies GetBuffer(forest)
      ensures GetBuffer(forest).Valid()
      ensures var r := BufferModel.Write(old(GetBuffer(forest).State()), isFirstUsage, hasCallback, writeOffset + GetOffset(forest), data, signalled);
              GetBuffer(forest).State() == r.0 && (repeat <==> r.1 == Repeat)
    {
      var outcome := GetBuffer(forest).Write(isFirstUsage, hasCallback, writeOffset + GetOffset(forest), data, signalled);
      repeat := outcome == Repeat;
    }

    /** Megabuffers the view, or `sizeOverride` bytes of it when that is not zero. */
    method TryMegaBuffer(forest: DelegateForest, allocator: MegaBufferAllocator, executionNumber: nat, sizeOverride: nat, signalled: bool)
      returns (binding: BufferBinding)
      requires Resolvable(forest) && GetBuffer(forest).Valid()
      requires var b, n := GetBuffer(forest), if sizeOverride != 0 then sizeOverride else size;
               b.guest.Some? ==> EntryIndex(GetOffset(forest), b.megaBufferTableShift) < |b.megaBufferTable|
                                 && GetOffset(forest) + n <= |b.mirror|
      modifies GetBuffer(forest), allocator
      ensures GetBuffer(forest).Valid()
      ensures var b := GetBuffer(forest);
              var r := BufferModel.TryMegaBufferView(old(b.State()), old(b.megaBufferTable), b.megaBufferTableShift, b.frequentlySyncedThreshold,
                                                     executionNumber, GetOffset(forest), if sizeOverride != 0 then sizeOverride else size,
                                                     signalled, old(allocator.NextSlot()));
              b.State() == r.state && b.megaBufferTable == r.table && binding == r.binding
    {
      binding := GetBuffer(forest).TryMegaBufferView(allocator, executionNumber, GetOffset(forest),
                                                     if sizeOverride != 0 then sizeOverride else size, signalled);
    }

    /** The view's bytes of its buffer's mirror, with GPU writes brought back first. */
    method GetReadOnlyBackingSpan(forest: DelegateForest, isFirstUsage: bool) returns (span: seq<byte>)
      requires Resolvable(forest) && GetBuffer(forest).Valid()
      requires GetOffset(forest) + size <= |GetBuffer(forest).mirror|
      modifies GetBuffer(forest)
      ensures GetBuffer(forest).Valid()
      ensures var r := BufferModel.GetReadOnlyBackingSpan(old(GetBuffer(forest).State()), isFirstUsage);
              GetBuffer(forest).State() == r.0 && span == r.1[GetOffset(forest)..GetOffset(forest) + size]
    {
      var backing := GetBuffer(forest).GetReadOnlyBackingSpan(isFirstUsage);
      span := backing[GetOffset(forest)..GetOffset(forest) + size];
    }
  }

  /** A view of `size` bytes at `offset` of `buffer`. */
  method GetView(buffer: Buffer, offset: nat, size: nat) returns (view: BufferView)
    ensures fresh(view) && view.delegate == Wrappers.Some(buffer.delegate) && view.offset == offset && view.size == size
  {
    view := new BufferView(buffer.delegate, offset, size);
  }

  /** A view of the part of `buffer` that `mapping` covers, or the empty view when the buffer does not contain it. */
  method TryGetView(buffer: Buffer, mapping: GuestSpan) returns (view: BufferView)
    requires buffer.guest.Some?
    ensures fresh(view)
    ensures view.HasDelegate() <==> buffer.guest.value.Contains(mapping)
    ensures view.HasDelegate() ==>
              view.delegate == Wrappers.Some(buffer.delegate) && buffer.guest.value.address + view.offset == mapping.address
              && view.size == mapping.size
  {
    if buffer.guest.value.Contains(mapping) {
      view := GetView(buffer, mapping.address - buffer.guest.value.address, mapping.size);
    } else {
      view := new BufferView.Empty();
    }
  }
}

=== FILE: constant_buffers.dfy ===
/**
 * The constant buffers bound to each shader stage, and inline constant
 * buffer updates through the selector view. A load first writes without a
 * GPU copy callback and, only when the buffer asks for one, writes again
 * with a callback that records a GPU-side copy from a megabuffer allocation.
 */
module ConstantBuffers {
  import opened Wrappers
  import opened Memory
  import opened MegaBufferTable
  import opened Buffers
  import opened BufferViews
  import opened StateUpdates
  import BufferModel
  import opened MaxwellRegisters

  /** The GPU copy recorded outside the render pass: `size` bytes from the megabuffer into the view's backing. */
  datatype CopyCommand = CopyCommand(srcBuffer: nat, srcOffset: nat, dstBuffer: nat, dstOffset: nat, size: nat)

  datatype LoadResult = LoadResult(state: BufferModel.BufferState, copied: bool)

  /**
   * What a load does to the buffer behind the selector view: a write without
   * a callback and, when that asks to be repeated, a write with one, after
   * which a GPU copy blocks all CPU writes to the backing. The loaded bytes
   * always land in the mirror; the backing then holds them, or the buffer is
   * left CPU dirty for the next host sync, or the GPU copy carries them.
   */
  function LoadEffect(s: BufferModel.BufferState, isFirstUsage: bool, dst: nat, data: seq<byte>, signalled1: bool, signalled2: bool)
    : (r: LoadResult)
    requires BufferModel.ValidState(s) && dst + |data| <= |s.mirror|
    ensures BufferModel.ValidState(r.state) && |r.state.mirror| == |s.mirror| && |r.state.backing| == |s.backing|
    ensures r.state.mirror[dst..dst + |data|] == data
    ensures r.state.sequenceNumber > s.sequenceNumber && r.state.everHadInlineUpdate
    ensures r.copied ==> BufferModel.AllCpuBackingWritesBlocked(r.state)
    ensures !r.copied ==> r.state.backingImmutability == s.backingImmutability
    ensures !r.copied && |s.mirror| > 0 ==> r.state.backing[dst..dst + |data|] == data || r.state.dirtyState == BufferModel.CpuDirty
    ensures r.copied ==> BufferModel.Write(s, isFirstUsage, false, dst, data, signalled1).1 == BufferModel.Repeat
    ensures var p := BufferModel.PrepareWrite(s, isFirstUsage);
            && r.state.mirror == Splice(p.mirror, dst, data)
            && r.state.backing == (if !r.copied && r.state.dirtyState != BufferModel.CpuDirty then Splice(p.backing, dst, data)
                                   else p.backing)
  {
    var first := BufferModel.Write(s, isFirstUsage, false, dst, data, signalled1);
    if first.1 != BufferModel.Repeat then LoadResult(first.0, false)
    else
      var p := BufferModel.PrepareWrite(s, isFirstUsage);
      assert BufferModel.PrepareWrite(first.0, isFirstUsage).mirror == Splice(p.mirror, dst, data);
      SpliceTwice(p.mirror, dst, data);
      RepeatedWrite(first.0, isFirstUsage, dst, data, signalled2)
  }

  /** The second write of a load, with the GPU copy callback. */
  function RepeatedWrite(s: BufferModel.BufferState, isFirstUsage: bool, dst: nat, data: seq<byte>, signalled: bool): (r: LoadResult)
    requires BufferModel.ValidState(s) && dst + |data| <= |s.mirror|
    ensures BufferModel.ValidState(r.state) && |r.state.mirror| == |s.mirror| && |r.state.backing| == |s.backing|
    ensures r.state.mirror[dst..dst + |data|] == data
    ensures r.state.sequenceNumber > s.sequenceNumber && r.state.everHadInlineUpdate
    ensures r.copied ==> BufferModel.AllCpuBackingWritesBlocked(r.state)
    ensures !r.copied ==> r.state.backingImmutability == s.backingImmutability
    ensures !r.copied && |s.mirror| > 0 ==> r.state.backing[dst..dst + |data|] == data || r.state.dirtyState == BufferModel.CpuDirty
    ensures var p := BufferModel.PrepareWrite(s, isFirstUsage);
            && r.state.mirror == Splice(p.mirror, dst, data)
            && r.state.backing == (if !r.copied && r.state.dirtyState != BufferModel.CpuDirty then Splice(p.backing, dst, data)
                                   else p.backing)
  {
    var second := BufferModel.Write(s, isFirstUsage, true, dst, data, signalled);
    if second.1 == BufferModel.GpuCopy then LoadResult(BufferModel.BlockAllCpuBackingWrites(second.0), true)
    else LoadResult(second.0, false)
  }

  /** The write with a callback never asks to be repeated, so a load needs at most two writes. */
  lemma SecondWriteNeverRepeats(s: BufferModel.BufferState, isFirstUsage: bool, dst: nat, data: seq<byte>, signalled: bool)
    requires BufferModel.ValidState(s) && dst + |data| <= |s.mirror|
    ensures BufferModel.Write(s, isFirstUsage, true, dst, data, signalled).1 != BufferModel.Repeat
  {
  }

  class ConstantBuffers {
    /** The view bound at each [stage, slot]; the empty view when unbound. */
    const boundConstantBuffers: array2<ViewCopy>
    /** Whether the selector view must be looked up again before its next use. */
    var selectorDirty: bool

    ghost predicate Valid()
      reads this
    {
      boundConstantBuffers.Length0 == ShaderStageCount && boundConstantBuffers.Length1 == ShaderStageConstantBufferCount
    }

    constructor ()
      ensures Valid() && fresh(boundConstantBuffers) && selectorDirty
      ensures forall stage, index | 0 <= stage < ShaderStageCount && 0 <= index < ShaderStageConstantBufferCount ::
                boundConstantBuffers[stage, index] == NullView
    {
      boundConstantBuffers := new ViewCopy[ShaderStageCount, ShaderStageConstantBufferCount]((_, _) => NullView);
      selectorDirty := true;
    }

    /** Forces the selector view to be looked up again, as after an executor flush. */
    method MarkAllDirty()
      modifies this
      ensures selectorDirty
    {
      selectorDirty := true;
    }

    /** Binds the selector's view to [stage, index]; no other slot changes. */
    method Bind(stage: nat, index: nat, selectorView: BufferView)
      requires Valid() && stage < ShaderStageCount && index < ShaderStageConstantBufferCount
      modifies boundConstantBuffers
      ensures boundConstantBuffers[stage, index] == CopyOf(selectorView)
      ensures forall s, i | 0 <= s < ShaderStageCount && 0 <= i < ShaderStageConstantBufferCount && (s != stage || i != index) ::
                boundConstantBuffers[s, i] == old(boundConstantBuffers[s, i])
    {
      boundConstantBuffers[stage, index] := CopyOf(selectorView);
    }

    /** Stores the empty view at [stage, index]; no other slot changes. */
    method Unbind(stage: nat, index: nat)
      requires Valid() && stage < ShaderStageCount && index < ShaderStageConstantBufferCount
      modifies boundConstantBuffers
      ensures boundConstantBuffers[stage, index] == NullView
      ensures forall s, i | 0 <= s < ShaderStageCount && 0 <= i < ShaderStageConstantBufferCount && (s != stage || i != index) ::
                boundConstantBuffers[s, i] == old(boundConstantBuffers[s, i])
    {
      boundConstantBuffers[stage, index] := NullView;
    }

    /**
     * Loads `data` at `offset` of the selector view. The returned command is
     * the GPU copy the callback records, present exactly when the second
     * write took the callback path: its source is a fresh megabuffer
     * allocation holding `data`, its destination the view's offset plus
     * `offset`.
     */
    method Load(forest: DelegateForest, view: BufferView, allocator: MegaBufferAllocator, isFirstUsage: bool,
                data: seq<byte>, offset: nat, signalled1: bool, signalled2: bool)
      returns (copy: Option<CopyCommand>)
      requires view.Resolvable(forest) && view.GetBuffer(forest).Valid()
      requires view.GetOffset(forest) + offset + |data| <= |view.GetBuffer(forest).mirror|
      modifies view.GetBuffer(forest), allocator
      ensures view.GetBuffer(forest).Valid()
      ensures var b, dst := view.GetBuffer(forest), view.GetOffset(forest) + offset;
              var r := LoadEffect(old(b.State()), isFirstUsage, dst, data, signalled1, signalled2);
              && b.State() == r.state
              && (copy.Some? <==> r.copied)
              && (r.copied ==> copy.value == CopyCommand(allocator.buffer, old(allocator.used), b.id, dst, |data|)
                               && allocator.pushed == old(allocator.pushed) + [data])
              && (!r.copied ==> allocator.used == old(allocator.used) && allocator.pushed == old(allocator.pushed))
    {
      copy := LoadInto(view.GetBuffer(forest), view.GetOffset(forest) + offset, allocator, isFirstUsage, data, signalled1, signalled2);
    }
  }

  /** The two writes of a load into buffer `b` at `dst`, and the GPU copy the callback records. */
  method LoadInto(b: Buffer, dst: nat, allocator: MegaBufferAllocator, isFirstUsage: bool,
                  data: seq<byte>, signalled1: bool, signalled2: bool)
    returns (copy: Option<CopyCommand>)
    requires b.Valid() && dst + |data| <= |b.mirror|
    modifies b, allocator
    ensures b.Valid()
    ensures var r := LoadEffect(old(b.State()), isFirstUsage, dst, data, signalled1, signalled2);
            && b.State() == r.state
            && (copy.Some? <==> r.copied)
            && (r.copied ==> copy.value == CopyCommand(allocator.buffer, old(allocator.used), b.id, dst, |data|)
                             && allocator.pushed == old(allocator.pushed) + [data])
            && (!r.copied ==> allocator.used == old(allocator.used) && allocator.pushed == old(allocator.pushed))
  {
    copy := None;
    var first := b.Write(isFirstUsage, false, dst, data, signalled1);
    if first == BufferModel.Repeat {
      var second := b.Write(isFirstUsage, true, dst, data, signalled2);
      if second == BufferModel.GpuCopy {
        b.BlockAllCpuBackingWrites();
        var allocation := allocator.Push(data);
        copy := Some(CopyCommand(allocation.buffer, allocation.offset, b.id, dst, |data|));
      }
    }
  }
}

=== FILE: fermi_2d.dfy ===
/**
 * The Fermi 2D engine: a register file written one method at a time, where
 * writing the pixels-from-memory trigger register starts a blit whose source
 * rectangle is derived from 32.32 fixed-point start coordinates and scale
 * factors.
 */
module Fermi2D {
  import opened Wrappers

  /** One in 32.32 fixed point: a shift by the 32-bit fractional component. */
  const TwoTo32: nat := 0x1_0000_0000

  /** A 64-bit shift right by 32, rounding towards negative infinity as an arithmetic shift does. */
  function IntegerPart(fixed: int): (r: int)
    ensures r * TwoTo32 <= fixed < (r + 1) * TwoTo32
  {
    fixed / TwoTo32
  }

  /** A conversion to a signed 32-bit integer, wrapping modulo 2^32. */
  function I32(x: int): (r: int)
    ensures -0x8000_0000 <= r < 0x8000_0000
    ensures (r - x) % TwoTo32 == 0
    ensures -0x8000_0000 <= x < 0x8000_0000 ==> r == x
  {
    (x + 0x8000_0000) % TwoTo32 - 0x8000_0000
  }

  datatype SampleModeOrigin = OriginCenter | OriginCorner
  datatype SampleModeFilter = FilterPoint | FilterBilinear

  /**
   * The pixels-from-memory register block as the blit reads it: the
   * destination rectangle, the 32.32 fixed-point source start and the 32.32
   * fixed-point source step per destination pixel.
   */
  datatype PixelsFromMemory = PixelsFromMemory(
    origin: SampleModeOrigin,
    filter: SampleModeFilter,
    dstX0: int,
    dstY0: int,
    dstWidth: nat,
    dstHeight: nat,
    duDx: int,
    dvDy: int,
    srcX0: int,
    srcY0: int)

  /** The arguments handed to the blit context. */
  datatype BlitCall = BlitCall(srcX: int, srcY: int, srcWidth: int, srcHeight: int,
                               dstX: int, dstY: int, dstWidth: nat, dstHeight: nat,
                               resolve: bool, linearFilter: bool)

  /**
   * The blit a trigger starts. The source start keeps only the integer part
   * of its fixed-point value. A centre-sampled blit is an MSAA resolve of
   * an image stored without sample scaling, so its source is the size of the
   * destination; any other blit scales the destination size by the step and
   * moves the start back by half the step's integer part. The ensures pin
   * down every argument; what they mean for a blit is stated by the lemmas
   * below: FractionDiscarded (sub-pixel starts do not matter),
   * WholeNumberScale (an integer step reads `step` times the destination
   * from half a step back) and the resolve case's destination-sized source.
   */
  function BlitFor(p: PixelsFromMemory): (b: BlitCall)
    ensures b.dstX == p.dstX0 && b.dstY == p.dstY0 && b.dstWidth == p.dstWidth && b.dstHeight == p.dstHeight
    ensures b.resolve <==> p.origin == OriginCenter
    ensures b.linearFilter <==> p.filter == FilterBilinear
    ensures p.origin == OriginCenter ==>
              && b.srcX == I32(IntegerPart(p.srcX0)) && b.srcY == I32(IntegerPart(p.srcY0))
              && b.srcWidth == I32(p.dstWidth) && b.srcHeight == I32(p.dstHeight)
    ensures p.origin != OriginCenter ==>
              && b.srcX == I32(I32(IntegerPart(p.srcX0)) - IntegerPart(p.duDx) / 2)
              && b.srcY == I32(I32(IntegerPart(p.srcY0)) - IntegerPart(p.dvDy) / 2)
              && b.srcWidth == I32(IntegerPart(p.duDx * p.dstWidth))
              && b.srcHeight == I32(IntegerPart(p.dvDy * p.dstHeight))
  {
    var srcX, srcY := I32(IntegerPart(p.srcX0)), I32(IntegerPart(p.srcY0));
    if p.origin == OriginCenter then
      BlitCall(srcX, srcY, I32(p.dstWidth), I32(p.dstHeight), p.dstX0, p.dstY0, p.dstWidth, p.dstHeight, true, p.filter == FilterBilinear)
    else
      BlitCall(I32(srcX - IntegerPart(p.duDx) / 2), I32(srcY - IntegerPart(p.dvDy) / 2),
               I32(IntegerPart(p.duDx * p.dstWidth)), I32(IntegerPart(p.dvDy * p.dstHeight)),
               p.dstX0, p.dstY0, p.dstWidth, p.dstHeight, false, p.filter == FilterBilinear)
  }

  /** Sub-pixel start positions are dropped: starts with the same integer part blit the same source. */
  lemma FractionDiscarded(p: PixelsFromMemory, fx: nat, fy: nat)
    requires p.srcX0 % TwoTo32 == 0 && p.srcY0 % TwoTo32 == 0 && fx < TwoTo32 && fy < TwoTo32
    ensures BlitFor(p.(srcX0 := p.srcX0 + fx, srcY0 := p.srcY0 + fy)) == BlitFor(p)
  {
    var q := p.(srcX0 := p.srcX0 + fx, srcY0 := p.srcY0 + fy);
    IntegerPartOffset(p.srcX0, fx);
    IntegerPartOffset(p.srcY0, fy);
    assert q.duDx * q.dstWidth == p.duDx * p.dstWidth && q.dvDy * q.dstHeight == p.dvDy * p.dstHeight;
    assert I32(IntegerPart(q.srcX0)) == I32(IntegerPart(p.srcX0)) && I32(IntegerPart(q.srcY0)) == I32(IntegerPart(p.srcY0));
  }

  lemma IntegerPartOffset(whole: int, f: nat)
    requires whole % TwoTo32 == 0 && f < TwoTo32
    ensures IntegerPart(whole + f) == IntegerPart(whole)
  {
    var k := whole / TwoTo32;
    assert whole == k * TwoTo32;
    assert k * TwoTo32 <= whole + f < (k + 1) * TwoTo32;
  }

  /**
   * A scaling blit with a whole-number step of `scaleX` by `scaleY` source
   * pixels per destination pixel reads a source `scale` times the
   * destination size, starting half a step before the source start, as
   * long as the values fit 32 bits.
   */
  lemma WholeNumberScale(p: PixelsFromMemory, x: int, y: int, scaleX: nat, scaleY: nat)
    requires p.origin == OriginCorner
    requires p.srcX0 == x * TwoTo32 && p.srcY0 == y * TwoTo32
    requires p.duDx == scaleX * TwoTo32 && p.dvDy == scaleY * TwoTo32
    requires 0 <= x < 0x4000_0000 && 0 <= y < 0x4000_0000 && scaleX < 0x4000_0000 && scaleY < 0x4000_0000
    requires scaleX * p.dstWidth < 0x8000_0000 && scaleY * p.dstHeight < 0x8000_0000
    ensures var b := BlitFor(p);
            b.srcX == x - scaleX / 2 && b.srcY == y - scaleY / 2
            && b.srcWidth == scaleX * p.dstWidth && b.srcHeight == scaleY * p.dstHeight
  {
    WholeIntegerPart(x);
    WholeIntegerPart(y);
    WholeIntegerPart(scaleX);
    WholeIntegerPart(scaleY);
    assert p.duDx * p.dstWidth == (scaleX * p.dstWidth) * TwoTo32;
    assert p.dvDy * p.dstHeight == (scaleY * p.dstHeight) * TwoTo32;
    WholeIntegerPart(scaleX * p.dstWidth);
    WholeIntegerPart(scaleY * p.dstHeight);
  }

  lemma WholeIntegerPart(k: int)
    ensures IntegerPart(k * TwoTo32) == k
  {
    var q := IntegerPart(k * TwoTo32);
    assert q * TwoTo32 <= k * TwoTo32 < (q + 1) * TwoTo32;
  }

  /**
   * The engine's register file. Where the pixels-from-memory block lives in
   * it, and how its fields are packed, is given by `decode` and
   * `triggerMethod`.
   */
  class Fermi2D {
    const raw: array<nat>
    const triggerMethod: nat
    const decode: seq<nat> -> PixelsFromMemory

    constructor (registerCount: nat, triggerMethod: nat, decode: seq<nat> -> PixelsFromMemory)
      ensures fresh(raw) && raw.Length == registerCount && (forall i | 0 <= i < registerCount :: raw[i] == 0)
      ensures this.triggerMethod == triggerMethod && this.decode == decode
    {
      raw := new nat[registerCount](_ => 0);
      this.triggerMethod := triggerMethod;
      this.decode := decode;
    }

    /** The value last written to register `address`. */
    function ReadMethodFromMacro(address: nat): (value: nat)
      reads raw
      requires address < raw.Length
      ensures value == raw[..][address]
    {
      raw[address]
    }

    /**
     * Derives the blit arguments from the register block step by step:
     * integer source start, source size, then the centre or scaling
     * adjustment.
     */
    static method DeriveBlit(p: PixelsFromMemory) returns (call: BlitCall)
      ensures call == BlitFor(p)
    {
      var srcX := I32(IntegerPart(p.srcX0));
      var srcY := I32(IntegerPart(p.srcY0));
      var srcWidth := I32(IntegerPart(p.duDx * p.dstWidth));
      var srcHeight := I32(IntegerPart(p.dvDy * p.dstHeight));
      if p.origin == OriginCenter {
        srcWidth := I32(p.dstWidth);
        srcHeight := I32(p.dstHeight);
      } else {
        srcX := I32(srcX - IntegerPart(p.duDx) / 2);
        srcY := I32(srcY - IntegerPart(p.dvDy) / 2);
      }
      call := BlitCall(srcX, srcY, srcWidth, srcHeight, p.dstX0, p.dstY0, p.dstWidth, p.dstHeight,
                       p.origin == OriginCenter, p.filter == FilterBilinear);
    }

    /**
     * Stores `argument` in register `address` and, only for the trigger
     * register, starts a blit from the register block as it stands after
     * the store. No other register changes.
     */
    method HandleMethod(address: nat, argument: nat) returns (blit: Option<BlitCall>)
      requires address < raw.Length
      modifies raw
      ensures raw[..] == old(raw[..])[address := argument]
      ensures ReadMethodFromMacro(address) == argument
      ensures blit.Some? <==> address == triggerMethod
      ensures blit.Some? ==> blit.value == BlitFor(decode(raw[..]))
    {
      raw[address] := argument;
      blit := None;
      if address == triggerMethod {
        var call := DeriveBlit(decode(raw[..]));
        blit := Some(call);
      }
    }

    /** A macro's method call goes through the same path as one from the pushbuffer. */
    method CallMethodFromMacro(address: nat, argument: nat) returns (blit: Option<BlitCall>)
      requires address < raw.Length
      modifies raw
      ensures raw[..] == old(raw[..])[address := argument]
      ensures blit.Some? <==> address == triggerMethod
      ensures blit.Some? ==> blit.value == BlitFor(decode(raw[..]))
    {
      blit := HandleMethod(address, argument);
    }
  }
}

=== FILE: maxwell_3d.dfy ===
/**
 * The Maxwell 3D engine's clear and draw entry points: the clear scissor
 * built by intersecting the surface clip with the enabled clip rectangles,
 * the choice between a whole-attachment subpass clear and a clear command
 * limited to the scissor, and the descriptor sync a draw performs.
 */
module Maxwell3D {
  import opened VkTypes
  import ActiveStates

  /* ---------------- Rectangle intersection ---------------- */

  const TwoTo32: nat := 0x1_0000_0000
  const I32Min: int := -0x8000_0000

  /** A Vulkan rectangle: a signed 32-bit offset and an unsigned 32-bit extent. */
  predicate ValidRect(r: Rect2D)
  {
    I32Min <= r.x <= I32Max && I32Min <= r.y <= I32Max && r.width < TwoTo32 && r.height < TwoTo32
  }

  /** An unsigned 32-bit extent reinterpreted as a signed 32-bit value. */
  function I32Of(x: nat): (r: int)
    requires x < TwoTo32
    ensures I32Min <= r <= I32Max
    ensures r % TwoTo32 == x % TwoTo32
    ensures 0 <= r ==> r == x
  {
    if x <= I32Max then x else x - TwoTo32
  }

  /**
   * The points a rectangle covers when its extent is read as a signed value,
   * as the intersection reads both of its operands; an extent of 2^31 or
   * more covers nothing.
   */
  predicate SignedContains(r: Rect2D, px: int, py: int)
    requires r.width < TwoTo32 && r.height < TwoTo32
  {
    r.x <= px < r.x + I32Of(r.width) && r.y <= py < r.y + I32Of(r.height)
  }

  function Max(a: int, b: int): int
  {
    if a < b then b else a
  }

  function Min(a: int, b: int): int
  {
    if a < b then a else b
  }

  /**
   * The intersection of two rectangles: the larger offset, and the distance
   * from it to the nearer far edge, or zero when the rectangles miss each
   * other. The result never reaches 2^31 in either extent.
   */
  function RectIntersection(a: Rect2D, b: Rect2D): (r: Rect2D)
    requires ValidRect(a) && ValidRect(b)
    ensures ValidRect(r) && r.width <= I32Max && r.height <= I32Max
    ensures r.x == Max(a.x, b.x) && r.y == Max(a.y, b.y)
    ensures r.width == 0 <==> a.x + I32Of(a.width) <= r.x || b.x + I32Of(b.width) <= r.x
    ensures r.height == 0 <==> a.y + I32Of(a.height) <= r.y || b.y + I32Of(b.height) <= r.y
  {
    var maxX, maxY := Max(a.x, b.x), Max(a.y, b.y);
    var signedWidth := Min(a.x + I32Of(a.width), b.x + I32Of(b.width)) - maxX;
    var signedHeight := Min(a.y + I32Of(a.height), b.y + I32Of(b.height)) - maxY;
    Rect2D(maxX, maxY, Max(signedWidth, 0), Max(signedHeight, 0))
  }

  /** A point lies in the intersection exactly when it lies in both rectangles. */
  lemma IntersectionContains(a: Rect2D, b: Rect2D, px: int, py: int)
    requires ValidRect(a) && ValidRect(b)
    ensures ActiveStates.RectContains(RectIntersection(a, b), px, py) <==> SignedContains(a, px, py) && SignedContains(b, px, py)
    ensures SignedContains(RectIntersection(a, b), px, py) <==> ActiveStates.RectContains(RectIntersection(a, b), px, py)
  {
  }

  lemma IntersectionSymmetric(a: Rect2D, b: Rect2D)
    requires ValidRect(a) && ValidRect(b)
    ensures RectIntersection(a, b) == RectIntersection(b, a)
  {
  }

  /* ---------------- Clear scissor ---------------- */

  datatype ClearSurfaceControl = ClearSurfaceControl(useClearRect: bool, useScissor0: bool, useViewportClip0: bool)

  /** A clip given as an origin and an extent, as the surface clip and viewport clip 0 are. */
  datatype ClipRegisters = ClipRegisters(x: int, width: nat, y: int, height: nat)

  /** A clip given by its minimum and maximum edges, as the clear rectangle and scissor 0 are. */
  datatype BoundsRegisters = BoundsRegisters(xMin: int, xMax: int, yMin: int, yMax: int)

  datatype ClearEngineRegisters = ClearEngineRegisters(
    clearSurfaceControl: ClearSurfaceControl,
    surfaceClip: ClipRegisters,
    clearRect: BoundsRegisters,
    scissor0: BoundsRegisters,
    viewportClip0: ClipRegisters,
    colorClearValue: nat,
    depthClearValue: nat,
    stencilClearValue: nat)

  predicate ValidClip(c: ClipRegisters)
  {
    I32Min <= c.x <= I32Max && I32Min <= c.y <= I32Max && c.width < TwoTo32 && c.height < TwoTo32
  }

  predicate ValidBounds(b: BoundsRegisters)
  {
    I32Min <= b.xMin <= I32Max && I32Min <= b.yMin <= I32Max
  }

  predicate ValidRegisters(regs: ClearEngineRegisters)
  {
    ValidClip(regs.surfaceClip) && ValidClip(regs.viewportClip0) && ValidBounds(regs.clearRect) && ValidBounds(regs.scissor0)
  }

  /** The surface clip as a rectangle: its offset and its extent. */
  function ClipRect(c: ClipRegisters): (r: Rect2D)
    requires ValidClip(c)
    ensures ValidRect(r)
    ensures r.x == c.x && r.y == c.y && r.width == c.width && r.height == c.height
  {
    Rect2D(c.x, c.y, c.width, c.height)
  }

  /** The extent is the difference of the edges, wrapped to 32 bits. */
  function BoundsRect(b: BoundsRegisters): (r: Rect2D)
    requires ValidBounds(b)
    ensures ValidRect(r) && r.x == b.xMin && r.y == b.yMin
    ensures b.xMin <= b.xMax <= b.xMin + I32Max ==> r.x + I32Of(r.width) == b.xMax
    ensures b.yMin <= b.yMax <= b.yMin + I32Max ==> r.y + I32Of(r.height) == b.yMax
  {
    Rect2D(b.xMin, b.yMin, U32(b.xMax - b.xMin), U32(b.yMax - b.yMin))
  }

  /** The clear scissor: the surface clip, intersected with each enabled clip in turn. */
  function ClearScissor(regs: ClearEngineRegisters): (r: Rect2D)
    requires ValidRegisters(regs)
    ensures ValidRect(r)
  {
    var control := regs.clearSurfaceControl;
    var surface := ClipRect(regs.surfaceClip);
    var withClearRect := if control.useClearRect then RectIntersection(surface, BoundsRect(regs.clearRect)) else surface;
    var withScissor := if control.useScissor0 then RectIntersection(withClearRect, BoundsRect(regs.scissor0)) else withClearRect;
    if control.useViewportClip0 then RectIntersection(withScissor, ClipRect(regs.viewportClip0)) else withScissor
  }

  /**
   * The clear scissor covers exactly the points of the surface clip that
   * every enabled clip also covers. When a clip is enabled, or the surface
   * clip's extents fit a signed 32-bit value, it covers them as an unsigned
   * Vulkan rectangle too.
   */
  lemma {:induction false} ClearScissorContains(regs: ClearEngineRegisters, px: int, py: int)
    requires ValidRegisters(regs)
    ensures var control := regs.clearSurfaceControl;
            SignedContains(ClearScissor(regs), px, py)
            <==> && SignedContains(ClipRect(regs.surfaceClip), px, py)
                 && (control.useClearRect ==> SignedContains(BoundsRect(regs.clearRect), px, py))
                 && (control.useScissor0 ==> SignedContains(BoundsRect(regs.scissor0), px, py))
                 && (control.useViewportClip0 ==> SignedContains(ClipRect(regs.viewportClip0), px, py))
    ensures var control := regs.clearSurfaceControl;
            (|| control.useClearRect || control.useScissor0 || control.useViewportClip0
             || (regs.surfaceClip.width <= I32Max && regs.surfaceClip.height <= I32Max))
            ==> (ActiveStates.RectContains(ClearScissor(regs), px, py) <==> SignedContains(ClearScissor(regs), px, py))
  {
    var control := regs.clearSurfaceControl;
    var surface := ClipRect(regs.surfaceClip);
    var withClearRect := if control.useClearRect then RectIntersection(surface, BoundsRect(regs.clearRect)) else surface;
    var withScissor := if control.useScissor0 then RectIntersection(withClearRect, BoundsRect(regs.scissor0)) else withClearRect;
    if control.useClearRect {
      IntersectionContains(surface, BoundsRect(regs.clearRect), px, py);
    }
    if control.useScissor0 {
      IntersectionContains(withClearRect, BoundsRect(regs.scissor0), px, py);
    }
    if control.useViewportClip0 {
      IntersectionContains(withScissor, ClipRect(regs.viewportClip0), px, py);
    }
  }

  /** Builds the clear scissor step by step, narrowing it by each enabled clip. */
  method GetClearScissor(regs: ClearEngineRegisters) returns (scissor: Rect2D)
    requires ValidRegisters(regs)
    ensures scissor == ClearScissor(regs)
  {
    var control := regs.clearSurfaceControl;
    scissor := ClipRect(regs.surfaceClip);
    if control.useClearRect {
      scissor := RectIntersection(scissor, BoundsRect(regs.clearRect));
    }
    if control.useScissor0 {
      scissor := RectIntersection(scissor, BoundsRect(regs.scissor0));
    }
    if control.useViewportClip0 {
      scissor := RectIntersection(scissor, ClipRect(regs.viewportClip0));
    }
  }

  /* ---------------- Clear ---------------- */

  datatype ClearSurface = ClearSurface(rEnable: bool, gEnable: bool, bEnable: bool, aEnable: bool,
                                       zEnable: bool, stencilEnable: bool, mrtSelect: nat, rtArrayIndex: nat)

  /** What a clear needs of the render target's view: its aspects, its texture's size and its layer range. */
  datatype TargetView = TargetView(hasColor: bool, hasDepth: bool, hasStencil: bool,
                                   width: nat, height: nat, layerCount: nat, baseArrayLayer: nat)

  datatype Target = ColorTarget | DepthStencilTarget

  datatype ClearValue = ColorValue(color: nat) | DepthStencilValue(depth: nat, stencil: nat)

  /** A clear command entry: the aspects of the target's view and the value to clear them to. */
  datatype ClearAttachment = ClearAttachment(target: Target, hasColor: bool, hasDepth: bool, hasStencil: bool, value: ClearValue)

  datatype ClearRect = ClearRect(rect: Rect2D, baseArrayLayer: nat, layerCount: nat)

  /** The calls a clear makes on the command executor, in order. */
  datatype ExecutorCall =
    | AttachTexture(target: Target)
    | AddClearColorSubpass(color: nat)
    | AddClearDepthStencilSubpass(depth: nat, stencil: nat)
    | AddSubpass(renderArea: Rect2D, attachments: seq<ClearAttachment>, rects: seq<ClearRect>,
                 colorTarget: bool, depthStencilTarget: bool)

  predicate ColorClearEnabled(surface: ClearSurface)
  {
    surface.rEnable || surface.gEnable || surface.bEnable || surface.aEnable
  }

  predicate DepthStencilClearEnabled(surface: ClearSurface)
  {
    surface.stencilEnable || surface.zEnable
  }

  /**
   * A clear must be recorded as a clear command, rather than a subpass clear
   * of the whole attachment, unless the scissor is exactly the texture at
   * offset zero and the view is the single first layer of the target.
   */
  predicate NeedsAttachmentClearCmd(scissor: Rect2D, view: TargetView, rtArrayIndex: nat)
  {
    || scissor.x != 0 || scissor.y != 0
    || scissor.width != view.width || scissor.height != view.height
    || view.layerCount != 1 || view.baseArrayLayer != 0 || rtArrayIndex != 0
  }

  /** A subpass clear touches exactly the points the scissor covers, on the view's only layer. */
  lemma SubpassClearCoversScissor(scissor: Rect2D, view: TargetView, rtArrayIndex: nat, px: int, py: int)
    requires !NeedsAttachmentClearCmd(scissor, view, rtArrayIndex)
    ensures ActiveStates.RectContains(scissor, px, py) <==> 0 <= px < view.width && 0 <= py < view.height
    ensures view.layerCount == 1 && view.baseArrayLayer == 0 && rtArrayIndex == 0
  {
  }

  /**
   * A clear of the depth-stencil target must be a clear command when a
   * colour clear would have to be, or when the view has an aspect the
   * surface does not clear: a subpass clear writes every aspect.
   */
  predicate NeedsDepthStencilClearCmd(scissor: Rect2D, view: TargetView, surface: ClearSurface)
  {
    || NeedsAttachmentClearCmd(scissor, view, surface.rtArrayIndex)
    || (!surface.stencilEnable && view.hasStencil) || (!surface.zEnable && view.hasDepth)
  }

  /** The clear command entry for the colour target: the view's aspects and the colour clear register. */
  function ColorClearAttachment(regs: ClearEngineRegisters, view: TargetView): (a: ClearAttachment)
    ensures a.target == ColorTarget && a.value == ColorValue(regs.colorClearValue)
    ensures a.hasColor == view.hasColor && a.hasDepth == view.hasDepth && a.hasStencil == view.hasStencil
  {
    ClearAttachment(ColorTarget, view.hasColor, view.hasDepth, view.hasStencil, ColorValue(regs.colorClearValue))
  }

  /** The clear command entry for the depth-stencil target: the view's aspects and the depth and stencil clear registers. */
  function DepthStencilClearAttachment(regs: ClearEngineRegisters, view: TargetView): (a: ClearAttachment)
    ensures a.target == DepthStencilTarget && a.value == DepthStencilValue(regs.depthClearValue, regs.stencilClearValue)
    ensures a.hasColor == view.hasColor && a.hasDepth == view.hasDepth && a.hasStencil == view.hasStencil
  {
    ClearAttachment(DepthStencilTarget, view.hasColor, view.hasDepth, view.hasStencil,
                    DepthStencilValue(regs.depthClearValue, regs.stencilClearValue))
  }

  /**
   * Where a call stands in a clear: the colour target is attached before its
   * subpass clear, both before the depth-stencil target's pair, and the
   * subpass running the clear commands comes last.
   */
  function ClearStepRank(c: ExecutorCall): nat
  {
    match c
    case AttachTexture(t) => if t == ColorTarget then 0 else 2
    case AddClearColorSubpass(_) => 1
    case AddClearDepthStencilSubpass(_, _) => 3
    case AddSubpass(_, _, _, _, _) => 4
  }

  /** A subpass clear of a clear carries the register clear values. */
  predicate ClearStepOf(c: ExecutorCall, regs: ClearEngineRegisters)
  {
    match c
    case AddClearColorSubpass(color) => color == regs.colorClearValue
    case AddClearDepthStencilSubpass(depth, stencil) => depth == regs.depthClearValue && stencil == regs.stencilClearValue
    case _ => true
  }

  /** Every call carries the register values, and the ranks strictly increase, so no call repeats. */
  predicate ClearStepsInOrder(calls: seq<ExecutorCall>, regs: ClearEngineRegisters)
  {
    && (forall i | 0 <= i < |calls| :: ClearStepOf(calls[i], regs))
    && (forall i, j | 0 <= i < j < |calls| :: ClearStepRank(calls[i]) < ClearStepRank(calls[j]))
  }

  /** Whether the last executor call is the subpass that runs the clear commands. */
  predicate Completed(calls: seq<ExecutorCall>)
  {
    |calls| > 0 && calls[|calls| - 1].AddSubpass?
  }

  /**
   * Clears the selected colour and depth-stencil targets, each by a subpass
   * clear of the whole attachment when the scissor and the enabled aspects
   * allow, otherwise by a clear command limited to the scissor on layer
   * `rtArrayIndex`. An empty scissor clears nothing, and a target lacking
   * the aspects to clear ends the clear before the subpass is added.
   */
  method Clear(regs: ClearEngineRegisters, surface: ClearSurface, colorView: TargetView, depthStencilView: TargetView)
    returns (calls: seq<ExecutorCall>)
    requires ValidRegisters(regs)
    ensures var s := ClearScissor(regs);
            s.width == 0 || s.height == 0 ==> calls == []
    ensures var s := ClearScissor(regs);
            s.width != 0 && s.height != 0 ==> ClearsWithin(calls, s, regs, surface, colorView, depthStencilView)
  {
    var scissor := GetClearScissor(regs);
    calls := [];
    if scissor.width == 0 || scissor.height == 0 {
      return;
    }
    calls := ClearTargets(scissor, regs, surface, colorView, depthStencilView);
  }

  /**
   * The calls of a clear with a non-empty `scissor`: the colour target is
   * attached iff colour is enabled, the depth-stencil target iff depth or
   * stencil is and the colour target did not end the clear first; a subpass clear is used for a target
   * exactly when the source allows one, and otherwise the target gets a
   * clear command entry with its view's aspects and the register clear
   * value, colour first; the clear ends with one subpass over the surface
   * clip that applies each entry to the scissor on layer `rtArrayIndex`,
   * unless a target lacks the aspects to clear. Each call occurs at most
   * once, carries the register clear values, and the calls come in the
   * order ClearStepRank gives.
   */
  predicate ClearsWithin(calls: seq<ExecutorCall>, s: Rect2D, regs: ClearEngineRegisters, surface: ClearSurface,
                         colorView: TargetView, depthStencilView: TargetView)
    requires ValidRegisters(regs)
  {
    && ClearStepsInOrder(calls, regs)
    && ClearChoices(calls, s, regs, surface, colorView, depthStencilView)
    && (Completed(calls) ==> FinalSubpassClears(calls, s, regs, surface, colorView, depthStencilView))
  }

  /** Which targets are attached, which are cleared by a subpass, and whether the clear completes. */
  predicate ClearChoices(calls: seq<ExecutorCall>, s: Rect2D, regs: ClearEngineRegisters, surface: ClearSurface,
                         colorView: TargetView, depthStencilView: TargetView)
  {
    && (Completed(calls)
        <==> && !(ColorClearEnabled(surface) && !colorView.hasColor)
             && !(DepthStencilClearEnabled(surface) && !depthStencilView.hasDepth && !depthStencilView.hasStencil))
    && (AttachTexture(ColorTarget) in calls <==> ColorClearEnabled(surface))
    && (AttachTexture(DepthStencilTarget) in calls
        <==> DepthStencilClearEnabled(surface) && !(ColorClearEnabled(surface) && !colorView.hasColor))
    && (AddClearColorSubpass(regs.colorClearValue) in calls
        ==> ColorClearEnabled(surface) && colorView.hasColor && !NeedsAttachmentClearCmd(s, colorView, surface.rtArrayIndex))
    && (ColorClearEnabled(surface) && colorView.hasColor ==>
          (AddClearColorSubpass(regs.colorClearValue) in calls <==> !NeedsAttachmentClearCmd(s, colorView, surface.rtArrayIndex)))
    && (AddClearDepthStencilSubpass(regs.depthClearValue, regs.stencilClearValue) in calls
        ==> DepthStencilClearEnabled(surface) && !NeedsDepthStencilClearCmd(s, depthStencilView, surface))
    && (Completed(calls) && DepthStencilClearEnabled(surface) ==>
          (AddClearDepthStencilSubpass(regs.depthClearValue, regs.stencilClearValue) in calls
           <==> !NeedsDepthStencilClearCmd(s, depthStencilView, surface)))
  }

  /** The last call of a completed clear: the subpass holding the clear command entries of the targets not cleared by a subpass. */
  predicate FinalSubpassClears(calls: seq<ExecutorCall>, s: Rect2D, regs: ClearEngineRegisters, surface: ClearSurface,
                               colorView: TargetView, depthStencilView: TargetView)
    requires ValidRegisters(regs) && Completed(calls)
  {
    var last := calls[|calls| - 1];
    && last.renderArea == ClipRect(regs.surfaceClip)
    && |last.rects| == |last.attachments|
    && (forall i | 0 <= i < |last.rects| :: last.rects[i] == ClearRect(s, surface.rtArrayIndex, 1))
    && |last.attachments| == (if last.colorTarget then 1 else 0) + (if last.depthStencilTarget then 1 else 0)
    && (last.colorTarget ==> last.attachments[0] == ColorClearAttachment(regs, colorView))
    && (last.depthStencilTarget ==> last.attachments[|last.attachments| - 1] == DepthStencilClearAttachment(regs, depthStencilView))
    && (ColorClearEnabled(surface) <==> AddClearColorSubpass(regs.colorClearValue) in calls || last.colorTarget)
    && (DepthStencilClearEnabled(surface)
        <==> AddClearDepthStencilSubpass(regs.depthClearValue, regs.stencilClearValue) in calls || last.depthStencilTarget)
    && (last.colorTarget
        <==> ColorClearEnabled(surface) && colorView.hasColor && NeedsAttachmentClearCmd(s, colorView, surface.rtArrayIndex))
    && (last.depthStencilTarget
        <==> DepthStencilClearEnabled(surface) && NeedsDepthStencilClearCmd(s, depthStencilView, surface))
  }

  /**
   * A completed clear reaches every point of the scissor on each enabled
   * target: through a subpass clear of the whole single-layer view, which
   * then contains the point, or through the target's clear command entry,
   * whose rectangle is the scissor on layer `rtArrayIndex`.
   */
  lemma CompletedClearCoversScissor(calls: seq<ExecutorCall>, s: Rect2D, regs: ClearEngineRegisters, surface: ClearSurface,
                                    colorView: TargetView, depthStencilView: TargetView, px: int, py: int)
    requires ValidRegisters(regs) && ClearsWithin(calls, s, regs, surface, colorView, depthStencilView) && Completed(calls)
    requires ActiveStates.RectContains(s, px, py)
    ensures var last := calls[|calls| - 1];
            ColorClearEnabled(surface) ==>
              || (AddClearColorSubpass(regs.colorClearValue) in calls
                  && 0 <= px < colorView.width && 0 <= py < colorView.height && surface.rtArrayIndex == 0)
              || (&& last.attachments[0] == ColorClearAttachment(regs, colorView)
                  && last.rects[0] == ClearRect(s, surface.rtArrayIndex, 1))
    ensures var last := calls[|calls| - 1];
            DepthStencilClearEnabled(surface) ==>
              || (AddClearDepthStencilSubpass(regs.depthClearValue, regs.stencilClearValue) in calls
                  && 0 <= px < depthStencilView.width && 0 <= py < depthStencilView.height && surface.rtArrayIndex == 0)
              || (&& last.attachments[|last.attachments| - 1] == DepthStencilClearAttachment(regs, depthStencilView)
                  && last.rects[|last.rects| - 1] == ClearRect(s, surface.rtArrayIndex, 1))
  {
    if ColorClearEnabled(surface) && AddClearColorSubpass(regs.colorClearValue) in calls {
      SubpassClearCoversScissor(s, colorView, surface.rtArrayIndex, px, py);
    }
    if DepthStencilClearEnabled(surface) && AddClearDepthStencilSubpass(regs.depthClearValue, regs.stencilClearValue) in calls {
      SubpassClearCoversScissor(s, depthStencilView, surface.rtArrayIndex, px, py);
    }
  }

  /** The colour target's calls: attached when colour is enabled, then cleared by a subpass when no clear command is needed. */
  function ColorClearCalls(s: Rect2D, regs: ClearEngineRegisters, surface: ClearSurface, colorView: TargetView): seq<ExecutorCall>
  {
    if !ColorClearEnabled(surface) then []
    else if !colorView.hasColor || NeedsAttachmentClearCmd(s, colorView, surface.rtArrayIndex) then [AttachTexture(ColorTarget)]
    else [AttachTexture(ColorTarget), AddClearColorSubpass(regs.colorClearValue)]
  }

  /** The depth-stencil target's calls, in the same way. */
  function DepthStencilClearCalls(s: Rect2D, regs: ClearEngineRegisters, surface: ClearSurface, view: TargetView): seq<ExecutorCall>
  {
    if !DepthStencilClearEnabled(surface) then []
    else if (!view.hasDepth && !view.hasStencil) || NeedsDepthStencilClearCmd(s, view, surface) then [AttachTexture(DepthStencilTarget)]
    else [AttachTexture(DepthStencilTarget), AddClearDepthStencilSubpass(regs.depthClearValue, regs.stencilClearValue)]
  }

  /** Whether the colour target is cleared by a clear command entry. */
  predicate ColorByEntry(s: Rect2D, surface: ClearSurface, colorView: TargetView)
  {
    ColorClearEnabled(surface) && colorView.hasColor && NeedsAttachmentClearCmd(s, colorView, surface.rtArrayIndex)
  }

  /** Whether the depth-stencil target is cleared by a clear command entry. */
  predicate DepthStencilByEntry(s: Rect2D, surface: ClearSurface, view: TargetView)
  {
    DepthStencilClearEnabled(surface) && NeedsDepthStencilClearCmd(s, view, surface)
  }

  /** The clear command entries of the final subpass, colour first. */
  function ClearEntries(s: Rect2D, regs: ClearEngineRegisters, surface: ClearSurface, colorView: TargetView,
                        depthStencilView: TargetView): seq<ClearAttachment>
  {
    (if ColorByEntry(s, surface, colorView) then [ColorClearAttachment(regs, colorView)] else [])
    + (if DepthStencilByEntry(s, surface, depthStencilView) then [DepthStencilClearAttachment(regs, depthStencilView)] else [])
  }

  /**
   * The calls of a clear with the scissor `s`, target by target: a target
   * lacking the aspects to clear ends the clear right after it is attached.
   */
  function ClearTrace(s: Rect2D, regs: ClearEngineRegisters, surface: ClearSurface, colorView: TargetView,
                      depthStencilView: TargetView): seq<ExecutorCall>
    requires ValidRegisters(regs)
  {
    if ColorClearEnabled(surface) && !colorView.hasColor then [AttachTexture(ColorTarget)]
    else if DepthStencilClearEnabled(surface) && !depthStencilView.hasDepth && !depthStencilView.hasStencil then
      ColorClearCalls(s, regs, surface, colorView) + [AttachTexture(DepthStencilTarget)]
    else
      ColorClearCalls(s, regs, surface, colorView) + DepthStencilClearCalls(s, regs, surface, depthStencilView)
      + [FinalClearSubpass(s, regs, surface, colorView, depthStencilView)]
  }

  /** The subpass over the surface clip that applies each clear command entry to the scissor on layer `rtArrayIndex`. */
  function FinalClearSubpass(s: Rect2D, regs: ClearEngineRegisters, surface: ClearSurface, colorView: TargetView,
                             depthStencilView: TargetView): ExecutorCall
    requires ValidRegisters(regs)
  {
    var entries := ClearEntries(s, regs, surface, colorView, depthStencilView);
    AddSubpass(ClipRect(regs.surfaceClip), entries, seq(|entries|, _ => ClearRect(s, surface.rtArrayIndex, 1)),
               ColorByEntry(s, surface, colorView), DepthStencilByEntry(s, surface, depthStencilView))
  }

  /** The trace of a clear is one ClearsWithin describes. */
  lemma ClearTraceIsWithin(s: Rect2D, regs: ClearEngineRegisters, surface: ClearSurface, colorView: TargetView,
                           depthStencilView: TargetView)
    requires ValidRegisters(regs)
    ensures ClearsWithin(ClearTrace(s, regs, surface, colorView, depthStencilView), s, regs, surface, colorView, depthStencilView)
  {
    ClearTraceInOrder(s, regs, surface, colorView, depthStencilView);
    ClearTraceChoices(s, regs, surface, colorView, depthStencilView);
    ClearTraceFinal(s, regs, surface, colorView, depthStencilView);
  }

  lemma ClearTraceInOrder(s: Rect2D, regs: ClearEngineRegisters, surface: ClearSurface, colorView: TargetView,
                          depthStencilView: TargetView)
    requires ValidRegisters(regs)
    ensures ClearStepsInOrder(ClearTrace(s, regs, surface, colorView, depthStencilView), regs)
  {
    var colorCalls := ColorClearCalls(s, regs, surface, colorView);
    var depthStencilCalls := DepthStencilClearCalls(s, regs, surface, depthStencilView);
    TargetCallsInOrder(colorCalls, regs, 0);
    TargetCallsInOrder(depthStencilCalls, regs, 2);
    if ColorClearEnabled(surface) && !colorView.hasColor {
    } else if DepthStencilClearEnabled(surface) && !depthStencilView.hasDepth && !depthStencilView.hasStencil {
      ConcatInOrder(colorCalls, [AttachTexture(DepthStencilTarget)], regs, 2);
    } else {
      var last := FinalClearSubpass(s, regs, surface, colorView, depthStencilView);
      ConcatInOrder(colorCalls, depthStencilCalls, regs, 2);
      ConcatInOrder(colorCalls + depthStencilCalls, [last], regs, 4);
    }
  }

  /** A target's calls: nothing, its attach, or its attach and then its subpass clear, ranked `k` and `k + 1`. */
  lemma TargetCallsInOrder(calls: seq<ExecutorCall>, regs: ClearEngineRegisters, k: nat)
    requires |calls| <= 2
    requires forall i | 0 <= i < |calls| :: ClearStepOf(calls[i], regs) && ClearStepRank(calls[i]) == k + i
    ensures ClearStepsInOrder(calls, regs)
    ensures forall i | 0 <= i < |calls| :: k <= ClearStepRank(calls[i]) < k + 2
  {
  }

  /** Calls all ranked below `k`, followed by calls all ranked from `k` on, stay in order. */
  lemma ConcatInOrder(a: seq<ExecutorCall>, b: seq<ExecutorCall>, regs: ClearEngineRegisters, k: nat)
    requires ClearStepsInOrder(a, regs) && ClearStepsInOrder(b, regs)
    requires forall i | 0 <= i < |a| :: ClearStepRank(a[i]) < k
    requires forall j | 0 <= j < |b| :: k <= ClearStepRank(b[j])
    ensures ClearStepsInOrder(a + b, regs)
  {
    var t := a + b;
    forall i | 0 <= i < |t|
      ensures ClearStepOf(t[i], regs)
    {
      if i < |a| { assert t[i] == a[i]; } else { assert t[i] == b[i - |a|]; }
    }
    forall i, j | 0 <= i < j < |t|
      ensures ClearStepRank(t[i]) < ClearStepRank(t[j])
    {
      if j < |a| {
        assert t[i] == a[i] && t[j] == a[j];
      } else if i >= |a| {
        assert t[i] == b[i - |a|] && t[j] == b[j - |a|];
      } else {
        assert t[i] == a[i] && t[j] == b[j - |a|];
      }
    }
  }

  lemma ClearTraceChoices(s: Rect2D, regs: ClearEngineRegisters, surface: ClearSurface, colorView: TargetView,
                          depthStencilView: TargetView)
    requires ValidRegisters(regs)
    ensures ClearChoices(ClearTrace(s, regs, surface, colorView, depthStencilView), s, regs, surface, colorView, depthStencilView)
  {
  }

  lemma ClearTraceFinal(s: Rect2D, regs: ClearEngineRegisters, surface: ClearSurface, colorView: TargetView,
                        depthStencilView: TargetView)
    requires ValidRegisters(regs)
    ensures var calls := ClearTrace(s, regs, surface, colorView, depthStencilView);
            Completed(calls) ==> FinalSubpassClears(calls, s, regs, surface, colorView, depthStencilView)
  {
  }

  /** The clear of both targets once the scissor is known to be non-empty. */
  method ClearTargets(scissor: Rect2D, regs: ClearEngineRegisters, surface: ClearSurface, colorView: TargetView,
                      depthStencilView: TargetView)
    returns (calls: seq<ExecutorCall>)
    requires ValidRegisters(regs) && scissor.width != 0 && scissor.height != 0
    ensures calls == ClearTrace(scissor, regs, surface, colorView, depthStencilView)
    ensures ClearsWithin(calls, scissor, regs, surface, colorView, depthStencilView)
  {
    calls := [];
    var attachments: seq<ClearAttachment> := [];
    var colorTarget, depthStencilTarget := false, false;

    if ColorClearEnabled(surface) {
      calls := calls + [AttachTexture(ColorTarget)];
      if !colorView.hasColor {
        ClearTraceIsWithin(scissor, regs, surface, colorView, depthStencilView);
        return;
      }
      if NeedsAttachmentClearCmd(scissor, colorView, surface.rtArrayIndex) {
        attachments := attachments + [ColorClearAttachment(regs, colorView)];
        colorTarget := true;
      } else {
        calls := calls + [AddClearColorSubpass(regs.colorClearValue)];
      }
    }
    assert calls == ColorClearCalls(scissor, regs, surface, colorView);

    if DepthStencilClearEnabled(surface) {
      calls := calls + [AttachTexture(DepthStencilTarget)];
      var view := depthStencilView;
      if !view.hasDepth && !view.hasStencil {
        ClearTraceIsWithin(scissor, regs, surface, colorView, depthStencilView);
        return;
      }
      if NeedsDepthStencilClearCmd(scissor, view, surface) {
        attachments := attachments + [DepthStencilClearAttachment(regs, view)];
        depthStencilTarget := true;
      } else {
        calls := calls + [AddClearDepthStencilSubpass(regs.depthClearValue, regs.stencilClearValue)];
      }
    }

    assert calls == ColorClearCalls(scissor, regs, surface, colorView) + DepthStencilClearCalls(scissor, regs, surface, depthStencilView);
    assert attachments == ClearEntries(scissor, regs, surface, colorView, depthStencilView);
    var rects := seq(|attachments|, _ => ClearRect(scissor, surface.rtArrayIndex, 1));
    calls := calls + [AddSubpass(ClipRect(regs.surfaceClip), attachments, rects, colorTarget, depthStencilTarget)];
    ClearTraceIsWithin(scissor, regs, surface, colorView, depthStencilView);
  }

  /* ---------------- Draw ---------------- */

  datatype DescriptorSync = FullSync | QuickBindSync | NoSync

  /**
   * The descriptor update a draw performs. The previous descriptor sets are
   * kept only while quick bind is enabled and the new pipeline is the old
   * one or has matching bindings; then a single rebound constant buffer is
   * patched in, if there is one. Anything else rewrites every descriptor.
   */
  function DrawDescriptorSync(samePipeline: bool, bindingsMatch: bool, quickBindEnabled: bool, quickBindPending: bool)
    : (r: DescriptorSync)
    ensures !quickBindEnabled ==> r == FullSync
    ensures !samePipeline && !bindingsMatch ==> r == FullSync
    ensures r == QuickBindSync ==> quickBindPending
    ensures r == NoSync ==> !quickBindPending
  {
    if (samePipeline || bindingsMatch) && quickBindEnabled then
      if quickBindPending then QuickBindSync else NoSync
    else FullSync
  }

  /** Descriptor sets survive a draw exactly when quick bind is on and the bindings carry over. */
  lemma DescriptorSetsReused(samePipeline: bool, bindingsMatch: bool, quickBindEnabled: bool, quickBindPending: bool)
    ensures DrawDescriptorSync(samePipeline, bindingsMatch, quickBindEnabled, quickBindPending) != FullSync
            <==> quickBindEnabled && (samePipeline || bindingsMatch)
  {
  }
}

=== FILE: maxwell_registers.dfy ===
/**
 * Register-level types of the Maxwell 3D engine that the interconnect reads.
 * Only the distinctions the interconnect makes are kept; values it does not
 * name are carried by an `Other…` case holding the raw register value.
 */
module MaxwellRegisters {
  /** Vertex streams, vertex attributes and transform-feedback buffers of the engine. */
  const VertexStreamCount: nat := 16
  const VertexAttributeCount: nat := 32
  const StreamOutBufferCount: nat := 4
  const ViewportCount: nat := 16
  const ShaderStageCount: nat := 5
  const ShaderStageConstantBufferCount: nat := 18

  datatype DrawTopology =
    | Points | Lines | LineStrip | Triangles | TriangleStrip | TriangleFan | Quads
    | LineListAdjcy | LineStripAdjcy | TriangleListAdjcy | TriangleStripAdjcy | Patch
    | OtherTopology(raw: nat)

  datatype NumericalType = Snorm | Unorm | Sscaled | Uscaled | Uint | Sint | Float | OtherNumericalType(raw: nat)

  /** One vertex attribute register: where it reads from and how its components are encoded. */
  datatype VertexAttribute = VertexAttribute(active: bool, stream: nat, componentBitWidths: nat,
                                             numericalType: NumericalType, offset: nat)
}

=== FILE: megabuffer_table.dfy ===
/**
 * The megabuffer cache of a guest-backed buffer: the guest range is cut into
 * power-of-two shards, and each shard keeps the last megabuffer allocation
 * made for it, tagged with the execution and the buffer sequence number it was
 * built for.
 */
module MegaBufferTable {
  import opened Memory

  function Pow2(n: nat): (r: nat)
    ensures r >= 1
  {
    if n == 0 then 1 else 2 * Pow2(n - 1)
  }

  /** `std::bit_width`: the number of bits needed to write `x`. */
  function BitWidth(x: nat): (r: nat)
    ensures x < Pow2(r)
    ensures r > 0 ==> Pow2(r - 1) <= x
  {
    if x == 0 then 0 else 1 + BitWidth(x / 2)
  }

  /**
   * The shard shift chosen by the guest-backed constructor. The source computes
   * `size / maxEntries - 1` on unsigned integers, which wraps when the guest is
   * smaller than `maxEntries`; the precondition excludes that case.
   */
  function TableShift(size: nat, maxEntries: nat, shiftMin: nat): (shift: nat)
    requires 0 < maxEntries <= size
    ensures shift >= shiftMin
    ensures size / maxEntries <= Pow2(shift)
  {
    var width := BitWidth(size / maxEntries - 1);
    PowMonotone(width, if width >= shiftMin then width else shiftMin);
    if width >= shiftMin then width else shiftMin
  }

  lemma {:induction false} PowMonotone(a: nat, b: nat)
    requires a <= b
    ensures Pow2(a) <= Pow2(b)
    decreases b
  {
    if a < b {
      PowMonotone(a, b - 1);
    }
  }

  /** Number of table entries as the source sizes the table: `size >> shift`, rounded down. */
  function EntryCount(size: nat, shift: nat): nat
  {
    var p := Pow2(shift);
    QuotientIsNat(size, p);
    size / p
  }

  lemma QuotientIsNat(a: nat, p: nat)
    requires p > 0
    ensures a / p >= 0
  {
  }

  /** Number of table entries when the trailing partial shard gets an entry too. */
  function CoveringEntryCount(size: nat, shift: nat): nat
  {
    var p := Pow2(shift);
    QuotientIsNat(size + p - 1, p);
    (size + p - 1) / p
  }

  /** `offset >> shift` */
  function EntryIndex(offset: nat, shift: nat): nat
  {
    var p := Pow2(shift);
    QuotientIsNat(offset, p);
    offset / p
  }

  /** `entryIdx << shift`: the guest offset at which shard `index` starts. */
  function EntryBase(index: nat, shift: nat): nat
  {
    index * Pow2(shift)
  }

  /** Offset of a view inside its shard (`entryViewOffset`). */
  function EntryViewOffset(offset: nat, shift: nat): (evo: nat)
    ensures EntryBase(EntryIndex(offset, shift), shift) + evo == offset
    ensures evo < Pow2(shift)
  {
    var p := Pow2(shift);
    assert offset == (offset / p) * p + offset % p;
    offset - EntryBase(EntryIndex(offset, shift), shift)
  }

  lemma {:induction false} MulMonotone(a: nat, b: nat, p: nat)
    requires a <= b
    ensures a * p <= b * p
    decreases b - a
  {
    if a < b {
      MulMonotone(a, b - 1, p);
      assert b * p == (b - 1) * p + p;
    }
  }

  lemma MulCancel(a: nat, b: nat, p: nat)
    requires a * p < b * p
    ensures a < b
  {
    if b <= a {
      MulMonotone(b, a, p);
    }
  }

  lemma DivisionIsUnique(a: nat, p: nat, q: nat, r: nat)
    requires p > 0 && a == q * p + r && r < p
    ensures a / p == q
  {
    var q' := a / p;
    assert a == q' * p + a % p;
    assert (q + 1) * p == q * p + p;
    MulCancel(q', q + 1, p);
    assert (q' + 1) * p == q' * p + p;
    MulCancel(q, q' + 1, p);
  }

  lemma DivLowerBound(a: nat, p: nat, k: nat)
    requires p > 0 && k * p <= a
    ensures k <= a / p
  {
    assert a == (a / p) * p + a % p;
    assert (a / p + 1) * p == (a / p) * p + p;
    MulCancel(k, a / p + 1, p);
  }

  lemma QuotientSuccessorExceeds(a: nat, p: nat)
    requires p > 0
    ensures a < (a / p + 1) * p
  {
    assert a == (a / p) * p + a % p;
    assert (a / p + 1) * p == (a / p) * p + p;
  }

  lemma QuotientTimesDivisorBelow(a: nat, p: nat)
    requires p > 0
    ensures (a / p) * p <= a
  {
    assert a == (a / p) * p + a % p;
  }

  lemma QuotientBound(size: nat, m: nat, p: nat)
    requires 0 < m <= size && p > 0 && size / m <= p
    ensures size / p < 2 * m
  {
    QuotientSuccessorExceeds(size, m);
    MulMonotone(size / m + 1, 2 * p, m);
    QuotientTimesDivisorBelow(size, p);
    assert (2 * p) * m == (2 * m) * p;
    MulCancel(size / p, 2 * m, p);
  }

  /**
   * With `shift` chosen by `TableShift`, the table never has more than
   * `2 * maxEntries` entries.
   */
  lemma EntryCountBounded(size: nat, maxEntries: nat, shiftMin: nat)
    requires 0 < maxEntries <= size
    ensures EntryCount(size, TableShift(size, maxEntries, shiftMin)) < 2 * maxEntries
  {
    QuotientBound(size, maxEntries, Pow2(TableShift(size, maxEntries, shiftMin)));
  }

  lemma LastOffsetOfPartialBlock(size: nat, p: nat)
    requires p > 0 && size % p != 0
    ensures (size - 1) / p == size / p
  {
    assert size == (size / p) * p + size % p;
    DivisionIsUnique(size - 1, p, size / p, size % p - 1);
  }

  /** An offset in the trailing partial shard indexes one entry past the rounded-down table. */
  lemma TrailingShardIndexIsOffTable(size: nat, shift: nat)
    requires 0 < size && size % Pow2(shift) != 0
    ensures EntryIndex(size - 1, shift) == EntryCount(size, shift)
  {
    LastOffsetOfPartialBlock(size, Pow2(shift));
  }

  lemma RoundUpQuotient(size: nat, p: nat, offset: nat)
    requires p > 0 && offset < size
    ensures offset / p < (size + p - 1) / p
    ensures size / p <= (size + p - 1) / p
  {
    var i := offset / p;
    assert offset == i * p + offset % p;
    assert (i + 1) * p == i * p + p;
    DivLowerBound(size + p - 1, p, i + 1);
    var c := size / p;
    assert size == c * p + size % p;
    DivLowerBound(size + p - 1, p, c);
  }

  /** With the covering entry count every offset of the guest range has an entry. */
  lemma CoveringEntryCountIndexesEveryOffset(size: nat, shift: nat, offset: nat)
    requires offset < size
    ensures EntryIndex(offset, shift) < CoveringEntryCount(size, shift)
    ensures EntryCount(size, shift) <= CoveringEntryCount(size, shift)
  {
    RoundUpQuotient(size, Pow2(shift), offset);
  }

  /** A megabuffer allocation; `NoAllocation` is the default that converts to false. */
  datatype MegaBufferAllocation =
    | NoAllocation
    | Allocation(buffer: nat, offset: nat, region: seq<byte>)

  function RegionSize(a: MegaBufferAllocation): nat
  {
    if a.Allocation? then |a.region| else 0
  }

  datatype MegaBufferTableEntry = MegaBufferTableEntry(allocation: MegaBufferAllocation, executionNumber: nat, sequenceNumber: nat)

  const EmptyEntry := MegaBufferTableEntry(NoAllocation, 0, 0)

  /** A buffer binding handed to Vulkan; `NoBinding` is the empty binding. */
  datatype BufferBinding = NoBinding | Binding(buffer: nat, offset: nat, size: nat)

  /** Where the megabuffer allocator will place its next allocation. */
  datatype AllocationSlot = AllocationSlot(buffer: nat, offset: nat)

  /** Every entry's region lies inside the mirror, measured from its shard base. */
  predicate RegionsInsideMirror(table: seq<MegaBufferTableEntry>, shift: nat, mirrorSize: nat)
  {
    forall i | 0 <= i < |table| && table[i].allocation.Allocation? :: EntryBase(i, shift) + |table[i].allocation.region| <= mirrorSize
  }

  /** The reuse test as the source writes it. */
  predicate ReusableAsWritten(entry: MegaBufferTableEntry, executionNumber: nat, sequenceNumber: nat, viewOffset: nat, size: nat)
  {
    entry.allocation.Allocation? && entry.executionNumber == executionNumber
    && entry.sequenceNumber == sequenceNumber && RegionSize(entry.allocation) + viewOffset >= size
  }

  /** The reuse test the cache needs: the cached region covers the whole view. */
  predicate Covers(entry: MegaBufferTableEntry, executionNumber: nat, sequenceNumber: nat, viewOffset: nat, size: nat)
  {
    entry.allocation.Allocation? && entry.executionNumber == executionNumber
    && entry.sequenceNumber == sequenceNumber && viewOffset + size <= RegionSize(entry.allocation)
  }

  function Max(a: nat, b: nat): nat
  {
    if a >= b then a else b
  }

  datatype ShardLookup = ShardLookup(table: seq<MegaBufferTableEntry>, binding: BufferBinding, pushed: bool)

  /**
   * The shard lookup of `TryMegaBufferView` as written: a stale entry gets a new
   * allocation, but its execution and sequence tags are left as they were.
   */
  function LookupAsWritten(table: seq<MegaBufferTableEntry>, shift: nat, executionNumber: nat, sequenceNumber: nat,
                           offset: nat, size: nat, mirror: seq<byte>, slot: AllocationSlot): (r: ShardLookup)
    requires EntryIndex(offset, shift) < |table|
    requires offset + size <= |mirror| && RegionsInsideMirror(table, shift, |mirror|)
    ensures |r.table| == |table|
    ensures forall i | 0 <= i < |table| && i != EntryIndex(offset, shift) :: r.table[i] == table[i]
    ensures r.table[EntryIndex(offset, shift)].executionNumber == table[EntryIndex(offset, shift)].executionNumber
    ensures r.table[EntryIndex(offset, shift)].sequenceNumber == table[EntryIndex(offset, shift)].sequenceNumber
    ensures r.pushed <==> !ReusableAsWritten(table[EntryIndex(offset, shift)], executionNumber, sequenceNumber, EntryViewOffset(offset, shift), size)
  {
    var idx := EntryIndex(offset, shift);
    var base := EntryBase(idx, shift);
    var evo := EntryViewOffset(offset, shift);
    var entry := table[idx];
    if !ReusableAsWritten(entry, executionNumber, sequenceNumber, evo, size) then
      var len := Max(evo + size, RegionSize(entry.allocation));
      var allocation := Allocation(slot.buffer, slot.offset, mirror[base..base + len]);
      ShardLookup(table[idx := entry.(allocation := allocation)], Binding(slot.buffer, slot.offset + evo, size), true)
    else
      ShardLookup(table, Binding(entry.allocation.buffer, entry.allocation.offset + evo, size), false)
  }

  /**
   * The entry a miss stores: `max(entryViewOffset + size, old region size)`
   * bytes of the mirror from the shard base, pushed at the allocator's slot
   * and tagged with the request.
   */
  function RefilledEntry(entry: MegaBufferTableEntry, base: nat, evo: nat, size: nat, executionNumber: nat, sequenceNumber: nat,
                         mirror: seq<byte>, slot: AllocationSlot): (e: MegaBufferTableEntry)
    requires base + Max(evo + size, RegionSize(entry.allocation)) <= |mirror|
    ensures Covers(e, executionNumber, sequenceNumber, evo, size)
    ensures e.allocation.buffer == slot.buffer && e.allocation.offset == slot.offset
    ensures base + |e.allocation.region| <= |mirror|
    ensures e.allocation.region[evo..evo + size] == mirror[base + evo..base + evo + size]
  {
    var len := Max(evo + size, RegionSize(entry.allocation));
    MegaBufferTableEntry(Allocation(slot.buffer, slot.offset, mirror[base..base + len]), executionNumber, sequenceNumber)
  }

  lemma ReplacedEntryInsideMirror(table: seq<MegaBufferTableEntry>, shift: nat, mirrorSize: nat, idx: nat, e: MegaBufferTableEntry)
    requires RegionsInsideMirror(table, shift, mirrorSize) && idx < |table|
    requires e.allocation.Allocation? ==> EntryBase(idx, shift) + |e.allocation.region| <= mirrorSize
    ensures RegionsInsideMirror(table[idx := e], shift, mirrorSize)
  {
    var t := table[idx := e];
    forall i | 0 <= i < |t| && t[i].allocation.Allocation?
      ensures EntryBase(i, shift) + |t[i].allocation.region| <= mirrorSize
    {
      if i != idx {
        assert t[i] == table[i];
      }
    }
  }

  /**
   * The shard lookup with both defects of the as-written version corrected: a
   * replaced entry is tagged with the execution and sequence it was built for,
   * and an entry is reused only when its region covers the whole view.
   */
  function Lookup(table: seq<MegaBufferTableEntry>, shift: nat, executionNumber: nat, sequenceNumber: nat,
                  offset: nat, size: nat, mirror: seq<byte>, slot: AllocationSlot): (r: ShardLookup)
    requires EntryIndex(offset, shift) < |table|
    requires offset + size <= |mirror| && RegionsInsideMirror(table, shift, |mirror|)
    ensures |r.table| == |table| && RegionsInsideMirror(r.table, shift, |mirror|)
    ensures forall i | 0 <= i < |table| && i != EntryIndex(offset, shift) :: r.table[i] == table[i]
    ensures r.pushed <==> !Covers(table[EntryIndex(offset, shift)], executionNumber, sequenceNumber, EntryViewOffset(offset, shift), size)
    ensures Covers(r.table[EntryIndex(offset, shift)], executionNumber, sequenceNumber, EntryViewOffset(offset, shift), size)
    ensures var a := r.table[EntryIndex(offset, shift)].allocation;
            r.binding == Binding(a.buffer, a.offset + EntryViewOffset(offset, shift), size)
    ensures r.pushed ==> r.table[EntryIndex(offset, shift)].allocation.region[EntryViewOffset(offset, shift)..EntryViewOffset(offset, shift) + size]
                         == mirror[offset..offset + size]
    ensures r.pushed ==> r.binding.buffer == slot.buffer && r.binding.offset == slot.offset + EntryViewOffset(offset, shift)
  {
    var idx := EntryIndex(offset, shift);
    var base := EntryBase(idx, shift);
    var evo := EntryViewOffset(offset, shift);
    var entry := table[idx];
    if !Covers(entry, executionNumber, sequenceNumber, evo, size) then
      assert base + Max(evo + size, RegionSize(entry.allocation)) <= |mirror|;
      var refilled := RefilledEntry(entry, base, evo, size, executionNumber, sequenceNumber, mirror, slot);
      ReplacedEntryInsideMirror(table, shift, |mirror|, idx, refilled);
      ShardLookup(table[idx := refilled], Binding(slot.buffer, slot.offset + evo, size), true)
    else
      ShardLookup(table, Binding(entry.allocation.buffer, entry.allocation.offset + evo, size), false)
  }

  /**
   * As written, an entry whose tags do not match the request is replaced but
   * keeps its old tags, so the identical request that follows misses again
   * and allocates once more.
   */
  lemma AsWrittenRepeatedRequestAllocatesAgain(table: seq<MegaBufferTableEntry>, shift: nat, executionNumber: nat, sequenceNumber: nat,
                                               offset: nat, size: nat, mirror: seq<byte>, slot: AllocationSlot)
    requires EntryIndex(offset, shift) < |table|
    requires offset + size <= |mirror| && RegionsInsideMirror(table, shift, |mirror|)
    requires table[EntryIndex(offset, shift)].executionNumber != executionNumber
             || table[EntryIndex(offset, shift)].sequenceNumber != sequenceNumber
    ensures LookupAsWritten(table, shift, executionNumber, sequenceNumber, offset, size, mirror, slot).pushed
    ensures var t := LookupAsWritten(table, shift, executionNumber, sequenceNumber, offset, size, mirror, slot).table;
            !ReusableAsWritten(t[EntryIndex(offset, shift)], executionNumber, sequenceNumber, EntryViewOffset(offset, shift), size)
  {
  }

  /** The as-written size test reuses a 16-byte region for an 8-byte view at shard offset 12. */
  lemma AsWrittenReuseAdmitsUncoveredView()
    ensures var entry := MegaBufferTableEntry(Allocation(1, 0, seq(16, _ => 0 as byte)), 3, 5);
            ReusableAsWritten(entry, 3, 5, 12, 8) && !Covers(entry, 3, 5, 12, 8)
  {
  }

  /** Corrected: an identical request right after a lookup reuses its entry and returns the same binding. */
  lemma {:induction false} RepeatedLookupReuses(table: seq<MegaBufferTableEntry>, shift: nat, executionNumber: nat, sequenceNumber: nat,
                                                offset: nat, size: nat, mirror: seq<byte>, slot: AllocationSlot, slot': AllocationSlot)
    requires EntryIndex(offset, shift) < |table|
    requires offset + size <= |mirror| && RegionsInsideMirror(table, shift, |mirror|)
    ensures var first := Lookup(table, shift, executionNumber, sequenceNumber, offset, size, mirror, slot);
            var second := Lookup(first.table, shift, executionNumber, sequenceNumber, offset, size, mirror, slot');
            !second.pushed && second.table == first.table && second.binding == first.binding
  {
  }

  /** A covering entry passes the as-written test too: the correction only ever reuses less. */
  lemma CoversImpliesReusableAsWritten(entry: MegaBufferTableEntry, executionNumber: nat, sequenceNumber: nat, viewOffset: nat, size: nat)
    requires Covers(entry, executionNumber, sequenceNumber, viewOffset, size)
    ensures ReusableAsWritten(entry, executionNumber, sequenceNumber, viewOffset, size)
  {
  }
}

=== FILE: memory.dfy ===
/** Host and guest memory as byte sequences; `memcpy` into a span becomes a splice. */
module Memory {
  newtype byte = x: int | 0 <= x < 256

  /** The bytes of `s` with `data` copied over them starting at `offset`. */
  function Splice(s: seq<byte>, offset: nat, data: seq<byte>): (r: seq<byte>)
    requires offset + |data| <= |s|
    ensures |r| == |s|
    ensures r[offset..offset + |data|] == data
    ensures r[..offset] == s[..offset] && r[offset + |data|..] == s[offset + |data|..]
  {
    s[..offset] + data + s[offset + |data|..]
  }

  /** Copying the same bytes to the same place twice is copying them once. */
  lemma SpliceTwice(s: seq<byte>, offset: nat, data: seq<byte>)
    requires offset + |data| <= |s|
    ensures Splice(Splice(s, offset, data), offset, data) == Splice(s, offset, data)
  {
    var once := Splice(s, offset, data);
    assert once[..offset] + data + once[offset + |data|..] == once by {
      assert once == once[..offset] + once[offset..offset + |data|] + once[offset + |data|..];
    }
  }
}

=== FILE: packed_pipeline_state.dfy ===
/**
 * The packed pipeline state: the key under which compiled pipelines are
 * cached. Its setters convert engine register values into the Vulkan values
 * the pipeline is created with and store them in narrow bit fields.
 *
 * Register values are raw numbers where the conversion is arithmetic
 * (compare functions, logic operations, depth formats) and constructors
 * where it is a table (stencil operations, polygon and cull modes).
 */
module PackedPipelineStates {
  import opened Wrappers
  import opened MaxwellRegisters
  import PipelineStates

  /* ---------------- Compare functions ---------------- */

  /** The engine's two encodings of the eight comparisons: 1..8 (Direct3D order) and 0x200..0x207 (OpenGL). */
  const D3DNever: nat := 1
  const D3DAlways: nat := 8
  const OglNever: nat := 0x200
  const OglAlways: nat := 0x207

  /** A Vulkan compare operation, 0 (never) to 7 (always), in the same order as both engine encodings. */
  function ConvertCompareFunc(func: nat): (r: Result<nat>)
    ensures r.Success? <==> D3DNever <= func <= D3DAlways || OglNever <= func <= OglAlways
    ensures r.Success? ==> r.value < 8
  {
    if func < D3DNever || func > OglAlways || (func > D3DAlways && func < OglNever) then
      Failure("Invalid comparison function")
    else
      Success(if func >= OglNever then func - 0x200 else func - 1)
  }

  /**
   * Both encodings of a comparison give the same Vulkan operation, every
   * Vulkan operation is reached, and distinct comparisons of one encoding
   * stay distinct.
   */
  lemma CompareFuncEncodingsAgree(op: nat, other: nat)
    requires op < 8 && other < 8
    ensures ConvertCompareFunc(D3DNever + op) == ConvertCompareFunc(OglNever + op) == Success(op)
    ensures op != other ==> ConvertCompareFunc(D3DNever + op) != ConvertCompareFunc(D3DNever + other)
  {
  }

  /* ---------------- Logic operations ---------------- */

  /** The engine's logic operations are the OpenGL values 0x1500 (clear) to 0x150F (set). */
  const LogicOpClear: nat := 0x1500
  const LogicOpSet: nat := 0x150F

  /** The Vulkan logic operation, whose order matches the engine's. */
  function ConvertLogicOp(op: nat): (r: Result<nat>)
    ensures r.Success? <==> LogicOpClear <= op <= LogicOpSet
    ensures r.Success? ==> r.value < 16
  {
    if op < LogicOpClear || op > LogicOpSet then Failure("Invalid logical operation")
    else Success(op - LogicOpClear)
  }

  /** The conversion is a bijection between the sixteen engine operations and the sixteen Vulkan ones. */
  lemma ConvertLogicOpBijective(vkOp: nat, op: nat)
    requires vkOp < 16
    ensures ConvertLogicOp(LogicOpClear + vkOp) == Success(vkOp)
    ensures ConvertLogicOp(op) == Success(vkOp) ==> op == LogicOpClear + vkOp
  {
  }

  /* ---------------- Depth render-target format ---------------- */

  /** The smallest depth format value, ZF32, which packs to 0. */
  const ZF32: nat := 0x0A

  /** The format minus ZF32, both taken as bytes, truncated to the 5-bit field. */
  function PackDepthFormat(format: nat): (packed: nat)
    ensures packed < 32
    ensures ZF32 <= format < ZF32 + 32 ==> packed == format - ZF32
  {
    ((format % 256) - ZF32) % 32
  }

  function UnpackDepthFormat(packed: nat): nat
  {
    packed + ZF32
  }

  /** On the 32 format values from ZF32 on, which hold every depth format, packing loses nothing. */
  lemma DepthFormatRoundTrip(format: nat, other: nat)
    requires ZF32 <= format < ZF32 + 32 && ZF32 <= other < ZF32 + 32
    ensures UnpackDepthFormat(PackDepthFormat(format)) == format
    ensures format != other ==> PackDepthFormat(format) != PackDepthFormat(other)
  {
  }

  /* ---------------- Stencil operations ---------------- */

  /** The engine's stencil operations: a Direct3D and an OpenGL value for each of eight operations. */
  datatype StencilOp =
    | D3DKeep | D3DZero | D3DReplace | D3DIncrSat | D3DDecrSat | D3DInvert | D3DIncr | D3DDecr
    | OglKeep | OglZero | OglReplace | OglIncrSat | OglDecrSat | OglInvert | OglIncr | OglDecr
    | OtherStencilOp(raw: nat)

  datatype VkStencilOp =
    | VkKeep | VkZero | VkReplace | VkIncrementAndClamp | VkDecrementAndClamp | VkInvert | VkIncrementAndWrap | VkDecrementAndWrap

  /** The Direct3D value naming the same operation; a Direct3D value names itself. */
  function D3DFormOf(op: StencilOp): StencilOp
  {
    match op
    case OglKeep => D3DKeep
    case OglZero => D3DZero
    case OglReplace => D3DReplace
    case OglIncrSat => D3DIncrSat
    case OglDecrSat => D3DDecrSat
    case OglInvert => D3DInvert
    case OglIncr => D3DIncr
    case OglDecr => D3DDecr
    case _ => op
  }

  function ConvertStencilOp(op: StencilOp): (r: Result<VkStencilOp>)
    ensures r.Failure? <==> op.OtherStencilOp?
  {
    match op
    case OglZero | D3DZero => Success(VkZero)
    case D3DKeep | OglKeep => Success(VkKeep)
    case D3DReplace | OglReplace => Success(VkReplace)
    case D3DIncrSat | OglIncrSat => Success(VkIncrementAndClamp)
    case D3DDecrSat | OglDecrSat => Success(VkDecrementAndClamp)
    case D3DInvert | OglInvert => Success(VkInvert)
    case D3DIncr | OglIncr => Success(VkIncrementAndWrap)
    case D3DDecr | OglDecr => Success(VkDecrementAndWrap)
    case OtherStencilOp(_) => Failure("Invalid stencil operation")
  }

  /** Two engine values convert to the same Vulkan operation exactly when they name the same operation. */
  lemma ConvertStencilOpIdentifiesPairs(a: StencilOp, b: StencilOp)
    requires !a.OtherStencilOp? && !b.OtherStencilOp?
    ensures ConvertStencilOp(a) == ConvertStencilOp(b) <==> D3DFormOf(a) == D3DFormOf(b)
  {
  }

  /* ---------------- Colour write mask ---------------- */

  datatype CtWrite = CtWrite(rEnable: bool, gEnable: bool, bEnable: bool, aEnable: bool)

  /** The Vulkan colour component flags: R = 1, G = 2, B = 4, A = 8. */
  function ConvertColorWriteMask(write: CtWrite): (mask: bv4)
    ensures (mask & 1 != 0) == write.rEnable
    ensures (mask & 2 != 0) == write.gEnable
    ensures (mask & 4 != 0) == write.bEnable
    ensures (mask & 8 != 0) == write.aEnable
  {
    (if write.rEnable then 1 else 0) | (if write.gEnable then 2 else 0)
    | (if write.bEnable then 4 else 0) | (if write.aEnable then 8 else 0)
  }

  /** Distinct enable sets give distinct masks. */
  lemma ColorWriteMaskInjective(a: CtWrite, b: CtWrite)
    ensures ConvertColorWriteMask(a) == ConvertColorWriteMask(b) ==> a == b
  {
  }

  /* ---------------- Polygon and cull modes ---------------- */

  datatype PolygonMode = PolygonPoint | PolygonLine | PolygonFill | OtherPolygonMode(raw: nat)

  datatype VkPolygonMode = VkFill | VkLine | VkPoint

  /**
   * SetPolygonMode as written: no case ends in a break, so a valid mode
   * stores its own value and every later case's value, then reaches the
   * throw. The result is the stored mode and the outcome.
   */
  function SetPolygonModeAsWritten(current: VkPolygonMode, mode: PolygonMode): (r: (VkPolygonMode, Outcome))
    ensures r.1.Fail?
  {
    match mode
    case PolygonFill => (VkPoint, Fail("Invalid polygon mode"))
    case PolygonLine => (VkPoint, Fail("Invalid polygon mode"))
    case PolygonPoint => (VkPoint, Fail("Invalid polygon mode"))
    case OtherPolygonMode(_) => (current, Fail("Invalid polygon mode"))
  }

  /** Setting the fill mode, as written, reports an invalid mode and leaves the point mode stored. */
  lemma AsWrittenPolygonModeFillThrows(current: VkPolygonMode)
    ensures SetPolygonModeAsWritten(current, PolygonFill) == (VkPoint, Fail("Invalid polygon mode"))
    ensures ConvertPolygonMode(PolygonFill) == Success(VkFill)
  {
  }

  function ConvertPolygonMode(mode: PolygonMode): (r: Result<VkPolygonMode>)
    ensures r.Failure? <==> mode.OtherPolygonMode?
  {
    match mode
    case PolygonFill => Success(VkFill)
    case PolygonLine => Success(VkLine)
    case PolygonPoint => Success(VkPoint)
    case OtherPolygonMode(_) => Failure("Invalid polygon mode")
  }

  function EnginePolygonModeOf(mode: VkPolygonMode): PolygonMode
  {
    match mode
    case VkFill => PolygonFill
    case VkLine => PolygonLine
    case VkPoint => PolygonPoint
  }

  /** The corrected conversion is a bijection between the three engine modes and the three Vulkan modes. */
  lemma ConvertPolygonModeBijective(mode: PolygonMode, vkMode: VkPolygonMode)
    ensures ConvertPolygonMode(EnginePolygonModeOf(vkMode)) == Success(vkMode)
    ensures ConvertPolygonMode(mode) == Success(vkMode) ==> mode == EnginePolygonModeOf(vkMode)
  {
  }

  datatype CullFace = CullFront | CullBack | CullFrontAndBack | OtherCullFace(raw: nat)

  /** Vulkan cull-mode flags: front = 1, back = 2. */
  const CullFrontBit: bv2 := 1
  const CullBackBit: bv2 := 2

  /**
   * SetCullMode as written: disabling culling stores no faces; enabling it
   * falls through every case after the matching one into the throw, leaving
   * both faces culled.
   */
  function SetCullModeAsWritten(current: bv2, enable: bool, face: CullFace): (r: (bv2, Outcome))
    ensures enable ==> r.1.Fail?
    ensures !enable ==> r == (0, Pass)
  {
    if !enable then (0, Pass)
    else match face
      case OtherCullFace(_) => (current, Fail("Invalid cull mode"))
      case _ => (CullFrontBit | CullBackBit, Fail("Invalid cull mode"))
  }

  /** Enabling back-face culling, as written, reports an invalid mode and culls the front faces too. */
  lemma AsWrittenCullBackThrows(current: bv2)
    ensures SetCullModeAsWritten(current, true, CullBack) == (CullFrontBit | CullBackBit, Fail("Invalid cull mode"))
    ensures ConvertCullMode(true, CullBack) == Success(CullBackBit)
  {
  }

  function ConvertCullMode(enable: bool, face: CullFace): (r: Result<bv2>)
    ensures r.Failure? <==> enable && face.OtherCullFace?
    ensures !enable ==> r == Success(0)
  {
    if !enable then Success(0)
    else match face
      case CullFront => Success(CullFrontBit)
      case CullBack => Success(CullBackBit)
      case CullFrontAndBack => Success(CullFrontBit | CullBackBit)
      case OtherCullFace(_) => Failure("Invalid cull mode")
  }

  /** With culling enabled, the front bit is set exactly when front faces are culled, and likewise the back bit. */
  lemma ConvertCullModeBits(face: CullFace)
    requires !face.OtherCullFace?
    ensures var m := ConvertCullMode(true, face).value;
            ((m & CullFrontBit) != 0 <==> face == CullFront || face == CullFrontAndBack)
            && ((m & CullBackBit) != 0 <==> face == CullBack || face == CullFrontAndBack)
  {
  }

  /* ---------------- Packed stencil state ---------------- */

  /** The engine's stencil registers of one face. */
  datatype EngineStencilOps = EngineStencilOps(fail: StencilOp, zFail: StencilOp, zPass: StencilOp, func: nat)

  /** One face as the packed state stores it. */
  datatype PackedStencilOps = PackedStencilOps(zPass: VkStencilOp, fail: VkStencilOp, zFail: VkStencilOp, func: nat)

  /** One face of the Vulkan depth-stencil create info. */
  datatype StencilOpState = StencilOpState(failOp: VkStencilOp, passOp: VkStencilOp, depthFailOp: VkStencilOp, compareOp: nat)

  /** Packs one face, converting the pass, fail and depth-fail operations and then the compare function. */
  function PackStencilOps(ops: EngineStencilOps): (r: Result<PackedStencilOps>)
    ensures r.Success? <==> ConvertStencilOp(ops.zPass).Success? && ConvertStencilOp(ops.fail).Success?
                            && ConvertStencilOp(ops.zFail).Success? && ConvertCompareFunc(ops.func).Success?
  {
    var zPass := ConvertStencilOp(ops.zPass);
    var fail := ConvertStencilOp(ops.fail);
    var zFail := ConvertStencilOp(ops.zFail);
    var func := ConvertCompareFunc(ops.func);
    if zPass.Failure? then Failure(zPass.error)
    else if fail.Failure? then Failure(fail.error)
    else if zFail.Failure? then Failure(zFail.error)
    else if func.Failure? then Failure(func.error)
    else Success(PackedStencilOps(zPass.value, fail.value, zFail.value, func.value))
  }

  function FaceOpState(ops: PackedStencilOps): StencilOpState
  {
    StencilOpState(ops.fail, ops.zPass, ops.zFail, ops.func)
  }

  /**
   * Packing and then reading a face routes each engine register to its
   * Vulkan field: fail to failOp, depth-pass to passOp, depth-fail to
   * depthFailOp, and the compare function to compareOp.
   */
  lemma StencilFaceRouting(ops: EngineStencilOps)
    requires PackStencilOps(ops).Success?
    ensures FaceOpState(PackStencilOps(ops).value)
            == StencilOpState(ConvertStencilOp(ops.fail).value, ConvertStencilOp(ops.zPass).value,
                              ConvertStencilOp(ops.zFail).value, ConvertCompareFunc(ops.func).value)
  {
  }

  /* ---------------- Vertex bindings ---------------- */

  /** A packed vertex binding: a 12-bit stride, the input rate, the enable bit and the divisor. */
  datatype VertexBinding = VertexBinding(stride: nat, inputRate: PipelineStates.InputRate, enable: bool, divisor: nat)

  /** The vertex stream registers the packed binding is taken from. */
  datatype VertexStream = VertexStream(stride: nat, enable: bool, frequency: nat)

  /* ---------------- The packed state ---------------- */

  class PackedPipelineState {
    var depthRenderTargetFormat: nat
    var polygonMode: VkPolygonMode
    var cullMode: bv2
    var depthFunc: nat
    var logicOp: nat
    var stencilFront: PackedStencilOps
    var stencilBack: PackedStencilOps
    const vertexBindings: array<VertexBinding>

    ghost predicate Valid()
      reads this
    {
      vertexBindings.Length == VertexStreamCount
    }

    constructor ()
      ensures Valid() && fresh(vertexBindings)
      ensures depthRenderTargetFormat == 0 && polygonMode == VkFill && cullMode == 0 && depthFunc == 0 && logicOp == 0
      ensures forall i | 0 <= i < VertexStreamCount :: vertexBindings[i] == VertexBinding(0, PipelineStates.RateVertex, false, 0)
    {
      depthRenderTargetFormat := 0;
      polygonMode := VkFill;
      cullMode := 0;
      depthFunc := 0;
      logicOp := 0;
      stencilFront := PackedStencilOps(VkKeep, VkKeep, VkKeep, 0);
      stencilBack := PackedStencilOps(VkKeep, VkKeep, VkKeep, 0);
      vertexBindings := new VertexBinding[VertexStreamCount](_ => VertexBinding(0, PipelineStates.RateVertex, false, 0));
    }

    method SetDepthRenderTargetFormat(format: nat)
      modifies this
      ensures depthRenderTargetFormat == PackDepthFormat(format)
      ensures polygonMode == old(polygonMode) && cullMode == old(cullMode) && depthFunc == old(depthFunc)
      ensures logicOp == old(logicOp) && stencilFront == old(stencilFront) && stencilBack == old(stencilBack)
    {
      depthRenderTargetFormat := PackDepthFormat(format);
    }

    /** Stores entry `index` from the stream registers; no other entry changes. */
    method SetVertexBinding(index: nat, stream: VertexStream, isInstanced: bool)
      requires Valid() && index < VertexStreamCount
      modifies vertexBindings
      ensures vertexBindings[..] == old(vertexBindings[..])[index := VertexBinding(
                stream.stride % 4096, if isInstanced then PipelineStates.RateInstance else PipelineStates.RateVertex, stream.enable, stream.frequency)]
    {
      vertexBindings[index] := VertexBinding(stream.stride % 4096, if isInstanced then PipelineStates.RateInstance else PipelineStates.RateVertex,
                                             stream.enable, stream.frequency);
    }

    /** Stores the converted polygon mode; an invalid mode fails and leaves the state alone. */
    method SetPolygonMode(mode: PolygonMode) returns (outcome: Outcome)
      modifies this
      ensures outcome.Fail? <==> mode.OtherPolygonMode?
      ensures outcome.Pass? ==> polygonMode == ConvertPolygonMode(mode).value
      ensures outcome.Fail? ==> polygonMode == old(polygonMode)
      ensures cullMode == old(cullMode) && depthFunc == old(depthFunc) && logicOp == old(logicOp)
      ensures depthRenderTargetFormat == old(depthRenderTargetFormat)
      ensures stencilFront == old(stencilFront) && stencilBack == old(stencilBack)
    {
      var converted := ConvertPolygonMode(mode);
      if converted.Failure? {
        return Fail(converted.error);
      }
      polygonMode := converted.value;
      outcome := Pass;
    }

    /** Stores the culled faces, none when culling is disabled; an invalid face fails and leaves the state alone. */
    method SetCullMode(enable: bool, face: CullFace) returns (outcome: Outcome)
      modifies this
      ensures outcome.Fail? <==> enable && face.OtherCullFace?
      ensures outcome.Pass? ==> cullMode == ConvertCullMode(enable, face).value
      ensures outcome.Fail? ==> cullMode == old(cullMode)
      ensures polygonMode == old(polygonMode) && depthFunc == old(depthFunc) && logicOp == old(logicOp)
      ensures depthRenderTargetFormat == old(depthRenderTargetFormat)
      ensures stencilFront == old(stencilFront) && stencilBack == old(stencilBack)
    {
      var converted := ConvertCullMode(enable, face);
      if converted.Failure? {
        return Fail(converted.error);
      }
      cullMode := converted.value;
      outcome := Pass;
    }

    method SetDepthFunc(func: nat) returns (outcome: Outcome)
      modifies this
      ensures outcome.Fail? <==> ConvertCompareFunc(func).Failure?
      ensures outcome.Pass? ==> depthFunc == ConvertCompareFunc(func).value
      ensures outcome.Fail? ==> depthFunc == old(depthFunc)
      ensures polygonMode == old(polygonMode) && cullMode == old(cullMode) && logicOp == old(logicOp)
      ensures depthRenderTargetFormat == old(depthRenderTargetFormat)
      ensures stencilFront == old(stencilFront) && stencilBack == old(stencilBack)
    {
      var converted := ConvertCompareFunc(func);
      if converted.Failure? {
        return Fail(converted.error);
      }
      depthFunc := converted.value;
      outcome := Pass;
    }

    method SetLogicOp(op: nat) returns (outcome: Outcome)
      modifies this
      ensures outcome.Fail? <==> ConvertLogicOp(op).Failure?
      ensures outcome.Pass? ==> logicOp == ConvertLogicOp(op).value
      ensures outcome.Fail? ==> logicOp == old(logicOp)
      ensures polygonMode == old(polygonMode) && cullMode == old(cullMode) && depthFunc == old(depthFunc)
      ensures depthRenderTargetFormat == old(depthRenderTargetFormat)
      ensures stencilFront == old(stencilFront) && stencilBack == old(stencilBack)
    {
      var converted := ConvertLogicOp(op);
      if converted.Failure? {
        return Fail(converted.error);
      }
      logicOp := converted.value;
      outcome := Pass;
    }

    /**
     * Packs the front face and stores it, then the back face. A face that
     * does not convert fails before its own store, so a bad back face leaves
     * the new front face in place.
     */
    method SetStencilOps(front: EngineStencilOps, back: EngineStencilOps) returns (outcome: Outcome)
      modifies this
      ensures outcome.Pass? <==> PackStencilOps(front).Success? && PackStencilOps(back).Success?
      ensures stencilFront == (if PackStencilOps(front).Success? then PackStencilOps(front).value else old(stencilFront))
      ensures stencilBack == (if outcome.Pass? then PackStencilOps(back).value else old(stencilBack))
      ensures outcome.Pass? ==> GetStencilOpsState() == [FaceOpState(PackStencilOps(front).value), FaceOpState(PackStencilOps(back).value)]
      ensures polygonMode == old(polygonMode) && cullMode == old(cullMode) && depthFunc == old(depthFunc)
      ensures logicOp == old(logicOp) && depthRenderTargetFormat == old(depthRenderTargetFormat)
    {
      var packedFront := PackStencilOps(front);
      if packedFront.Failure? {
        return Fail(packedFront.error);
      }
      stencilFront := packedFront.value;
      var packedBack := PackStencilOps(back);
      if packedBack.Failure? {
        return Fail(packedBack.error);
      }
      stencilBack := packedBack.value;
      outcome := Pass;
    }

    /** The Vulkan stencil state of both faces, front first. */
    function GetStencilOpsState(): (r: seq<StencilOpState>)
      reads this
      ensures |r| == 2
    {
      [FaceOpState(stencilFront), FaceOpState(stencilBack)]
    }
  }
}

=== FILE: pipeline_manager.dfy ===
/**
 * The pipeline manager: shader-stage and attribute conversions, the
 * descriptor layout a pipeline derives from its shader stages, the
 * descriptor writes and buffer bindings of a full descriptor sync, each
 * pipeline's cache of recent transitions, and the manager's memoising map.
 */
module PipelineManagers {
  import opened Wrappers
  import opened Memory
  import opened MaxwellRegisters
  import BufferModel
  import opened Buffers
  import opened BufferViews
  import opened MegaBufferTable
  import opened StateUpdates

  /* ---------------- Stage and attribute conversions ---------------- */

  datatype ShaderType = VertexCullBeforeFetch | Vertex | TessellationInit | Tessellation | Geometry | Pixel | OtherShaderType(raw: nat)

  /** The shader compiler's stages; VertexA is the cull-before-fetch vertex program. */
  datatype CompilerStage = VertexA | VertexB | TessellationControl | TessellationEval | GeometryStage | Fragment

  datatype VkShaderStage = StageVertex | StageTessellationControl | StageTessellationEvaluation | StageGeometry | StageFragment

  function ConvertCompilerShaderStage(t: ShaderType): (r: Result<CompilerStage>)
    ensures r.Failure? <==> t.OtherShaderType?
  {
    match t
    case VertexCullBeforeFetch => Success(VertexA)
    case Vertex => Success(VertexB)
    case TessellationInit => Success(TessellationControl)
    case Tessellation => Success(TessellationEval)
    case Geometry => Success(GeometryStage)
    case Pixel => Success(Fragment)
    case OtherShaderType(_) => Failure("Invalid shader stage")
  }

  function ConvertVkShaderStage(t: ShaderType): (r: Result<VkShaderStage>)
    ensures r.Failure? <==> t.OtherShaderType?
  {
    match t
    case VertexCullBeforeFetch | Vertex => Success(StageVertex)
    case TessellationInit => Success(StageTessellationControl)
    case Tessellation => Success(StageTessellationEvaluation)
    case Geometry => Success(StageGeometry)
    case Pixel => Success(StageFragment)
    case OtherShaderType(_) => Failure("Invalid shader stage")
  }

  /** The Vulkan stage a compiled program of a compiler stage runs in. */
  function StageFlagOf(s: CompilerStage): VkShaderStage
  {
    match s
    case VertexA | VertexB => StageVertex
    case TessellationControl => StageTessellationControl
    case TessellationEval => StageTessellationEvaluation
    case GeometryStage => StageGeometry
    case Fragment => StageFragment
  }

  /**
   * The two conversions agree: the Vulkan stage of a shader type is the stage
   * its compiler stage runs in. Only the two vertex programs share a Vulkan
   * stage, and the compiler stages of distinct shader types are distinct.
   */
  lemma StageConversionsAgree(t: ShaderType, u: ShaderType)
    requires !t.OtherShaderType? && !u.OtherShaderType?
    ensures ConvertVkShaderStage(t).value == StageFlagOf(ConvertCompilerShaderStage(t).value)
    ensures ConvertVkShaderStage(t) == Success(StageVertex) <==> t == VertexCullBeforeFetch || t == Vertex
    ensures ConvertCompilerShaderStage(t) == ConvertCompilerShaderStage(u) ==> t == u
  {
  }

  datatype DomainType = Isoline | TriangleDomain | QuadDomain
  datatype TessPrimitive = TessIsolines | TessTriangles | TessQuads
  datatype Spacing = IntegerSpacing | FractionalEvenSpacing | FractionalOddSpacing
  datatype TessSpacing = SpacingEqual | SpacingFractionalEven | SpacingFractionalOdd

  function ConvertShaderTessPrimitive(domain: DomainType): TessPrimitive
  {
    match domain
    case Isoline => TessIsolines
    case TriangleDomain => TessTriangles
    case QuadDomain => TessQuads
  }

  function ConvertShaderTessSpacing(spacing: Spacing): TessSpacing
  {
    match spacing
    case IntegerSpacing => SpacingEqual
    case FractionalEvenSpacing => SpacingFractionalEven
    case FractionalOddSpacing => SpacingFractionalOdd
  }

  /** Both tessellation conversions are one-to-one and reach every compiler value. */
  lemma TessConversionsBijective(d: DomainType, e: DomainType, s: Spacing, t: Spacing, p: TessPrimitive, q: TessSpacing)
    ensures ConvertShaderTessPrimitive(d) == ConvertShaderTessPrimitive(e) ==> d == e
    ensures ConvertShaderTessSpacing(s) == ConvertShaderTessSpacing(t) ==> s == t
    ensures exists d' :: ConvertShaderTessPrimitive(d') == p
    ensures exists s' :: ConvertShaderTessSpacing(s') == q
  {
    match p {
      case TessIsolines => assert ConvertShaderTessPrimitive(Isoline) == p;
      case TessTriangles => assert ConvertShaderTessPrimitive(TriangleDomain) == p;
      case TessQuads => assert ConvertShaderTessPrimitive(QuadDomain) == p;
    }
    match q {
      case SpacingEqual => assert ConvertShaderTessSpacing(IntegerSpacing) == q;
      case SpacingFractionalEven => assert ConvertShaderTessSpacing(FractionalEvenSpacing) == q;
      case SpacingFractionalOdd => assert ConvertShaderTessSpacing(FractionalOddSpacing) == q;
    }
  }

  datatype AttributeType = AttributeDisabled | AttributeFloat | AttributeSignedInt | AttributeUnsignedInt

  /** The attribute type a vertex program reads: inactive attributes are disabled, the rest follow the numerical type. */
  function ConvertShaderAttributeType(attribute: VertexAttribute): (r: Result<AttributeType>)
    ensures r == Success(AttributeDisabled) <==> !attribute.active
    ensures r.Failure? <==> attribute.active && attribute.numericalType.OtherNumericalType?
    ensures r == Success(AttributeSignedInt) <==> attribute.active && attribute.numericalType == Sint
    ensures r == Success(AttributeUnsignedInt) <==> attribute.active && attribute.numericalType == Uint
    ensures r == Success(AttributeFloat) <==>
              attribute.active && attribute.numericalType in {Snorm, Unorm, Sscaled, Uscaled, Float}
  {
    if !attribute.active then Success(AttributeDisabled)
    else match attribute.numericalType
      case Snorm | Unorm | Sscaled | Uscaled | Float => Success(AttributeFloat)
      case Sint => Success(AttributeSignedInt)
      case Uint => Success(AttributeUnsignedInt)
      case OtherNumericalType(_) => Failure("Invalid numerical type")
  }

  /* ---------------- Shader descriptors ---------------- */

  datatype ConstantBufferDescriptor = ConstantBufferDescriptor(index: nat, count: nat)
  datatype StorageBufferDescriptor = StorageBufferDescriptor(cbufIndex: nat, cbufOffset: nat, count: nat, isWritten: bool)

  /** What a compiled program uses; texel-buffer, texture and image descriptors are kept as their array counts. */
  datatype ShaderInfo = ShaderInfo(
    constantBufferDescriptors: seq<ConstantBufferDescriptor>,
    storageBufferDescriptors: seq<StorageBufferDescriptor>,
    textureBufferDescriptors: seq<nat>,
    imageBufferDescriptors: seq<nat>,
    textureDescriptors: seq<nat>,
    imageDescriptors: seq<nat>,
    constantBufferUsedSizes: seq<nat>)

  datatype ShaderStage = ShaderStage(stage: VkShaderStage, info: ShaderInfo)

  datatype DescriptorType = UniformBuffer | StorageBuffer | UniformTexelBuffer | StorageTexelBuffer | CombinedImageSampler | StorageImage

  /** The array count of each descriptor of one type in one program, in program order. */
  function GroupCounts(info: ShaderInfo, t: DescriptorType): seq<nat>
  {
    match t
    case UniformBuffer =>
      seq(|info.constantBufferDescriptors|, k requires 0 <= k < |info.constantBufferDescriptors| => info.constantBufferDescriptors[k].count)
    case StorageBuffer =>
      seq(|info.storageBufferDescriptors|, k requires 0 <= k < |info.storageBufferDescriptors| => info.storageBufferDescriptors[k].count)
    case UniformTexelBuffer => info.textureBufferDescriptors
    case StorageTexelBuffer => info.imageBufferDescriptors
    case CombinedImageSampler => info.textureDescriptors
    case StorageImage => info.imageDescriptors
  }

  function SumCounts(counts: seq<nat>): nat
  {
    if |counts| == 0 then 0 else SumCounts(counts[..|counts| - 1]) + counts[|counts| - 1]
  }

  /* ---------------- The descriptor layout ---------------- */

  datatype LayoutBinding = LayoutBinding(binding: nat, descriptorType: DescriptorType, descriptorCount: nat, stageFlags: VkShaderStage)

  /** One binding per descriptor of a group, numbered on from `first`. */
  function GroupLayout(first: nat, t: DescriptorType, counts: seq<nat>, flag: VkShaderStage): (r: seq<LayoutBinding>)
    ensures |r| == |counts|
  {
    seq(|counts|, k requires 0 <= k < |counts| => LayoutBinding(first + k, t, counts[k], flag))
  }

  /** The descriptor types in the order a program's groups are laid out. */
  function TypeAt(g: nat): DescriptorType
    requires g < 6
  {
    match g
    case 0 => UniformBuffer
    case 1 => StorageBuffer
    case 2 => UniformTexelBuffer
    case 3 => StorageTexelBuffer
    case 4 => CombinedImageSampler
    case 5 => StorageImage
  }

  function TypeIndex(t: DescriptorType): (g: nat)
    ensures g < 6 && TypeAt(g) == t
  {
    match t
    case UniformBuffer => 0
    case StorageBuffer => 1
    case UniformTexelBuffer => 2
    case StorageTexelBuffer => 3
    case CombinedImageSampler => 4
    case StorageImage => 5
  }

  /** The bindings of the first `g` groups of one program, numbered on from `first`. */
  function StageGroups(first: nat, stage: ShaderStage, g: nat): seq<LayoutBinding>
    requires g <= 6
  {
    if g == 0 then []
    else
      var prefix := StageGroups(first, stage, g - 1);
      prefix + GroupLayout(first + |prefix|, TypeAt(g - 1), GroupCounts(stage.info, TypeAt(g - 1)), stage.stage)
  }

  /** The bindings of one program: its groups in type order. */
  function StageLayout(first: nat, stage: ShaderStage): seq<LayoutBinding>
  {
    StageGroups(first, stage, 6)
  }

  /** The pipeline's bindings: every program in stage order. */
  function Layout(stages: seq<ShaderStage>): seq<LayoutBinding>
  {
    if |stages| == 0 then []
    else
      var prefix := Layout(stages[..|stages| - 1]);
      prefix + StageLayout(|prefix|, stages[|stages| - 1])
  }

  /** The array counts of one type summed over every program. */
  function TypeTotal(stages: seq<ShaderStage>, t: DescriptorType): nat
  {
    if |stages| == 0 then 0
    else TypeTotal(stages[..|stages| - 1], t) + SumCounts(GroupCounts(stages[|stages| - 1].info, t))
  }

  /** Descriptor writes a group needs: one for a non-empty group, or one per descriptor for individually written textures. */
  function GroupWriteCount(t: DescriptorType, descriptors: nat, individualTextureWrites: bool): nat
  {
    if individualTextureWrites && t == CombinedImageSampler then descriptors
    else if descriptors > 0 then 1 else 0
  }

  function StageWriteCount(info: ShaderInfo, individualTextureWrites: bool): nat
  {
    GroupWriteCount(UniformBuffer, |GroupCounts(info, UniformBuffer)|, individualTextureWrites)
    + GroupWriteCount(StorageBuffer, |GroupCounts(info, StorageBuffer)|, individualTextureWrites)
    + GroupWriteCount(UniformTexelBuffer, |GroupCounts(info, UniformTexelBuffer)|, individualTextureWrites)
    + GroupWriteCount(StorageTexelBuffer, |GroupCounts(info, StorageTexelBuffer)|, individualTextureWrites)
    + GroupWriteCount(CombinedImageSampler, |GroupCounts(info, CombinedImageSampler)|, individualTextureWrites)
    + GroupWriteCount(StorageImage, |GroupCounts(info, StorageImage)|, individualTextureWrites)
  }

  function WriteDescCount(stages: seq<ShaderStage>, individualTextureWrites: bool): nat
  {
    if |stages| == 0 then 0
    else WriteDescCount(stages[..|stages| - 1], individualTextureWrites) + StageWriteCount(stages[|stages| - 1].info, individualTextureWrites)
  }

  /** The sum of the descriptor counts of the bindings of one type. */
  function SumOfType(bindings: seq<LayoutBinding>, t: DescriptorType): nat
  {
    if |bindings| == 0 then 0
    else
      SumOfType(bindings[..|bindings| - 1], t)
      + (if bindings[|bindings| - 1].descriptorType == t then bindings[|bindings| - 1].descriptorCount else 0)
  }

  lemma {:induction false} GroupLayoutNumbers(first: nat, t: DescriptorType, counts: seq<nat>, flag: VkShaderStage)
    ensures forall k | 0 <= k < |counts| :: GroupLayout(first, t, counts, flag)[k].binding == first + k
  {
  }

  lemma {:induction false} StageGroupsNumbers(first: nat, stage: ShaderStage, g: nat)
    requires g <= 6
    ensures forall k | 0 <= k < |StageGroups(first, stage, g)| :: StageGroups(first, stage, g)[k].binding == first + k
  {
    if g > 0 {
      StageGroupsNumbers(first, stage, g - 1);
      var prefix := StageGroups(first, stage, g - 1);
      GroupLayoutNumbers(first + |prefix|, TypeAt(g - 1), GroupCounts(stage.info, TypeAt(g - 1)), stage.stage);
    }
  }

  /** The bindings are numbered 0, 1, 2, … in the order they are listed. */
  lemma {:induction false} LayoutNumbersBindings(stages: seq<ShaderStage>)
    ensures forall k | 0 <= k < |Layout(stages)| :: Layout(stages)[k].binding == k
  {
    if |stages| > 0 {
      var prefix := Layout(stages[..|stages| - 1]);
      LayoutNumbersBindings(stages[..|stages| - 1]);
      StageGroupsNumbers(|prefix|, stages[|stages| - 1], 6);
    }
  }

  lemma {:induction false} SumOfTypeAppend(a: seq<LayoutBinding>, b: seq<LayoutBinding>, t: DescriptorType)
    ensures SumOfType(a + b, t) == SumOfType(a, t) + SumOfType(b, t)
    decreases |b|
  {
    if |b| == 0 {
      assert a + b == a;
    } else {
      assert (a + b)[..|a + b| - 1] == a + b[..|b| - 1];
      assert (a + b)[|a + b| - 1] == b[|b| - 1];
      SumOfTypeAppend(a, b[..|b| - 1], t);
    }
  }

  lemma {:induction false} GroupLayoutSum(first: nat, t: DescriptorType, counts: seq<nat>, flag: VkShaderStage, t': DescriptorType)
    ensures SumOfType(GroupLayout(first, t, counts, flag), t') == if t == t' then SumCounts(counts) else 0
  {
    if |counts| > 0 {
      var g := GroupLayout(first, t, counts, flag);
      assert g[..|g| - 1] == GroupLayout(first, t, counts[..|counts| - 1], flag);
      GroupLayoutSum(first, t, counts[..|counts| - 1], flag, t');
    }
  }

  /** `TypeIndex` inverts `TypeAt`. */
  lemma TypeIndexOfTypeAt(g: nat)
    requires g < 6
    ensures TypeIndex(TypeAt(g)) == g
  {
  }

  lemma {:induction false} StageGroupsSum(first: nat, stage: ShaderStage, g: nat, t: DescriptorType)
    requires g <= 6
    ensures SumOfType(StageGroups(first, stage, g), t) == if TypeIndex(t) < g then SumCounts(GroupCounts(stage.info, t)) else 0
  {
    if g > 0 {
      TypeIndexOfTypeAt(g - 1);
      var prefix := StageGroups(first, stage, g - 1);
      StageGroupsSum(first, stage, g - 1, t);
      SumOfTypeAppend(prefix, GroupLayout(first + |prefix|, TypeAt(g - 1), GroupCounts(stage.info, TypeAt(g - 1)), stage.stage), t);
      GroupLayoutSum(first + |prefix|, TypeAt(g - 1), GroupCounts(stage.info, TypeAt(g - 1)), stage.stage, t);
    }
  }

  /** The per-type total is the sum of the descriptor counts the layout gives that type. */
  lemma {:induction false} LayoutTypeTotals(stages: seq<ShaderStage>, t: DescriptorType)
    ensures SumOfType(Layout(stages), t) == TypeTotal(stages, t)
  {
    if |stages| > 0 {
      var prefix := Layout(stages[..|stages| - 1]);
      LayoutTypeTotals(stages[..|stages| - 1], t);
      SumOfTypeAppend(prefix, StageLayout(|prefix|, stages[|stages| - 1]), t);
      StageGroupsSum(|prefix|, stages[|stages| - 1], 6, t);
    }
  }

  /** Without individual texture writes each program needs at most one write per type, and never more than with them. */
  lemma {:induction false} WriteDescCountBounds(stages: seq<ShaderStage>)
    ensures WriteDescCount(stages, false) <= 6 * |stages|
    ensures WriteDescCount(stages, false) <= WriteDescCount(stages, true)
  {
    if |stages| > 0 {
      WriteDescCountBounds(stages[..|stages| - 1]);
    }
  }

  /* ---------------- MakePipelineDescriptorInfo ---------------- */

  datatype DescriptorInfo = DescriptorInfo(
    bindings: seq<LayoutBinding>,
    uniformBufferDescCount: nat,
    storageBufferDescCount: nat,
    uniformTexelBufferDescCount: nat,
    storageTexelBufferDescCount: nat,
    combinedImageSamplerDescCount: nat,
    storageImageDescCount: nat,
    totalBufferDescCount: nat,
    totalTexelBufferDescCount: nat,
    totalImageDescCount: nat,
    writeDescCount: nat)

  /**
   * pushBindings: appends one binding per descriptor of a group, returning
   * the sum of their array counts and the descriptor writes the group needs.
   */
  method PushBindings(bindings: seq<LayoutBinding>, bindingIndex: nat, t: DescriptorType, counts: seq<nat>,
                      flag: VkShaderStage, individualDescWrites: bool)
    returns (bindings': seq<LayoutBinding>, bindingIndex': nat, added: nat, writes: nat)
    requires bindingIndex == |bindings|
    ensures bindings' == bindings + GroupLayout(bindingIndex, t, counts, flag)
    ensures bindingIndex' == |bindings'| && added == SumCounts(counts)
    ensures writes == GroupWriteCount(t, |counts|, individualDescWrites && t == CombinedImageSampler)
  {
    writes := if individualDescWrites && t == CombinedImageSampler then |counts| else if |counts| > 0 then 1 else 0;
    bindings', bindingIndex', added := bindings, bindingIndex, 0;
    for k := 0 to |counts|
      invariant bindings' == bindings + GroupLayout(bindingIndex, t, counts[..k], flag)
      invariant bindingIndex' == bindingIndex + k && added == SumCounts(counts[..k])
    {
      assert counts[..k + 1][..k] == counts[..k];
      bindings' := bindings' + [LayoutBinding(bindingIndex', t, counts[k], flag)];
      bindingIndex' := bindingIndex' + 1;
      added := added + counts[k];
    }
    assert counts[..|counts|] == counts;
  }

  /** The per-type array counts one program adds, in type order. */
  function StageCounts(info: ShaderInfo): (r: seq<nat>)
    ensures |r| == 6
  {
    seq(6, g requires 0 <= g < 6 => SumCounts(GroupCounts(info, TypeAt(g))))
  }

  /** Appending group `g` after the first `g` groups of a program gives its first `g + 1` groups. */
  lemma PushedGroup(bindings: seq<LayoutBinding>, first: nat, stage: ShaderStage, g: nat,
                    before: seq<LayoutBinding>, pushed: seq<LayoutBinding>)
    requires g < 6 && first == |bindings| && before == bindings + StageGroups(first, stage, g)
    requires pushed == before + GroupLayout(|before|, TypeAt(g), GroupCounts(stage.info, TypeAt(g)), stage.stage)
    ensures pushed == bindings + StageGroups(first, stage, g + 1)
  {
    var prefix := StageGroups(first, stage, g);
    var group := GroupLayout(first + |prefix|, TypeAt(g), GroupCounts(stage.info, TypeAt(g)), stage.stage);
    assert StageGroups(first, stage, g + 1) == prefix + group;
    assert (bindings + prefix) + group == bindings + (prefix + group);
  }

  /**
   * The six pushBindings calls of one program, in type order; only combined
   * image samplers may be written individually.
   */
  method PushStageBindings(bindings: seq<LayoutBinding>, bindingIndex: nat, stage: ShaderStage, individualTextureWrites: bool)
    returns (bindings': seq<LayoutBinding>, bindingIndex': nat, added: seq<nat>, writes: nat)
    requires bindingIndex == |bindings|
    ensures bindings' == bindings + StageLayout(bindingIndex, stage) && bindingIndex' == |bindings'|
    ensures added == StageCounts(stage.info)
    ensures writes == StageWriteCount(stage.info, individualTextureWrites)
  {
    var info := stage.info;
    var a0, a1, a2, a3, a4, a5, w0, w1, w2, w3, w4, w5;
    ghost var before;
    before := bindings;
    bindings', bindingIndex', a0, w0 := PushBindings(bindings, bindingIndex, UniformBuffer, GroupCounts(info, UniformBuffer), stage.stage, false);
    PushedGroup(bindings, bindingIndex, stage, 0, before, bindings');
    before := bindings';
    bindings', bindingIndex', a1, w1 := PushBindings(bindings', bindingIndex', StorageBuffer, GroupCounts(info, StorageBuffer), stage.stage, false);
    PushedGroup(bindings, bindingIndex, stage, 1, before, bindings');
    before := bindings';
    bindings', bindingIndex', a2, w2 := PushBindings(bindings', bindingIndex', UniformTexelBuffer, GroupCounts(info, UniformTexelBuffer), stage.stage, false);
    PushedGroup(bindings, bindingIndex, stage, 2, before, bindings');
    before := bindings';
    bindings', bindingIndex', a3, w3 := PushBindings(bindings', bindingIndex', StorageTexelBuffer, GroupCounts(info, StorageTexelBuffer), stage.stage, false);
    PushedGroup(bindings, bindingIndex, stage, 3, before, bindings');
    before := bindings';
    bindings', bindingIndex', a4, w4 := PushBindings(bindings', bindingIndex', CombinedImageSampler, GroupCounts(info, CombinedImageSampler),
                                                     stage.stage, individualTextureWrites);
    PushedGroup(bindings, bindingIndex, stage, 4, before, bindings');
    before := bindings';
    bindings', bindingIndex', a5, w5 := PushBindings(bindings', bindingIndex', StorageImage, GroupCounts(info, StorageImage), stage.stage, false);
    PushedGroup(bindings, bindingIndex, stage, 5, before, bindings');
    added := [a0, a1, a2, a3, a4, a5];
    writes := w0 + w1 + w2 + w3 + w4 + w5;
  }

  /**
   * The pipeline's descriptor layout and counts. The buffer, texel-buffer
   * and image totals are the sums of their two per-type counts.
   */
  method MakePipelineDescriptorInfo(stages: seq<ShaderStage>, individualTextureWrites: bool) returns (info: DescriptorInfo)
    ensures info.bindings == Layout(stages)
    ensures info.uniformBufferDescCount == TypeTotal(stages, UniformBuffer)
    ensures info.storageBufferDescCount == TypeTotal(stages, StorageBuffer)
    ensures info.uniformTexelBufferDescCount == TypeTotal(stages, UniformTexelBuffer)
    ensures info.storageTexelBufferDescCount == TypeTotal(stages, StorageTexelBuffer)
    ensures info.combinedImageSamplerDescCount == TypeTotal(stages, CombinedImageSampler)
    ensures info.storageImageDescCount == TypeTotal(stages, StorageImage)
    ensures info.totalBufferDescCount == info.uniformBufferDescCount + info.storageBufferDescCount
    ensures info.totalTexelBufferDescCount == info.uniformTexelBufferDescCount + info.storageTexelBufferDescCount
    ensures info.totalImageDescCount == info.combinedImageSamplerDescCount + info.storageImageDescCount
    ensures info.writeDescCount == WriteDescCount(stages, individualTextureWrites)
  {
    var bindings: seq<LayoutBinding> := [];
    var bindingIndex := 0;
    var counts := [0, 0, 0, 0, 0, 0];
    var totalBuffer, totalTexelBuffer, totalImage := 0, 0, 0;
    var writeCount := 0;
    for i := 0 to |stages|
      invariant bindingIndex == |bindings| && bindings == Layout(stages[..i])
      invariant |counts| == 6 && forall g | 0 <= g < 6 :: counts[g] == TypeTotal(stages[..i], TypeAt(g))
      invariant totalBuffer == counts[0] + counts[1] && totalTexelBuffer == counts[2] + counts[3]
      invariant totalImage == counts[4] + counts[5]
      invariant writeCount == WriteDescCount(stages[..i], individualTextureWrites)
    {
      LayoutStep(stages, i);
      PrefixTotalsStep(stages, i, individualTextureWrites);
      var added, writes;
      bindings, bindingIndex, added, writes := PushStageBindings(bindings, bindingIndex, stages[i], individualTextureWrites);
      counts := seq(6, g requires 0 <= g < 6 => counts[g] + added[g]);
      totalBuffer := totalBuffer + added[0] + added[1];
      totalTexelBuffer := totalTexelBuffer + added[2] + added[3];
      totalImage := totalImage + added[4] + added[5];
      writeCount := writeCount + writes;
    }
    assert stages[..|stages|] == stages;
    info := DescriptorInfo(bindings, counts[0], counts[1], counts[2], counts[3], counts[4], counts[5],
                           totalBuffer, totalTexelBuffer, totalImage, writeCount);
  }

  /**
   * A class total (buffer, texel-buffer or image) as written: after each
   * program it adds the running totals of the class's two types, which
   * already hold every earlier program.
   */
  function AsWrittenClassTotal(stages: seq<ShaderStage>, t1: DescriptorType, t2: DescriptorType): nat
  {
    if |stages| == 0 then 0
    else AsWrittenClassTotal(stages[..|stages| - 1], t1, t2) + TypeTotal(stages, t1) + TypeTotal(stages, t2)
  }

  /** The as-written class total never falls below the class's descriptor count in the layout. */
  lemma {:induction false} AsWrittenClassTotalAtLeastLayout(stages: seq<ShaderStage>, t1: DescriptorType, t2: DescriptorType)
    ensures AsWrittenClassTotal(stages, t1, t2) >= TypeTotal(stages, t1) + TypeTotal(stages, t2)
  {
    if |stages| > 0 {
      AsWrittenClassTotalAtLeastLayout(stages[..|stages| - 1], t1, t2);
    }
  }

  function OneUniformStage(flag: VkShaderStage): ShaderStage
  {
    ShaderStage(flag, ShaderInfo([ConstantBufferDescriptor(0, 1)], [], [], [], [], [], [0x100]))
  }

  function OneTexelBufferStage(flag: VkShaderStage): ShaderStage
  {
    ShaderStage(flag, ShaderInfo([], [], [1], [], [], [], []))
  }

  function OneImageStage(flag: VkShaderStage): ShaderStage
  {
    ShaderStage(flag, ShaderInfo([], [], [], [], [], [1], []))
  }

  /** Two programs with one uniform buffer each: written, the buffer total is 3 where the layout holds 2 buffers. */
  lemma AsWrittenTotalBufferDescCountOvercounts()
    ensures var stages := [OneUniformStage(StageVertex), OneUniformStage(StageFragment)];
            AsWrittenClassTotal(stages, UniformBuffer, StorageBuffer) == 3
            && TypeTotal(stages, UniformBuffer) + TypeTotal(stages, StorageBuffer) == 2
  {
    var stages := [OneUniformStage(StageVertex), OneUniformStage(StageFragment)];
    assert stages[..1][..0] == [];
    assert SumCounts(GroupCounts(OneUniformStage(StageVertex).info, UniformBuffer)) == 1;
  }

  /** Two programs with one texel buffer each: written, the texel-buffer total is 3 where the layout holds 2. */
  lemma AsWrittenTotalTexelBufferDescCountOvercounts()
    ensures var stages := [OneTexelBufferStage(StageVertex), OneTexelBufferStage(StageFragment)];
            AsWrittenClassTotal(stages, UniformTexelBuffer, StorageTexelBuffer) == 3
            && TypeTotal(stages, UniformTexelBuffer) + TypeTotal(stages, StorageTexelBuffer) == 2
  {
    var stages := [OneTexelBufferStage(StageVertex), OneTexelBufferStage(StageFragment)];
    assert stages[..1][..0] == [];
    assert SumCounts([1]) == 1;
  }

  /** Two programs with one storage image each: written, the image total is 3 where the layout holds 2. */
  lemma AsWrittenTotalImageDescCountOvercounts()
    ensures var stages := [OneImageStage(StageVertex), OneImageStage(StageFragment)];
            AsWrittenClassTotal(stages, CombinedImageSampler, StorageImage) == 3
            && TypeTotal(stages, CombinedImageSampler) + TypeTotal(stages, StorageImage) == 2
  {
    var stages := [OneImageStage(StageVertex), OneImageStage(StageFragment)];
    assert stages[..1][..0] == [];
    assert SumCounts([1]) == 1;
  }

  /* ---------------- SyncDescriptors ---------------- */

  /** A descriptor write: the first binding it updates, how many descriptors, their type and the first buffer-info slot it reads. */
  datatype DescriptorWrite = DescriptorWrite(dstBinding: nat, descriptorCount: nat, descriptorType: DescriptorType, bufferInfoIndex: nat)

  function End(w: DescriptorWrite): nat
  {
    w.bufferInfoIndex + w.descriptorCount
  }

  /**
   * The buffer writes of one program as SyncDescriptors writes them: the
   * binding index is never advanced, and each write's count is the type's
   * total over every program.
   */
  function StageBufferWritesAsWritten(info: ShaderInfo, totals: DescriptorInfo, bufferIdx: nat): seq<DescriptorWrite>
  {
    var uniforms := GroupCounts(info, UniformBuffer);
    var storage := GroupCounts(info, StorageBuffer);
    (if |uniforms| > 0 then [DescriptorWrite(0, totals.uniformBufferDescCount, UniformBuffer, bufferIdx)] else [])
    + (if |storage| > 0 then [DescriptorWrite(0, totals.storageBufferDescCount, StorageBuffer, bufferIdx + SumCounts(uniforms))] else [])
  }

  function BufferWritesAsWritten(stages: seq<ShaderStage>, totals: DescriptorInfo): seq<DescriptorWrite>
  {
    if |stages| == 0 then []
    else
      var prefix := stages[..|stages| - 1];
      BufferWritesAsWritten(prefix, totals)
      + StageBufferWritesAsWritten(stages[|stages| - 1].info, totals, TypeTotal(prefix, UniformBuffer) + TypeTotal(prefix, StorageBuffer))
  }

  function UniformAndStorageStage(): ShaderStage
  {
    ShaderStage(StageVertex, ShaderInfo([ConstantBufferDescriptor(0, 1)], [StorageBufferDescriptor(0, 0, 1, false)], [], [], [], [], [0x100]))
  }

  /**
   * One program with a uniform and a storage buffer: the layout puts the
   * storage buffer at binding 1, but the storage write, as written, targets
   * binding 0, which holds the uniform buffer.
   */
  lemma AsWrittenStorageWriteTargetsUniformBinding()
    ensures var stages := [UniformAndStorageStage()];
            var layout := Layout(stages);
            var writes := BufferWritesAsWritten(stages, DescriptorInfo(layout, 1, 1, 0, 0, 0, 0, 2, 0, 0, 2));
            |writes| == 2 && writes[1].descriptorType == StorageBuffer && writes[1].dstBinding == 0
            && layout[0].descriptorType == UniformBuffer && layout[1].descriptorType == StorageBuffer
  {
    var stages := [UniformAndStorageStage()];
    assert stages[..0] == [];
  }

  /** Extending a prefix of the programs by one program appends that program's bindings to the layout. */
  lemma LayoutStep(stages: seq<ShaderStage>, i: nat)
    requires i < |stages|
    ensures Layout(stages[..i + 1]) == Layout(stages[..i]) + StageLayout(|Layout(stages[..i])|, stages[i])
  {
    assert stages[..i + 1][..i] == stages[..i];
  }

  /** Extending a prefix of the programs by one program adds that program's share to every total. */
  lemma PrefixTotalsStep(stages: seq<ShaderStage>, i: nat, individualTextureWrites: bool)
    requires i < |stages|
    ensures forall g | 0 <= g < 6 ::
              TypeTotal(stages[..i + 1], TypeAt(g)) == TypeTotal(stages[..i], TypeAt(g)) + StageCounts(stages[i].info)[g]
    ensures TypeTotal(stages[..i + 1], UniformBuffer)
            == TypeTotal(stages[..i], UniformBuffer) + SumCounts(GroupCounts(stages[i].info, UniformBuffer))
    ensures TypeTotal(stages[..i + 1], StorageBuffer)
            == TypeTotal(stages[..i], StorageBuffer) + SumCounts(GroupCounts(stages[i].info, StorageBuffer))
    ensures WriteDescCount(stages[..i + 1], individualTextureWrites)
            == WriteDescCount(stages[..i], individualTextureWrites) + StageWriteCount(stages[i].info, individualTextureWrites)
  {
    assert stages[..i + 1][..i] == stages[..i];
  }

  /** Extending a prefix of the programs by one program adds its buffer descriptors and its writes to the totals. */
  lemma BufferTotalsStep(stages: seq<ShaderStage>, i: nat, individualTextureWrites: bool)
    requires i < |stages|
    ensures TypeTotal(stages[..i + 1], UniformBuffer) + TypeTotal(stages[..i + 1], StorageBuffer)
            == TypeTotal(stages[..i], UniformBuffer) + TypeTotal(stages[..i], StorageBuffer)
               + SumCounts(GroupCounts(stages[i].info, UniformBuffer)) + SumCounts(GroupCounts(stages[i].info, StorageBuffer))
    ensures WriteDescCount(stages[..i + 1], individualTextureWrites)
            == WriteDescCount(stages[..i], individualTextureWrites) + StageWriteCount(stages[i].info, individualTextureWrites)
  {
    assert stages[..i + 1][..i] == stages[..i];
  }

  /** The layout of a prefix of the programs is a prefix of the layout. */
  lemma {:induction false} LayoutPrefix(stages: seq<ShaderStage>, i: nat)
    requires i <= |stages|
    ensures |Layout(stages[..i])| <= |Layout(stages)|
    ensures Layout(stages)[..|Layout(stages[..i])|] == Layout(stages[..i])
    decreases |stages| - i
  {
    if i < |stages| {
      LayoutPrefix(stages, i + 1);
      assert stages[..i + 1][..i] == stages[..i];
    } else {
      assert stages[..i] == stages;
    }
  }

  /** A program's bindings start with its uniform buffers, followed by its storage buffers. */
  lemma StageLayoutBufferGroups(first: nat, stage: ShaderStage)
    ensures var info := stage.info;
            |StageLayout(first, stage)| == |GroupCounts(info, UniformBuffer)| + |GroupCounts(info, StorageBuffer)|
                                          + |GroupCounts(info, UniformTexelBuffer)| + |GroupCounts(info, StorageTexelBuffer)|
                                          + |GroupCounts(info, CombinedImageSampler)| + |GroupCounts(info, StorageImage)|
    ensures var u := |GroupCounts(stage.info, UniformBuffer)|;
            u > 0 ==> StageLayout(first, stage)[0].descriptorType == UniformBuffer
    ensures var u, s := |GroupCounts(stage.info, UniformBuffer)|, |GroupCounts(stage.info, StorageBuffer)|;
            s > 0 ==> StageLayout(first, stage)[u].descriptorType == StorageBuffer
  {
    var g1, g2, g3 := StageGroups(first, stage, 1), StageGroups(first, stage, 2), StageGroups(first, stage, 3);
    var g4, g5, g6 := StageGroups(first, stage, 4), StageGroups(first, stage, 5), StageGroups(first, stage, 6);
    var u := |GroupCounts(stage.info, UniformBuffer)|;
    assert StageGroups(first, stage, 0) == [];
    assert g1 == [] + GroupLayout(first, UniformBuffer, GroupCounts(stage.info, UniformBuffer), stage.stage);
    assert |g2| == u + |GroupCounts(stage.info, StorageBuffer)|;
    if |g2| > 0 {
      assert g6[..|g2|] == g2 by {
        assert g6 == g5 + GroupLayout(first + |g5|, StorageImage, GroupCounts(stage.info, StorageImage), stage.stage);
        assert g5 == g4 + GroupLayout(first + |g4|, CombinedImageSampler, GroupCounts(stage.info, CombinedImageSampler), stage.stage);
        assert g4 == g3 + GroupLayout(first + |g3|, StorageTexelBuffer, GroupCounts(stage.info, StorageTexelBuffer), stage.stage);
        assert g3 == g2 + GroupLayout(first + |g2|, UniformTexelBuffer, GroupCounts(stage.info, UniformTexelBuffer), stage.stage);
      }
      assert g2 == g1 + GroupLayout(first + |g1|, StorageBuffer, GroupCounts(stage.info, StorageBuffer), stage.stage);
      if u > 0 {
        assert g6[0] == g2[0] == g1[0];
      }
      if |GroupCounts(stage.info, StorageBuffer)| > 0 {
        assert g6[u] == g2[u];
      }
    }
  }

  /** `part` appears unchanged inside `layout` from binding `first` on. */
  predicate PlacedAt(layout: seq<LayoutBinding>, first: nat, part: seq<LayoutBinding>)
  {
    first + |part| <= |layout| && forall k | 0 <= k < |part| :: layout[first + k] == part[k]
  }

  /** The bindings a program adds sit at the end of the prefix's bindings, unchanged inside the whole layout. */
  lemma LayoutStageSlice(stages: seq<ShaderStage>, i: nat)
    requires i < |stages|
    ensures var first := |Layout(stages[..i])|;
            var stageLayout := StageLayout(first, stages[i]);
            && |Layout(stages[..i + 1])| == first + |stageLayout| <= |Layout(stages)|
            && PlacedAt(Layout(stages), first, stageLayout)
  {
    LayoutStep(stages, i);
    LayoutPrefix(stages, i + 1);
    var first := |Layout(stages[..i])|;
    var stageLayout := StageLayout(first, stages[i]);
    var whole := Layout(stages);
    assert whole[..first + |stageLayout|] == Layout(stages[..i]) + stageLayout;
    forall k | 0 <= k < |stageLayout|
      ensures whole[first + k] == stageLayout[k]
    {
      assert whole[first + k] == whole[..first + |stageLayout|][first + k];
    }
  }

  /** Writes that read consecutive buffer-info slots from `from` up to `to`. */
  predicate Chained(writes: seq<DescriptorWrite>, from: nat, to: nat)
  {
    && (|writes| == 0 ==> to == from)
    && (|writes| > 0 ==> writes[0].bufferInfoIndex == from && End(writes[|writes| - 1]) == to)
    && forall j | 0 <= j < |writes| - 1 :: End(writes[j]) == writes[j + 1].bufferInfoIndex
  }

  lemma ChainedAppend(a: seq<DescriptorWrite>, b: seq<DescriptorWrite>, x: nat, y: nat, z: nat)
    requires Chained(a, x, y) && Chained(b, y, z)
    ensures Chained(a + b, x, z)
  {
    if |b| == 0 {
      assert a + b == a;
    } else if |a| > 0 {
      assert (a + b)[|a|] == b[0];
    }
  }

  /** One program's buffer writes, each aimed at a binding of its own type inside the program's layout starting at `first`. */
  predicate StageTyped(writes: seq<DescriptorWrite>, first: nat, stage: ShaderStage)
  {
    var layout := StageLayout(first, stage);
    forall j | 0 <= j < |writes| ::
      first <= writes[j].dstBinding < first + |layout|
      && layout[writes[j].dstBinding - first].descriptorType == writes[j].descriptorType
      && writes[j].descriptorType in {UniformBuffer, StorageBuffer}
  }

  /** Buffer writes each aimed at a binding below `bound` of the write's own type. */
  predicate TypedWrites(writes: seq<DescriptorWrite>, layout: seq<LayoutBinding>, bound: nat)
  {
    forall j | 0 <= j < |writes| ::
      writes[j].dstBinding < bound
      && (writes[j].dstBinding < |layout| ==> layout[writes[j].dstBinding].descriptorType == writes[j].descriptorType)
      && writes[j].descriptorType in {UniformBuffer, StorageBuffer}
  }

  /**
   * The uniform and storage buffer writes of one program, its bindings
   * starting at `bindingIdx` and its buffer-info slots at `bufferIdx`.
   */
  method StageBufferWrites(stage: ShaderStage, bindingIdx: nat, bufferIdx: nat, individualTextureWrites: bool)
    returns (writes: seq<DescriptorWrite>, bindingIdx': nat, bufferIdx': nat)
    ensures StageTyped(writes, bindingIdx, stage)
    ensures Chained(writes, bufferIdx, bufferIdx')
    ensures bufferIdx' == bufferIdx + SumCounts(GroupCounts(stage.info, UniformBuffer)) + SumCounts(GroupCounts(stage.info, StorageBuffer))
    ensures bindingIdx' == bindingIdx + |StageLayout(bindingIdx, stage)|
    ensures |writes| <= StageWriteCount(stage.info, individualTextureWrites)
  {
    var info := stage.info;
    StageLayoutBufferGroups(bindingIdx, stage);
    var uniforms := GroupCounts(info, UniformBuffer);
    var storage := GroupCounts(info, StorageBuffer);
    writes, bindingIdx', bufferIdx' := [], bindingIdx, bufferIdx;
    if |uniforms| > 0 {
      writes := writes + [DescriptorWrite(bindingIdx', SumCounts(uniforms), UniformBuffer, bufferIdx')];
    }
    bindingIdx' := bindingIdx' + |uniforms|;
    bufferIdx' := bufferIdx' + SumCounts(uniforms);
    if |storage| > 0 {
      writes := writes + [DescriptorWrite(bindingIdx', SumCounts(storage), StorageBuffer, bufferIdx')];
    }
    bindingIdx' := bindingIdx' + |storage|;
    bufferIdx' := bufferIdx' + SumCounts(storage);
    bindingIdx' := bindingIdx' + |GroupCounts(info, UniformTexelBuffer)| + |GroupCounts(info, StorageTexelBuffer)|
                   + |GroupCounts(info, CombinedImageSampler)| + |GroupCounts(info, StorageImage)|;
  }

  /** One program's writes appended to those before it keep every write at a binding of its own type. */
  lemma TypedWritesAppend(previous: seq<DescriptorWrite>, stageWrites: seq<DescriptorWrite>, layout: seq<LayoutBinding>,
                          stage: ShaderStage, first: nat)
    requires PlacedAt(layout, first, StageLayout(first, stage))
    requires TypedWrites(previous, layout, first)
    requires StageTyped(stageWrites, first, stage)
    ensures TypedWrites(previous + stageWrites, layout, first + |StageLayout(first, stage)|)
  {
    var stageLayout := StageLayout(first, stage);
    var all := previous + stageWrites;
    forall j | 0 <= j < |all|
      ensures all[j].dstBinding < first + |stageLayout|
      ensures all[j].dstBinding < |layout| ==> layout[all[j].dstBinding].descriptorType == all[j].descriptorType
      ensures all[j].descriptorType in {UniformBuffer, StorageBuffer}
    {
      if j >= |previous| {
        var w := stageWrites[j - |previous|];
        assert all[j] == w;
        assert layout[first + (w.dstBinding - first)] == stageLayout[w.dstBinding - first];
      }
    }
  }

  /**
   * The uniform and storage buffer writes of a full descriptor sync, with
   * the binding index advanced past every descriptor: each write starts at
   * a layout binding of its own type, and the writes read consecutive
   * buffer-info slots, all inside the buffer total.
   */
  method BufferDescriptorWrites(stages: seq<ShaderStage>, individualTextureWrites: bool) returns (writes: seq<DescriptorWrite>)
    ensures forall j | 0 <= j < |writes| ::
              writes[j].dstBinding < |Layout(stages)|
              && Layout(stages)[writes[j].dstBinding].descriptorType == writes[j].descriptorType
              && writes[j].descriptorType in {UniformBuffer, StorageBuffer}
    ensures Chained(writes, 0, TypeTotal(stages, UniformBuffer) + TypeTotal(stages, StorageBuffer))
    ensures |writes| <= WriteDescCount(stages, individualTextureWrites)
  {
    writes := [];
    var bindingIdx, bufferIdx := 0, 0;
    for i := 0 to |stages|
      invariant bindingIdx == |Layout(stages[..i])| <= |Layout(stages)|
      invariant bufferIdx == TypeTotal(stages[..i], UniformBuffer) + TypeTotal(stages[..i], StorageBuffer)
      invariant TypedWrites(writes, Layout(stages), bindingIdx)
      invariant Chained(writes, 0, bufferIdx)
      invariant |writes| <= WriteDescCount(stages[..i], individualTextureWrites)
    {
      writes, bindingIdx, bufferIdx := AppendStageBufferWrites(stages, i, writes, bindingIdx, bufferIdx, individualTextureWrites);
    }
    assert stages[..|stages|] == stages;
  }

  /** Appends the buffer writes of program `i` to those of the programs before it. */
  method AppendStageBufferWrites(stages: seq<ShaderStage>, i: nat, writes: seq<DescriptorWrite>, bindingIdx: nat, bufferIdx: nat,
                                 individualTextureWrites: bool)
    returns (writes': seq<DescriptorWrite>, bindingIdx': nat, bufferIdx': nat)
    requires i < |stages|
    requires bindingIdx == |Layout(stages[..i])|
    requires bufferIdx == TypeTotal(stages[..i], UniformBuffer) + TypeTotal(stages[..i], StorageBuffer)
    requires TypedWrites(writes, Layout(stages), bindingIdx)
    requires Chained(writes, 0, bufferIdx)
    requires |writes| <= WriteDescCount(stages[..i], individualTextureWrites)
    ensures bindingIdx' == |Layout(stages[..i + 1])| <= |Layout(stages)|
    ensures bufferIdx' == TypeTotal(stages[..i + 1], UniformBuffer) + TypeTotal(stages[..i + 1], StorageBuffer)
    ensures TypedWrites(writes', Layout(stages), bindingIdx')
    ensures Chained(writes', 0, bufferIdx')
    ensures |writes'| <= WriteDescCount(stages[..i + 1], individualTextureWrites)
  {
    var stageWrites;
    stageWrites, bindingIdx', bufferIdx' := StageBufferWrites(stages[i], bindingIdx, bufferIdx, individualTextureWrites);
    StageIndicesStep(stages, i, bufferIdx, |writes|, |stageWrites|, individualTextureWrites);
    StageTypedStep(stages, i, writes, stageWrites);
    ChainedAppend(writes, stageWrites, 0, bufferIdx, bufferIdx');
    writes' := writes + stageWrites;
  }

  /** After program `i`, the binding index, the buffer index and the write bound are those of the prefix up to it. */
  lemma StageIndicesStep(stages: seq<ShaderStage>, i: nat, bufferIdx: nat, writeCount: nat, stageWriteCount: nat,
                         individualTextureWrites: bool)
    requires i < |stages|
    requires bufferIdx == TypeTotal(stages[..i], UniformBuffer) + TypeTotal(stages[..i], StorageBuffer)
    requires writeCount <= WriteDescCount(stages[..i], individualTextureWrites)
    requires stageWriteCount <= StageWriteCount(stages[i].info, individualTextureWrites)
    ensures var first := |Layout(stages[..i])|;
            first + |StageLayout(first, stages[i])| == |Layout(stages[..i + 1])| <= |Layout(stages)|
    ensures bufferIdx + SumCounts(GroupCounts(stages[i].info, UniformBuffer)) + SumCounts(GroupCounts(stages[i].info, StorageBuffer))
            == TypeTotal(stages[..i + 1], UniformBuffer) + TypeTotal(stages[..i + 1], StorageBuffer)
    ensures writeCount + stageWriteCount <= WriteDescCount(stages[..i + 1], individualTextureWrites)
  {
    BufferTotalsStep(stages, i, individualTextureWrites);
    LayoutStageSlice(stages, i);
  }

  /** Program `i`'s writes, typed within its own layout, stay typed within the whole layout after the earlier programs' writes. */
  lemma StageTypedStep(stages: seq<ShaderStage>, i: nat, writes: seq<DescriptorWrite>, stageWrites: seq<DescriptorWrite>)
    requires i < |stages|
    requires TypedWrites(writes, Layout(stages), |Layout(stages[..i])|)
    requires StageTyped(stageWrites, |Layout(stages[..i])|, stages[i])
    ensures var first := |Layout(stages[..i])|;
            TypedWrites(writes + stageWrites, Layout(stages), first + |StageLayout(first, stages[i])|)
  {
    var first := |Layout(stages[..i])|;
    LayoutStageSlice(stages, i);
    TypedWritesAppend(writes, stageWrites, Layout(stages), stages[i], first);
  }

  /** How a uniform or storage buffer descriptor is bound: through a megabuffer copy or to the view's own buffer. */
  datatype DescriptorBinding = MegaBound(binding: BufferBinding) | ViewBound(view: ViewCopy)

  /** The size a uniform buffer is megabuffered at: what the program uses, never more than the view; 0 means the whole view. */
  function UniformSizeOverride(usedSize: nat, viewSize: nat): (n: nat)
    ensures n <= viewSize && n <= usedSize
    ensures n == usedSize || n == viewSize
  {
    if usedSize < viewSize then usedSize else viewSize
  }

  /**
   * Binds one uniform buffer descriptor: the view is megabuffered at the
   * used size when the buffer allows it; otherwise the view itself is bound
   * and sequenced CPU writes to its backing are blocked while the GPU reads it.
   */
  method BindUniformBuffer(forest: DelegateForest, view: BufferView, allocator: MegaBufferAllocator,
                           executionNumber: nat, usedSize: nat, signalled: bool)
    returns (binding: DescriptorBinding)
    requires view.Resolvable(forest) && view.GetBuffer(forest).Valid()
    requires var b, o := view.GetBuffer(forest), UniformSizeOverride(usedSize, view.size);
             var n := if o != 0 then o else view.size;
             b.guest.Some? ==> EntryIndex(view.GetOffset(forest), b.megaBufferTableShift) < |b.megaBufferTable|
                               && view.GetOffset(forest) + n <= |b.mirror|
    modifies view.GetBuffer(forest), allocator
    ensures view.GetBuffer(forest).Valid()
    ensures var b, o := view.GetBuffer(forest), UniformSizeOverride(usedSize, view.size);
            var r := BufferModel.TryMegaBufferView(old(b.State()), old(b.megaBufferTable), b.megaBufferTableShift,
                                                   b.frequentlySyncedThreshold, executionNumber, view.GetOffset(forest),
                                                   if o != 0 then o else view.size, signalled, old(allocator.NextSlot()));
            b.megaBufferTable == r.table
            && (r.binding.Binding? ==> binding == MegaBound(r.binding) && b.State() == r.state)
            && (r.binding.NoBinding? ==> binding == ViewBound(CopyOf(view))
                                         && b.State() == BufferModel.BlockSequencedCpuBackingWrites(r.state))
  {
    var megaBufferBinding := view.TryMegaBuffer(forest, allocator, executionNumber, UniformSizeOverride(usedSize, view.size), signalled);
    if megaBufferBinding.Binding? {
      return MegaBound(megaBufferBinding);
    }
    view.GetBuffer(forest).BlockSequencedCpuBackingWrites();
    binding := ViewBound(CopyOf(view));
  }

  /** Binds one storage buffer descriptor to its view; a buffer the program writes becomes GPU dirty. */
  method BindStorageBuffer(forest: DelegateForest, view: BufferView, isWritten: bool) returns (binding: DescriptorBinding)
    requires view.Resolvable(forest) && view.GetBuffer(forest).Valid()
    modifies view.GetBuffer(forest)
    ensures view.GetBuffer(forest).Valid()
    ensures binding == ViewBound(CopyOf(view))
    ensures view.GetBuffer(forest).State()
            == if isWritten then BufferModel.MarkGpuDirty(old(view.GetBuffer(forest).State())) else old(view.GetBuffer(forest).State())
  {
    if isWritten {
      view.GetBuffer(forest).MarkGpuDirty();
    }
    binding := ViewBound(CopyOf(view));
  }

  /* ---------------- Pipelines and their transition caches ---------------- */

  /** A packed pipeline state as the bytes it is compared and hashed by. */
  type PackedKey = seq<byte>

  const TransitionCacheSize: nat := 4

  /** The transition stored last in ring slot `k`: the latest entry at a position congruent to `k`, or null. */
  function LatestInSlot(transitions: seq<Pipeline?>, k: nat): Pipeline?
  {
    if |transitions| == 0 then null
    else if (|transitions| - 1) % TransitionCacheSize == k then transitions[|transitions| - 1]
    else LatestInSlot(transitions[..|transitions| - 1], k)
  }

  /** Whatever a slot holds was added among the last four transitions, at a position of that slot. */
  lemma {:induction false} LatestInSlotIsRecent(transitions: seq<Pipeline?>, k: nat) returns (j: nat)
    requires k < TransitionCacheSize && LatestInSlot(transitions, k) != null
    ensures |transitions| - TransitionCacheSize <= j < |transitions|
    ensures j % TransitionCacheSize == k && transitions[j] == LatestInSlot(transitions, k)
  {
    var n := |transitions|;
    if (n - 1) % TransitionCacheSize == k {
      j := n - 1;
    } else {
      var prefix := transitions[..n - 1];
      j := LatestInSlotIsRecent(prefix, k);
      assert transitions[j] == prefix[j];
    }
  }

  predicate Matches(p: Pipeline?, key: PackedKey)
  {
    p != null && p.sourcePackedState == key
  }

  class Pipeline {
    const sourcePackedState: PackedKey
    const shaderStages: seq<ShaderStage>
    const descriptorInfo: DescriptorInfo
    const transitionCache: array<Pipeline?>
    var transitionCacheNextIdx: nat
    /** Every transition added, oldest first. */
    ghost var transitions: seq<Pipeline?>

    ghost predicate Valid()
      reads this, transitionCache
    {
      transitionCache.Length == TransitionCacheSize
      && transitionCacheNextIdx == |transitions| % TransitionCacheSize
      && forall k | 0 <= k < TransitionCacheSize :: transitionCache[k] == LatestInSlot(transitions, k)
    }

    /** A pipeline for a packed state: its descriptor layout from its programs, and four empty transition slots. */
    constructor (packedState: PackedKey, stages: seq<ShaderStage>, individualTextureWrites: bool)
      ensures Valid() && fresh(transitionCache)
      ensures sourcePackedState == packedState && shaderStages == stages
      ensures descriptorInfo.bindings == Layout(stages)
      ensures transitionCache[..] == [null, null, null, null] && transitionCacheNextIdx == 0 && transitions == []
    {
      var info := MakePipelineDescriptorInfo(stages, individualTextureWrites);
      sourcePackedState := packedState;
      shaderStages := stages;
      descriptorInfo := info;
      transitionCache := new Pipeline?[TransitionCacheSize](_ => null);
      transitionCacheNextIdx := 0;
      transitions := [];
    }

    /**
     * The first cached transition whose source state is `key`, or null when
     * none is; a transition found is one of the last four added.
     */
    method LookupNext(key: PackedKey) returns (next: Pipeline?)
      requires Valid()
      ensures next == null <==> forall k | 0 <= k < TransitionCacheSize :: !Matches(transitionCache[k], key)
      ensures next != null ==> next.sourcePackedState == key
      ensures next != null ==> exists k | 0 <= k < TransitionCacheSize ::
                                 transitionCache[k] == next && forall j | 0 <= j < k :: !Matches(transitionCache[j], key)
      ensures next != null ==> exists j | |transitions| - TransitionCacheSize <= j < |transitions| :: j >= 0 && transitions[j] == next
    {
      for k := 0 to TransitionCacheSize
        invariant forall j | 0 <= j < k :: !Matches(transitionCache[j], key)
      {
        var candidate := transitionCache[k];
        if candidate != null && candidate.sourcePackedState == key {
          var j := LatestInSlotIsRecent(transitions, k);
          assert transitions[j] == candidate;
          return candidate;
        }
      }
      return null;
    }

    /** Stores `next` in the slot after the one written last, overwriting the oldest of the four. */
    method AddTransition(next: Pipeline?)
      requires Valid()
      modifies this, transitionCache
      ensures Valid() && transitions == old(transitions) + [next]
      ensures transitionCache[..] == old(transitionCache[..])[old(transitionCacheNextIdx) := next]
      ensures transitionCacheNextIdx == (old(transitionCacheNextIdx) + 1) % TransitionCacheSize
    {
      transitionCache[transitionCacheNextIdx] := next;
      transitionCacheNextIdx := (transitionCacheNextIdx + 1) % TransitionCacheSize;
      transitions := transitions + [next];
      assert transitions[..|transitions| - 1] == old(transitions);
    }
  }

  class PipelineManager {
    var pipelines: map<PackedKey, Pipeline>

    ghost predicate Valid()
      reads this
    {
      forall key | key in pipelines :: pipelines[key].sourcePackedState == key
    }

    constructor ()
      ensures Valid() && pipelines == map[]
    {
      pipelines := map[];
    }

    /**
     * The pipeline stored for `key`, unchanged; or a new pipeline for `key`,
     * which is stored under it. A second call with the same key therefore
     * returns the same pipeline.
     */
    method FindOrCreate(key: PackedKey, stages: seq<ShaderStage>, individualTextureWrites: bool) returns (pipeline: Pipeline)
      requires Valid()
      modifies this
      ensures Valid() && pipeline.sourcePackedState == key
      ensures key in pipelines && pipelines[key] == pipeline
      ensures key in old(pipelines) ==> pipeline == old(pipelines)[key] && pipelines == old(pipelines)
      ensures key !in old(pipelines) ==>
                fresh(pipeline) && pipelines == old(pipelines)[key := pipeline] && |pipelines.Keys| == |old(pipelines).Keys| + 1
    {
      if key in pipelines {
        return pipelines[key];
      }
      pipeline := new Pipeline(key, stages, individualTextureWrites);
      pipelines := pipelines[key := pipeline];
    }
  }
}

=== FILE: pipeline_state.dfy ===
/**
 * The pipeline state the engine writes directly: vertex input (bindings,
 * divisors and attributes, filtered into the active lists on Build) and input
 * assembly, and the layer arithmetic of the colour and depth render targets.
 */
module PipelineStates {
  import opened Wrappers
  import opened MaxwellRegisters

  datatype InputRate = RateVertex | RateInstance

  datatype BindingDescription = BindingDescription(binding: nat, stride: nat, inputRate: InputRate)

  datatype DivisorDescription = DivisorDescription(binding: nat, divisor: nat)

  /** The Vulkan format of an attribute, named by the register pair that selects it from the format table. */
  datatype AttributeFormat = FormatUndefined | FormatOf(componentBitWidths: nat, numericalType: NumericalType)

  datatype AttributeDescription = AttributeDescription(location: nat, binding: nat, format: AttributeFormat, offset: nat)

  /** The elements of `xs` whose flag in `keep` is set, in their original order. */
  function Filter<T>(xs: seq<T>, keep: seq<bool>): (r: seq<T>)
    requires |xs| == |keep|
    ensures |r| <= |xs|
  {
    if |xs| == 0 then []
    else Filter(xs[..|xs| - 1], keep[..|keep| - 1]) + (if keep[|keep| - 1] then [xs[|xs| - 1]] else [])
  }

  /** An element is kept exactly when some position holding it is flagged. */
  lemma {:induction false} FilterMembers<T>(xs: seq<T>, keep: seq<bool>, x: T)
    requires |xs| == |keep|
    ensures x in Filter(xs, keep) <==> exists i | 0 <= i < |xs| :: keep[i] && xs[i] == x
    decreases |xs|
  {
    if |xs| > 0 {
      var n := |xs| - 1;
      FilterMembers(xs[..n], keep[..n], x);
      if exists i | 0 <= i < |xs| :: keep[i] && xs[i] == x {
        var i :| 0 <= i < |xs| && keep[i] && xs[i] == x;
        if i < n {
          assert keep[..n][i] && xs[..n][i] == x;
        }
      }
      if exists i | 0 <= i < n :: keep[..n][i] && xs[..n][i] == x {
        var i :| 0 <= i < n && keep[..n][i] && xs[..n][i] == x;
        assert keep[i] && xs[i] == x;
      }
    }
  }

  /** Nothing is kept exactly when no position is flagged. */
  lemma {:induction false} FilterEmpty<T>(xs: seq<T>, keep: seq<bool>)
    requires |xs| == |keep|
    ensures |Filter(xs, keep)| == 0 <==> forall i | 0 <= i < |keep| :: !keep[i]
    decreases |xs|
  {
    if |xs| > 0 {
      var n := |xs| - 1;
      FilterEmpty(xs[..n], keep[..n]);
      assert forall i | 0 <= i < n :: keep[..n][i] == keep[i];
    }
  }

  lemma FilterStep<T>(xs: seq<T>, keep: seq<bool>, i: nat)
    requires |xs| == |keep| && i < |xs|
    ensures Filter(xs[..i + 1], keep[..i + 1]) == Filter(xs[..i], keep[..i]) + (if keep[i] then [xs[i]] else [])
  {
    assert xs[..i + 1][..i] == xs[..i];
    assert keep[..i + 1][..i] == keep[..i];
  }

  /** Build keeps a binding's divisor only for an instanced binding whose divisor the host can apply. */
  predicate DivisorKept(b: BindingDescription, d: DivisorDescription, supportsDivisor: bool, supportsZeroDivisor: bool)
  {
    b.inputRate == RateInstance && supportsDivisor && (supportsZeroDivisor || d.divisor != 0)
  }

  function DivisorFlags(bs: seq<BindingDescription>, ds: seq<DivisorDescription>, supportsDivisor: bool, supportsZeroDivisor: bool)
    : (r: seq<bool>)
    requires |bs| == |ds|
    ensures |r| == |bs| && forall i | 0 <= i < |bs| :: r[i] == DivisorKept(bs[i], ds[i], supportsDivisor, supportsZeroDivisor)
  {
    seq(|bs|, i requires 0 <= i < |bs| => DivisorKept(bs[i], ds[i], supportsDivisor, supportsZeroDivisor))
  }

  function AttributeFlags(attributes: seq<VertexAttribute>): (r: seq<bool>)
    ensures |r| == |attributes| && forall i | 0 <= i < |attributes| :: r[i] == attributes[i].active
  {
    seq(|attributes|, i requires 0 <= i < |attributes| => attributes[i].active)
  }

  /** A divisor description is active exactly when some binding keeps it. */
  lemma ActiveDivisorsAreKept(bs: seq<BindingDescription>, ds: seq<DivisorDescription>, supportsDivisor: bool,
                              supportsZeroDivisor: bool, d: DivisorDescription)
    requires |bs| == |ds|
    ensures d in Filter(ds, DivisorFlags(bs, ds, supportsDivisor, supportsZeroDivisor))
            <==> exists i | 0 <= i < |ds| :: DivisorKept(bs[i], ds[i], supportsDivisor, supportsZeroDivisor) && ds[i] == d
  {
    var flags := DivisorFlags(bs, ds, supportsDivisor, supportsZeroDivisor);
    FilterMembers(ds, flags, d);
    assert forall i | 0 <= i < |ds| :: flags[i] == DivisorKept(bs[i], ds[i], supportsDivisor, supportsZeroDivisor);
  }

  /** The divisor structure is unlinked exactly when no binding keeps its divisor. */
  lemma DivisorChainUnlinkedIffNoneKept(bs: seq<BindingDescription>, ds: seq<DivisorDescription>, supportsDivisor: bool,
                                        supportsZeroDivisor: bool)
    requires |bs| == |ds|
    ensures |Filter(ds, DivisorFlags(bs, ds, supportsDivisor, supportsZeroDivisor))| == 0
            <==> forall i | 0 <= i < |bs| :: !DivisorKept(bs[i], ds[i], supportsDivisor, supportsZeroDivisor)
  {
    FilterEmpty(ds, DivisorFlags(bs, ds, supportsDivisor, supportsZeroDivisor));
  }

  /** An attribute description is active exactly when some active attribute register has it. */
  lemma ActiveAttributesAreActive(descs: seq<AttributeDescription>, attributes: seq<VertexAttribute>, a: AttributeDescription)
    requires |descs| == |attributes|
    ensures a in Filter(descs, AttributeFlags(attributes)) <==> exists i | 0 <= i < |descs| :: attributes[i].active && descs[i] == a
  {
    FilterMembers(descs, AttributeFlags(attributes), a);
  }

  /** The sizes Build hands to the vertex-input create info and whether the divisor structure stays linked. */
  datatype VertexInputInfo = VertexInputInfo(bindingCount: nat, attributeCount: nat, divisorCount: nat, divisorLinked: bool)

  class VertexInputState {
    const bindingDescs: array<BindingDescription>
    const bindingDivisorDescs: array<DivisorDescription>
    const attributeDescs: array<AttributeDescription>
    var activeBindingDivisorDescs: seq<DivisorDescription>
    var activeAttributeDescs: seq<AttributeDescription>

    ghost predicate Valid()
      reads this
    {
      bindingDescs.Length == VertexStreamCount && bindingDivisorDescs.Length == VertexStreamCount
      && attributeDescs.Length == VertexAttributeCount
    }

    /** Binding i and divisor i name binding i and attribute i names location i; every other field is zero. */
    constructor ()
      ensures Valid() && fresh(bindingDescs) && fresh(bindingDivisorDescs) && fresh(attributeDescs)
      ensures forall i | 0 <= i < VertexStreamCount ::
                bindingDescs[i] == BindingDescription(i, 0, RateVertex) && bindingDivisorDescs[i] == DivisorDescription(i, 0)
      ensures forall i | 0 <= i < VertexAttributeCount :: attributeDescs[i] == AttributeDescription(i, 0, FormatUndefined, 0)
      ensures activeBindingDivisorDescs == [] && activeAttributeDescs == []
    {
      bindingDescs := new BindingDescription[VertexStreamCount](i => BindingDescription(i, 0, RateVertex));
      bindingDivisorDescs := new DivisorDescription[VertexStreamCount](i => DivisorDescription(i, 0));
      attributeDescs := new AttributeDescription[VertexAttributeCount](i => AttributeDescription(i, 0, FormatUndefined, 0));
      activeBindingDivisorDescs := [];
      activeAttributeDescs := [];
    }

    /**
     * Clears the active lists, then collects the kept divisors of instanced
     * bindings and the descriptions of the active attributes, in index order.
     */
    method Build(attributes: seq<VertexAttribute>, supportsDivisor: bool, supportsZeroDivisor: bool) returns (info: VertexInputInfo)
      requires Valid() && |attributes| == VertexAttributeCount
      modifies this
      ensures Valid()
      ensures activeBindingDivisorDescs
              == Filter(bindingDivisorDescs[..], DivisorFlags(bindingDescs[..], bindingDivisorDescs[..], supportsDivisor, supportsZeroDivisor))
      ensures activeAttributeDescs == Filter(attributeDescs[..], AttributeFlags(attributes))
      ensures info.bindingCount == VertexStreamCount && info.attributeCount == |activeAttributeDescs|
      ensures info.divisorCount == |activeBindingDivisorDescs| && (info.divisorLinked <==> info.divisorCount != 0)
    {
      activeBindingDivisorDescs := [];
      activeAttributeDescs := [];
      ghost var flags := DivisorFlags(bindingDescs[..], bindingDivisorDescs[..], supportsDivisor, supportsZeroDivisor);
      for i := 0 to VertexStreamCount
        invariant activeBindingDivisorDescs == Filter(bindingDivisorDescs[..][..i], flags[..i])
        invariant activeAttributeDescs == []
      {
        FilterStep(bindingDivisorDescs[..], flags, i);
        if bindingDescs[i].inputRate == RateInstance {
          if !supportsDivisor {
          } else if !supportsZeroDivisor && bindingDivisorDescs[i].divisor == 0 {
          } else {
            activeBindingDivisorDescs := activeBindingDivisorDescs + [bindingDivisorDescs[i]];
          }
        }
      }
      assert bindingDivisorDescs[..][..VertexStreamCount] == bindingDivisorDescs[..];
      assert flags[..VertexStreamCount] == flags;
      ghost var active := AttributeFlags(attributes);
      ghost var divisors := activeBindingDivisorDescs;
      for i := 0 to VertexAttributeCount
        invariant activeAttributeDescs == Filter(attributeDescs[..][..i], active[..i])
        invariant activeBindingDivisorDescs == divisors
      {
        FilterStep(attributeDescs[..], active, i);
        if attributes[i].active {
          activeAttributeDescs := activeAttributeDescs + [attributeDescs[i]];
        }
      }
      assert attributeDescs[..][..VertexAttributeCount] == attributeDescs[..];
      assert active[..VertexAttributeCount] == active;
      info := VertexInputInfo(VertexStreamCount, |activeAttributeDescs|, |activeBindingDivisorDescs|,
                              |activeBindingDivisorDescs| != 0);
    }

    method SetStride(index: nat, stride: nat)
      requires Valid() && index < VertexStreamCount
      modifies bindingDescs
      ensures bindingDescs[..] == old(bindingDescs[..])[index := old(bindingDescs[index]).(stride := stride)]
    {
      bindingDescs[index] := bindingDescs[index].(stride := stride);
    }

    method SetInputRate(index: nat, isInstanced: bool)
      requires Valid() && index < VertexStreamCount
      modifies bindingDescs
      ensures bindingDescs[..]
              == old(bindingDescs[..])[index := old(bindingDescs[index]).(inputRate := if isInstanced then RateInstance else RateVertex)]
    {
      bindingDescs[index] := bindingDescs[index].(inputRate := if isInstanced then RateInstance else RateVertex);
    }

    method SetDivisor(index: nat, divisor: nat)
      requires Valid() && index < VertexStreamCount
      modifies bindingDivisorDescs
      ensures bindingDivisorDescs[..] == old(bindingDivisorDescs[..])[index := old(bindingDivisorDescs[index]).(divisor := divisor)]
    {
      bindingDivisorDescs[index] := bindingDivisorDescs[index].(divisor := divisor);
    }

    /** An active attribute takes its stream, format and offset; an inactive one leaves its description alone. */
    method SetAttribute(index: nat, attribute: VertexAttribute)
      requires Valid() && index < VertexAttributeCount
      modifies attributeDescs
      ensures attribute.active ==>
                attributeDescs[..] == old(attributeDescs[..])[index := old(attributeDescs[index]).(
                  binding := attribute.stream, format := FormatOf(attribute.componentBitWidths, attribute.numericalType),
                  offset := attribute.offset)]
      ensures !attribute.active ==> attributeDescs[..] == old(attributeDescs[..])
    {
      if attribute.active {
        attributeDescs[index] := attributeDescs[index].(binding := attribute.stream,
                                                        format := FormatOf(attribute.componentBitWidths, attribute.numericalType),
                                                        offset := attribute.offset);
      }
    }
  }

  /** Vulkan primitive topologies. */
  datatype VkTopology =
    | VkPointList | VkLineList | VkLineStrip | VkTriangleList | VkTriangleStrip | VkTriangleFan
    | VkLineListWithAdjacency | VkLineStripWithAdjacency | VkTriangleListWithAdjacency | VkTriangleStripWithAdjacency
    | VkPatchList

  /** The input topology a geometry shader is compiled for. */
  datatype InputTopology = InputPoints | InputLines | InputTriangles

  /** The primitive class of a Vulkan topology; patches are compiled as triangles. */
  function InputTopologyOf(t: VkTopology): InputTopology
  {
    match t
    case VkPointList => InputPoints
    case VkLineList | VkLineStrip | VkLineListWithAdjacency | VkLineStripWithAdjacency => InputLines
    case _ => InputTriangles
  }

  predicate IsAdjacency(t: VkTopology)
  {
    t.VkLineListWithAdjacency? || t.VkLineStripWithAdjacency? || t.VkTriangleListWithAdjacency? || t.VkTriangleStripWithAdjacency?
  }

  predicate IsEngineAdjacency(t: DrawTopology)
  {
    t.LineListAdjcy? || t.LineStripAdjcy? || t.TriangleListAdjcy? || t.TriangleStripAdjcy?
  }

  /**
   * The Vulkan topology and shader input topology of an engine topology.
   * Quads are drawn as triangle lists through quad conversion, and an
   * unknown topology falls back to triangle lists.
   */
  function ConvertPrimitiveTopology(t: DrawTopology): (r: (VkTopology, InputTopology))
    ensures r.1 == InputTopologyOf(r.0)
    ensures t.Quads? || t.OtherTopology? ==> r == (VkTriangleList, InputTriangles)
    ensures IsAdjacency(r.0) <==> IsEngineAdjacency(t)
    ensures t.LineListAdjcy? ==> r.0 == VkLineListWithAdjacency
    ensures t.LineStripAdjcy? ==> r.0 == VkLineStripWithAdjacency
    ensures t.TriangleListAdjcy? ==> r.0 == VkTriangleListWithAdjacency
    ensures t.TriangleStripAdjcy? ==> r.0 == VkTriangleStripWithAdjacency
  {
    match t
    case Points => (VkPointList, InputPoints)
    case Lines => (VkLineList, InputLines)
    case LineStrip => (VkLineStrip, InputLines)
    case Triangles => (VkTriangleList, InputTriangles)
    case TriangleStrip => (VkTriangleStrip, InputTriangles)
    case TriangleFan => (VkTriangleFan, InputTriangles)
    case Quads => (VkTriangleList, InputTriangles)
    case LineListAdjcy => (VkLineListWithAdjacency, InputLines)
    case LineStripAdjcy => (VkLineStripWithAdjacency, InputLines)
    case TriangleListAdjcy => (VkTriangleListWithAdjacency, InputTriangles)
    case TriangleStripAdjcy => (VkTriangleStripWithAdjacency, InputTriangles)
    case Patch => (VkPatchList, InputTriangles)
    case OtherTopology(_) => (VkTriangleList, InputTriangles)
  }

  /** Distinct known topologies other than quads get distinct Vulkan topologies. */
  lemma ConvertPrimitiveTopologyInjective(a: DrawTopology, b: DrawTopology)
    requires !a.OtherTopology? && !b.OtherTopology? && !a.Quads? && !b.Quads? && a != b
    ensures ConvertPrimitiveTopology(a).0 != ConvertPrimitiveTopology(b).0
  {
  }

  class InputAssemblyState {
    var topology: VkTopology
    var primitiveRestartEnable: bool
    var currentEngineTopology: DrawTopology

    /** Both topologies start at their zero value: points. */
    constructor ()
      ensures topology == VkPointList && !primitiveRestartEnable && currentEngineTopology == Points
    {
      topology := VkPointList;
      primitiveRestartEnable := false;
      currentEngineTopology := Points;
    }

    function GetPrimitiveTopology(): DrawTopology
      reads this
    {
      currentEngineTopology
    }

    predicate NeedsQuadConversion()
      reads this
    {
      currentEngineTopology == Quads
    }

    /** Remembers the engine topology and sets the Vulkan topology; primitive restart is untouched. */
    method SetPrimitiveTopology(t: DrawTopology)
      modifies this
      ensures GetPrimitiveTopology() == t && (NeedsQuadConversion() <==> t == Quads)
      ensures topology == ConvertPrimitiveTopology(t).0 && primitiveRestartEnable == old(primitiveRestartEnable)
    {
      currentEngineTopology := t;
      topology := ConvertPrimitiveTopology(t).0;
    }

    method SetPrimitiveRestart(enabled: bool)
      modifies this
      ensures primitiveRestartEnable == enabled
      ensures topology == old(topology) && currentEngineTopology == old(currentEngineTopology)
    {
      primitiveRestartEnable := enabled;
    }
  }

  datatype ViewType = View2D | View2DArray

  /** The layer layout a render target's guest texture is created with. */
  datatype TargetLayers = TargetLayers(baseArrayLayer: nat, layerCount: nat, depth: nat, viewType: ViewType, layerStride: nat)

  /** The colour target registers the layer arithmetic reads. */
  datatype ColorTargetRegisters = ColorTargetRegisters(formatDisabled: bool, layerOffset: nat, thirdDimension: nat,
                                                       thirdDimensionDefinesArraySize: bool, arrayPitch: nat)

  /**
   * The layers of a colour target; none when its format is Disabled, which
   * clears the view. The third dimension is either the layer count or the
   * depth, and the other one is 1.
   */
  function ColorTargetLayers(t: ColorTargetRegisters): (r: Option<TargetLayers>)
    ensures r.None? <==> t.formatDisabled
    ensures r.Some? ==>
              r.value.baseArrayLayer == t.layerOffset
              && r.value.layerCount * r.value.depth == t.thirdDimension
              && (if t.thirdDimensionDefinesArraySize
                  then r.value.layerCount == t.thirdDimension && r.value.depth == 1
                  else r.value.layerCount == 1 && r.value.depth == t.thirdDimension)
              && (r.value.viewType == View2DArray <==> t.thirdDimension > 1)
              && (r.value.layerCount > 1 || r.value.baseArrayLayer > 1 ==> r.value.layerStride == t.arrayPitch)
              && (r.value.layerCount <= 1 && r.value.baseArrayLayer <= 1 ==> r.value.layerStride == 0)
  {
    if t.formatDisabled then None
    else
      var layerCount := if t.thirdDimensionDefinesArraySize then t.thirdDimension else 1;
      var depth := if t.thirdDimensionDefinesArraySize then 1 else t.thirdDimension;
      var viewType := if t.thirdDimension > 1 then View2DArray else View2D;
      var stride := if t.layerOffset > 1 || layerCount > 1 then t.arrayPitch else 0;
      Some(TargetLayers(t.layerOffset, layerCount, depth, viewType, stride))
  }

  datatype ZtSizeControl = ThirdDimensionDefinesArraySize | ArraySizeIsOne | OtherControl(raw: nat)

  /** The depth target registers the layer arithmetic reads. */
  datatype DepthTargetRegisters = DepthTargetRegisters(targetCount: nat, layerOffset: nat, control: ZtSizeControl,
                                                       thirdDimension: nat, arrayPitch: nat)

  /**
   * The layers of a depth target; none when no target is selected. A
   * control value that is neither array mode leaves the layer count and
   * view type at the guest texture's defaults, which are passed in. A
   * depth target always has depth 1.
   */
  function DepthTargetLayers(t: DepthTargetRegisters, defaultLayerCount: nat, defaultViewType: ViewType): (r: Option<TargetLayers>)
    ensures r.None? <==> t.targetCount == 0
    ensures r.Some? ==>
              r.value.baseArrayLayer == t.layerOffset && r.value.depth == 1
              && (t.control.ThirdDimensionDefinesArraySize? ==> r.value.layerCount == t.thirdDimension && r.value.viewType == View2DArray)
              && (t.control.ArraySizeIsOne? ==> r.value.layerCount == 1 && r.value.viewType == View2D)
              && (t.control.OtherControl? ==> r.value.layerCount == defaultLayerCount && r.value.viewType == defaultViewType)
              && (r.value.layerCount > 1 || r.value.baseArrayLayer > 1 ==> r.value.layerStride == t.arrayPitch)
              && (r.value.layerCount <= 1 && r.value.baseArrayLayer <= 1 ==> r.value.layerStride == 0)
  {
    if t.targetCount == 0 then None
    else
      var layers := match t.control
        case ThirdDimensionDefinesArraySize => (t.thirdDimension, View2DArray)
        case ArraySizeIsOne => (1, View2D)
        case OtherControl(_) => (defaultLayerCount, defaultViewType);
      var stride := if t.layerOffset > 1 || layers.0 > 1 then t.arrayPitch else 0;
      Some(TargetLayers(t.layerOffset, layers.0, 1, layers.1, stride))
  }
}

=== FILE: state_updater.dfy ===
/**
 * The state-update builder: a singly linked list of commands that are later
 * recorded into a command buffer in order. Consecutive vertex-buffer bindings
 * of the same kind are coalesced into one batch command.
 */
module StateUpdates {
  import Wrappers
  import opened MegaBufferTable
  import opened BufferModel
  import opened Buffers
  import opened BufferViews
  import opened VkTypes
  import opened MaxwellRegisters

  /** A buffer view as a command stores it: copied by value. */
  datatype ViewCopy = ViewCopy(delegate: Wrappers.Option<nat>, offset: nat, size: nat)

  const NullView: ViewCopy := ViewCopy(Wrappers.None, 0, 0)

  function CopyOf(view: BufferView): (c: ViewCopy)
    reads view
    ensures c.delegate == view.delegate && c.offset == view.offset && c.size == view.size
  {
    ViewCopy(view.delegate, view.offset, view.size)
  }

  /** The Vulkan handle of a binding; an empty binding is the null handle 0. */
  function BindingHandle(b: BufferBinding): nat
  {
    if b.Binding? then b.buffer else 0
  }

  function BindingOffset(b: BufferBinding): nat
  {
    if b.Binding? then b.offset else 0
  }

  function BindingSize(b: BufferBinding): nat
  {
    if b.Binding? then b.size else 0
  }

  /** Which record function the pending vertex batch carries: plain bindings or views resolved at record time. */
  datatype BatchKind = StaticBatch | DynamicBatch

  datatype VertexBatch = VertexBatch(kind: BatchKind, firstBinding: nat, bindingCount: nat,
                                     buffers: seq<nat>, offsets: seq<nat>, views: seq<ViewCopy>)

  /** A newly allocated batch command: it carries the dynamic record function and empty slots. */
  const FreshBatch: VertexBatch :=
    VertexBatch(DynamicBatch, 0, 0, seq(VertexStreamCount, _ => 0), seq(VertexStreamCount, _ => 0), seq(VertexStreamCount, _ => NullView))

  predicate WellSized(b: VertexBatch)
  {
    |b.buffers| == VertexStreamCount && |b.offsets| == VertexStreamCount && |b.views| == VertexStreamCount
    && b.firstBinding + b.bindingCount <= VertexStreamCount
  }

  datatype Command =
    | SetVertexBuffers(batch: VertexBatch)
    | SetIndexBuffer(buffer: nat, offset: nat, indexType: IndexType)
    | SetIndexBufferDynamic(view: ViewCopy, indexType: IndexType)
    | SetTransformFeedbackBuffer(binding: nat, buffer: nat, offset: nat, size: nat)
    | SetTransformFeedbackBufferDynamic(binding: nat, view: ViewCopy, size: nat)
    | SetViewport(index: nat)
    | SetScissor(index: nat, scissor: Rect2D)
    | SetLineWidth
    | SetDepthBias
    | SetBlendConstants
    | SetDepthBounds
    | SetBaseStencilState(faces: StencilFaces, funcRef: nat, funcMask: nat, mask: nat)

  /** The commands that carry no buffer reference and are appended as they are. */
  predicate FixedFunctionCommand(c: Command)
  {
    c.SetViewport? || c.SetScissor? || c.SetLineWidth? || c.SetDepthBias? || c.SetBlendConstants?
    || c.SetDepthBounds? || c.SetBaseStencilState?
  }

  /** The Vulkan commands that recording produces. */
  datatype VkCall =
    | BindVertexBuffers(firstBinding: nat, buffers: seq<nat>, offsets: seq<nat>)
    | BindIndexBuffer(buffer: nat, offset: nat, indexType: IndexType)
    | BindTransformFeedbackBuffer(binding: nat, buffer: nat, offset: nat, size: nat)
    | SetViewportCall(index: nat)
    | SetScissorCall(index: nat, scissor: Rect2D)
    | SetLineWidthCall
    | SetDepthBiasCall
    | SetBlendConstantsCall
    | SetDepthBoundsCall
    | SetStencilCompareMask(faces: StencilFaces, compareMask: nat)
    | SetStencilReference(faces: StencilFaces, reference: nat)
    | SetStencilWriteMask(faces: StencilFaces, writeMask: nat)

  ghost predicate ViewResolves(v: ViewCopy, forest: DelegateForest)
    reads forest
  {
    forest.Valid() && v.delegate.Some? && v.delegate.value in forest.cells
  }

  /** The backing handle of the buffer a copied view stands for at record time. */
  function ResolvedHandle(v: ViewCopy, forest: DelegateForest): nat
    reads forest
    requires ViewResolves(v, forest)
  {
    forest.GetBuffer(v.delegate.value).id
  }

  function ResolvedOffset(v: ViewCopy, forest: DelegateForest): nat
    reads forest
    requires ViewResolves(v, forest)
  {
    v.offset + forest.GetOffset(v.delegate.value)
  }

  ghost predicate Recordable(c: Command, forest: DelegateForest)
    reads forest
  {
    forest.Valid() &&
    match c
    case SetVertexBuffers(b) =>
      WellSized(b)
      && (b.kind == DynamicBatch ==>
            forall i | b.firstBinding <= i < b.firstBinding + b.bindingCount :: ViewResolves(b.views[i], forest))
    case SetIndexBufferDynamic(v, _) => ViewResolves(v, forest)
    case SetTransformFeedbackBufferDynamic(_, v, _) => ViewResolves(v, forest)
    case _ => true
  }

  /** The slots of a dynamic batch after its views are resolved: only the bound range is refilled. */
  function ResolvedSlots(b: VertexBatch, forest: DelegateForest): (r: (seq<nat>, seq<nat>))
    reads forest
    requires b.kind == DynamicBatch && Recordable(SetVertexBuffers(b), forest)
    ensures |r.0| == |r.1| == VertexStreamCount
  {
    SlotsOver(b, forest.cells, forest.rank)
  }

  function SlotsOver(b: VertexBatch, cells: map<nat, Delegate>, ghost rank: map<nat, nat>): (r: (seq<nat>, seq<nat>))
    requires WellRanked(cells, rank) && WellSized(b)
    requires forall i | b.firstBinding <= i < b.firstBinding + b.bindingCount ::
               b.views[i].delegate.Some? && b.views[i].delegate.value in cells
    ensures |r.0| == |r.1| == VertexStreamCount
  {
    (seq(VertexStreamCount, i requires 0 <= i < VertexStreamCount =>
           if b.firstBinding <= i < b.firstBinding + b.bindingCount then ResolveBuffer(cells, rank, b.views[i].delegate.value).id
           else b.buffers[i]),
     seq(VertexStreamCount, i requires 0 <= i < VertexStreamCount =>
           if b.firstBinding <= i < b.firstBinding + b.bindingCount
           then b.views[i].offset + ResolveOffset(cells, rank, b.views[i].delegate.value)
           else b.offsets[i]))
  }

  /** What recording one command emits. */
  function Recorded(c: Command, forest: DelegateForest): seq<VkCall>
    reads forest
    requires Recordable(c, forest)
  {
    match c
    case SetVertexBuffers(b) =>
      var slots := if b.kind == StaticBatch then (b.buffers, b.offsets) else ResolvedSlots(b, forest);
      var hi := b.firstBinding + b.bindingCount;
      [BindVertexBuffers(b.firstBinding, slots.0[b.firstBinding..hi], slots.1[b.firstBinding..hi])]
    case SetIndexBuffer(buffer, offset, indexType) => [BindIndexBuffer(buffer, offset, indexType)]
    case SetIndexBufferDynamic(v, indexType) => [BindIndexBuffer(ResolvedHandle(v, forest), ResolvedOffset(v, forest), indexType)]
    case SetTransformFeedbackBuffer(binding, buffer, offset, size) => [BindTransformFeedbackBuffer(binding, buffer, offset, size)]
    case SetTransformFeedbackBufferDynamic(binding, v, size) =>
      [BindTransformFeedbackBuffer(binding, ResolvedHandle(v, forest), ResolvedOffset(v, forest), size)]
    case SetViewport(index) => [SetViewportCall(index)]
    case SetScissor(index, scissor) => [SetScissorCall(index, scissor)]
    case SetLineWidth => [SetLineWidthCall]
    case SetDepthBias => [SetDepthBiasCall]
    case SetBlendConstants => [SetBlendConstantsCall]
    case SetDepthBounds => [SetDepthBoundsCall]
    case SetBaseStencilState(faces, funcRef, funcMask, mask) =>
      [SetStencilCompareMask(faces, funcMask), SetStencilReference(faces, funcRef), SetStencilWriteMask(faces, mask)]
  }

  /** Call lists joined one after another. */
  function Concat(parts: seq<seq<VkCall>>): seq<VkCall>
  {
    if parts == [] then [] else Concat(parts[..|parts| - 1]) + parts[|parts| - 1]
  }

  lemma {:induction false} ConcatAppend(p: seq<seq<VkCall>>, q: seq<seq<VkCall>>)
    ensures Concat(p + q) == Concat(p) + Concat(q)
    decreases |q|
  {
    if q == [] {
      assert p + q == p;
    } else {
      var q' := q[..|q| - 1];
      assert (p + q)[..|p + q| - 1] == p + q';
      ConcatAppend(p, q');
    }
  }

  /** The calls each command emits, command by command. */
  function RecordedEach(cs: seq<Command>, forest: DelegateForest): (r: seq<seq<VkCall>>)
    reads forest
    requires forall i | 0 <= i < |cs| :: Recordable(cs[i], forest)
    ensures |r| == |cs| && forall i | 0 <= i < |cs| :: r[i] == Recorded(cs[i], forest)
  {
    seq(|cs|, i requires 0 <= i < |cs| && Recordable(cs[i], forest) reads forest => Recorded(cs[i], forest))
  }

  /** What recording a list of commands emits: each command's calls, in list order. */
  function RecordedAll(cs: seq<Command>, forest: DelegateForest): (r: seq<VkCall>)
    reads forest
    requires forall i | 0 <= i < |cs| :: Recordable(cs[i], forest)
  {
    Concat(RecordedEach(cs, forest))
  }

  /** Recording two lists one after the other is recording their concatenation. */
  lemma RecordedAllAppend(a: seq<Command>, b: seq<Command>, forest: DelegateForest)
    requires forall i | 0 <= i < |a| :: Recordable(a[i], forest)
    requires forall i | 0 <= i < |b| :: Recordable(b[i], forest)
    ensures forall i | 0 <= i < |a + b| :: Recordable((a + b)[i], forest)
    ensures RecordedAll(a + b, forest) == RecordedAll(a, forest) + RecordedAll(b, forest)
  {
    forall i | 0 <= i < |a + b| ensures Recordable((a + b)[i], forest) {
      if i < |a| { assert (a + b)[i] == a[i]; } else { assert (a + b)[i] == b[i - |a|]; }
    }
    var p, q := RecordedEach(a, forest), RecordedEach(b, forest);
    assert RecordedEach(a + b, forest) == p + q by {
      forall i | 0 <= i < |a + b| ensures RecordedEach(a + b, forest)[i] == (p + q)[i] {
        if i < |a| { assert (a + b)[i] == a[i]; } else { assert (a + b)[i] == b[i - |a|]; }
      }
    }
    ConcatAppend(p, q);
  }

  /** Recording one more command of a list appends that command's calls. */
  lemma RecordedAllStep(cs: seq<Command>, i: nat, forest: DelegateForest)
    requires i < |cs| && forall k | 0 <= k < |cs| :: Recordable(cs[k], forest)
    ensures RecordedAll(cs[..i + 1], forest) == RecordedAll(cs[..i], forest) + Recorded(cs[i], forest)
  {
    assert cs[..i + 1] == cs[..i] + [cs[i]];
    RecordedAllAppend(cs[..i], [cs[i]], forest);
    assert RecordedEach([cs[i]], forest) == [Recorded(cs[i], forest)];
    assert Concat([Recorded(cs[i], forest)]) == Concat([]) + Recorded(cs[i], forest);
  }

  /**
   * The record function of a dynamic batch: it refreshes the handle and
   * offset of every slot in [firstBinding, firstBinding + bindingCount) from
   * the slot's view and leaves every other slot as it was.
   */
  method RefreshDynamicSlots(b: VertexBatch, forest: DelegateForest) returns (buffers: seq<nat>, offsets: seq<nat>)
    requires b.kind == DynamicBatch && Recordable(SetVertexBuffers(b), forest)
    ensures |buffers| == |offsets| == VertexStreamCount
    ensures forall i | 0 <= i < VertexStreamCount ::
              if b.firstBinding <= i < b.firstBinding + b.bindingCount then
                buffers[i] == forest.GetBuffer(b.views[i].delegate.value).id
                && offsets[i] == b.views[i].offset + forest.GetOffset(b.views[i].delegate.value)
              else buffers[i] == b.buffers[i] && offsets[i] == b.offsets[i]
  {
    buffers, offsets := b.buffers, b.offsets;
    var i := b.firstBinding;
    while i < b.firstBinding + b.bindingCount
      invariant b.firstBinding <= i <= b.firstBinding + b.bindingCount
      invariant |buffers| == |offsets| == VertexStreamCount
      invariant forall j | 0 <= j < VertexStreamCount ::
                  if b.firstBinding <= j < i then
                    buffers[j] == ResolvedHandle(b.views[j], forest) && offsets[j] == ResolvedOffset(b.views[j], forest)
                  else buffers[j] == b.buffers[j] && offsets[j] == b.offsets[j]
    {
      buffers := buffers[i := ResolvedHandle(b.views[i], forest)];
      offsets := offsets[i := ResolvedOffset(b.views[i], forest)];
      i := i + 1;
    }
  }

  /** Records one command. */
  method Record(c: Command, forest: DelegateForest) returns (calls: seq<VkCall>)
    requires Recordable(c, forest)
    ensures calls == Recorded(c, forest)
  {
    if c.SetVertexBuffers? && c.batch.kind == DynamicBatch {
      var b := c.batch;
      var buffers, offsets := RefreshDynamicSlots(b, forest);
      var slots := ResolvedSlots(b, forest);
      assert buffers == slots.0 && offsets == slots.1 by {
        forall i | 0 <= i < VertexStreamCount ensures buffers[i] == slots.0[i] && offsets[i] == slots.1[i] { }
      }
      calls := [BindVertexBuffers(b.firstBinding, buffers[b.firstBinding..b.firstBinding + b.bindingCount],
                                  offsets[b.firstBinding..b.firstBinding + b.bindingCount])];
    } else {
      calls := Recorded(c, forest);
    }
  }

  /** A list node: the command header's next pointer and the command it heads. */
  class CmdNode {
    var next: CmdNode?
    const cmd: Command

    constructor (cmd: Command)
      ensures next == null && this.cmd == cmd
    {
      next := null;
      this.cmd := cmd;
    }
  }

  /** `nodes` is the list that starts at `first` and follows next pointers to null. */
  ghost predicate IsList(first: CmdNode?, nodes: seq<CmdNode>)
    reads nodes
  {
    (first == null <==> |nodes| == 0)
    && (|nodes| > 0 ==> first == nodes[0])
    && (forall i | 0 <= i < |nodes| :: nodes[i].next == (if i + 1 < |nodes| then nodes[i + 1] else null))
  }

  ghost function CommandsOf(nodes: seq<CmdNode>): (cs: seq<Command>)
    ensures |cs| == |nodes| && forall i | 0 <= i < |nodes| :: cs[i] == nodes[i].cmd
  {
    seq(|nodes|, i requires 0 <= i < |nodes| => nodes[i].cmd)
  }

  /** A built list of commands, recorded in one pass. */
  class StateUpdater {
    const first: CmdNode?
    ghost const nodes: seq<CmdNode>

    ghost predicate Valid()
      reads this, nodes
    {
      IsList(first, nodes)
    }

    ghost function Commands(): seq<Command>
      reads this
    {
      CommandsOf(nodes)
    }

    constructor (first: CmdNode?, ghost nodes: seq<CmdNode>)
      requires IsList(first, nodes)
      ensures Valid() && this.first == first && this.nodes == nodes
    {
      this.first := first;
      this.nodes := nodes;
    }

    /** Walks the list from `first` through the next pointers and records every command, in list order. */
    method RecordAll(forest: DelegateForest) returns (calls: seq<VkCall>)
      requires Valid() && forall i | 0 <= i < |nodes| :: Recordable(nodes[i].cmd, forest)
      ensures calls == RecordedAll(Commands(), forest)
    {
      calls := [];
      var cmd := first;
      ghost var i := 0;
      while cmd != null
        invariant 0 <= i <= |nodes| && cmd == (if i < |nodes| then nodes[i] else null)
        invariant calls == RecordedAll(Commands()[..i], forest)
        decreases |nodes| - i
      {
        var recorded := Record(cmd.cmd, forest);
        assert nodes[i].next == if i + 1 < |nodes| then nodes[i + 1] else null;
        RecordedAllStep(Commands(), i, forest);
        calls := calls + recorded;
        cmd := cmd.next;
        i := i + 1;
      }
      assert Commands()[..i] == Commands();
    }
  }

  class StateUpdateBuilder {
    var head: CmdNode?
    var tail: CmdNode?
    var nextBinding: nat
    var batch: VertexBatch
    ghost var nodes: seq<CmdNode>

    /** The list is well formed, its nodes are distinct and `tail` is its last node. */
    ghost predicate ListValid()
      reads this, nodes
    {
      IsList(head, nodes)
      && (forall i, j | 0 <= i < j < |nodes| :: nodes[i] != nodes[j])
      && (tail == null <==> |nodes| == 0)
      && (|nodes| > 0 ==> tail == nodes[|nodes| - 1])
    }

    /** The pending batch binds the contiguous range that ends just below `nextBinding`. */
    ghost predicate Valid()
      reads this, nodes
    {
      ListValid() && WellSized(batch) && batch.firstBinding + batch.bindingCount == nextBinding
      && (batch.bindingCount == 0 ==>
            batch.buffers == FreshBatch.buffers && batch.offsets == FreshBatch.offsets && batch.views == FreshBatch.views)
    }

    ghost function Commands(): seq<Command>
      reads this
    {
      CommandsOf(nodes)
    }

    constructor ()
      ensures Valid() && Commands() == [] && head == null && nextBinding == 0 && batch == FreshBatch
    {
      head, tail := null, null;
      nextBinding := 0;
      batch := FreshBatch;
      nodes := [];
    }

    /** Links `node` after the tail, or makes it the whole list when the list is empty. */
    method AppendCmd(node: CmdNode)
      requires ListValid() && node !in nodes && node.next == null
      modifies this, nodes
      ensures ListValid() && nodes == old(nodes) + [node] && Commands() == old(Commands()) + [node.cmd]
      ensures head == (if old(head) == null then node else old(head))
      ensures nextBinding == old(nextBinding) && batch == old(batch)
    {
      if tail != null {
        tail.next := node;
        tail := tail.next;
      } else {
        head := node;
        tail := head;
      }
      nodes := nodes + [node];
    }

    method Append(c: Command)
      requires ListValid()
      modifies this, nodes
      ensures fresh(set n | n in nodes && n !in old(nodes))
      ensures ListValid() && Commands() == old(Commands()) + [c]
      ensures nextBinding == old(nextBinding) && batch == old(batch)
    {
      var node := new CmdNode(c);
      AppendCmd(node);
    }

    /** Appends the pending batch when it binds anything, and starts a fresh one. */
    method FlushVertexBatchBind()
      requires ListValid()
      modifies this, nodes
      ensures ListValid() && nextBinding == old(nextBinding)
      ensures old(batch.bindingCount) != 0 ==> Commands() == old(Commands()) + [SetVertexBuffers(old(batch))] && batch == FreshBatch
      ensures old(batch.bindingCount) == 0 ==> Commands() == old(Commands()) && batch == old(batch)
    {
      if batch.bindingCount != 0 {
        Append(SetVertexBuffers(batch));
        batch := FreshBatch;
      }
    }

    /** Flushes the pending batch and hands out the list. The builder is not used afterwards. */
    method Build() returns (updater: StateUpdater)
      requires ListValid()
      modifies this, nodes
      ensures fresh(updater) && updater.Valid() && updater.first == head
      ensures updater.Commands() == old(Commands()) + (if old(batch.bindingCount) != 0 then [SetVertexBuffers(old(batch))] else [])
    {
      FlushVertexBatchBind();
      updater := new StateUpdater(head, nodes);
    }

    /** Starts a new batch of `kind` at `index` unless `index` continues the pending batch of that kind. */
    method BeginBinding(index: nat, kind: BatchKind)
      requires Valid() && index < VertexStreamCount
      modifies this, nodes
      ensures ListValid() && WellSized(batch) && nextBinding == index && batch.kind == kind
      ensures batch.firstBinding + batch.bindingCount == index
      ensures index == old(nextBinding) && old(batch.kind) == kind ==> Commands() == old(Commands()) && batch == old(batch)
      ensures index != old(nextBinding) || old(batch.kind) != kind ==>
                Commands() == old(Commands()) + (if old(batch.bindingCount) != 0 then [SetVertexBuffers(old(batch))] else [])
                && batch.firstBinding == index && batch.bindingCount == 0
                && batch.buffers == FreshBatch.buffers && batch.offsets == FreshBatch.offsets && batch.views == FreshBatch.views
    {
      if index != nextBinding || batch.kind != kind {
        FlushVertexBatchBind();
        batch := batch.(kind := kind, firstBinding := index);
        nextBinding := index;
      }
    }

    /** Binds a plain buffer binding to vertex stream `index`. */
    method SetVertexBuffer(index: nat, binding: BufferBinding)
      requires Valid() && index < VertexStreamCount
      modifies this, nodes
      ensures Valid() && nextBinding == index + 1 && batch.kind == StaticBatch
      ensures batch.buffers[index] == BindingHandle(binding) && batch.offsets[index] == BindingOffset(binding)
      ensures index == old(nextBinding) && old(batch.kind) == StaticBatch ==>
                Commands() == old(Commands())
                && batch == old(batch).(bindingCount := old(batch.bindingCount) + 1,
                                        buffers := old(batch.buffers)[index := BindingHandle(binding)],
                                        offsets := old(batch.offsets)[index := BindingOffset(binding)])
      ensures index != old(nextBinding) || old(batch.kind) != StaticBatch ==>
                Commands() == old(Commands()) + (if old(batch.bindingCount) != 0 then [SetVertexBuffers(old(batch))] else [])
                && batch.firstBinding == index && batch.bindingCount == 1
    {
      BeginBinding(index, StaticBatch);
      var bindingIdx := nextBinding;
      nextBinding := nextBinding + 1;
      batch := batch.(buffers := batch.buffers[bindingIdx := BindingHandle(binding)],
                      offsets := batch.offsets[bindingIdx := BindingOffset(binding)],
                      bindingCount := batch.bindingCount + 1);
    }

    /**
     * Binds a view to vertex stream `index`; the view is resolved only when
     * the batch is recorded, so its buffer's sequenced CPU writes are blocked.
     */
    method SetVertexBufferView(index: nat, view: BufferView, forest: DelegateForest)
      requires Valid() && index < VertexStreamCount && view.Resolvable(forest)
      modifies this, nodes, view.GetBuffer(forest)
      ensures Valid() && nextBinding == index + 1 && batch.kind == DynamicBatch && batch.views[index] == CopyOf(view)
      ensures view.GetBuffer(forest).State() == BlockSequencedCpuBackingWrites(old(view.GetBuffer(forest).State()))
      ensures index == old(nextBinding) && old(batch.kind) == DynamicBatch ==>
                Commands() == old(Commands())
                && batch == old(batch).(bindingCount := old(batch.bindingCount) + 1, views := old(batch.views)[index := CopyOf(view)])
      ensures index != old(nextBinding) || old(batch.kind) != DynamicBatch ==>
                Commands() == old(Commands()) + (if old(batch.bindingCount) != 0 then [SetVertexBuffers(old(batch))] else [])
                && batch.firstBinding == index && batch.bindingCount == 1
    {
      view.GetBuffer(forest).BlockSequencedCpuBackingWrites();
      AddDynamicBinding(index, CopyOf(view));
    }

    /** Puts a stored view into the slot of vertex stream `index` of a dynamic batch that then ends at `index`. */
    method AddDynamicBinding(index: nat, copy: ViewCopy)
      requires Valid() && index < VertexStreamCount
      modifies this, nodes
      ensures Valid() && nextBinding == index + 1 && batch.kind == DynamicBatch && batch.views[index] == copy
      ensures index == old(nextBinding) && old(batch.kind) == DynamicBatch ==>
                Commands() == old(Commands())
                && batch == old(batch).(bindingCount := old(batch.bindingCount) + 1, views := old(batch.views)[index := copy])
      ensures index != old(nextBinding) || old(batch.kind) != DynamicBatch ==>
                Commands() == old(Commands()) + (if old(batch.bindingCount) != 0 then [SetVertexBuffers(old(batch))] else [])
                && batch.firstBinding == index && batch.bindingCount == 1
    {
      BeginBinding(index, DynamicBatch);
      var bindingIdx := nextBinding;
      nextBinding := nextBinding + 1;
      batch := batch.(views := batch.views[bindingIdx := copy], bindingCount := batch.bindingCount + 1);
    }

    method SetIndexBuffer(binding: BufferBinding, indexType: IndexType)
      requires Valid()
      modifies this, nodes
      ensures Valid() && nextBinding == old(nextBinding) && batch == old(batch)
      ensures Commands() == old(Commands()) + [Command.SetIndexBuffer(BindingHandle(binding), BindingOffset(binding), indexType)]
    {
      Append(Command.SetIndexBuffer(BindingHandle(binding), BindingOffset(binding), indexType));
    }

    method SetIndexBufferView(view: BufferView, forest: DelegateForest, indexType: IndexType)
      requires Valid() && view.Resolvable(forest)
      modifies this, nodes, view.GetBuffer(forest)
      ensures Valid() && nextBinding == old(nextBinding) && batch == old(batch)
      ensures Commands() == old(Commands()) + [SetIndexBufferDynamic(CopyOf(view), indexType)]
      ensures view.GetBuffer(forest).State() == BlockSequencedCpuBackingWrites(old(view.GetBuffer(forest).State()))
    {
      view.GetBuffer(forest).BlockSequencedCpuBackingWrites();
      Append(SetIndexBufferDynamic(CopyOf(view), indexType));
    }

    /** Binds transform-feedback buffer `index` to a plain binding, with the binding's size. */
    method SetTransformFeedbackBuffer(index: nat, binding: BufferBinding)
      requires Valid()
      modifies this, nodes
      ensures Valid() && nextBinding == old(nextBinding) && batch == old(batch)
      ensures Commands() == old(Commands()) + [TransformFeedbackCommand(index, binding)]
    {
      Append(TransformFeedbackCommand(index, binding));
    }

    /** Binds transform-feedback buffer `index` to a view, with the view's size. */
    method SetTransformFeedbackBufferView(index: nat, view: BufferView, forest: DelegateForest)
      requires Valid() && view.Resolvable(forest)
      modifies this, nodes, view.GetBuffer(forest)
      ensures Valid() && nextBinding == old(nextBinding) && batch == old(batch)
      ensures Commands() == old(Commands()) + [TransformFeedbackViewCommand(index, CopyOf(view))]
      ensures view.GetBuffer(forest).State() == BlockSequencedCpuBackingWrites(old(view.GetBuffer(forest).State()))
    {
      view.GetBuffer(forest).BlockSequencedCpuBackingWrites();
      Append(TransformFeedbackViewCommand(index, CopyOf(view)));
    }

    /** The viewport, scissor, line-width, depth-bias, blend-constant, depth-bounds and stencil setters. */
    method SetFixedFunctionState(c: Command)
      requires Valid() && FixedFunctionCommand(c)
      modifies this, nodes
      ensures fresh(set n | n in nodes && n !in old(nodes))
      ensures Valid() && nextBinding == old(nextBinding) && batch == old(batch)
      ensures Commands() == old(Commands()) + [c]
    {
      Append(c);
    }
  }

  /** The transform-feedback command as written: the binding's size is not copied, so it stays zero. */
  function TransformFeedbackCommandAsWritten(index: nat, binding: BufferBinding): (c: Command)
    ensures c.SetTransformFeedbackBuffer? && c.binding == index && c.size == 0
    ensures c.buffer == BindingHandle(binding) && c.offset == BindingOffset(binding)
  {
    SetTransformFeedbackBuffer(index, BindingHandle(binding), BindingOffset(binding), 0)
  }

  function TransformFeedbackViewCommandAsWritten(index: nat, view: ViewCopy): (c: Command)
    ensures c.SetTransformFeedbackBufferDynamic? && c.binding == index && c.view == view && c.size == 0
  {
    SetTransformFeedbackBufferDynamic(index, view, 0)
  }

  /** The transform-feedback command with the size carried over. */
  function TransformFeedbackCommand(index: nat, binding: BufferBinding): (c: Command)
    ensures c.SetTransformFeedbackBuffer? && c.binding == index && c.size == BindingSize(binding)
    ensures c.buffer == BindingHandle(binding) && c.offset == BindingOffset(binding)
  {
    SetTransformFeedbackBuffer(index, BindingHandle(binding), BindingOffset(binding), BindingSize(binding))
  }

  function TransformFeedbackViewCommand(index: nat, view: ViewCopy): (c: Command)
    ensures c.SetTransformFeedbackBufferDynamic? && c.binding == index && c.view == view && c.size == view.size
  {
    SetTransformFeedbackBufferDynamic(index, view, view.size)
  }

  /** As written, a view of any size binds a transform-feedback range of zero bytes. */
  lemma AsWrittenTransformFeedbackCapturesNothing(forest: DelegateForest, index: nat, view: ViewCopy)
    requires ViewResolves(view, forest) && view.size > 0
    ensures var calls := Recorded(TransformFeedbackViewCommandAsWritten(index, view), forest);
            |calls| == 1 && calls[0].BindTransformFeedbackBuffer? && calls[0].size == 0 != view.size
  {
  }

  /** With the size carried over, the recorded transform-feedback range is the whole view. */
  lemma TransformFeedbackRecordsViewRange(forest: DelegateForest, index: nat, view: ViewCopy)
    requires ViewResolves(view, forest)
    ensures Recorded(TransformFeedbackViewCommand(index, view), forest)
            == [BindTransformFeedbackBuffer(index, forest.GetBuffer(view.delegate.value).id,
                                            view.offset + forest.GetOffset(view.delegate.value), view.size)]
  {
  }
}

=== FILE: vk_types.dfy ===
/** The few Vulkan value types that the Maxwell 3D interconnect produces. */
module VkTypes {
  /** A rectangle with a signed 32-bit offset and an unsigned 32-bit extent. */
  datatype Rect2D = Rect2D(x: int, y: int, width: nat, height: nat)

  datatype IndexType = IndexUint8 | IndexUint16 | IndexUint32

  datatype StencilFaces = FaceFront | FaceBack | FaceFrontAndBack

  const I32Max: nat := 0x7FFF_FFFF

  /** A conversion to a 32-bit unsigned integer, wrapping modulo 2^32. */
  function U32(x: int): (r: nat)
    ensures r < 0x1_0000_0000
    ensures 0 <= x < 0x1_0000_0000 ==> r == x
    ensures -0x1_0000_0000 <= x < 0 ==> r == x + 0x1_0000_0000
  {
    x % 0x1_0000_0000
  }
}

=== FILE: wrappers.dfy ===
/** Small value wrappers shared by every module of the model. */
module Wrappers {
  datatype Option<T> = None | Some(value: T)

  /** The outcome of an operation that the emulator aborts with an exception on bad input. */
  datatype Result<T> = Success(value: T) | Failure(error: string)

  /** The outcome of an operation that returns nothing but may abort with an exception. */
  datatype Outcome = Pass | Fail(error: string)
}
